=== FILE: README.md ===
# SGMS backend core, modelled in Dafny

This project models the decision logic of the SGMS REST backend, a Node.js
service for user accounts with one-time-password (OTP) registration and
password reset. The HTTP, ORM, SMTP and crypto plumbing is left out. What
remains is written as pure functions over immutable data. The current time
`now` (milliseconds), the stores, random values, hashing and token
verification are explicit parameters.

The modules follow the source files:

- `OtpModel`, `OtpService`: the OTP record and its store queries, and the
  lifecycle over a store. This covers create with a three-code cap, verify
  with single use and an attempt cap, resend with a one-minute interval,
  status, masking and code generation.
- `UserModel`, `UserService`, `RepoUserService`: the user document, its JSON
  view and virtuals, and the login lockout (five failures lock the account
  for two hours). It also covers the two login flows (Mongoose with lockout
  and status checks, repository without) and the register, profile, role,
  delete and listing operations.
- `Auth`, `Jwt`: bearer-header parsing, `authenticate`, `authorize` and
  `optionalAuth`, token payload normalisation, sign and verify options, and
  the expiry test.
- `Errors`, `ErrorHandler`, `Response`, `Pagination`: the `AppError`
  taxonomy and factory table, classification of Mongo and JWT errors,
  production redaction, response envelopes and pagination metadata.
- `Patterns`, `Schema`, `AuthValidation`, `UserValidation`,
  `ProfileValidation`, `ValidationMiddleware`: the regular expressions as
  predicates, a small model of the Joi keys the schemas use, each schema,
  and the middleware that formats violations and writes validated values
  back.
- `Password`, `Helpers`, `Text`, `Base`: password strength scoring and
  guards, the string and number helpers, and shared text and sequence
  utilities.
- `ConsoleCheck`: the `scripts/check-console.js` file filter, the
  line-level scan for disallowed `console` calls, and the fix that deletes
  or comments them out.

Some source functions share a body, and one member models all of them:

- `OtpService.CreateOtp`, `VerifyOtp` and `ResendOtp` take the OTP type, so
  they cover both the registration functions and the password-reset
  functions of `src/utils/otp.js`.
- `OtpModel.CleanupExpiredOtps` is also what `cleanupAllExpiredOTPs`
  (`src/utils/otp.js:242-255`) runs.
- `getProfile` has the same body as `getUserById`, and `deleteAccount` the
  same body as `deleteUser`, in both user services. `GetUserById` and
  `DeleteUser` model each pair.

## Model

| member | source | states |
|---|---|---|
| OtpModel.Persist | src/models/otp.model.js:38-45 | a save keeps the five declared registration fields; the reset flow's `{userId, email}` are not declared paths and are dropped, so its staged data comes back empty |
| OtpModel.IncrementAttempts | src/models/otp.model.js:65-68 | attempts go up by exactly one and no other field changes |
| OtpModel.MarkAsUsed | src/models/otp.model.js:70-73 | the record becomes used and no other field changes |
| OtpModel.MarkAsUsedIdempotent | src/models/otp.model.js:70-73 | marking twice is marking once; code, attempts and expiry are kept |
| OtpModel.FindValidOtp | src/models/otp.model.js:76-84 | the query address goes through the schema setters (trim, then lowercase); a found record has that normal address, the code and type, is unused and has `expiresAt > now`; nothing is found exactly when no record qualifies |
| OtpModel.OtpEmailCanonical | src/models/otp.model.js:6-12 | the OTP schema's trim-then-lowercase gives the user schema's normal form, is idempotent, and ignores letter case |
| OtpModel.FindValidOtpSameAddress | src/models/otp.model.js:76-84 | two spellings of one address find the same record |
| OtpModel.FindValidOtpIgnoresCase | src/models/otp.model.js:76-84 | an address typed in capitals, or already normalised, finds the same record as the address itself |
| OtpModel.ExpiryBoundary | src/models/otp.model.js:57-84 | a found record is not expired, and a record whose expiry instant is `now` is neither expired nor found |
| OtpModel.CleanupExpiredOtps | src/models/otp.model.js:86-93 | every survivor is unused with `expiresAt >= now`, and every record that is neither used nor past its expiry survives |
| OtpModel.InsertNewestFirst | src/models/otp.model.js:101 | inserting into a newest-first list keeps it newest-first and a permutation of the list plus the new record |
| OtpModel.SortNewestFirst | src/models/otp.model.js:101 | the result is ordered by `createdAt` descending and is a permutation of the input |
| OtpModel.GetActiveOtpsForEmail | src/models/otp.model.js:95-102 | exactly the unused, unexpired records of the normalised address and purpose, newest first; their number is the active count |
| OtpModel.ActiveCountIgnoresCase | src/models/otp.model.js:95-102 | two spellings of one address have the same number of active codes |
| OtpModel.HeadIsNewestActive | src/models/otp.model.js:95-102 | the head of the active list is at least as new as every active record |
| OtpModel.NewestIndex | src/utils/otp.js:153-157 | the `findOne` with newest-first sort: a record satisfying the filter with the greatest `createdAt`, or none exactly when no record satisfies it |
| OtpModel.ExpiryOnSave | src/models/otp.model.js:34-37 | the `required` validator runs before the pre-save hook, so a record without an expiry is refused with "Path `expiresAt` is required." and the hook's default is never reached; a given expiry is kept |
| OtpService.GenerateSecureOtpCode | src/utils/otp.js:19-23 | for every 24-bit value the code is six digits without a leading zero, whose value is `v % 900000 + 100000` |
| OtpService.GenerateOtpCode | src/utils/otp.js:12-14 | for every random value in [0, 1) the code is six digits without a leading zero |
| OtpService.MaskOtp | src/utils/otp.js:298-301 | six characters, the last four are stars, and at most the first two of a six-character code are shown |
| OtpService.CleanupFor | src/utils/otp.js:215-237 | the address is normalised (trimmed, lower-cased) first; only its used or expired records of this purpose go; the active count and all other records are kept |
| OtpService.CreateOtp | src/utils/otp.js:28-79 | refused as too many requests exactly when the normalised address already has three active codes, and then nothing is stored; an address blank once trimmed is then refused by the save's `required` validator with "Path `email` is required.", leaving only the purge; otherwise the purged store gains one unused record under the normalised address with no attempts expiring in ten minutes, and the call succeeds exactly when the address is not blank and the e-mail is delivered |
| OtpService.StoreFresh | src/utils/otp.js:42-74 | a blank address fails the save and nothing is appended or sent; otherwise the fresh record is appended after the purge and kept even when delivery fails; success returns the expiry instant |
| OtpService.BlankEmailNeverStored | src/models/otp.model.js:6-10 | an address of white space only, the empty one included, never gets a record: the create fails and leaves the purged store |
| OtpService.AppendActive | src/utils/otp.js:46-60 | appending the new record adds exactly one active record and leaves other addresses' records alone |
| OtpService.CreateKeepsActiveCap | src/utils/otp.js:31-60 | whatever create returns, an address never has more than three active codes per purpose afterwards |
| OtpService.CapIgnoresCase | src/utils/otp.js:31-41 | the three-code cap counts the normalised address: an address in capitals is refused exactly when the address itself is |
| OtpService.VerifyOtp | src/utils/otp.js:84-145 | records are matched on the normalised address; at most one record changes; success returns a valid record's staged data; a failure changes at most the attempts of one record; a code no record carries changes nothing |
| OtpService.CorrectCodeVerifies | src/utils/otp.js:84-145 | when one record carries the code and it is valid and under the attempt cap, verify succeeds with its staged data, marking it used for registration only |
| OtpService.CreatedCodeVerifies | src/utils/otp.js:28-145 | a code just created and delivered for a non-blank address verifies before its expiry, whatever case and padding the address is typed in |
| OtpService.VerifyValid | src/utils/otp.js:119-140 | a found record is accepted exactly when it is not expired and under the attempt cap; a registration record is then marked used, a reset record is left as it is |
| OtpService.VerifyMismatch | src/utils/otp.js:93-117 | without a valid record the call fails, and the first record with the code either stays as it is or has one more attempt, ending in an invalid-code error |
| OtpService.RegistrationCodeIsSingleUse | src/utils/otp.js:129-140 | after a successful registration verify the same code is refused as already used, at any later time |
| OtpService.ExhaustedCodeNeverVerifies | src/utils/otp.js:108-127 | a code whose records have reached five attempts is never accepted and changes nothing |
| OtpService.ExpiredCodeNeverVerifies | src/utils/otp.js:93-122 | a code whose records have all reached their expiry instant is never accepted |
| OtpService.VerifyFailureOrder | src/utils/otp.js:93-117 | the fallback checks run in order: already used, expired, max attempts, and only then one more attempt with an invalid-code error |
| OtpService.RightCodeAtExpiryInstant | src/utils/otp.js:93-117 | at the expiry instant itself the right code is refused as invalid and costs an attempt |
| OtpService.MarkOtpAsUsed | src/utils/otp.js:487-502 | never fails; at most one unused record of the normalised address carrying the code becomes used; the store is unchanged exactly when there is none |
| OtpService.ResetCodeUsableUntilMarked | src/utils/otp.js:359-417 | a reset verify leaves the store as it was, and after `markOTPAsUsed` the code is refused as already used |
| OtpService.MarkOnlyMatch | src/utils/otp.js:487-502 | with a single record carrying the code, only that record is marked used |
| OtpService.UsedCodeRefused | src/utils/otp.js:101-104 | once the only record carrying the code is used, verify fails as already used |
| OtpService.WaitSecondsBounds | src/utils/otp.js:168-176 | within the interval the wait is 1 to 60 seconds, and it is the least whole number of seconds that reaches the interval |
| OtpService.ResendOtp | src/utils/otp.js:150-210 | fails only as not found, expired, too frequent or undelivered; not found exactly when the normalised address has no unused record; otherwise the newest unused record decides: expired exactly when past its expiry, too frequent (with the wait message) exactly when unexpired and under a minute old, success exactly when neither and the code was delivered, and a delivered or undelivered resend refreshes that record in place with a new code, new expiry and reset counters, keeping its creation time |
| OtpService.NewestUnusedIndex | src/utils/otp.js:153-157 | the record `findOne(..).sort({createdAt: -1})` returns: the newest record for the address and type that is unused, and none exactly when no record is |
| OtpService.ResendRecord | src/utils/otp.js:163-194 | expired exactly when past the expiry; too frequent exactly when unexpired and created under a minute ago; success exactly when neither and the code was delivered; otherwise only that record is refreshed |
| OtpService.ResendIntervalNotRenewed | src/utils/otp.js:168-187 | because the interval is measured from creation, which resend keeps, a second resend after a successful one is never refused as too frequent |
| OtpService.RefreshKeepsNewest | src/utils/otp.js:179-187 | a refreshed record stays the newest unused one with its creation time unchanged |
| OtpService.IntervalElapsed | src/utils/otp.js:168-176 | once the newest unused record is a minute old, resend is not refused as too frequent |
| OtpService.GetOtpStatus | src/utils/otp.js:260-286 | the address is normalised first; no active code gives `hasActiveOTP = false, canResend = true`; otherwise the newest active record's expiry and attempts, the remaining wait, and `canResend` exactly when that wait is zero |
| OtpService.StatusOfNewest | src/utils/otp.js:271-281 | the status read off a newest active record is the one promised |
| OtpService.NewestActiveExists | src/utils/otp.js:264-271 | the head of a non-empty active list is a stored record that is the newest active one |
| OtpService.ActiveStatus | src/utils/otp.js:271-281 | the wait is `max(0, 60000 - elapsed)` and `canResend` holds exactly when it is zero |
| OtpService.StatusAgreesWithResend | src/utils/otp.js:150-286 | while no unused code has expired, `canResend` from the status agrees with whether a resend would be refused as too frequent |
| OtpService.ResendRefusedIff | src/utils/otp.js:163-176 | while no unused code has expired, resend is refused as too frequent exactly when the newest unused record is under a minute old |
| UserModel.ParseRole | src/models/user.model.js:23-30 | a name is accepted exactly when it is one of USER, ADMIN, MODERATOR, and the accepted role has that name |
| UserModel.RoleNamesRoundTrip | src/models/user.model.js:23-30 | every role's name parses back to it, and distinct roles have distinct names |
| UserModel.NewUser | src/models/user.model.js:4-96 | a new document stores the lowercased, trimmed email and the trimmed names and phone; it gets role USER unless given, is active, unverified, has no failed attempts and no lock |
| UserModel.TrimProfile | src/models/user.model.js:32-46 | first name, last name and phone are trimmed; the avatar is kept |
| UserModel.EmailErrors | src/models/user.model.js:6-16 | at most one failure; none exactly when the address is non-empty and matches the email pattern |
| UserModel.PasswordErrors | src/models/user.model.js:17-22 | at most one failure; none exactly when the password has at least eight characters, or is absent from an update |
| UserModel.RoleErrors | src/models/user.model.js:23-30 | no failure exactly when the role is absent or one of the enum values |
| UserModel.ProfileErrors | src/models/user.model.js:32-46 | no failure exactly when the names are at most 50 characters and the phone is empty or matches the phone pattern |
| UserModel.NewUserErrors | src/models/user.model.js:6-46 | the save validators pass exactly when email, password, role and profile each pass |
| UserModel.StoredEmailIsNormal | src/models/user.model.js:6-11 | normalising a stored address again changes nothing, and an address in capitals normalises like the address itself |
| UserModel.EmailPatternExamples | src/models/user.model.js:12-15 | `test@example.com` matches the pattern, while `foo`, `@example.com` and `a@b.c` do not |
| UserModel.FullName | src/models/user.model.js:117-122 | "first last" when both parts are present, the present part when only one is, and null when neither is |
| UserModel.IncLoginAttempts | src/models/user.model.js:179-203 | an expired lock restarts the count at one and clears the lock; otherwise the count goes up by one, the fifth failure of an unlocked account locks it for two hours, and an existing lock is never moved |
| UserModel.ResetLoginAttempts | src/models/user.model.js:206-213 | the counter and the lock are both cleared, so the account is unlocked at every instant, and nothing else changes |
| UserModel.FailuresBelowCap | src/models/user.model.js:195-202 | below the cap an unlocked account only counts its failures |
| UserModel.FiveFailuresLock | src/models/user.model.js:179-203 | five failures in a row lock a fresh account until two hours after the fifth |
| UserModel.FailSplit | src/models/user.model.js:179-203 | failures applied in two batches give the same account as applied at once |
| UserModel.LockNeverExtended | src/models/user.model.js:195-202 | while a lock lasts, further failures never move it |
| UserModel.HashOnSave | src/models/user.model.js:132-141 | the password is hashed on save exactly when it was modified; an unmodified document is saved as it is |
| UserModel.LockResetOnSave | src/models/user.model.js:143-161 | the hook changes only the lock: it clears an expired lock exactly when the counter was modified on an existing document whose lock was not; the count is left as the update set it, and whether the account is locked at `now` is unchanged |
| UserModel.Without | src/models/user.model.js:101-109 | the given keys are gone and every other key keeps its value |
| UserModel.Lean | src/models/user.model.js:17-88 | a plain query returns every stored field except those declared `select: false`: no password and no tokens |
| UserModel.ToJson | src/models/user.model.js:97-126 | the JSON form has no password, tokens, token expiries or version key, keeps every other stored field, and adds `id`, `fullName` and `isLocked` |
| UserModel.WithVirtuals | src/models/user.model.js:99-100 | the three virtuals are set and every other field is kept |
| UserModel.VirtualsNotSensitive | src/models/user.model.js:101-126 | no virtual is among the deleted paths, so the transform never removes one |
| UserModel.DocumentPaths | src/models/user.model.js:4-96 | a stored document only holds paths the schema declares |
| UserModel.DocumentKeys | src/models/user.model.js:4-96 | no stored key is named like a virtual |
| UserModel.VirtualsNotStored | src/models/user.model.js:117-126 | the virtual names are not schema paths |
| UserModel.NotStored | src/models/user.model.js:4-96 | a name that is no schema path is never a key of a document |
| UserService.FindByEmail | src/services/user.service.js:32 | the first user whose stored address equals the lowercased, trimmed query, or none exactly when no user has it |
| UserService.FindByEmailSameAddress | src/services/user.service.js:32 | two spellings of one address find the same user |
| UserService.FindByEmailIgnoresCase | src/services/user.service.js:32 | an address typed in capitals finds the same user |
| UserService.FindById | src/services/user.service.js:137 | the first user with the id, or none exactly when no user has it |
| UserService.Register | src/services/user.service.js:27-62 | a taken address, in any case or padding, is a 409 "Email already exists"; otherwise a document failing the save validators is a Mongoose `ValidationError` "User validation failed"; both store nothing; success exactly when the address is free and valid, the password has eight characters, the role is in the enum and the trimmed profile meets the schema, and then the user is appended with its normal address and hashed password, and its JSON form and a token for its id are returned |
| UserService.RegisterHidesPassword | src/services/user.service.js:45-55 | the returned user never has a password field |
| UserService.RegisterAppends | src/services/user.service.js:38-47 | a successful registration keeps the old users and appends one active, unlocked user under the normal address, which no old user had, with the hashed password |
| UserService.RegisterKeepsEmailsUnique | src/models/user.model.js:6-11 | registration keeps every stored address normal and no two users sharing one |
| UserService.AppendKeepsEmailsUnique | src/models/user.model.js:6-11 | appending a normal address no user has keeps the addresses normal and unique |
| UserService.LoginView | src/services/user.service.js:108-118 | the login view has exactly the nine listed fields and no password |
| UserService.Login | src/services/user.service.js:69-129 | checks run in order: unknown email 401, locked 403, inactive 403, wrong password counts a failure then 401; success clears the counter and lock, records the login time and returns the view and a token |
| UserService.LoginSameAddress | src/services/user.service.js:69-75 | two spellings of one address give the same login outcome |
| UserService.LoginIgnoresCase | src/tests/user.login.test.js:331-344 | an address typed in capitals logs in exactly as the address itself |
| UserService.NewcomerFound | src/services/user.service.js:32 | a user appended under an address no other user has is the one that address finds |
| UserService.LoginSucceeds | src/services/user.service.js:69-129 | an active, unlocked user found by the address whose password matches logs in |
| UserService.RegisteredUserCanLogIn | src/services/user.service.js:27-129 | after a successful registration the user logs in with the chosen password, whatever case the address is typed in |
| UserService.UnknownEmailLooksLikeWrongPassword | src/services/user.service.js:73-95 | an unknown email and a wrong password give the identical 401 error |
| UserService.LockedRefusesEveryPassword | src/services/user.service.js:79-82 | a locked account is refused whatever the password, and the refusal changes nothing |
| UserService.FifthFailureLocksLogin | src/services/user.service.js:89-95 | after the fifth wrong password even the right one is refused with 403 for two hours |
| UserService.SameEmailsAfterUpdate | src/services/user.service.js:74 | replacing a user by one with the same stored address leaves every address lookup where it was |
| UserService.GetUserById | src/services/user.service.js:272-279 | 404 exactly when no user has the id; otherwise that user's JSON form, without the password |
| UserService.UpdateProfile | src/services/user.service.js:151-186 | 404 for a missing user; 409 exactly when a non-empty email differs as typed from the stored one and the store finds it, so one's own address in capitals conflicts; otherwise a value the update validators refuse is a `ValidationError` "Validation failed"; success exactly when neither applies, and then every present path is written as given after its setters, the password unhashed; a failure changes nothing |
| UserService.UpdateErrors | src/services/user.service.js:167-174 | the update validators check only the paths present, each after its setters, and report nothing exactly when each present path meets the schema |
| UserService.ApplyUpdate | src/services/user.service.js:167-174 | each present path takes its new value (email normalised, profile trimmed and replaced whole, password unhashed), absent paths keep theirs, `updatedAt` becomes `now`, and nothing else changes |
| UserService.UpdateStoresPasswordUnhashed | src/services/user.service.js:167-174 | a password changed through a profile update is stored as given |
| UserService.OwnAddressInCapitalsConflicts | src/services/user.service.js:159-164 | re-typing one's own stored address in capitals is refused as taken, and nothing changes |
| UserService.UpdateKeepsEmailsUnique | src/services/user.service.js:151-186 | an update keeps every stored address normal and unique, and after a successful email change the new address finds the updated user |
| UserService.UpdatedEmailFree | src/services/user.service.js:159-174 | an update past the conflict test and the validators leaves the user a normal address no other user holds |
| UserService.ReplaceKeepsEmailsUnique | src/services/user.service.js:159-174 | replacing a user by one whose normal address no other user has keeps the addresses normal and unique |
| UserService.ReplacedFound | src/services/user.service.js:159-174 | after such a replacement the address finds the replaced position |
| UserService.UpdateUserRole | src/services/user.service.js:287-304 | 404 before anything else; a role outside the enum fails the update validators; success exactly when the user exists and the role is in the enum, and then only the role and update time change |
| UserService.DeleteUser | src/services/user.service.js:311-324 | 404 and nothing deleted for a missing user; otherwise exactly that document is removed and its JSON form returned |
| UserService.DeletedUserIsGone | src/services/user.service.js:311-324 | with unique ids, a deleted user can no longer be found |
| UserService.Matching | src/services/user.service.js:224-238 | exactly the active users matching the search and the role, in store order |
| UserService.LeanAll | src/services/user.service.js:246-250 | each listed user is given as its lean document |
| UserService.LeanBatch | src/services/user.service.js:241-251 | the lean documents of the matching users from position `skip` on, at most the absolute value of `limit` of them, in order |
| UserService.GetAllUsers | src/services/user.service.js:213-265 | refused with the server's code-2 error exactly when `skip = (page-1)*limit` is negative; otherwise the matching users from position `skip`, at most the absolute value of `limit` of them, as lean documents without passwords, with the pagination of the full count; page and limit default to 1 and 10 |
| UserService.NegativeSkipError | src/services/user.service.js:241-251 | the server refuses a negative skip with code 2 and an inherited name, neither operational nor carrying a status code |
| UserService.PositivePagesPaginate | src/services/user.service.js:241-262 | for page and limit from 1 on, the listing is the shared pagination of the matching users |
| UserService.NegativeLimitFirstPage | src/services/user.service.js:241-262 | a negative limit on page 1 lists the same users as the positive limit but reports no next page |
| UserService.EveryListedUserHasAPage | src/services/user.service.js:241-262 | for a positive limit every matching user appears, as its lean document, on the page its position gives, and that page is within the reported page count |
| UserService.ListedAt | src/services/user.service.js:241-262 | for page and limit from 1 on, position `j` of the listing is the lean document of the page's `j`-th matching user, under the page's pagination block |
| UserService.ListUsers | src/controllers/user.controller.js:36-55 | page and limit are read with `parseInt` with a fallback for a falsy result, so never zero; the call is refused exactly when the resulting skip is negative, and otherwise reports the page and limit read |
| UserService.NegativeQueryExamples | src/controllers/user.controller.js:38-39 | `?page=-1` is refused, while `?limit=-1` without a page lists |
| RepoUserService.PublicView | src/modules/user/user.repository.js:14-24 | a row is shown as exactly id, email, role, createdAt and updatedAt |
| RepoUserService.FindByEmail | src/modules/user/user.repository.js:32-44 | a row with the email, or none exactly when no row has it |
| RepoUserService.FindById | src/modules/user/user.repository.js:14-24 | a row with the id, or none exactly when no row has it |
| RepoUserService.Register | src/modules/user/user.service.js:27-52 | a taken email is a 409 and nothing is created; otherwise one row with the hashed password and role USER unless given is added, and its public view is returned without a password |
| RepoUserService.Login | src/modules/user/user.service.js:59-86 | never writes; unknown email and wrong password give the same 401; success returns the stored user minus its password and a token for its id |
| RepoUserService.NoLockout | src/modules/user/user.service.js:59-86 | however many logins failed before, the right password succeeds |
| RepoUserService.GetUserById | src/modules/user/user.service.js:179-186 | 404 exactly when no row has the id; otherwise its public view |
| RepoUserService.ApplyUpdate | src/modules/user/user.repository.js:78-95 | a non-empty password is hashed, an empty one is written as it is, absent fields are kept, and the id and creation time never change |
| RepoUserService.UpdateProfile | src/modules/user/user.service.js:108-129 | 404 for a missing row; 409 exactly when a given email differs from the row's and is taken; an empty email is tested by neither the conflict check nor the service, so it reaches the unique index, which refuses it exactly when another row holds the empty address; otherwise the row is replaced by the applied update and its public view returned; failures change nothing |
| RepoUserService.UpdateUserRole | src/modules/user/user.service.js:194-207 | 404 before any write; otherwise only the role changes |
| RepoUserService.DeleteUser | src/modules/user/user.service.js:214-227 | 404 before deleting; otherwise exactly that row goes and its public view is returned |
| RepoUserService.SelectedRows | src/modules/user/user.repository.js:130-145 | exactly the rows whose email contains the search, ignoring case, and whose role matches, in store order |
| RepoUserService.Views | src/modules/user/user.repository.js:154-160 | each row is given as its public view |
| RepoUserService.GetAllUsers | src/modules/user/user.service.js:156-172 | the page of selected rows and the pagination block of their count, without passwords |
| RepoUserService.GetAllUsersDefaults | src/modules/user/user.service.js:159 | omitted page and limit read as page 1 of 10, which has no previous page |
| Auth.SecondField | src/middlewares/auth.middleware.js:18 | the token read after the `Bearer ` prefix is the second space-separated field and holds no space |
| Auth.SplitAfterPrefix | src/middlewares/auth.middleware.js:14-18 | a header with the prefix splits into at least two fields, the first being `Bearer` |
| Auth.Lookup | src/middlewares/auth.middleware.js:28-32 | a user is found exactly when the claims carry a string `id` that some stored row has, and it is the first such row; a string `id` no row has is 401 "User not found" |
| Auth.Authenticate | src/middlewares/auth.middleware.js:10-37 | a missing or non-Bearer header, or an empty token, is 401 "Access token is required"; a verifier error is passed on; success holds exactly when the token is non-empty, verifies and names a stored user, and the attached user is that user's public view, without password; a lookup failure is passed on |
| Auth.KnownUserAuthenticates | src/middlewares/auth.middleware.js:18-36 | a verified token whose `id` is a stored user's attaches that user's public view, in `authenticate` and in `optionalAuth` alike |
| Auth.UnknownUserIsUnauthorized | src/middlewares/auth.middleware.js:28-32 | a verified token whose id resolves to no user is 401 "User not found" |
| Auth.AuthenticateReadsExtractedToken | src/middlewares/auth.middleware.js:14-22 | on `Bearer <t>` the middleware and `extractTokenFromHeader` read the same token; with a third field only the middleware still reads one |
| Auth.Authorize | src/middlewares/auth.middleware.js:43-55 | no attached user is 401 "Authentication required"; otherwise it passes exactly when the user's role is listed, and fails 403 "Insufficient permissions" otherwise |
| Auth.AuthorizeByRoleList | src/middlewares/auth.middleware.js:49-53 | an empty role list rejects everyone, and adding roles never turns a pass into a refusal |
| Auth.OptionalAuth | src/middlewares/auth.middleware.js:61-80 | never fails; a user is attached exactly when the header has the prefix, the token verifies and the user exists |
| Auth.OptionalAuthAgrees | src/middlewares/auth.middleware.js:10-80 | whenever `authenticate` attaches a user, `optionalAuth` attaches the same one |
| Jwt.EnvOr | src/utils/jwt.js:7-9 | an unset or empty variable falls back to the default, a set one is used |
| Jwt.SignOptionsFor | src/utils/jwt.js:5-12 | each option the caller gives replaces the default; the defaults are expiry '7d', issuer 'sgms-backend' and audience 'sgms-frontend' unless the environment sets them |
| Jwt.DefaultSignOptions | src/utils/jwt.js:6-10 | with nothing set and nothing passed, the options are '7d', 'sgms-backend' and 'sgms-frontend' |
| Jwt.TokenPayload | src/utils/jwt.js:14-23 | a string payload becomes `{id: payload}`, an object with `toString` becomes `{id: payload.toString()}`, an object without a `toString`, which is only an object without a prototype, is copied without its undefined fields; anything else becomes `{id: String(payload)}` |
| Jwt.PlainObjectPayload | src/utils/jwt.js:17-18 | an ordinary object literal inherits `toString`, so it is signed as `{id: "[object Object]"}` and its own fields are lost |
| Jwt.GenerateToken | src/utils/jwt.js:5-25 | the signed payload is the normalised one and the options are the merged ones |
| Jwt.GenerateTokenPair | src/utils/jwt.js:27-70 | both tokens sign the same payload; the refresh token uses the refresh expiry (default '30d'); the pair reports `tokenType` 'Bearer' and the access expiry |
| Jwt.VerifyOptionsFor | src/utils/jwt.js:38-43 | each option the caller gives replaces the environment's, and an unset or empty variable falls back to 'sgms-backend' and 'sgms-frontend' |
| Jwt.VerifyToken | src/utils/jwt.js:33-46 | a missing or empty token is 401 "Token is required" before any verification; otherwise the verifier runs with the merged issuer and audience |
| Jwt.SignAndVerifyAgree | src/utils/jwt.js:5-46 | in every environment, `verifyToken` without options asks the verifier for exactly the issuer and audience that `generateToken` and `generateRefreshToken` sign with, and hands it a token they produced with those options |
| Jwt.ExtractTokenFromHeader | src/utils/jwt.js:52-61 | no header gives no token, and a token found holds no space |
| Jwt.ExtractTokenFromHeaderExactly | src/utils/jwt.js:52-61 | a header yields token `t` exactly when it is `Bearer ` followed by `t` and `t` has no space |
| Jwt.IsTokenExpired | src/utils/jwt.js:72-81 | expired when decoding fails or there is no non-zero `exp`; otherwise exactly when `now >= exp * 1000` |
| Jwt.ExpiryIsPermanent | src/utils/jwt.js:72-81 | once expired, a token stays expired at every later instant |
| Jwt.ExpiryInstant | src/utils/jwt.js:77 | a token is expired from the first millisecond of its `exp` second, and not one millisecond before |
| Errors.NewAppError | src/common/error.js:5-16 | the status code defaults to 500 and `isOperational` to true; the message is kept |
| Errors.StatusOfThreeDigitCodes | src/common/error.js:11 | for every three-digit code, `status` is 'fail' exactly for 400 to 499 |
| Errors.StatusOfNegativeCodes | src/common/error.js:11 | a negative code's text starts with '-', so its status is 'error' |
| Errors.Create | src/common/error.js:75-96 | badRequest 400, unauthorized 401, forbidden 403, notFound 404, conflict 409, validation 422, internal 500; an omitted message is the factory's own entry; every result is operational |
| Errors.FactoryClassification | src/common/error.js:75-96 | every factory but `internal` gives a 'fail' error, and no two factories share a status code |
| Errors.Raise | src/common/error.js:5-16 | a thrown `AppError` carries its status, status text, message and operational flag as own properties, no driver code, and an inherited name |
| Errors.PlainError | src/models/user.model.js:132-141 | a plain `Error` keeps its message, is not operational and has no status code |
| Errors.TokenError | src/middlewares/error.middleware.js:40-50 | a token-library error carries its name as an own property, with its message |
| Errors.MongooseValidationError | src/models/user.model.js:4-96 | a Mongoose `ValidationError` has an inherited name, one message per failed path, no code, status or operational flag, and a message that starts with the summary |
| ErrorHandler.HandleMongoError | src/middlewares/error.middleware.js:10-33 | code 11000 is 409 "<first key> already exists" ('field' without a key); a cast error is 400 "Invalid ID format"; a validation error is 400 with its messages joined by ". "; anything else is 500 "Database operation failed"; all are operational |
| ErrorHandler.Spread | src/middlewares/error.middleware.js:124-125 | the spread copy keeps the name only when it is an own property, and keeps message, code, flag and details, with the status defaulted to 500 |
| ErrorHandler.Classify | src/middlewares/error.middleware.js:140-146 | the Mongo branch is taken exactly for a duplicate key or an own `ValidationError`/`CastError` name; the Joi branch only for Joi's inherited `ValidationError` |
| ErrorHandler.HandleJwtError | src/middlewares/error.middleware.js:40-50 | always 401, with 'Invalid token', 'Token expired' or 'Authentication failed' by the error's name |
| ErrorHandler.HandleJoiError | src/middlewares/error.middleware.js:57-64 | a 422 error whose collected details are dropped, because the constructor takes no fourth argument |
| ErrorHandler.EffectiveStatus | src/middlewares/error.middleware.js:121 | a missing or zero status code becomes 500, and the result is never zero |
| ErrorHandler.Normalize | src/middlewares/error.middleware.js:139-146 | after classification the error has a non-zero status; the copy is kept exactly when no branch applies, with its status and message; JWT errors become operational 401s; Joi errors operational 422 "Validation failed"; Mongo errors operational 409, 400 or 500 |
| ErrorHandler.DetailsValue | src/middlewares/error.middleware.js:96 | the details go out as an array with one entry per field error |
| ErrorHandler.SendErrorProd | src/middlewares/error.middleware.js:90-111 | an operational error keeps its status and message; anything else becomes 500 "Something went wrong!" with no error details |
| ErrorHandler.SendErrorDev | src/middlewares/error.middleware.js:71-83 | status and message always pass through; a fresh `AppError` sends its stack and itself, while the copy has no stack and sends its own fields; details appear exactly when present |
| ErrorHandler.GlobalErrorHandler | src/middlewares/error.middleware.js:120-154 | the body is an error envelope whose status is the HTTP status; a duplicate key answers 409, JWT errors 401 and Joi errors 422; an error no branch takes answers, in production, 500 "Something went wrong!" unless operational, when it keeps its status (500 if missing) and message, and in development its status and message without a stack |
| ErrorHandler.AppErrorsPassThrough | src/middlewares/error.middleware.js:120-154 | a thrown operational `AppError` keeps its status and message in both environments |
| ErrorHandler.DuplicateKeyIsConflict | src/middlewares/error.middleware.js:15-19 | a duplicate-key error answers 409 in both environments |
| ErrorHandler.JoiErrorAnswers422 | src/middlewares/error.middleware.js:144-146 | Joi's validation error, whose name is inherited, misses the first test and answers 422 in both environments |
| ErrorHandler.MongooseErrorsFallThrough | src/middlewares/error.middleware.js:124-146 | a Mongoose validation or cast error loses its inherited name in the copy, takes no branch and answers 500: "Something went wrong!" in production, its own message in development |
| ErrorHandler.SchemaRefusalsAnswer500 | src/middlewares/error.middleware.js:120-154 | the Mongoose validation error a save or an update raises answers 500, with "Something went wrong!" in production |
| ErrorHandler.OwnNamedValidationError | src/middlewares/error.middleware.js:140-141 | a validation error whose name is its own takes the Mongo branch: 400 with its path messages joined |
| ErrorHandler.TokenErrorsAnswer401 | src/middlewares/error.middleware.js:142-143 | the token library's errors answer 401 "Invalid token" or "Token expired" |
| Response.SuccessResponse | src/common/response.js:13-21 | `success` is true; data defaults to null, message to 'Success', status to 200 |
| Response.ErrorResponse | src/common/response.js:30-38 | `success` is false; message defaults to 'Internal Server Error', status to 500, errors to null |
| Response.PaginatedResponse | src/common/response.js:49-69 | page, limit and total are echoed, the status is 200; for a positive limit there is a next page exactly when `page * limit < total`, for a negative limit from page 1 never; a previous one exactly when `page > 1`; the pagination block is the shared `getPaginationMeta` one, so `totalPages` is `Math.ceil(total / limit)` and there is a next page exactly when `page < totalPages` |
| Pagination.CeilDiv | src/utils/helpers.js:164 | `Math.ceil(a / b)`: for a positive divisor the least `q` with `a <= q * b`, for a negative one the least `q` with `q * b <= a` |
| Pagination.GetPaginationMeta | src/utils/helpers.js:163-176 | page, limit and total are echoed; `totalPages` is the ceiling of `total / limit` for either sign of the limit, and not positive for a negative limit; `hasNext` exactly when `page < totalPages`; `hasPrev` exactly when `page > 1` |
| Pagination.HasNextMeansMoreItems | src/utils/helpers.js:163-176 | there is a next page exactly when pages 1 to `page` do not hold all the items |
| Pagination.DigitValue | src/utils/helpers.js:149 | a digit's value is below the radix; a non-digit gives -1 |
| Pagination.DigitPrefix | src/utils/helpers.js:149 | the longest run of leading digits: all digits before it, a non-digit right after it |
| Pagination.DigitsValueOfText | src/utils/helpers.js:149 | reading the decimal text of `n` gives `n` back |
| Pagination.ParseIntOfText | src/utils/helpers.js:149 | `parseInt` reads back what `String(n)` writes |
| Pagination.ParseIntOfDigits | src/utils/helpers.js:149 | a run of decimal digits parses to the number it denotes |
| Pagination.UnsignedOfDigits | src/controllers/user.controller.js:38-39 | text starting with a digit parses to its leading digits' value |
| Pagination.NegatedDigits | src/controllers/user.controller.js:38-39 | a minus sign before such text negates the value |
| Pagination.IntOr | src/controllers/user.controller.js:38-39 | `parseInt(x)` falling back to `d`: the default for a missing, non-numeric or zero value, otherwise the parsed number, and never zero for a non-zero default |
| Pagination.MinusOneText | src/controllers/user.controller.js:38-39 | the text "-1" reads as -1 whatever the default |
| Pagination.Offset | src/utils/helpers.js:151 | the number of items before a page, `(page - 1) * limit` |
| Pagination.Paginate | src/services/user.service.js:241-262 | the page holds the items from the offset on, at most `limit` of them, with the pagination block of the full count |
| Pagination.SkipLimit | src/services/user.service.js:245-251 | `skip` then `limit`: the items from position `skip` on, at most the absolute value of `limit` of them, in order |
| Pagination.ItemOnItsPage | src/services/user.service.js:241-262 | item `n` is at position `n % limit` of page `n / limit + 1`, which is within the page count |
| Pagination.ParsePagination | src/utils/helpers.js:148-154 | the page is at least 1, the limit is between 1 and 100, and the offset is `(page - 1) * limit` |
| Pagination.PageNumber | src/utils/helpers.js:149 | the page is at least 1 |
| Pagination.PageLimit | src/utils/helpers.js:150 | the limit is between 1 and 100 |
| Pagination.ParsePaginationDefaults | src/utils/helpers.js:148-154 | a missing, non-numeric or zero value gives page 1 and limit 10, and a number in range is taken as given |
| Pagination.PageNumberDefaults | src/utils/helpers.js:149 | a missing, non-numeric or zero page gives 1; a positive number is taken as given |
| Pagination.PageLimitDefaults | src/utils/helpers.js:150 | a missing, non-numeric or zero limit gives 10; a number from 1 to 100 is taken as given |
| Helpers.RemoveAngles | src/utils/helpers.js:43 | no '<' or '>' is left, every other character stays, and text without them is unchanged |
| Helpers.SanitizeString | src/utils/helpers.js:41-44 | a string loses exactly its angle brackets; any other value is returned unchanged |
| Helpers.SanitizeIdempotent | src/utils/helpers.js:41-44 | sanitising twice is sanitising once |
| Helpers.IsEmpty | src/utils/helpers.js:51-55 | empty exactly for null, undefined, '', an empty array and an object without keys |
| Helpers.EmptyIsNotFalsy | src/utils/helpers.js:51-55 | zero and false are not empty, while an empty array is empty but truthy |
| Helpers.KeepSlugSource | src/utils/helpers.js:108 | only word characters, white space and '-' are kept |
| Helpers.CollapseSeparators | src/utils/helpers.js:109 | separators only survive as single '-' characters, never two in a row |
| Helpers.DropLeadingDashes | src/utils/helpers.js:110 | a suffix of the text that does not start with '-' |
| Helpers.DropTrailingDashes | src/utils/helpers.js:110 | a prefix of the text that does not end with '-' |
| Helpers.ToSlug | src/utils/helpers.js:104-111 | the slug holds only a-z, 0-9 and '-', neither starts nor ends with '-', and has no "--" |
| Helpers.SlugFixpoint | src/utils/helpers.js:104-111 | a text that already has the slug shape is its own slug |
| Helpers.ToSlugIdempotent | src/utils/helpers.js:104-111 | slugging twice is slugging once |
| Helpers.TrimLowerOfSlug | src/utils/helpers.js:106-107 | lower-casing and trimming leave a slug-shaped text unchanged |
| Helpers.KeepSlugSourceOfSlug | src/utils/helpers.js:108 | the filter keeps every character of a text made of slug characters |
| Helpers.CollapseOfSlug | src/utils/helpers.js:109 | collapsing leaves a text without "--" unchanged |
| Helpers.SlugShape | src/utils/helpers.js:104-111 | the shape of the slug holds for every input, through each step of the chain |
| Helpers.DropDashesKeepsSlice | src/utils/helpers.js:110 | stripping the dashes at both ends keeps slug characters and creates no "--" |
| Helpers.LowerThenTrim | src/utils/helpers.js:106-107 | after lower-casing and trimming no upper-case letter is left |
| Helpers.CollapsedChars | src/utils/helpers.js:108-109 | after filtering and collapsing, text without upper-case letters holds only slug characters |
| Helpers.Capitalize | src/utils/helpers.js:120 | the length is kept, the first character is upper case and the rest lower case |
| Helpers.CapitalizeIdempotent | src/utils/helpers.js:120 | capitalising twice is capitalising once |
| Helpers.CamelToSnake | src/utils/helpers.js:128-130 | the result has no upper-case letter, is at least as long, and text without capitals is unchanged |
| Helpers.SnakeToCamel | src/utils/helpers.js:137-141 | the result is never longer than the input |
| Helpers.SnakeToCamelInvertsCamelToSnake | src/utils/helpers.js:128-141 | for text without '_' or '-', converting to snake case and back gives the text again |
| Helpers.IndexOf | src/utils/helpers.js:184 | the first position of the character, or none exactly when it does not occur |
| Helpers.IsValidEmailMatchesRegex | src/utils/helpers.js:183-186 | the check accepts exactly the strings the regular expression `/^[^\s@]+@[^\s@]+\.[^\s@]+$/` matches |
| Helpers.IsValidEmailConditions | src/utils/helpers.js:183-186 | valid exactly when there is one '@', no white space, a non-empty local part, and a '.' in the domain that is neither its first nor its last character |
| Helpers.Stars | src/utils/helpers.js:197 | `n` stars |
| Helpers.MaskString | src/utils/helpers.js:194-199 | the length is kept, the first `visibleChars` characters (4 by default) stay, the rest become stars, and a string no longer than `visibleChars` (or a missing one) is returned as it is |
| Helpers.MaskIdempotent | src/utils/helpers.js:194-199 | masking twice is masking once |
| Helpers.RemoveUndefined | src/utils/helpers.js:218-225 | exactly the keys whose value is not undefined remain, with their values |
| Text.LowerChar | src/utils/helpers.js:106 | an upper-case letter becomes lower case, anything else is kept |
| Text.UpperChar | src/utils/helpers.js:120 | a lower-case letter becomes upper case, anything else is kept |
| Text.Lower | src/utils/helpers.js:106 | `toLowerCase` on ASCII, character by character |
| Text.Upper | src/utils/helpers.js:120 | `toUpperCase` on ASCII, character by character |
| Text.TrimStart | scripts/check-console.js:65 | the leading white space goes and nothing else |
| Text.TrimEnd | scripts/check-console.js:65 | the trailing white space goes and nothing else |
| Text.Trim | scripts/check-console.js:65 | the result neither starts nor ends with white space, and holds only characters of the input |
| Text.TrimIsSlice | scripts/check-console.js:65 | the trimmed text is a contiguous piece of the original |
| Text.TrimKeepsNoUpper | src/utils/helpers.js:106-107 | trimming text without capitals leaves none |
| Text.LowerTrim | src/models/user.model.js:10-11 | the email setters' normal form holds no capital and neither starts nor ends with white space |
| Text.TrimThenLower | src/models/otp.model.js:9-10 | trimming then lower-casing gives the same text as lower-casing then trimming |
| Text.LowerTrimIdempotent | src/models/user.model.js:10-11 | normalising twice is normalising once |
| Text.LowerTrimOfUpper | src/models/user.model.js:10-11 | an address in capitals has the same normal form as the address itself |
| Text.Split | scripts/check-console.js:60 | a one-character split gives at least one part and no part holds the separator |
| Text.JoinSplit | scripts/check-console.js:119 | joining the parts of a split with the same separator gives the text back |
| Text.SplitNoSeparator | src/utils/jwt.js:55 | text without the separator splits into itself alone |
| Text.SplitAtSeparator | src/utils/jwt.js:55 | the first separator ends the first part |
| Text.SplitJoin | scripts/check-console.js:119 | splitting a join of separator-free parts gives the parts back |
| Text.SixDigitText | src/utils/otp.js:22 | a number from 100000 to 999999 prints as six digits |
| Text.ThreeDigitLead | src/common/error.js:11 | a three-digit number's text starts with its hundreds digit |
| ConsoleCheck.DropTrailingSlashes | scripts/check-console.js:47 | the path loses exactly its trailing '/' characters |
| ConsoleCheck.AfterLastSlash | scripts/check-console.js:47 | a suffix of the path without '/', preceded by '/' when shorter than the path |
| ConsoleCheck.Basename | scripts/check-console.js:47 | the base name holds no '/' |
| ConsoleCheck.LastDot | scripts/check-console.js:44 | the position of the last '.', or none exactly when there is no '.' |
| ConsoleCheck.Extname | scripts/check-console.js:44 | the extension is non-empty exactly when the base name has a last '.' that does not open it and is not `..`; it then runs from that '.' to the end of the base name and holds no other '.' |
| ConsoleCheck.ExtnameOfJoin | scripts/check-console.js:44 | the extension of `dir/name` depends on `name` alone |
| ConsoleCheck.ExtnameOfDottedName | scripts/check-console.js:44 | a name with several dots has the extension from the last one: `a.b.js` in any directory gives `.js` |
| ConsoleCheck.ExtnameOfLeadingDot | scripts/check-console.js:44 | a name whose only dot opens it has no extension: `.env` in any directory gives nothing |
| ConsoleCheck.ExtnameOfDotDot | scripts/check-console.js:44 | the name `..` in any directory has no extension |
| ConsoleCheck.ExtnameWithoutDot | scripts/check-console.js:44 | a name without a dot has no extension: `run` in any directory gives nothing |
| ConsoleCheck.AfterLastSlashOfJoin | scripts/check-console.js:47 | the text after the last '/' of `dir/name` is `name` |
| ConsoleCheck.BasenameOfJoin | scripts/check-console.js:47 | the base name of `dir/name` is `name`, whatever the directory |
| ConsoleCheck.ExcludedDirIsAPrefixTest | scripts/check-console.js:50-53 | a file under `distance/` is skipped, because the directory test is a text prefix test and `dist` is excluded |
| ConsoleCheck.PrefixOfConcat | scripts/check-console.js:52 | a prefix of a text stays a prefix when more text follows |
| ConsoleCheck.NestedExcludedDirIsScanned | scripts/check-console.js:43-54 | `src/node_modules/a.js` is scanned: only the start of the relative path is compared |
| ConsoleCheck.SkipSpaces | scripts/check-console.js:72 | the first position from `k` on that is not white space, with only white space skipped |
| ConsoleCheck.CallEnd | scripts/check-console.js:72 | a match ends after `console.`, the name and its '(' |
| ConsoleCheck.FirstCall | scripts/check-console.js:71-72 | the name the alternation settles on is a disallowed name that matches there, and none exactly when no disallowed name matches |
| ConsoleCheck.MatchAll | scripts/check-console.js:74 | every match found is a real match of the pattern, and they come in increasing order |
| ConsoleCheck.CallChars | scripts/check-console.js:72 | a match spells `console.` and its name from where it starts |
| ConsoleCheck.CallStartsWithCo | scripts/check-console.js:72 | every match starts with "co" |
| ConsoleCheck.NoCallInside | scripts/check-console.js:74 | no second match starts inside a match, so non-overlapping global matching loses none |
| ConsoleCheck.ReportedCons | scripts/check-console.js:74 | a position is reported by a list exactly when it is the head's or reported by the rest |
| ConsoleCheck.MatchAllStep | scripts/check-console.js:74 | the global scan skips a position without a match and resumes after a match |
| ConsoleCheck.MatchAllComplete | scripts/check-console.js:74 | every match at or after the start of the scan is reported |
| ConsoleCheck.MatchesExactly | scripts/check-console.js:74 | `matchAll` reports a position exactly when the pattern matches there, with the name matched |
| ConsoleCheck.AllowedNeverMatches | scripts/check-console.js:29-37 | `console.warn`, `console.error` and `console.info` are never reported |
| ConsoleCheck.Report | scripts/check-console.js:75-82 | one violation per match, in order, with the line number, the 1-based column, the trimmed line and the name |
| ConsoleCheck.ScanLine | scripts/check-console.js:63-82 | a line that starts like a comment or contains `*/` reports nothing; every violation carries the line's 1-based number |
| ConsoleCheck.ScanLineExactly | scripts/check-console.js:63-82 | on a line that is not skipped, there is a violation at column `p + 1` exactly when a disallowed call starts at offset `p` |
| ConsoleCheck.ScanLineFields | scripts/check-console.js:75-82 | each violation of a scanned line carries its number, its trimmed text and the name matched at its column |
| ConsoleCheck.ReportFields | scripts/check-console.js:75-82 | each violation carries the line, the text, and a name the pattern matches at its column |
| ConsoleCheck.ReportColumns | scripts/check-console.js:75-82 | a report has a violation at column `p + 1` exactly when `p` was matched |
| ConsoleCheck.ScanLines | scripts/check-console.js:60-82 | every violation's line number lies within the lines scanned |
| ConsoleCheck.LinesWithin | scripts/check-console.js:63-85 | line numbers within the bounds stay so when two reports are put together |
| ConsoleCheck.FixLine | scripts/check-console.js:99-116 | a line that starts like a comment, or has no match, is kept as it is |
| ConsoleCheck.FixLines | scripts/check-console.js:98-117 | fixing never adds lines: offending lines are dropped or rewritten |
| ConsoleCheck.FixLinesUnchanged | scripts/check-console.js:98-117 | lines that each come back unchanged leave the list as it was |
| ConsoleCheck.FixContent | scripts/check-console.js:119-125 | the file counts as changed exactly when the fixed text differs from the original |
| ConsoleCheck.NothingToFix | scripts/check-console.js:93-125 | text without offending lines comes back as it was and is not reported as changed |
| ConsoleCheck.RewriteCopies | scripts/check-console.js:114 | without a match from a position on, the replacement copies the text |
| ConsoleCheck.RewriteUpTo | scripts/check-console.js:114 | the replacement copies the text up to the next match |
| ConsoleCheck.NoCallBetweenAll | scripts/check-console.js:114 | positions without a match form a stretch the replacement copies |
| ConsoleCheck.RewriteCopiesOne | scripts/check-console.js:114 | where no call matches, the replacement copies the character |
| ConsoleCheck.RewriteCall | scripts/check-console.js:114 | at a match the replacement starts with the commented-out call |
| ConsoleCheck.ReportedFromFirst | scripts/check-console.js:74 | no position before the first match is reported |
| ConsoleCheck.FixChangesOffendingLines | scripts/check-console.js:108-116 | a line with a disallowed call and no comment opening is always dropped or changed |
| ConsoleCheck.RewriteChangesLine | scripts/check-console.js:114 | replacing the calls of a line with a match changes the line |
| ConsoleCheck.ScanSkipsWhatFixChanges | scripts/check-console.js:65-69 | a line holding `*/` and a call is not reported by the scan, yet the fix changes it |
| Patterns.UserRolesAreTheSchemaEnum | src/utils/constants.js:20-24 | the role constants are exactly the three roles the user schema accepts |
| Patterns.FirstLine | src/utils/constants.js:71 | the text before the first line terminator, which is as far as a lookahead's `.*` reaches |
| Patterns.ReachesIffInFirstLine | src/utils/constants.js:71 | a lookahead `(?=.*[c])` succeeds exactly when a character of the class occurs in the first line |
| Patterns.FirstLineOf | src/utils/constants.js:71 | the first line ends at the first line terminator |
| Patterns.FirstLineExtends | src/utils/constants.js:71 | appending text can only lengthen the first line |
| Patterns.StrongPasswordMatchesRegex | src/utils/constants.js:71 | the predicate accepts exactly what the four lookaheads and the lead class accept |
| Patterns.StrongPasswordIgnoresTail | src/utils/constants.js:71 | without an end anchor, anything may follow a matching password, so the comment's minimum of eight characters is not enforced |
| Patterns.StrongPasswordStopsAtLineBreak | src/utils/constants.js:71 | a class that appears only after a line break does not count |
| Patterns.StrongPasswordFirstLineSuffices | src/utils/constants.js:71 | a first line holding every class matches, whatever follows the line break |
| Patterns.StrongPasswordHasEveryClass | src/utils/constants.js:71 | a matching password has an upper-case letter, a lower-case letter, a digit and a symbol, so it scores 4 in the strength report |
| Patterns.PhoneDigits | src/utils/constants.js:80 | the text after an optional leading '+' |
| Patterns.PhoneMatchesRegex | src/utils/constants.js:80 | the predicate accepts exactly an optional '+', a non-zero digit and one to fourteen more digits |
| Patterns.UuidIgnoresCase | src/utils/constants.js:86 | under the `i` flag, lower- or upper-casing a string never changes whether it is a UUID |
| Patterns.UuidCharIgnoresCase | src/utils/constants.js:86 | at every position the character class ignores letter case |
| Patterns.UuidExample | src/utils/constants.js:86 | a version-1 UUID with variant `a` matches |
| Patterns.UuidVersionOutOfRange | src/utils/constants.js:86 | a UUID with version nibble 6 does not match |
| Password.HashPassword | src/utils/password.js:5-11 | refused with "Password is required" exactly when the password is missing or empty; otherwise the hash of the password |
| Password.ComparePassword | src/utils/password.js:13-19 | true exactly when both arguments are present and the password matches the hash |
| Password.Range | src/utils/password.js:32-46 | the characters of the range, every one of them, minus the easily confused ones when asked |
| Password.AllowedConcat | src/utils/password.js:30-50 | joining two pieces of allowed characters keeps every character allowed |
| Password.PasswordCharset | src/utils/password.js:30-54 | refused with "At least one character type must be included" exactly when every class is off; otherwise a non-empty set holding exactly the allowed characters |
| Password.Charset | src/utils/password.js:30-50 | the set is empty exactly when every class is off, and holds exactly the allowed characters |
| Password.ClassesAllowed | src/utils/password.js:30-50 | the classes hold only allowed characters, and their union is empty exactly when all are off |
| Password.ClassNonEmpty | src/utils/password.js:32-46 | a class switched on is never empty |
| Password.LettersAllowed | src/utils/password.js:32-42 | the letter classes hold only allowed characters |
| Password.DigitsAllowed | src/utils/password.js:44-46 | the digit class holds only allowed characters |
| Password.SymbolsAllowed | src/utils/password.js:48-50 | the symbol class holds only allowed characters and is empty exactly when symbols are off |
| Password.ClassesCover | src/utils/password.js:30-50 | every allowed character is in one of the classes |
| Password.GenerateSecurePassword | src/utils/password.js:21-62 | refused exactly when the character set is, otherwise `length` characters all drawn from the set |
| Password.Draw | src/utils/password.js:56-59 | one character of the set per random value |
| Password.ScaledIndex | src/utils/password.js:58 | `Math.floor(x * n)` for `0 <= x < 1` is an index below `n` |
| Password.ScaleBelow | src/utils/password.js:58 | a value in [0, 1) times `n` is in [0, n) |
| Password.FloorBelow | src/utils/password.js:58 | the floor of a value in [0, n) is an index below `n` |
| Password.Fail | src/utils/password.js:89-101 | a failed check marks the report invalid and adds its message at the end, without changing the score |
| Password.ClassCheck | src/utils/password.js:103-135 | a missing required class fails the report with one message; a present class scores one, whether required or not |
| Password.LengthChecks | src/utils/password.js:89-101 | the length checks pass exactly when the length is within the bounds, and leave feedback exactly when they fail |
| Password.ClassChecks | src/utils/password.js:103-135 | the report stays valid exactly when every required class is present, and the score counts the classes present |
| Password.ValidatePasswordStrength | src/utils/password.js:72-170 | valid exactly when the length is within bounds, every required class is present and, when asked, the password is not common; valid exactly when there is no feedback; the score counts the classes present and the label follows the score |
| Password.CommonPasswordsRefused | src/utils/password.js:137-155 | every common password, in any letter case, is refused with "Password is too common" |
| Password.StrengthLabelsAtExtremes | src/utils/password.js:157-167 | all four classes give "very strong" and none gives "very weak" |
| Schema.CodeNamesDistinct | src/validations/auth.validation.js:10-16 | the message keys such as `string.min` and `any.required` name distinct error codes |
| Schema.ConvertString | src/modules/user/user.validation.js:11-15 | `lowercase()` then `trim()` as the key asks, and nothing when it asks neither |
| Schema.ConvertedShape | src/modules/user/user.validation.js:11-15 | a lower-cased value has no upper-case letter left and a trimmed one no outer white space |
| Schema.Coerce | src/modules/user/user.validation.js:105-121 | strings of a string key are converted, numeric strings of a number key become numbers, and anything else is kept |
| Schema.StringRuleErrors | src/validations/auth.validation.js:5-9 | every rule runs; there are no codes exactly when every rule holds, and each code is that of a failing rule |
| Schema.NumberRuleErrors | src/modules/user/user.validation.js:105-121 | no codes exactly when every number rule holds, and each code is that of a failing rule |
| Schema.TypeErrors | src/modules/user/user.validation.js:145-151 | at most one type error, which stops the rules from running |
| Schema.CheckKey | src/validations/user.validation.js:5-44 | a missing key is required or takes its default; a present value is converted and passes when allowed; outside a `valid` list it reports `any.only` and, as `abortEarly: false` lets Joi go on, then the type error or else every failing rule; a key without a `valid` list reports the type error or else every failing rule |
| Schema.TypeOrRuleErrors | src/modules/user/user.validation.js:145-151 | a type error is reported alone; without one, the failing rules are |
| Schema.EnumKeyCodes | src/modules/user/user.validation.js:91-99 | a plain string key with a `valid` list rejects a given value outside it with `any.only`, followed by `string.base` for a non-string or `string.empty` for ''; the code is single exactly for a non-empty string |
| Schema.StringKeyPasses | src/validations/auth.validation.js:5-47 | a present string passes exactly when its converted form is allowed, or is non-empty (or `min(0)` allows it) and every rule holds |
| Schema.RulesOnlyKeyPasses | src/validations/auth.validation.js:5-39 | without allowed values or `min(0)`, a string passes exactly when it is non-empty after conversion and every rule holds |
| Schema.OneRuleKeyPasses | src/validations/auth.validation.js:41-47 | a one-rule key keeps the converted string and passes exactly when it is non-empty and the rule holds |
| Schema.MessageFor | src/validations/auth.validation.js:10-16 | the key's own message for the code, or Joi's built-in one when it has none |
| Schema.DetailsFor | src/middlewares/validation.middleware.js:10-14 | one detail per code, each naming the key's path and carrying the code's message |
| Schema.Names | src/middlewares/validation.middleware.js:10-14 | the key names in schema order |
| Schema.ValidateKeys | src/middlewares/validation.middleware.js:10-14 | the validated object holds only names the schema declares, and every detail names one of them |
| Schema.PassedIffEveryKey | src/middlewares/validation.middleware.js:10-14 | with `abortEarly: false` validation passes exactly when every key passes |
| Schema.PassedCons | src/middlewares/validation.middleware.js:10-14 | a schema passes exactly when its first key and the rest pass |
| Schema.PassedTwo | src/middlewares/validation.middleware.js:10-14 | a two-key schema passes exactly when both keys pass |
| Schema.PassedSix | src/middlewares/validation.middleware.js:10-14 | a six-key schema passes exactly when all six keys pass |
| Schema.ValidateCons | src/middlewares/validation.middleware.js:10-14 | the first key's details come before the rest's, and its kept value is added under its name |
| Schema.Defaults | src/modules/user/user.validation.js:104-159 | the defaults are stored only under names the schema declares |
| Schema.DefaultsCons | src/modules/user/user.validation.js:104-159 | a key with a default adds it under its name, any other key adds nothing |
| Schema.EmptyInputTakesDefaults | src/modules/user/user.validation.js:104-159 | with nothing given and nothing required, validation passes and yields exactly the defaults |
| Schema.EmptyInputNoDefaults | src/validations/user.validation.js:4-34 | with nothing given, nothing required and no defaults, validation passes and yields an empty object |
| Schema.ValidatedValues | src/middlewares/validation.middleware.js:36-53 | with distinct names, each key's kept value lands under its own name, and a key that keeps nothing leaves its name out |
| Schema.DistinctTail | src/middlewares/validation.middleware.js:10-14 | the keys after the first still have distinct names |
| Schema.DetailCount | src/middlewares/validation.middleware.js:10-20 | with `abortEarly: false` there is one detail for every code of every key |
| AuthValidation.RoleValues | src/validations/auth.validation.js:50 | the allowed values are exactly the role names of the constants |
| AuthValidation.UsernameRule | src/validations/auth.validation.js:5-16 | a username passes exactly when it matches the username pattern; a length failure always comes with a pattern failure |
| AuthValidation.EmailRule | src/validations/auth.validation.js:18-26 | an e-mail passes exactly when it has the e-mail shape and at most 254 characters |
| AuthValidation.PasswordRule | src/validations/auth.validation.js:28-39 | a password passes exactly when it has 8 to 128 characters and matches the strong-password pattern |
| AuthValidation.FullNameRule | src/validations/auth.validation.js:41-43 | `full_name` may be left out; a given one passes exactly when it has 1 to 100 characters once trimmed |
| AuthValidation.PhoneRule | src/validations/auth.validation.js:45-47 | `phone_number` may be left out; a given one passes exactly when it matches the phone pattern |
| AuthValidation.RoleRule | src/validations/auth.validation.js:49-56 | the key as it would behave without its `.default(undefined)` call, which Joi refuses when the module loads: a missing role stays missing; a given one passes exactly when it is a role name; a non-empty string that is not one fails with the role message alone, '' adds the `string.empty` detail and a non-string adds the `string.base` detail |
| AuthValidation.LoginPasswordNeverTooShort | src/validations/auth.validation.js:65-68 | "Password cannot be empty" is never reported, as Joi refuses the empty string first; a string passes exactly when it is non-empty |
| AuthValidation.LoginRule | src/validations/auth.validation.js:59-69 | a login passes exactly when the e-mail is a string of the e-mail shape and the password a non-empty string |
| AuthValidation.UsernameKey | src/validations/auth.validation.js:5-16 | the username key passes exactly for a string matching the pattern, and a missing or non-string value fails |
| AuthValidation.EmailKey | src/validations/auth.validation.js:18-26 | the e-mail key passes exactly for a string of the e-mail shape with at most 254 characters |
| AuthValidation.PasswordKey | src/validations/auth.validation.js:28-39 | the password key passes exactly for a strong string of 8 to 128 characters |
| AuthValidation.FullNameKey | src/validations/auth.validation.js:41-43 | `full_name` passes exactly when absent or 1 to 100 characters once trimmed |
| AuthValidation.PhoneKey | src/validations/auth.validation.js:45-47 | `phone_number` passes exactly when absent or matching the phone pattern |
| AuthValidation.RegisterRule | src/validations/auth.validation.js:4-57 | a registration passes exactly when every one of the six fields does |
| UserValidation.RoleValuesAreUserRoles | src/modules/user/user.validation.js:34 | the listed role values are exactly the role names of the constants |
| UserValidation.EmailNormalised | src/modules/user/user.validation.js:11-19 | the e-mail is kept lower-cased and trimmed, and passes exactly when that is non-empty and Joi's e-mail rule accepts it |
| UserValidation.PasswordRule | src/modules/user/user.validation.js:21-31 | a given password passes exactly when it has 8 to 128 characters and matches the strong-password pattern |
| UserValidation.RegisterRoleDefault | src/modules/user/user.validation.js:33-39 | a registration without a role gets `USER`; a given role passes exactly when it is a role name |
| UserValidation.UpdateRoleRule | src/modules/user/user.validation.js:91-99 | the role update passes exactly for one of the three role names; a missing role is `any.required`; any other value is `any.only`, then `string.base` for a non-string or `string.empty` for '' |
| UserValidation.LoginRule | src/modules/user/user.validation.js:45-61 | a login passes exactly when the e-mail passes its rule and the password is a non-empty string |
| UserValidation.PageRule | src/modules/user/user.validation.js:105-114 | a missing page becomes 1; a given one passes exactly when it is an integer of at least 1 |
| UserValidation.LimitRule | src/modules/user/user.validation.js:116-127 | a missing limit becomes 10; a given one passes exactly when it is an integer from 1 to 100 |
| UserValidation.SortRule | src/modules/user/user.validation.js:129-143 | missing sort keys become `createdAt` and `desc`; given ones pass exactly when they are listed, and an unlisted one is `any.only`, then `string.base` for a non-string or `string.empty` for '' |
| UserValidation.SearchRule | src/modules/user/user.validation.js:145-151 | every search string passes and is kept trimmed |
| UserValidation.QueryDefaults | src/modules/user/user.validation.js:104-159 | the defaults of the query schema are page 1, limit 10, `createdAt` and `desc`, and nothing else |
| UserValidation.SortDefaults | src/modules/user/user.validation.js:129-159 | the sort, search and role keys supply only the two sort defaults |
| UserValidation.QueryKeysOptional | src/modules/user/user.validation.js:104-159 | no key of the query schema is required |
| UserValidation.EmptyQueryDefaults | src/modules/user/user.validation.js:104-159 | an empty query passes and is replaced by the four defaults |
| ProfileValidation.GenderValues | src/validations/user.validation.js:22 | the allowed values are exactly the genders, as strings |
| ProfileValidation.GenderKey | src/validations/user.validation.js:21-29 | the key is optional with no default, and allows exactly the genders, null and '' |
| ProfileValidation.TrimmedMaxRule | src/validations/user.validation.js:5-7 | a trimmed, bounded field passes exactly when absent, null, or a string within the bound once trimmed; a longer string fails with `string.max` alone and a non-string with `string.base` |
| ProfileValidation.TrimmedMaxString | src/validations/user.validation.js:5-7 | a string fails with `string.max` exactly when its trimmed form is longer than the bound, and passes otherwise, white space alone included |
| ProfileValidation.FullNameRule | src/validations/user.validation.js:5-7 | `fullName` passes exactly when absent, null, or at most 100 characters once trimmed |
| ProfileValidation.AddressRule | src/validations/user.validation.js:13-15 | `address` passes exactly when absent, null, or at most 255 characters once trimmed |
| ProfileValidation.BioRule | src/validations/user.validation.js:31-33 | `bio` passes exactly when absent, null, or at most 500 characters once trimmed |
| ProfileValidation.PhoneNumberRule | src/validations/user.validation.js:9-11 | `phoneNumber` passes exactly when absent, null, '' or matching the phone pattern as given, so a leading space is refused |
| ProfileValidation.GenderRule | src/validations/user.validation.js:21-29 | `gender` passes exactly when absent, null, '' or a gender; any other string fails with `any.only` alone, and a non-string with `any.only` then `string.base` |
| ProfileValidation.ProfileRule | src/validations/user.validation.js:4-34 | a profile update passes exactly when each of its fields does |
| ProfileValidation.EmptyProfile | src/validations/user.validation.js:4-34 | an empty update passes and sets nothing |
| ProfileValidation.UserIdRule | src/validations/user.validation.js:36-44 | the user id passes exactly when it is 24 hexadecimal characters; a missing one is reported as required and a malformed non-empty one as a bad format, each with its own message |
| ProfileValidation.MissingUserIdDetails | src/validations/user.validation.js:36-44 | route parameters without `userId` fail with exactly one detail, "User ID is required" |
| ValidationMiddleware.FailureMessagesDistinct | src/middlewares/validation.middleware.js:22-75 | the three middlewares fail with three different messages |
| ValidationMiddleware.StripQuotes | src/middlewares/validation.middleware.js:19 | removing quotes never lengthens a message |
| ValidationMiddleware.StripQuotesFacts | src/middlewares/validation.middleware.js:19 | no quote is left, every other character stays, and a message without quotes is unchanged |
| ValidationMiddleware.StripQuotesDropsQuotes | src/middlewares/validation.middleware.js:19 | what is left has no quote and comes from the message |
| ValidationMiddleware.StripQuotesKeepsOrder | src/middlewares/validation.middleware.js:19 | removing quotes works piece by piece and a second pass changes nothing |
| ValidationMiddleware.StripQuotesKeepsOthers | src/middlewares/validation.middleware.js:19 | every character of the message that is not a quote is kept |
| ValidationMiddleware.StripQuotesUnquoted | src/middlewares/validation.middleware.js:19 | a message without quotes is left as it is |
| ValidationMiddleware.QuotedLabel | src/middlewares/validation.middleware.js:19 | a message quoting the key's label, as Joi's own do, carries the label bare |
| ValidationMiddleware.DropLeadingQuote | src/middlewares/validation.middleware.js:19 | a leading quote is removed |
| ValidationMiddleware.StripUnquoted | src/middlewares/validation.middleware.js:19 | a piece without quotes passes through unchanged before the rest |
| ValidationMiddleware.FormatDetail | src/middlewares/validation.middleware.js:17-20 | the message carries no quote, and a top-level key's field is its name |
| ValidationMiddleware.FormatDetails | src/middlewares/validation.middleware.js:17-20 | one entry per detail, in the same order |
| ValidationMiddleware.Validate | src/middlewares/validation.middleware.js:8-83 | fails exactly when the schema reports a detail, with a 422 operational error, the middleware's own message and the formatted details; on success the body is left as it came, while the query or the route parameters are replaced by the validated value |
| ValidationMiddleware.DetailsNameTheirKeys | src/middlewares/validation.middleware.js:16-24 | every violation of every key is reported, under a name the schema declares and without quotes |
| ValidationMiddleware.BodyNeverWrittenBack | src/middlewares/validation.middleware.js:8-29 | a body that passes reaches the handler unconverted, and passes exactly when it would pass as a query |
| ValidationMiddleware.OtherPartsUnchanged | src/middlewares/validation.middleware.js:8-83 | only the validated part of the request can change |
| ValidationMiddleware.WrittenBackPartIsStripped | src/middlewares/validation.middleware.js:53-80 | after `validateQuery` or `validateParams`, the part holds only names the schema declares |
| ValidationMiddleware.EmptyQueryGetsDefaults | src/middlewares/validation.middleware.js:34-56 | an empty query string gives the handler page 1, limit 10, `createdAt` and `desc` |
| ValidationMiddleware.SingleDetail | src/middlewares/validation.middleware.js:16-24 | a single violation on a top-level key, with a message free of quotes, fails with exactly that field and message |
| ValidationMiddleware.MissingUserId | src/middlewares/validation.middleware.js:61-78 | `validateParams` on the user-id schema without `userId` fails with the one detail "User ID is required" |
| ValidationMiddleware.RequiredMessageUnquoted | src/validations/user.validation.js:42 | the required message of the user id holds no quote |

## Left out

- Database, mail and file I/O are not modelled. That covers Mongoose and Prisma query execution, TTL indexes, e-mail sending and the image host. Stores are sequences, ORM queries are filters over them, and mail delivery is a boolean parameter.
- bcrypt, JWT signing and verification, `crypto.randomBytes`, `Math.random` and SHA-256 are parameters, because their results cannot be stated without the algorithms.
- `sleep`, `generateRandomString`, `generateRandomNumber`, `deepClone`, `formatDate` and `generateUUID` are not modelled. They are timing, randomness, object copying and local-time formatting, with no decision logic.
- `generateResetToken`, `generateVerificationToken`, `hashToken` and `generateSalt` are not modelled, because each is a single call into `crypto` or bcrypt.
- `scanDirectory`, the report printing and the command-line entry of the console checker are not modelled, because they walk the file system and print. The relative path from the working directory is a parameter of `ShouldScanFile`.
- `allowedConsole` is not modelled because the script never reads it: the disallowed names are fixed.
- `ConsoleCheck.ScanLine` models a line rewritten by the fix to `// console.log(` as it stands: the scan reports it again unless the line starts with the comment. That is what the pattern does.
- Listing order is not modelled. `sortBy`/`sortOrder` are taken by `getAllUsers` but only choose a database sort, and the model keeps store order.
- Search text is treated literally. The source builds a regular expression from it, so metacharacters in a search would behave differently.
- Numbers are unbounded integers and reals. JavaScript's safe-integer limit, floating-point rounding, `Infinity` and `NaN` are not modelled.
- String lengths count characters, not UTF-16 code units.
- Case mapping (`toLowerCase`, `toUpperCase`, the `i` flag) is modelled for ASCII letters only.
- Mongoose timestamps are modelled only as far as the logic reads them: `createdAt` orders OTP records, and an update sets `updatedAt` to `now`.
- The `dateOfBirth` key of the profile schema is not modelled, because Joi's ISO date grammar is outside this model.
- Joi's e-mail grammar, its numeric conversion of strings and its built-in English messages are parameters of `Schema.Env`.
- The OTP type, the OTP error messages and the too-many-requests error are abstract. The source refers to `CONSTANTS.OTP_TYPES`, `ERROR_MESSAGES.OTP_*` and `createAppError.tooManyRequests`, none of which it defines. The model gives them kinds (`Registration`, `ResetPassword`, a 429 factory) instead of the load-time failure.
- The gender enumeration (`CONSTANTS.USER_GENDER`) is a parameter for the same reason.
- `src/middlewares/auth.helpers.js` is not part of this model. It imports names that the authentication middleware does not export.
- The unique index on `email` is modelled through the lookup before the write. The duplicate-key error that a concurrent registration would raise, and that `register` turns into a 409, is not modelled.
- UserService.UpdateProfile: models the update paths email, password, role, profile, `isActive`, `isEmailVerified` and `loginAttempts`. The token, lock and date paths, and cast errors of wrongly typed values, are not modelled.
- UserService.UpdateErrors: lists the failed paths in schema order. Mongoose lists them in the order of the update's keys, so the order of the messages can differ.
- UserService.UpdateProfile: the route's Joi schema, which runs before the service, is not composed with it. The service is modelled for whatever data reaches it.
- ErrorHandler.SendErrorDev: the copy's own properties that the model does not carry (`errors`, `keyValue`, `_original`) are not part of the serialised error.
- Concurrent requests are not modelled. Each operation is atomic, so the read-modify-write races on the attempt counters are out of scope.
- Logging, rate limiting, cookies, routing and configuration are not modelled, because they are wiring around the modelled logic.
- Pagination.GetPaginationMeta: requires a non-zero limit. A zero limit would divide by zero and give `Infinity` or `NaN`. The controller reads the limit with `parseInt` and falls back to 10 on zero, so it never passes one. Negative limits are modelled.
- Response.PaginatedResponse: requires a non-zero limit, for the same reason.
- UserService.GetAllUsers: requires a given limit to be non-zero, for the same reason. `UserService.ListUsers`, the controller's call, has no precondition. A negative page or limit is modelled: a negative skip is the server's refusal, and a negative limit returns one batch of as many documents as the absolute value of the limit.
- The wording of the server's refusal of a negative skip is given as the server reports it; the model only promises its code, 2.
- RepoUserService.GetAllUsers: requires a given page and limit to be at least 1. In that module the query schema (`src/modules/user/user.validation.js:105-127`) checks both before the service runs.
- AuthValidation.RoleRule: `src/validations/auth.validation.js:51` calls `.default(CONSTANTS.USER_ROLES.CUSTOMER)`, and `src/utils/constants.js:20-24` defines no `CUSTOMER`, so the call is `.default(undefined)`. Joi refuses that with "Missing default value" when the schema is built, so loading the module throws and `registerSchema` never exists. The model leaves out this load-time failure and describes the key as it would be without the call.
- OtpService.GenerateSecureOtpCode: requires the random value to be below 2^24, the range of the three bytes read.
- OtpService.GenerateOtpCode: requires the random value to be in [0, 1), the range of `Math.random`.
- Password.GenerateSecurePassword: requires one random value in [0, 1) per character, standing for the calls to `Math.random`.

=== FILE: auth.dfy ===
/** The request guards of src/middlewares/auth.middleware.js. Token
    verification is a parameter; the user lookup is the repository's
    `findById` over the row store. */
module Auth {
  import opened Base
  import opened Text
  import opened Json
  import opened Errors
  import opened Password
  import opened RepoUserService
  import Jwt

  const MSG_TOKEN_REQUIRED := "Access token is required"
  const MSG_USER_NOT_FOUND_AUTH := "User not found"
  const MSG_AUTH_REQUIRED := "Authentication required"
  const MSG_INSUFFICIENT := "Insufficient permissions"

  /** A guard's own failure: `new AppError(message, status)`. */
  function Refuse(message: string, status: int): Thrown {
    Raise(NewAppError(message, Some(status), None))
  }

  /** The header starts with `Bearer ` (with the space). */
  predicate HasBearerPrefix(header: Option<string>) {
    Present(header) && StartsWith(header.value, Jwt.BEARER + " ")
  }

  /** `authHeader.split(' ')[1]`; a header with the prefix always has a
      second field. */
  function SecondField(h: string): (t: string)
    requires StartsWith(h, Jwt.BEARER + " ")
    ensures ' ' !in t
  {
    SplitAfterPrefix(h);
    Split(h, ' ')[1]
  }

  lemma SplitAfterPrefix(h: string)
    requires StartsWith(h, Jwt.BEARER + " ")
    ensures |Split(h, ' ')| >= 2 && Split(h, ' ')[0] == Jwt.BEARER
  {
    assert h == Jwt.BEARER + [' '] + h[7..];
    SplitAtSeparator(Jwt.BEARER, h[7..], ' ');
  }

  /** The user a verified token names, or why there is none. */
  function Lookup(rows: seq<Row>, claims: map<string, Value>): (r: Result<Row, Thrown>)
    ensures r.Ok? ==> "id" in claims && claims["id"] == Str(r.value.id) && r.value in rows
    ensures r.Ok? <==> "id" in claims && claims["id"].Str?
                       && exists j :: 0 <= j < |rows| && rows[j].id == claims["id"].s
    ensures r.Ok? ==> exists j :: 0 <= j < |rows| && r.value == rows[j]
                                  && forall k :: 0 <= k < j ==> rows[k].id != rows[j].id
    ensures "id" in claims && claims["id"].Str? && r.Err? ==> r.error == Refuse(MSG_USER_NOT_FOUND_AUTH, UNAUTHORIZED)
  {
    if "id" in claims && claims["id"].Str? then
      match FindById(rows, claims["id"].s)
      case Some(i) => Ok(rows[i])
      case None => Err(Refuse(MSG_USER_NOT_FOUND_AUTH, UNAUTHORIZED))
    else Err(PlainError("Argument `id` is missing."))
  }

  /** `authenticate`: the attached user, or the error passed on. */
  function Authenticate(header: Option<string>, rows: seq<Row>,
                        verify: string -> Result<map<string, Value>, Thrown>): (r: Result<map<string, Value>, Thrown>)
    ensures !HasBearerPrefix(header) ==> r == Err(Refuse(MSG_TOKEN_REQUIRED, UNAUTHORIZED))
    ensures HasBearerPrefix(header) && SecondField(header.value) == "" ==> r == Err(Refuse(MSG_TOKEN_REQUIRED, UNAUTHORIZED))
    ensures HasBearerPrefix(header) && SecondField(header.value) != "" && verify(SecondField(header.value)).Err? ==>
      r == Err(verify(SecondField(header.value)).error)
    ensures r.Ok? ==> HasBearerPrefix(header) && SecondField(header.value) != ""
    ensures r.Ok? ==> verify(SecondField(header.value)).Ok?
    ensures r.Ok? ==>
      (exists j :: 0 <= j < |rows| && r.value == PublicView(rows[j])
         && Field(verify(SecondField(header.value)).value, "id") == Str(rows[j].id))
    ensures r.Ok? ==> "password" !in r.value
    ensures r.Ok? <==> HasBearerPrefix(header) && SecondField(header.value) != ""
                       && verify(SecondField(header.value)).Ok?
                       && Lookup(rows, verify(SecondField(header.value)).value).Ok?
    ensures r.Ok? ==> r.value == PublicView(Lookup(rows, verify(SecondField(header.value)).value).value)
    ensures HasBearerPrefix(header) && SecondField(header.value) != "" && verify(SecondField(header.value)).Ok?
            && Lookup(rows, verify(SecondField(header.value)).value).Err? ==>
      r == Err(Lookup(rows, verify(SecondField(header.value)).value).error)
  {
    if !HasBearerPrefix(header) then Err(Refuse(MSG_TOKEN_REQUIRED, UNAUTHORIZED))
    else
      var token := SecondField(header.value);
      if token == "" then Err(Refuse(MSG_TOKEN_REQUIRED, UNAUTHORIZED))
      else match verify(token)
        case Err(e) => Err(e)
        case Ok(claims) =>
          match Lookup(rows, claims)
          case Err(e) => Err(e)
          case Ok(u) => Ok(PublicView(u))
  }

  /** A verified token for a missing user is refused with 401. */
  lemma UnknownUserIsUnauthorized(header: Option<string>, rows: seq<Row>,
                                  verify: string -> Result<map<string, Value>, Thrown>, id: string)
    requires HasBearerPrefix(header) && SecondField(header.value) != ""
    requires verify(SecondField(header.value)) == Ok(map["id" := Str(id)])
    requires forall j :: 0 <= j < |rows| ==> rows[j].id != id
    ensures Authenticate(header, rows, verify) == Err(Refuse(MSG_USER_NOT_FOUND_AUTH, UNAUTHORIZED))
  {
  }

  /** A verified token whose `id` is that of a stored user attaches that
      user's public view (the first row with the id, as `findById` reads). */
  lemma KnownUserAuthenticates(header: Option<string>, rows: seq<Row>,
                               verify: string -> Result<map<string, Value>, Thrown>,
                               claims: map<string, Value>, j: nat)
    requires HasBearerPrefix(header) && SecondField(header.value) != ""
    requires verify(SecondField(header.value)) == Ok(claims)
    requires j < |rows| && "id" in claims && claims["id"] == Str(rows[j].id)
    requires forall k :: 0 <= k < j ==> rows[k].id != rows[j].id
    ensures Authenticate(header, rows, verify) == Ok(PublicView(rows[j]))
    ensures OptionalAuth(header, rows, verify) == Some(PublicView(rows[j]))
  {
    var i := FindById(rows, rows[j].id);
    assert i == Some(j);
    assert Lookup(rows, claims) == Ok(rows[j]);
  }

  /** Where `extractTokenFromHeader` finds a non-empty token,
      `authenticate` reads the same one; but `authenticate` also accepts
      headers with further fields, which the helper rejects. */
  lemma AuthenticateReadsExtractedToken(t: string, rest: string)
    requires ' ' !in t && t != ""
    ensures Jwt.ExtractTokenFromHeader(Some(Jwt.BEARER + " " + t)) == Some(t)
    ensures SecondField(Jwt.BEARER + " " + t) == t
    ensures SecondField(Jwt.BEARER + " " + t + " " + rest) == t
    ensures Jwt.ExtractTokenFromHeader(Some(Jwt.BEARER + " " + t + " " + rest)).None?
  {
    Jwt.ExtractTokenFromHeaderExactly(Jwt.BEARER + " " + t, t);
    SplitAtSeparator(Jwt.BEARER, t, ' ');
    SplitNoSeparator(t, ' ');
    assert Jwt.BEARER + " " + t == Jwt.BEARER + [' '] + t;
    var h := Jwt.BEARER + " " + t + " " + rest;
    assert h == Jwt.BEARER + [' '] + (t + [' '] + rest);
    SplitAtSeparator(Jwt.BEARER, t + [' '] + rest, ' ');
    SplitAtSeparator(t, rest, ' ');
    assert |Split(h, ' ')| >= 3;
  }

  /** `authorize(...roles)`: an attached user whose role is listed passes. */
  function Authorize(user: Option<map<string, Value>>, roles: seq<string>): (r: Result<(), Thrown>)
    ensures user.None? ==> r == Err(Refuse(MSG_AUTH_REQUIRED, UNAUTHORIZED))
    ensures user.Some? ==>
      (r.Ok? <==> Field(user.value, "role").Str? && Field(user.value, "role").s in roles)
    ensures user.Some? && r.Err? ==> r.error == Refuse(MSG_INSUFFICIENT, FORBIDDEN)
  {
    match user
    case None => Err(Refuse(MSG_AUTH_REQUIRED, UNAUTHORIZED))
    case Some(u) =>
      if Field(u, "role").Str? && Field(u, "role").s in roles then Ok(())
      else Err(Refuse(MSG_INSUFFICIENT, FORBIDDEN))
  }

  /** An empty role list rejects every user, and adding roles never turns
      a pass into a refusal. */
  lemma AuthorizeByRoleList(user: Option<map<string, Value>>, roles: seq<string>, more: seq<string>)
    ensures Authorize(user, []).Err?
    ensures Authorize(user, roles).Ok? ==> Authorize(user, roles + more).Ok?
  {
  }

  /** `optionalAuth`: never fails; attaches the user only when the header
      has the prefix, the token verifies and the user exists. */
  function OptionalAuth(header: Option<string>, rows: seq<Row>,
                        verify: string -> Result<map<string, Value>, Thrown>): (r: Option<map<string, Value>>)
    ensures r.Some? <==> HasBearerPrefix(header) && verify(SecondField(header.value)).Ok?
                         && Lookup(rows, verify(SecondField(header.value)).value).Ok?
    ensures r.Some? ==> exists j :: 0 <= j < |rows| && r.value == PublicView(rows[j])
  {
    if !HasBearerPrefix(header) then None
    else
      match verify(SecondField(header.value))
      case Err(_) => None
      case Ok(claims) =>
        match Lookup(rows, claims)
        case Err(_) => None
        case Ok(u) => Some(PublicView(u))
  }

  /** Whenever `authenticate` attaches a user, `optionalAuth` attaches the
      same one. */
  lemma OptionalAuthAgrees(header: Option<string>, rows: seq<Row>,
                           verify: string -> Result<map<string, Value>, Thrown>)
    requires Authenticate(header, rows, verify).Ok?
    ensures OptionalAuth(header, rows, verify) == Some(Authenticate(header, rows, verify).value)
  {
  }
}

=== FILE: auth_validation.dfy ===
/** The request schemas of src/validations/auth.validation.js, built from the
    shared patterns and bounds. */
module AuthValidation {
  import opened Base
  import opened Text
  import opened Json
  import opened Schema
  import opened Patterns
  import Helpers

  const MSG_USERNAME_PATTERN := "Username must contain only letters, numbers, and underscores"
  const MSG_EMAIL_PATTERN := "Please provide a valid email address"
  const MSG_PASSWORD_PATTERN :=
    "Password must contain at least one uppercase letter, one lowercase letter, one number, and one special character"
  const MSG_PASSWORD_EMPTY := "Password cannot be empty"
  const MSG_ROLE_ONLY := "Role must be one of: USER, ADMIN, MODERATOR"

  function RoleValues(): (vs: seq<Value>)
    ensures forall v :: v in vs <==> v.Str? && v.s in USER_ROLES
  {
    [Str(USER_ROLES[0]), Str(USER_ROLES[1]), Str(USER_ROLES[2])]
  }

  /** `registerSchema.username`. */
  const USERNAME_KEY := Key("username",
    StringKind(false, false, [Pattern(UsernameMatches), MinLength(USERNAME_MIN_LENGTH), MaxLength(USERNAME_MAX_LENGTH)]),
    true, [], false, None,
    map[StringPatternBase := MSG_USERNAME_PATTERN,
        StringMin := "Username must be at least 3 characters long",
        StringMax := "Username must be at most 30 characters long",
        AnyRequired := "Username is required"])

  /** `registerSchema.email`. */
  const EMAIL_KEY := Key("email",
    StringKind(false, false, [Pattern(EmailMatches), MaxLength(EMAIL_MAX_LENGTH)]),
    true, [], false, None,
    map[StringPatternBase := MSG_EMAIL_PATTERN,
        StringMax := "Email must be at most 254 characters long",
        AnyRequired := "Email is required"])

  /** `registerSchema.password`. */
  const PASSWORD_KEY := Key("password",
    StringKind(false, false, [MinLength(PASSWORD_MIN_LENGTH), MaxLength(PASSWORD_MAX_LENGTH), Pattern(StrongPasswordMatches)]),
    true, [], false, None,
    map[StringMin := "Password must be at least 8 characters long",
        StringMax := "Password must be at most 128 characters long",
        StringPatternBase := MSG_PASSWORD_PATTERN,
        AnyRequired := "Password is required"])

  /** `registerSchema.full_name`: trimmed, at most 100. */
  const FULL_NAME_KEY := Key("full_name", StringKind(false, true, [MaxLength(100)]), false, [], false, None,
    map[StringMax := "Full name must be at most 100 characters long"])

  /** `registerSchema.phone_number`. */
  const PHONE_KEY := Key("phone_number", StringKind(false, false, [Pattern(PhoneMatches)]), false, [], false, None,
    map[StringPatternBase := "Please provide a valid phone number"])

  /** `registerSchema.role`: one of the roles. Its default names a role the
      constants do not define, i.e. `.default(undefined)`, which Joi refuses
      when the schema is built; the key is modelled without a default, as
      it would behave were that call absent. */
  const ROLE_KEY := Key("role", StringKind(false, false, []), false, RoleValues(), true, None,
    map[AnyOnly := MSG_ROLE_ONLY])

  const REGISTER_KEYS := [USERNAME_KEY, EMAIL_KEY, PASSWORD_KEY, FULL_NAME_KEY, PHONE_KEY, ROLE_KEY]

  /** `loginSchema.email`. */
  const LOGIN_EMAIL_KEY := Key("email", StringKind(false, false, [Pattern(EmailMatches)]), true, [], false, None,
    map[StringPatternBase := MSG_EMAIL_PATTERN, AnyRequired := "Email is required"])

  /** `loginSchema.password`. */
  const LOGIN_PASSWORD_KEY := Key("password", StringKind(false, false, [MinLength(1)]), true, [], false, None,
    map[StringMin := MSG_PASSWORD_EMPTY, AnyRequired := "Password is required"])

  const LOGIN_KEYS := [LOGIN_EMAIL_KEY, LOGIN_PASSWORD_KEY]

  // ------------------------------------------------------------ properties

  /** A username passes exactly when it matches the pattern, which already
      bounds its length: the length rules never fail alone. */
  lemma UsernameRule(s: string, env: Env)
    ensures CheckKey(USERNAME_KEY, Str(s), env).codes == [] <==> UsernameMatches(s)
    ensures StringMin in CheckKey(USERNAME_KEY, Str(s), env).codes ==> StringPatternBase in CheckKey(USERNAME_KEY, Str(s), env).codes
    ensures StringMax in CheckKey(USERNAME_KEY, Str(s), env).codes ==> StringPatternBase in CheckKey(USERNAME_KEY, Str(s), env).codes
  {
    StringKeyPasses(USERNAME_KEY, s, env);
    var rules := USERNAME_KEY.kind.rules;
    assert !AllowsEmpty(rules) by {
      assert rules[0] != MinLength(0) && rules[1] != MinLength(0) && rules[2] != MinLength(0);
    }
    if s != "" {
      var codes := CheckKey(USERNAME_KEY, Str(s), env).codes;
      assert codes == StringRuleErrors(rules, s, env);
    }
  }

  /** An e-mail passes exactly when it has the shape and at most 254
      characters. */
  lemma EmailRule(s: string, env: Env)
    ensures CheckKey(EMAIL_KEY, Str(s), env).codes == [] <==> EmailMatches(s) && |s| <= EMAIL_MAX_LENGTH
  {
    var rules := EMAIL_KEY.kind.rules;
    assert rules[0] != MinLength(0) && rules[1] != MinLength(0);
    RulesOnlyKeyPasses(EMAIL_KEY, s, env);
    assert EmailMatches(s) ==> s != "" by {
      if s == "" { assert Helpers.IndexOf(s, '@').None?; }
    }
    assert StringRuleHolds(rules[0], s, env) <==> EmailMatches(s);
    assert StringRuleHolds(rules[1], s, env) <==> |s| <= EMAIL_MAX_LENGTH;
  }

  /** A password passes exactly when it has 8 to 128 characters and matches
      the strong-password pattern. */
  lemma PasswordRule(s: string, env: Env)
    ensures CheckKey(PASSWORD_KEY, Str(s), env).codes == [] <==>
      PASSWORD_MIN_LENGTH <= |s| <= PASSWORD_MAX_LENGTH && StrongPasswordMatches(s)
  {
    var rules := PASSWORD_KEY.kind.rules;
    assert rules[0] != MinLength(0) && rules[1] != MinLength(0) && rules[2] != MinLength(0);
    RulesOnlyKeyPasses(PASSWORD_KEY, s, env);
    assert StringRuleHolds(rules[0], s, env) <==> |s| >= PASSWORD_MIN_LENGTH;
    assert StringRuleHolds(rules[1], s, env) <==> |s| <= PASSWORD_MAX_LENGTH;
    assert StringRuleHolds(rules[2], s, env) <==> StrongPasswordMatches(s);
  }

  /** `full_name` may be left out; a given one must have between 1 and 100
      characters once trimmed, since trimming to nothing is an empty
      string. */
  lemma FullNameRule(s: string, env: Env)
    ensures CheckKey(FULL_NAME_KEY, Undefined, env).codes == []
    ensures CheckKey(FULL_NAME_KEY, Str(s), env).codes == [] <==> 0 < |Trim(s)| <= 100
  {
    assert FULL_NAME_KEY.kind.rules[0] != MinLength(0);
    RulesOnlyKeyPasses(FULL_NAME_KEY, s, env);
  }

  /** `phone_number` may be left out; a given one must match PHONE. */
  lemma PhoneRule(s: string, env: Env)
    ensures CheckKey(PHONE_KEY, Undefined, env).codes == []
    ensures CheckKey(PHONE_KEY, Str(s), env).codes == [] <==> PhoneMatches(s)
  {
    assert PHONE_KEY.kind.rules[0] != MinLength(0);
    RulesOnlyKeyPasses(PHONE_KEY, s, env);
  }

  /** `role` may be left out and then stays absent; a given value must be
      one of the roles. A non-empty string outside them is refused with the
      enum message alone; the empty string and a non-string value also get
      the type check's detail, in Joi's own words. */
  lemma RoleRule(v: Value, env: Env)
    ensures CheckKey(ROLE_KEY, Undefined, env) == Checked([], Undefined)
    ensures v != Undefined ==> (CheckKey(ROLE_KEY, v, env).codes == [] <==> v.Str? && v.s in USER_ROLES)
    ensures v.Str? && v.s != "" && v.s !in USER_ROLES ==>
      DetailsFor(ROLE_KEY, CheckKey(ROLE_KEY, v, env).codes, env) == [Detail(["role"], AnyOnly, MSG_ROLE_ONLY)]
    ensures v == Str("") ==>
      DetailsFor(ROLE_KEY, CheckKey(ROLE_KEY, v, env).codes, env)
        == [Detail(["role"], AnyOnly, MSG_ROLE_ONLY), Detail(["role"], StringEmpty, env.builtin(StringEmpty, "role"))]
    ensures v != Undefined && !v.Str? ==>
      DetailsFor(ROLE_KEY, CheckKey(ROLE_KEY, v, env).codes, env)
        == [Detail(["role"], AnyOnly, MSG_ROLE_ONLY), Detail(["role"], StringBase, env.builtin(StringBase, "role"))]
  {
    if v != Undefined && !(v.Str? && v.s in USER_ROLES) {
      EnumKeyCodes(ROLE_KEY, v, env);
    }
  }

  /** The login password's own message for `string.min` is never used: the
      only string shorter than one character is refused as empty first. */
  lemma LoginPasswordNeverTooShort(v: Value, env: Env)
    ensures StringMin !in CheckKey(LOGIN_PASSWORD_KEY, v, env).codes
    ensures v.Str? ==> (CheckKey(LOGIN_PASSWORD_KEY, v, env).codes == [] <==> v.s != "")
  {
    assert !AllowsEmpty(LOGIN_PASSWORD_KEY.kind.rules) by {
      assert LOGIN_PASSWORD_KEY.kind.rules[0] != MinLength(0);
    }
  }

  /** A login passes exactly when the e-mail has the shape and the password
      is a non-empty string. */
  lemma LoginRule(body: map<string, Value>, env: Env)
    ensures ValidateKeys(LOGIN_KEYS, body, env).Passed() <==>
      Field(body, "email").Str? && EmailMatches(Field(body, "email").s)
      && Field(body, "password").Str? && Field(body, "password").s != ""
  {
    var e := Field(body, "email");
    var p := Field(body, "password");
    LoginPasswordNeverTooShort(p, env);
    if e.Str? {
      assert LOGIN_EMAIL_KEY.kind.rules[0] != MinLength(0);
      RulesOnlyKeyPasses(LOGIN_EMAIL_KEY, e.s, env);
      assert EmailMatches(e.s) ==> e.s != "";
    }
    assert LOGIN_KEYS[0] == LOGIN_EMAIL_KEY && LOGIN_KEYS[1] == LOGIN_PASSWORD_KEY;
    PassedIffEveryKey(LOGIN_KEYS, body, env);
  }

  predicate UsernameOk(v: Value) { v.Str? && UsernameMatches(v.s) }
  predicate EmailOk(v: Value) { v.Str? && EmailMatches(v.s) && |v.s| <= EMAIL_MAX_LENGTH }
  predicate PasswordOk(v: Value) { v.Str? && PASSWORD_MIN_LENGTH <= |v.s| <= PASSWORD_MAX_LENGTH && StrongPasswordMatches(v.s) }
  predicate FullNameOk(v: Value) { v == Undefined || (v.Str? && 0 < |Trim(v.s)| <= 100) }
  predicate PhoneOk(v: Value) { v == Undefined || (v.Str? && PhoneMatches(v.s)) }
  predicate RoleOk(v: Value) { v == Undefined || (v.Str? && v.s in USER_ROLES) }

  /** Each register key, over every value it can be given. */
  lemma UsernameKey(v: Value, env: Env)
    ensures CheckKey(USERNAME_KEY, v, env).codes == [] <==> UsernameOk(v)
  {
    if v.Str? { UsernameRule(v.s, env); }
  }

  lemma EmailKey(v: Value, env: Env)
    ensures CheckKey(EMAIL_KEY, v, env).codes == [] <==> EmailOk(v)
  {
    if v.Str? { EmailRule(v.s, env); }
  }

  lemma PasswordKey(v: Value, env: Env)
    ensures CheckKey(PASSWORD_KEY, v, env).codes == [] <==> PasswordOk(v)
  {
    if v.Str? { PasswordRule(v.s, env); }
  }

  lemma FullNameKey(v: Value, env: Env)
    ensures CheckKey(FULL_NAME_KEY, v, env).codes == [] <==> FullNameOk(v)
  {
    if v.Str? { FullNameRule(v.s, env); }
  }

  lemma PhoneKey(v: Value, env: Env)
    ensures CheckKey(PHONE_KEY, v, env).codes == [] <==> PhoneOk(v)
  {
    if v.Str? { PhoneRule(v.s, env); }
  }

  /** A registration passes exactly when every field does: the three
      required strings meet their rules, and each optional field is absent
      or meets its own. */
  lemma RegisterRule(body: map<string, Value>, env: Env)
    ensures ValidateKeys(REGISTER_KEYS, body, env).Passed() <==>
      UsernameOk(Field(body, "username")) && EmailOk(Field(body, "email")) && PasswordOk(Field(body, "password"))
      && FullNameOk(Field(body, "full_name")) && PhoneOk(Field(body, "phone_number")) && RoleOk(Field(body, "role"))
  {
    assert KeyPasses(USERNAME_KEY, body, env) <==> UsernameOk(Field(body, "username")) by {
      UsernameKey(Field(body, "username"), env);
    }
    assert KeyPasses(EMAIL_KEY, body, env) <==> EmailOk(Field(body, "email")) by {
      EmailKey(Field(body, "email"), env);
    }
    assert KeyPasses(PASSWORD_KEY, body, env) <==> PasswordOk(Field(body, "password")) by {
      PasswordKey(Field(body, "password"), env);
    }
    assert KeyPasses(FULL_NAME_KEY, body, env) <==> FullNameOk(Field(body, "full_name")) by {
      FullNameKey(Field(body, "full_name"), env);
    }
    assert KeyPasses(PHONE_KEY, body, env) <==> PhoneOk(Field(body, "phone_number")) by {
      PhoneKey(Field(body, "phone_number"), env);
    }
    assert KeyPasses(ROLE_KEY, body, env) <==> RoleOk(Field(body, "role")) by {
      RoleRule(Field(body, "role"), env);
    }
    PassedSix(USERNAME_KEY, EMAIL_KEY, PASSWORD_KEY, FULL_NAME_KEY, PHONE_KEY, ROLE_KEY, body, env);
  }

}

=== FILE: base.dfy ===
/** Shared building blocks: optional values, success/failure results, and the
    few sequence queries that stand in for the document store's filters. */
module Base {

  datatype Option<+T> = None | Some(value: T)

  datatype Result<+T, +E> = Ok(value: T) | Err(error: E)

  /** A destructured option with a default (`{ x = d } = options`). */
  function OrElse<T>(o: Option<T>, d: T): (r: T)
    ensures o.None? ==> r == d
    ensures o.Some? ==> r == o.value
  {
    match o case Some(v) => v case None => d
  }

  /** The index of the first element satisfying `p`, the way a store's
      `findOne` without a sort returns the first match in insertion order. */
  function FindFirst<T>(s: seq<T>, p: T -> bool): (r: Option<nat>)
    ensures r.Some? ==> r.value < |s| && p(s[r.value])
    ensures r.Some? ==> forall j :: 0 <= j < r.value ==> !p(s[j])
    ensures r.None? <==> forall j :: 0 <= j < |s| ==> !p(s[j])
  {
    if |s| == 0 then None
    else if p(s[0]) then Some(0)
    else match FindFirst(s[1..], p)
      case None => None
      case Some(k) => Some(k + 1)
  }

  /** The elements satisfying `p`, in their original order (a delete-many
      keeps exactly the complement of its filter). */
  function Filter<T>(s: seq<T>, p: T -> bool): (r: seq<T>)
    ensures |r| <= |s|
    ensures forall i :: 0 <= i < |r| ==> r[i] in s && p(r[i])
    ensures forall i :: 0 <= i < |s| && p(s[i]) ==> s[i] in r
    ensures multiset(r) <= multiset(s)
  {
    if |s| == 0 then []
    else
      assert s == [s[0]] + s[1..];
      if p(s[0]) then [s[0]] + Filter(s[1..], p) else Filter(s[1..], p)
  }

  /** The number of elements satisfying `p` (a `countDocuments`). */
  function Count<T>(s: seq<T>, p: T -> bool): (n: nat)
    ensures n <= |s|
    ensures n == 0 <==> forall j :: 0 <= j < |s| ==> !p(s[j])
  {
    if |s| == 0 then 0
    else (if p(s[0]) then 1 else 0) + Count(s[1..], p)
  }

  lemma {:induction false} CountIsFilterLength<T>(s: seq<T>, p: T -> bool)
    ensures Count(s, p) == |Filter(s, p)|
  {
    if |s| > 0 {
      CountIsFilterLength(s[1..], p);
    }
  }

  lemma {:induction false} CountAppend<T>(s: seq<T>, t: seq<T>, p: T -> bool)
    ensures Count(s + t, p) == Count(s, p) + Count(t, p)
  {
    if |s| == 0 {
      assert s + t == t;
    } else {
      assert (s + t)[1..] == s[1..] + t;
      CountAppend(s[1..], t, p);
    }
  }

  /** Two predicates that agree on every element count the same elements. */
  lemma {:induction false} CountCongruent<T>(s: seq<T>, p: T -> bool, q: T -> bool)
    requires forall j :: 0 <= j < |s| ==> (p(s[j]) <==> q(s[j]))
    ensures Count(s, p) == Count(s, q)
  {
    if |s| > 0 {
      CountCongruent(s[1..], p, q);
    }
  }

  /** Replacing one element by another changes a count by at most the two
      elements' own contributions. */
  lemma {:induction false} CountUpdate<T>(s: seq<T>, i: nat, x: T, p: T -> bool)
    requires i < |s|
    ensures Count(s[i := x], p) + (if p(s[i]) then 1 else 0)
         == Count(s, p) + (if p(x) then 1 else 0)
  {
    if i == 0 {
      assert s[i := x][1..] == s[1..];
    } else {
      assert s[i := x][1..] == s[1..][i - 1 := x];
      CountUpdate(s[1..], i - 1, x, p);
    }
  }

  /** Filtering by a predicate that every counted element satisfies
      leaves the count unchanged. */
  lemma {:induction false} CountOfFilter<T>(s: seq<T>, p: T -> bool, q: T -> bool)
    requires forall j :: 0 <= j < |s| && p(s[j]) ==> q(s[j])
    ensures Count(Filter(s, q), p) == Count(s, p)
  {
    if |s| > 0 {
      CountOfFilter(s[1..], p, q);
      if q(s[0]) {
        assert ([s[0]] + Filter(s[1..], q))[1..] == Filter(s[1..], q);
      }
    }
  }
}

=== FILE: console_check.dfy ===
/** scripts/check-console.js: the line-level detector of disallowed console
    calls, its rewriter, and the filter on file paths. Reading, writing
    and walking directories are left to the caller: a file is its text,
    and the path relative to the working directory is given with it. */
module ConsoleCheck {
  import opened Base
  import opened Text

  // ----------------------------------------------------------------- paths

  /** The checker's options, each with its default. `allowedConsole` is
      accepted but never consulted: the disallowed names are fixed. */
  datatype Config = Config(extensions: seq<string>, excludeDirs: seq<string>, excludeFiles: seq<string>)

  const DEFAULT_CONFIG := Config([".js", ".jsx", ".ts", ".tsx"], ["node_modules", "dist", "build", "coverage"],
    ["check-console.js", "test-config.js"])

  /** The path without its trailing '/' characters. */
  function DropTrailingSlashes(p: string): (r: string)
    ensures |r| <= |p| && r == p[..|r|] && (|r| == 0 || r[|r| - 1] != '/')
    ensures forall i :: |r| <= i < |p| ==> p[i] == '/'
  {
    if |p| > 0 && p[|p| - 1] == '/' then DropTrailingSlashes(p[..|p| - 1]) else p
  }

  /** The text after the last '/'. */
  function AfterLastSlash(p: string): (r: string)
    ensures |r| <= |p| && r == p[|p| - |r|..]
    ensures '/' !in r
    ensures |r| < |p| ==> p[|p| - |r| - 1] == '/'
  {
    if |p| == 0 then p
    else if p[|p| - 1] == '/' then []
    else AfterLastSlash(p[..|p| - 1]) + [p[|p| - 1]]
  }

  /** `path.basename(p)` for POSIX paths. */
  function Basename(p: string): (r: string)
    ensures '/' !in r
  {
    AfterLastSlash(DropTrailingSlashes(p))
  }

  /** The index of the last '.' in `s`, if any. */
  function LastDot(s: string): (r: Option<nat>)
    ensures r.Some? ==> r.value < |s| && s[r.value] == '.' && forall i :: r.value < i < |s| ==> s[i] != '.'
    ensures r.None? ==> '.' !in s
  {
    if |s| == 0 then None
    else if s[|s| - 1] == '.' then Some(|s| - 1)
    else LastDot(s[..|s| - 1])
  }

  /** `path.extname(p)`: from the last '.' of the base name to its end;
      nothing when there is no dot, when the dot opens the name (`.env`),
      or for the name `..`. */
  function Extname(p: string): (r: string)
    ensures r == "" || (r[0] == '.' && EndsWith(Basename(p), r) && '.' !in r[1..])
    ensures r != "" <==> LastDot(Basename(p)).Some? && LastDot(Basename(p)).value != 0 && Basename(p) != ".."
    ensures r != "" ==> r == Basename(p)[LastDot(Basename(p)).value..]
  {
    var b := Basename(p);
    match LastDot(b)
    case None => ""
    case Some(i) => if i == 0 || b == ".." then "" else b[i..]
  }

  /** The extension of `dir/name` is read off `name` alone. */
  lemma ExtnameOfJoin(dir: string, name: string)
    requires |name| > 0 && '/' !in name
    ensures Extname(dir + "/" + name) != "" <==> LastDot(name).Some? && LastDot(name).value != 0 && name != ".."
    ensures Extname(dir + "/" + name) != "" ==> Extname(dir + "/" + name) == name[LastDot(name).value..]
  {
    BasenameOfJoin(dir, name);
  }

  /** The extension of a name with several dots starts at the last one,
      whatever the directory. */
  lemma ExtnameOfDottedName(dir: string)
    ensures Extname(dir + "/" + "a.b.js") == ".js"
  {
    var name := "a.b.js";
    assert name[3] == '.' && name[4] != '.' && name[5] != '.';
    assert LastDot(name).value == 3;
    ExtnameOfJoin(dir, name);
  }

  /** A name that starts with its only dot has no extension. */
  lemma ExtnameOfLeadingDot(dir: string)
    ensures Extname(dir + "/" + ".env") == ""
  {
    var name := ".env";
    assert LastDot(name) == Some(0);
    ExtnameOfJoin(dir, name);
  }

  /** The name `..` has no extension. */
  lemma ExtnameOfDotDot(dir: string)
    ensures Extname(dir + "/" + "..") == ""
  {
    ExtnameOfJoin(dir, "..");
  }

  /** A name without a dot has no extension. */
  lemma ExtnameWithoutDot(dir: string)
    ensures Extname(dir + "/" + "run") == ""
  {
    var name := "run";
    assert name[0] != '.' && name[1] != '.' && name[2] != '.';
    assert LastDot(name).None?;
    ExtnameOfJoin(dir, name);
  }

  /** `shouldScanFile`: the extension is listed, the base name is not
      excluded, and the relative path begins with no excluded directory
      name (a plain prefix test on the text). */
  predicate ShouldScanFile(cfg: Config, filePath: string, relativePath: string) {
    Extname(filePath) in cfg.extensions
    && Basename(filePath) !in cfg.excludeFiles
    && forall d :: d in cfg.excludeDirs ==> !StartsWith(relativePath, d)
  }

  /** The text after the last '/' of `dir/name` is `name`. */
  lemma {:induction false} AfterLastSlashOfJoin(dir: string, name: string)
    requires '/' !in name
    ensures AfterLastSlash(dir + "/" + name) == name
    decreases |name|
  {
    var p := dir + "/" + name;
    if |name| == 0 {
      assert p == dir + "/";
    } else {
      var init := name[..|name| - 1];
      assert p[..|p| - 1] == dir + "/" + init;
      assert p[|p| - 1] == name[|name| - 1];
      AfterLastSlashOfJoin(dir, init);
      assert init + [name[|name| - 1]] == name;
    }
  }

  /** The base name of `dir/name` is `name`, whatever the directory. */
  lemma BasenameOfJoin(dir: string, name: string)
    requires |name| > 0 && '/' !in name
    ensures Basename(dir + "/" + name) == name
  {
    AfterLastSlashOfJoin(dir, name);
  }

  /** The directory test is on text, not on path segments: a directory
      whose name merely begins like an excluded one is skipped too. */
  lemma ExcludedDirIsAPrefixTest(filePath: string)
    ensures !ShouldScanFile(DEFAULT_CONFIG, filePath, "distance/" + filePath)
  {
    assert StartsWith("distance/", "dist");
    PrefixOfConcat("distance/", filePath, "dist");
    assert DEFAULT_CONFIG.excludeDirs[1] == "dist";
  }

  lemma PrefixOfConcat(a: string, b: string, p: string)
    requires StartsWith(a, p)
    ensures StartsWith(a + b, p)
  {
    assert (a + b)[..|p|] == a[..|p|];
  }

  /** An excluded directory below the top level does not stop the file. */
  lemma NestedExcludedDirIsScanned()
    ensures ShouldScanFile(DEFAULT_CONFIG, "src/node_modules/a.js", "src/node_modules/a.js")
  {
    var q := "src/node_modules/a.js";
    ExtnameOfJs();
    DefaultListsJs();
    NotUnderDefaultExcludes(q);
  }

  /** Proof step of `NestedExcludedDirIsScanned`: the default lists admit
      `a.js`. */
  lemma DefaultListsJs()
    ensures ".js" in DEFAULT_CONFIG.extensions && "a.js" !in DEFAULT_CONFIG.excludeFiles
  {
    assert DEFAULT_CONFIG.extensions[0] == ".js";
  }

  /** Proof step of `NestedExcludedDirIsScanned`: the extension and base name
      of its example. */
  lemma ExtnameOfJs()
    ensures Extname("src/node_modules/a.js") == ".js" && Basename("src/node_modules/a.js") == "a.js"
  {
    assert "src/node_modules/a.js" == "src/node_modules" + "/" + "a.js";
    BasenameOfJoin("src/node_modules", "a.js");
    assert LastDot("a.js") == Some(1) by {
      assert "a.js"[..3] == "a.j";
      assert "a.js"[..3][..2] == "a.";
    }
    assert "a.js"[1..] == ".js";
  }

  /** Proof step of `NestedExcludedDirIsScanned`: a path that begins with 's'
      begins with no default excluded directory. */
  lemma NotUnderDefaultExcludes(q: string)
    requires |q| > 0 && q[0] == 's'
    ensures forall d :: d in DEFAULT_CONFIG.excludeDirs ==> !StartsWith(q, d)
  {
    forall d | d in DEFAULT_CONFIG.excludeDirs ensures !StartsWith(q, d) {
      assert d[0] != 's';
      StartsWithHead(q, d);
    }
  }

  /** Proof step of `NotUnderDefaultExcludes`: a prefix fixes the first
      character. */
  lemma StartsWithHead(q: string, d: string)
    requires |d| > 0
    ensures StartsWith(q, d) ==> q[0] == d[0]
  {
    if StartsWith(q, d) {
      assert q[..|d|][0] == q[0];
    }
  }

  // ----------------------------------------------------------------- calls

  /** The names of the pattern's alternation, in its order. */
  const NOT_ALLOWED: seq<string> := ["log", "debug", "trace", "table", "group", "groupCollapsed", "groupEnd"]

  /** The names the script means to allow. */
  const ALLOWED: seq<string> := ["warn", "error", "info"]

  const PREFIX := "console."

  /** The first index at or after `k` that is not white space. */
  function SkipSpaces(s: string, k: nat): (j: nat)
    requires k <= |s|
    ensures k <= j <= |s|
    ensures forall i :: k <= i < j ==> IsSpace(s[i])
    ensures j < |s| ==> !IsSpace(s[j])
    decreases |s| - k
  {
    if k == |s| || !IsSpace(s[k]) then k else SkipSpaces(s, k + 1)
  }

  /** `console.<n>\s*\(` matches at `p`. White space is consumed greedily,
      and giving some back never helps, since '(' is not white space. */
  predicate CallAt(s: string, p: nat, n: string) {
    OccursAt(s, PREFIX + n, p)
    && var j := SkipSpaces(s, p + |PREFIX| + |n|);
    j < |s| && s[j] == '('
  }

  /** Where the match at `p` ends: just after its '('. */
  function CallEnd(s: string, p: nat, n: string): (e: nat)
    requires CallAt(s, p, n)
    ensures p + |PREFIX| + |n| < e <= |s|
  {
    SkipSpaces(s, p + |PREFIX| + |n|) + 1
  }

  /** The alternative the regular expression settles on at `p`: the first
      name, in pattern order, that leads to a match. */
  function FirstCall(s: string, p: nat, names: seq<string>): (r: Option<string>)
    ensures r.Some? ==> r.value in names && CallAt(s, p, r.value)
    ensures r.None? ==> forall n :: n in names ==> !CallAt(s, p, n)
  {
    if |names| == 0 then None
    else if CallAt(s, p, names[0]) then Some(names[0])
    else
      var r := FirstCall(s, p, names[1..]);
      assert forall n :: n in names ==> n == names[0] || n in names[1..];
      r
  }

  function CallName(s: string, p: nat): Option<string> {
    FirstCall(s, p, NOT_ALLOWED)
  }

  /** One element of `line.matchAll(pattern)`: where it starts and which
      name it captured. */
  datatype Match = Match(index: nat, name: string)

  predicate Increasing(ms: seq<Match>) {
    forall a, b :: 0 <= a < b < |ms| ==> ms[a].index < ms[b].index
  }

  /** Global matching from `from`: try each start position in turn; after
      a match, carry on from its end. */
  function MatchAll(s: string, from: nat): (ms: seq<Match>)
    requires from <= |s|
    ensures forall k :: 0 <= k < |ms| ==> from <= ms[k].index && CallName(s, ms[k].index) == Some(ms[k].name)
    ensures Increasing(ms)
    decreases |s| - from
  {
    if from == |s| then []
    else
      match CallName(s, from)
      case Some(n) =>
        var rest := MatchAll(s, CallEnd(s, from, n));
        PrependMatch(Match(from, n), rest, CallEnd(s, from, n), (q: nat) => CallName(s, q));
        [Match(from, n)] + rest
      case None => MatchAll(s, from + 1)
  }

  /** A match found before every later one, put in front of them, keeps
      the list increasing and every element recognised. */
  lemma PrependMatch(m: Match, rest: seq<Match>, lo: nat, found: nat -> Option<string>)
    requires m.index < lo && found(m.index) == Some(m.name)
    requires forall k :: 0 <= k < |rest| ==> lo <= rest[k].index && found(rest[k].index) == Some(rest[k].name)
    requires Increasing(rest)
    ensures forall k :: 0 <= k < |[m] + rest| ==>
      m.index <= ([m] + rest)[k].index && found(([m] + rest)[k].index) == Some(([m] + rest)[k].name)
    ensures Increasing([m] + rest)
  {
    var ms := [m] + rest;
    forall k | 1 <= k < |ms| ensures ms[k] == rest[k - 1] {
    }
  }

  // ------------------------------------------------------ matches, exactly

  /** A match spells `console.` and its name from where it starts. */
  lemma CallChars(s: string, q: nat, m: string)
    ensures CallAt(s, q, m) ==> q + |PREFIX| + |m| <= |s| && forall i :: 0 <= i < |PREFIX + m| ==> s[q + i] == (PREFIX + m)[i]
  {
    if CallAt(s, q, m) {
      forall i | 0 <= i < |PREFIX + m| ensures s[q + i] == (PREFIX + m)[i] {
        assert s[q..q + |PREFIX + m|][i] == s[q + i];
      }
    }
  }

  /** The first two characters of any match are "co". */
  lemma CallStartsWithCo(s: string, q: nat, m: string)
    ensures CallAt(s, q, m) ==> q + 1 < |s| && s[q] == 'c' && s[q + 1] == 'o'
  {
    CallChars(s, q, m);
    if CallAt(s, q, m) {
      assert s[q] == (PREFIX + m)[0];
      assert s[q + 1] == (PREFIX + m)[1];
    }
  }

  /** Inside a match there is no "co" to start another: "onsole." has no
      'c', the only 'c' among the names ("trace") is followed by 'e', and
      white space and '(' are not 'c'. */
  lemma {:induction false} NoCallInside(s: string, p: nat, n: string, q: nat, m: string)
    requires n in NOT_ALLOWED && CallAt(s, p, n)
    ensures p < q < CallEnd(s, p, n) ==> !CallAt(s, q, m)
  {
    CallStartsWithCo(s, q, m);
    CallChars(s, p, n);
    if p < q < CallEnd(s, p, n) {
      var w := PREFIX + n;
      if q < p + |PREFIX| {
        assert s[q] == w[q - p] == PREFIX[q - p];
        assert s[q] != 'c';
      } else if q < p + |w| {
        var i := q - p - |PREFIX|;
        assert s[q] == w[q - p] == n[i];
        assert n == "log" || n == "debug" || n == "trace" || n == "table" || n == "group" || n == "groupCollapsed" || n == "groupEnd";
        if n == "trace" && i == 3 {
          assert s[q + 1] == w[q + 1 - p] == 'e';
        } else {
          assert s[q] != 'c';
        }
      } else {
        assert s[q] != 'c';
      }
    }
  }

  /** `p` is among the reported positions. */
  predicate Reported(ms: seq<Match>, p: nat) {
    exists k :: 0 <= k < |ms| && ms[k].index == p
  }

  lemma ReportedCons(m: Match, ms: seq<Match>, p: nat)
    ensures Reported([m] + ms, p) <==> m.index == p || Reported(ms, p)
  {
    if Reported(ms, p) {
      var k :| 0 <= k < |ms| && ms[k].index == p;
      assert ([m] + ms)[k + 1] == ms[k];
    }
    if Reported([m] + ms, p) && m.index != p {
      var k :| 0 <= k < |[m] + ms| && ([m] + ms)[k].index == p;
      assert ([m] + ms)[0] == m;
      assert ms[k - 1] == ([m] + ms)[k];
      assert Reported(ms, p);
    }
  }

  /** One step of the global matching. */
  lemma MatchAllStep(s: string, from: nat)
    requires from < |s|
    ensures CallName(s, from).None? ==> MatchAll(s, from) == MatchAll(s, from + 1)
    ensures CallName(s, from).Some? ==> var n := CallName(s, from).value;
      MatchAll(s, from) == [Match(from, n)] + MatchAll(s, CallEnd(s, from, n))
  {
  }

  /** Every match a scan from `from` reaches is reported. */
  lemma {:induction false} MatchAllComplete(s: string, from: nat, p: nat)
    requires from <= p && CallName(s, p).Some?
    ensures p < |s|
    ensures Reported(MatchAll(s, from), p)
    decreases |s| - from
  {
    var n0 := CallName(s, p).value;
    CallChars(s, p, n0);
    MatchAllStep(s, from);
    var here := CallName(s, from);
    if here.Some? {
      var n := here.value;
      var e := CallEnd(s, from, n);
      var rest := MatchAll(s, e);
      assert MatchAll(s, from) == [Match(from, n)] + rest;
      ReportedCons(Match(from, n), rest, p);
      if from < p {
        NoCallInside(s, from, n, p, n0);
        MatchAllComplete(s, e, p);
      }
    } else {
      assert from != p;
      MatchAllComplete(s, from + 1, p);
    }
  }

  /** `matchAll` reports exactly the positions where the pattern matches,
      each with the name matched there. */
  lemma MatchesExactly(s: string, p: nat)
    ensures Reported(MatchAll(s, 0), p) <==> CallName(s, p).Some?
    ensures forall k :: 0 <= k < |MatchAll(s, 0)| ==> CallName(s, MatchAll(s, 0)[k].index) == Some(MatchAll(s, 0)[k].name)
  {
    if CallName(s, p).Some? {
      MatchAllComplete(s, 0, p);
    }
  }

  /** An allowed call never matches: the names differ at their first
      letter. */
  lemma AllowedNeverMatches(s: string, p: nat, a: string)
    requires a in ALLOWED && OccursAt(s, PREFIX + a, p)
    ensures CallName(s, p).None?
  {
    assert s[p..p + |PREFIX + a|][|PREFIX|] == (PREFIX + a)[|PREFIX|] == a[0];
    assert a[0] == 'w' || a[0] == 'e' || a[0] == 'i';
    forall n | n in NOT_ALLOWED
      ensures !CallAt(s, p, n)
    {
      CallChars(s, p, n);
      assert (PREFIX + n)[|PREFIX|] == n[0];
      assert n[0] == 'l' || n[0] == 'd' || n[0] == 't' || n[0] == 'g';
    }
  }

  // ------------------------------------------------------------------ scan

  /** What the scan skips, and what the fix leaves alone: trimmed text
      starting like a comment. */
  predicate CommentStart(t: string) {
    StartsWith(t, "//") || StartsWith(t, "*") || StartsWith(t, "/*")
  }

  /** One reported violation: 1-based line and column, the trimmed line,
      and the name of the call. */
  datatype Violation = Violation(line: nat, column: nat, text: string, kind: string)

  function Report(ms: seq<Match>, lineNo: nat, text: string): (vs: seq<Violation>)
    ensures |vs| == |ms|
    ensures forall k :: 0 <= k < |ms| ==> vs[k] == Violation(lineNo, ms[k].index + 1, text, ms[k].name)
  {
    if |ms| == 0 then [] else [Violation(lineNo, ms[0].index + 1, text, ms[0].name)] + Report(ms[1..], lineNo, text)
  }

  /** The scan of one line, the `index`-th of the file. Lines that start
      like a comment or contain a comment's end are skipped. */
  function ScanLine(line: string, index: nat): (vs: seq<Violation>)
    ensures CommentStart(Trim(line)) || Contains(Trim(line), "*/") ==> vs == []
    ensures forall k :: 0 <= k < |vs| ==> vs[k].line == index + 1
  {
    var t := Trim(line);
    if CommentStart(t) || Contains(t, "*/") then [] else Report(MatchAll(line, 0), index + 1, t)
  }

  /** A line that is not skipped has a violation at column `c` exactly when
      a disallowed call starts at offset `c - 1`. */
  lemma ScanLineExactly(line: string, index: nat, p: nat)
    requires !CommentStart(Trim(line)) && !Contains(Trim(line), "*/")
    ensures (exists k :: 0 <= k < |ScanLine(line, index)| && ScanLine(line, index)[k].column == p + 1) <==> CallName(line, p).Some?
  {
    var ms := MatchAll(line, 0);
    var t := Trim(line);
    assert ScanLine(line, index) == Report(ms, index + 1, t);
    MatchesExactly(line, p);
    ReportColumns(ms, index + 1, t, p);
  }

  /** Each violation of a scanned line carries the line's number, its
      trimmed text and the name of the call found at its column. */
  lemma ScanLineFields(line: string, index: nat)
    requires !CommentStart(Trim(line)) && !Contains(Trim(line), "*/")
    ensures forall k :: 0 <= k < |ScanLine(line, index)| ==>
      ScanLine(line, index)[k].line == index + 1 && ScanLine(line, index)[k].text == Trim(line)
      && CallName(line, ScanLine(line, index)[k].column - 1) == Some(ScanLine(line, index)[k].kind)
  {
    var ms := MatchAll(line, 0);
    var t := Trim(line);
    assert ScanLine(line, index) == Report(ms, index + 1, t);
    ReportFields(ms, index + 1, t, (q: nat) => CallName(line, q));
  }

  /** Each violation of a report carries the line, the text and the name
      matched at its column, whatever recognises the names there. */
  lemma ReportFields(ms: seq<Match>, lineNo: nat, text: string, found: nat -> Option<string>)
    requires forall k :: 0 <= k < |ms| ==> found(ms[k].index) == Some(ms[k].name)
    ensures forall k :: 0 <= k < |Report(ms, lineNo, text)| ==>
      Report(ms, lineNo, text)[k].line == lineNo && Report(ms, lineNo, text)[k].text == text
      && found(Report(ms, lineNo, text)[k].column - 1) == Some(Report(ms, lineNo, text)[k].kind)
  {
    var vs := Report(ms, lineNo, text);
    forall k | 0 <= k < |vs|
      ensures vs[k].line == lineNo && vs[k].text == text && found(vs[k].column - 1) == Some(vs[k].kind)
    {
      assert vs[k] == Violation(lineNo, ms[k].index + 1, text, ms[k].name);
    }
  }

  /** A report has a violation at column `p + 1` exactly when a match
      starts at `p`. */
  lemma ReportColumns(ms: seq<Match>, lineNo: nat, text: string, p: nat)
    ensures (exists k :: 0 <= k < |Report(ms, lineNo, text)| && Report(ms, lineNo, text)[k].column == p + 1) <==> Reported(ms, p)
  {
    var vs := Report(ms, lineNo, text);
    if Reported(ms, p) {
      var k :| 0 <= k < |ms| && ms[k].index == p;
      assert vs[k].column == p + 1;
    }
  }

  function ScanLines(lines: seq<string>, first: nat): (vs: seq<Violation>)
    ensures forall k :: 0 <= k < |vs| ==> first < vs[k].line <= first + |lines|
    decreases |lines|
  {
    if |lines| == 0 then []
    else
      var rest := ScanLines(lines[1..], first + 1);
      var here := ScanLine(lines[0], first);
      LinesWithin(here, rest, first, first + |lines|);
      here + rest
  }

  lemma LinesWithin(a: seq<Violation>, b: seq<Violation>, lo: nat, hi: nat)
    requires forall k :: 0 <= k < |a| ==> lo < a[k].line <= hi
    requires forall k :: 0 <= k < |b| ==> lo < b[k].line <= hi
    ensures forall k :: 0 <= k < |a + b| ==> lo < (a + b)[k].line <= hi
  {
  }

  /** The content-level `scanFile`: the violations of every line of the
      text split at '\n', in order. */
  function ScanContent(content: string): seq<Violation> {
    ScanLines(Split(content, '\n'), 0)
  }

  // ------------------------------------------------------------------- fix

  predicate NoLineTerminator(s: string) {
    forall i :: 0 <= i < |s| ==> !IsLineTerminator(s[i])
  }

  /** `/^console\.(names)\s*\(.*\);?\s*$/` on the trimmed line: the call
      opens the line and ')' or ');' closes it, with nothing but ordinary
      characters between. */
  predicate WholeCall(t: string) {
    match CallName(t, 0)
    case None => false
    case Some(n) =>
      var u := TrimEnd(t[CallEnd(t, 0, n)..]);
      (EndsWith(u, ");") && NoLineTerminator(u[..|u| - 2]))
      || (EndsWith(u, ")") && NoLineTerminator(u[..|u| - 1]))
  }

  /** `line.replace(pattern, '// console.$1(')`: each match, white space
      before its '(' included, becomes a commented-out call. */
  function Rewrite(s: string, from: nat): (r: string)
    requires from <= |s|
    decreases |s| - from
  {
    if from == |s| then ""
    else
      match CallName(s, from)
      case Some(n) => "// " + PREFIX + n + "(" + Rewrite(s, CallEnd(s, from, n))
      case None => [s[from]] + Rewrite(s, from + 1)
  }

  /** The fix of one line: `None` when the line is dropped. */
  function FixLine(line: string): (r: Option<string>)
    ensures CommentStart(Trim(line)) || MatchAll(line, 0) == [] ==> r == Some(line)
  {
    var t := Trim(line);
    if CommentStart(t) || MatchAll(line, 0) == [] then Some(line)
    else if WholeCall(t) then None
    else Some(Rewrite(line, 0))
  }

  function FixLines(lines: seq<string>): (r: seq<string>)
    ensures |r| <= |lines|
  {
    if |lines| == 0 then []
    else
      var rest := FixLines(lines[1..]);
      match FixLine(lines[0])
      case None => rest
      case Some(l) => [l] + rest
  }

  /** Lines that each come back unchanged leave the text as it was. */
  lemma {:induction false} FixLinesUnchanged(lines: seq<string>)
    requires forall l :: l in lines ==> FixLine(l) == Some(l)
    ensures FixLines(lines) == lines
  {
    if |lines| > 0 {
      var h := lines[0];
      assert FixLine(h) == Some(h);
      FixLinesUnchanged(lines[1..]);
      assert lines == [h] + lines[1..];
    }
  }

  /** The content-level `fixFile`: the fixed text, and whether it differs
      from the original (the file is written only then). */
  function FixContent(content: string): (r: (string, bool))
    ensures r.1 <==> r.0 != content
  {
    var fixed := Join(FixLines(Split(content, '\n')), "\n");
    (fixed, fixed != content)
  }

  // ------------------------------------------------------------ properties

  /** Text without offending lines comes back as it was, and is reported
      unchanged. */
  lemma NothingToFix(content: string)
    requires forall l :: l in Split(content, '\n') ==> CommentStart(Trim(l)) || MatchAll(l, 0) == []
    ensures FixContent(content) == (content, false)
  {
    JoinSplit(content, '\n');
    FixLinesUnchanged(Split(content, '\n'));
  }

  /** Without a match from `from` on, rewriting copies the text. */
  lemma {:induction false} RewriteCopies(s: string, from: nat)
    requires from <= |s| && MatchAll(s, from) == []
    ensures Rewrite(s, from) == s[from..]
    decreases |s| - from
  {
    if from < |s| {
      assert CallName(s, from).None?;
      RewriteCopies(s, from + 1);
      assert s[from..] == [s[from]] + s[from + 1..];
    }
  }

  /** Rewriting copies the text up to the next position where a call
      matches. */
  lemma {:induction false} RewriteUpTo(s: string, from: nat, p: nat)
    requires from <= p <= |s| && NoCallBetween(s, from, p)
    ensures Rewrite(s, from) == s[from..p] + Rewrite(s, p)
    decreases p - from
  {
    if from < p {
      RewriteCopiesOne(s, from);
      RewriteUpTo(s, from + 1, p);
      SliceCons(s, from, p, Rewrite(s, p));
    }
  }

  /** No call matches at any position from `from` up to, not including,
      `p`; stated one position at a time. */
  predicate NoCallBetween(s: string, from: nat, p: nat)
    decreases p - from
  {
    from >= p || (CallName(s, from).None? && NoCallBetween(s, from + 1, p))
  }

  lemma {:induction false} NoCallBetweenAll(s: string, from: nat, p: nat)
    requires forall q :: from <= q < p ==> CallName(s, q).None?
    ensures NoCallBetween(s, from, p)
    decreases p - from
  {
    if from < p {
      NoCallBetweenAll(s, from + 1, p);
    }
  }

  lemma SliceCons(s: string, from: nat, p: nat, t: string)
    requires from < p <= |s|
    ensures [s[from]] + (s[from + 1..p] + t) == s[from..p] + t
  {
    assert s[from..p] == [s[from]] + s[from + 1..p];
  }

  /** Where no call matches, rewriting copies the character. */
  lemma RewriteCopiesOne(s: string, from: nat)
    requires from < |s| && CallName(s, from).None?
    ensures Rewrite(s, from) == [s[from]] + Rewrite(s, from + 1)
  {
  }

  /** Rewriting at a match starts with the commented-out call. */
  lemma RewriteCall(s: string, from: nat, n: string)
    requires from < |s| && CallName(s, from) == Some(n)
    ensures |Rewrite(s, from)| > 0 && Rewrite(s, from)[0] == '/'
  {
    var r := Rewrite(s, from);
    assert r == "// " + PREFIX + n + "(" + Rewrite(s, CallEnd(s, from, n));
  }

  /** No position before the first reported one is reported. */
  lemma ReportedFromFirst(ms: seq<Match>, q: nat)
    requires Increasing(ms) && |ms| > 0
    ensures Reported(ms, q) ==> ms[0].index <= q
  {
  }

  /** A line with a call and no comment opening is always changed by the
      fix: dropped, or rewritten. */
  lemma FixChangesOffendingLines(line: string)
    requires !CommentStart(Trim(line)) && MatchAll(line, 0) != []
    ensures FixLine(line) != Some(line)
  {
    RewriteChangesLine(line);
  }

  /** Rewriting a line with a match changes it: "// " stands where the
      first match's 'c' was. */
  lemma RewriteChangesLine(line: string)
    requires MatchAll(line, 0) != []
    ensures Rewrite(line, 0) != line
  {
    var ms := MatchAll(line, 0);
    var p := ms[0].index;
    var n := ms[0].name;
    assert CallName(line, p) == Some(n);
    CallStartsWithCo(line, p, n);
    forall q | 0 <= q < p
      ensures CallName(line, q).None?
    {
      MatchesExactly(line, q);
      ReportedFromFirst(ms, q);
    }
    NoCallBetweenAll(line, 0, p);
    RewriteUpTo(line, 0, p);
    RewriteCall(line, p, n);
    assert Rewrite(line, 0)[p] == Rewrite(line, p)[0];
  }

  /** The scan and the fix disagree on lines holding a comment's end: the
      scan skips them, yet the fix changes them. */
  lemma ScanSkipsWhatFixChanges(line: string, index: nat)
    requires !CommentStart(Trim(line)) && Contains(Trim(line), "*/") && MatchAll(line, 0) != []
    ensures ScanLine(line, index) == [] && FixLine(line) != Some(line)
  {
    FixChangesOffendingLines(line);
  }
}

=== FILE: errorhandler.dfy ===
/** The boundary error handler of src/middlewares/error.middleware.js: it
    maps driver and token errors into the taxonomy, defaults the status code,
    and redacts non-operational errors outside development. Logging is left
    out; the ISO timestamp and the stack text are parameters. */
module ErrorHandler {
  import opened Base
  import opened Text
  import opened Json
  import opened Errors
  import opened Response

  const DUPLICATE_KEY_CODE := 11000

  /** `Object.keys(error.keyValue || {})[0] || 'field'`. */
  function DuplicateField(keys: seq<string>): string {
    if |keys| > 0 && |keys[0]| > 0 then keys[0] else "field"
  }

  /** `let error = { ...err }; error.message = err.message;` after the
      handler has defaulted `err.statusCode` and `err.status`: the own
      enumerable properties of the error. A `name` inherited from a
      prototype is not copied, and neither is the stack. */
  datatype ErrorCopy = ErrorCopy(
    name: Option<string>,
    message: string,
    code: Option<int>,
    keyValueKeys: seq<string>,
    fieldMessages: seq<string>,
    statusCode: int,
    status: string,
    isOperational: Option<bool>,
    details: Option<seq<FieldError>>)

  /** `err.status || 'error'`. */
  function EffectiveStatusText(e: Thrown): string {
    match e.status
    case Some(t) => if |t| > 0 then t else "error"
    case None => "error"
  }

  function Spread(e: Thrown): (c: ErrorCopy)
    ensures c.name.Some? <==> e.nameIsOwn
    ensures c.name.Some? ==> c.name.value == e.name
    ensures c.message == e.message && c.code == e.code && c.statusCode == EffectiveStatus(e)
    ensures c.isOperational == e.isOperational && c.details == e.details
  {
    ErrorCopy(if e.nameIsOwn then Some(e.name) else None, e.message, e.code, e.keyValueKeys, e.fieldMessages,
              EffectiveStatus(e), EffectiveStatusText(e), e.isOperational, e.details)
  }

  /** `handleMongoError`, given the copy. */
  function HandleMongoError(e: ErrorCopy): (a: AppError)
    ensures a.isOperational && a.details.None?
    ensures e.code == Some(DUPLICATE_KEY_CODE) ==>
      a.statusCode == CONFLICT && a.message == DuplicateField(e.keyValueKeys) + " already exists"
    ensures e.code != Some(DUPLICATE_KEY_CODE) && e.name == Some("CastError") ==>
      a.statusCode == BAD_REQUEST && a.message == "Invalid ID format"
    ensures e.code != Some(DUPLICATE_KEY_CODE) && e.name == Some("ValidationError") ==>
      a.statusCode == BAD_REQUEST && a.message == Join(e.fieldMessages, ". ")
    ensures e.code != Some(DUPLICATE_KEY_CODE) && e.name != Some("CastError") && e.name != Some("ValidationError") ==>
      a.statusCode == INTERNAL_SERVER_ERROR && a.message == MSG_DATABASE_ERROR
  {
    if e.code == Some(DUPLICATE_KEY_CODE) then
      NewAppError(DuplicateField(e.keyValueKeys) + " already exists", Some(CONFLICT), None)
    else if e.name == Some("CastError") then
      NewAppError("Invalid ID format", Some(BAD_REQUEST), None)
    else if e.name == Some("ValidationError") then
      NewAppError(Join(e.fieldMessages, ". "), Some(BAD_REQUEST), None)
    else
      NewAppError(MSG_DATABASE_ERROR, Some(INTERNAL_SERVER_ERROR), None)
  }

  /** `handleJWTError`, given the copy: always 401, the message chosen by
      the copied name. */
  function HandleJwtError(e: ErrorCopy): (a: AppError)
    ensures a.statusCode == UNAUTHORIZED && a.isOperational && a.details.None?
    ensures a.message == (if e.name == Some("JsonWebTokenError") then "Invalid token"
                          else if e.name == Some("TokenExpiredError") then "Token expired"
                          else "Authentication failed")
  {
    var message :=
      if e.name == Some("JsonWebTokenError") then "Invalid token"
      else if e.name == Some("TokenExpiredError") then "Token expired"
      else "Authentication failed";
    NewAppError(message, Some(UNAUTHORIZED), None)
  }

  /** `handleValidationError`: the constructor has no fourth parameter, so
      the collected details are dropped. */
  function HandleJoiError(e: ErrorCopy): (a: AppError)
    ensures a.statusCode == UNPROCESSABLE_ENTITY && a.details.None? && a.isOperational
    ensures a.message == MSG_VALIDATION_ERROR
  {
    NewAppError(MSG_VALIDATION_ERROR, Some(UNPROCESSABLE_ENTITY), Some(true))
  }

  /** Which branch of the handler's `if` chain an error takes. */
  datatype Route = MongoRoute | JwtRoute | JoiRoute | AsIs

  /** The first test reads the copy, the other two the original error. */
  function Classify(e: Thrown): (r: Route)
    ensures r == MongoRoute <==>
      e.code == Some(DUPLICATE_KEY_CODE) || (e.nameIsOwn && (e.name == "ValidationError" || e.name == "CastError"))
    ensures r == JoiRoute ==> e.name == "ValidationError" && e.isJoi && !e.nameIsOwn
  {
    var c := Spread(e);
    if c.code == Some(DUPLICATE_KEY_CODE) || c.name == Some("ValidationError") || c.name == Some("CastError") then MongoRoute
    else if e.name == "JsonWebTokenError" || e.name == "TokenExpiredError" then JwtRoute
    else if e.name == "ValidationError" && e.isJoi then JoiRoute
    else AsIs
  }

  /** `err.statusCode || 500`. */
  function EffectiveStatus(e: Thrown): (c: int)
    ensures c != 0
    ensures e.statusCode.None? || e.statusCode == Some(0) ==> c == INTERNAL_SERVER_ERROR
    ensures e.statusCode.Some? && e.statusCode.value != 0 ==> c == e.statusCode.value
  {
    match e.statusCode
    case Some(c) => if c == 0 then INTERNAL_SERVER_ERROR else c
    case None => INTERNAL_SERVER_ERROR
  }

  /** What the branches leave in `error`: the `AppError` a handler made, or
      the copy itself when no branch applies. */
  datatype Handled = Fresh(app: AppError) | Copy(copy: ErrorCopy)
  {
    function StatusCode(): int {
      match this case Fresh(a) => a.statusCode case Copy(c) => c.statusCode
    }
    function Message(): string {
      match this case Fresh(a) => a.message case Copy(c) => c.message
    }
    /** `err.isOperational`, read for truthiness. */
    predicate Operational() {
      match this case Fresh(a) => a.isOperational case Copy(c) => c.isOperational == Some(true)
    }
    function Details(): Option<seq<FieldError>> {
      match this case Fresh(a) => a.details case Copy(c) => c.details
    }
  }

  /** The error after classification, as the responders see it. */
  function Normalize(e: Thrown): (h: Handled)
    ensures h.StatusCode() != 0
    ensures Classify(e) == AsIs <==> h.Copy?
    ensures h.Copy? ==> h.copy == Spread(e) && h.StatusCode() == EffectiveStatus(e) && h.Message() == e.message
    ensures Classify(e) == JwtRoute ==> h.StatusCode() == UNAUTHORIZED && h.Operational()
    ensures Classify(e) == JoiRoute ==> h.StatusCode() == UNPROCESSABLE_ENTITY && h.Message() == MSG_VALIDATION_ERROR && h.Operational()
    ensures Classify(e) == MongoRoute ==> h.Operational() && h.StatusCode() in {CONFLICT, BAD_REQUEST, INTERNAL_SERVER_ERROR}
  {
    var c := Spread(e);
    match Classify(e)
    case MongoRoute => Fresh(HandleMongoError(c))
    case JwtRoute => Fresh(HandleJwtError(c))
    case JoiRoute => Fresh(HandleJoiError(c))
    case AsIs => Copy(c)
  }

  datatype Env = Development | Production

  /** The details of a validation error as the JSON array the client sees. */
  function DetailsValue(details: seq<FieldError>): (v: Value)
    ensures v.Arr? && |v.items| == |details|
  {
    Arr(seq(|details|, i requires 0 <= i < |details| =>
      Obj(map["field" := Str(details[i].field), "message" := Str(details[i].message)])))
  }

  function OptDetails(d: Option<seq<FieldError>>): Value {
    match d case Some(x) => DetailsValue(x) case None => Undefined
  }

  /** An `AppError` serialised: its own enumerable properties, which do not
      include the message. */
  function AppErrorValue(a: AppError): Value {
    Obj(map["statusCode" := Num(a.statusCode as real), "isOperational" := Bool(a.isOperational),
            "status" := Str(a.Status())])
  }

  /** The copy serialised, with the properties this model keeps. */
  function CopyValue(c: ErrorCopy): Value {
    Obj(map["name" := (match c.name case Some(n) => Str(n) case None => Undefined),
            "message" := Str(c.message),
            "code" := (match c.code case Some(k) => Num(k as real) case None => Undefined),
            "statusCode" := Num(c.statusCode as real),
            "status" := Str(c.status),
            "isOperational" := (match c.isOperational case Some(b) => Bool(b) case None => Undefined),
            "details" := OptDetails(c.details)])
  }

  /** `sendErrorProd`: operational errors keep status and message; anything
      else becomes a bare 500. */
  function SendErrorProd(h: Handled, timestamp: string): (r: (int, Envelope))
    ensures !r.1.Success() && r.1.statusCode == r.0
    ensures h.Operational() ==> r.0 == h.StatusCode() && r.1.message == h.Message()
    ensures !h.Operational() ==>
      r.0 == INTERNAL_SERVER_ERROR && r.1.message == "Something went wrong!" && r.1.errors == Null
  {
    if h.Operational() then
      var errors := match h.Details() case Some(d) => DetailsValue(d) case None => Null;
      (h.StatusCode(), ErrorResponse(Some(h.Message()), Some(h.StatusCode()), Some(errors), timestamp))
    else
      (INTERNAL_SERVER_ERROR, ErrorResponse(Some("Something went wrong!"), Some(INTERNAL_SERVER_ERROR), None, timestamp))
  }

  /** `sendErrorDev`: status and message always pass through. A fresh
      `AppError` sends its stack (the `stack` parameter) and its serialised
      self; the copy has no stack and is sent whole. */
  function SendErrorDev(h: Handled, stack: string, timestamp: string): (r: (int, Envelope))
    ensures !r.1.Success() && r.1.statusCode == r.0
    ensures r.0 == h.StatusCode() && r.1.message == h.Message()
    ensures r.1.errors.Obj? && "stack" in r.1.errors.fields && "error" in r.1.errors.fields
    ensures h.Fresh? ==> r.1.errors.fields["stack"] == Str(stack) && r.1.errors.fields["error"] == AppErrorValue(h.app)
    ensures h.Copy? ==> r.1.errors.fields["stack"] == Undefined && r.1.errors.fields["error"] == CopyValue(h.copy)
    ensures h.Details().Some? <==> "details" in r.1.errors.fields
  {
    var base := match h
      case Fresh(a) => map["stack" := Str(stack), "error" := AppErrorValue(a)]
      case Copy(c) => map["stack" := Undefined, "error" := CopyValue(c)];
    var errors := match h.Details() case Some(d) => base["details" := DetailsValue(d)] case None => base;
    (h.StatusCode(), ErrorResponse(Some(h.Message()), Some(h.StatusCode()), Some(Obj(errors)), timestamp))
  }

  /** `globalErrorHandler`: the HTTP status and the body sent. */
  function GlobalErrorHandler(e: Thrown, env: Env, stack: string, timestamp: string): (r: (int, Envelope))
    ensures !r.1.Success() && r.1.statusCode == r.0
    ensures Classify(e) == JwtRoute ==> r.0 == UNAUTHORIZED
    ensures Classify(e) == JoiRoute ==> r.0 == UNPROCESSABLE_ENTITY && r.1.message == MSG_VALIDATION_ERROR
    ensures e.code == Some(DUPLICATE_KEY_CODE) ==> r.0 == CONFLICT
    ensures env == Production && Classify(e) == AsIs && e.isOperational != Some(true) ==>
      r.0 == INTERNAL_SERVER_ERROR && r.1.message == "Something went wrong!"
    ensures env == Production && Classify(e) == AsIs && e.isOperational == Some(true) ==>
      r.0 == EffectiveStatus(e) && r.1.message == e.message
    ensures env == Development && Classify(e) == AsIs ==>
      r.0 == EffectiveStatus(e) && r.1.message == e.message && r.1.errors.Obj? && "stack" in r.1.errors.fields
      && r.1.errors.fields["stack"] == Undefined
  {
    var h := Normalize(e);
    match env
    case Development => SendErrorDev(h, stack, timestamp)
    case Production => SendErrorProd(h, timestamp)
  }

  /** Joi's `ValidationError` inherits its name, so the first test misses
      it, and the third branch answers 422 "Validation failed". */
  lemma JoiErrorAnswers422(e: Thrown, env: Env, stack: string, timestamp: string)
    requires e.name == "ValidationError" && !e.nameIsOwn && e.isJoi && e.code != Some(DUPLICATE_KEY_CODE)
    ensures Classify(e) == JoiRoute
    ensures GlobalErrorHandler(e, env, stack, timestamp).0 == UNPROCESSABLE_ENTITY
  {
  }

  /** A Mongoose `ValidationError` or `CastError` (name inherited, no
      duplicate key) takes no branch: in production it answers 500
      "Something went wrong!", in development 500 with its own message and
      no stack. */
  lemma MongooseErrorsFallThrough(e: Thrown, env: Env, stack: string, timestamp: string)
    requires e.name in {"ValidationError", "CastError"} && !e.nameIsOwn && !e.isJoi
    requires e.code != Some(DUPLICATE_KEY_CODE) && e.statusCode.None? && e.isOperational.None?
    ensures Classify(e) == AsIs
    ensures GlobalErrorHandler(e, env, stack, timestamp).0 == INTERNAL_SERVER_ERROR
    ensures env == Production ==> GlobalErrorHandler(e, env, stack, timestamp).1.message == "Something went wrong!"
    ensures env == Development ==> GlobalErrorHandler(e, env, stack, timestamp).1.message == e.message
  {
  }

  /** The validation errors that `register`, `updateProfile` and
      `updateUserRole` let through reach the client as a 500. */
  lemma SchemaRefusalsAnswer500(summary: string, errs: seq<PathError>, env: Env, stack: string, timestamp: string)
    ensures var r := GlobalErrorHandler(MongooseValidationError(summary, errs), env, stack, timestamp);
      r.0 == INTERNAL_SERVER_ERROR && (env == Production ==> r.1.message == "Something went wrong!")
  {
    MongooseErrorsFallThrough(MongooseValidationError(summary, errs), env, stack, timestamp);
  }

  /** A validation error that carries its name as an own property takes the
      first branch: 400 with the path messages joined. */
  lemma OwnNamedValidationError(e: Thrown, env: Env, stack: string, timestamp: string)
    requires e.name == "ValidationError" && e.nameIsOwn && e.code != Some(DUPLICATE_KEY_CODE)
    ensures GlobalErrorHandler(e, env, stack, timestamp).0 == BAD_REQUEST
    ensures GlobalErrorHandler(e, env, stack, timestamp).1.message == Join(e.fieldMessages, ". ")
  {
  }

  /** A thrown operational `AppError` keeps its status and message in every
      environment. */
  lemma AppErrorsPassThrough(a: AppError, env: Env, stack: string, timestamp: string)
    requires a.statusCode != 0 && a.isOperational
    ensures GlobalErrorHandler(Raise(a), env, stack, timestamp).0 == a.statusCode
    ensures GlobalErrorHandler(Raise(a), env, stack, timestamp).1.message == a.message
  {
  }

  /** A duplicate key surfaces as 409 whatever the environment. */
  lemma DuplicateKeyIsConflict(e: Thrown, env: Env, stack: string, timestamp: string)
    requires e.code == Some(DUPLICATE_KEY_CODE)
    ensures GlobalErrorHandler(e, env, stack, timestamp).0 == CONFLICT
  {
  }

  /** The token library's errors carry their own name, so both reach the
      JWT branch with their own message. */
  lemma TokenErrorsAnswer401(message: string, env: Env, stack: string, timestamp: string)
    ensures GlobalErrorHandler(TokenError("JsonWebTokenError", message), env, stack, timestamp).0 == UNAUTHORIZED
    ensures GlobalErrorHandler(TokenError("JsonWebTokenError", message), env, stack, timestamp).1.message == "Invalid token"
    ensures GlobalErrorHandler(TokenError("TokenExpiredError", message), env, stack, timestamp).1.message == "Token expired"
  {
  }
}

=== FILE: errors.dfy ===
/** The application's error taxonomy (src/common/error.js): `AppError` with its
    derived `status`, the HTTP status table, the default messages and the
    `createAppError` factories; plus `Thrown`, the shape of any error value
    that reaches the global error handler. */
module Errors {
  import opened Base
  import opened Text

  const OK: int := 200
  const CREATED: int := 201
  const NO_CONTENT: int := 204
  const BAD_REQUEST: int := 400
  const UNAUTHORIZED: int := 401
  const FORBIDDEN: int := 403
  const NOT_FOUND: int := 404
  const CONFLICT: int := 409
  const UNPROCESSABLE_ENTITY: int := 422
  const INTERNAL_SERVER_ERROR: int := 500
  const BAD_GATEWAY: int := 502
  const SERVICE_UNAVAILABLE: int := 503

  /** One entry of a validation error's `details`. */
  datatype FieldError = FieldError(field: string, message: string)

  datatype AppError = AppError(
    message: string,
    statusCode: int,
    isOperational: bool,
    details: Option<seq<FieldError>>)
  {
    /** 'fail' when the decimal text of the status code starts with '4'. */
    function Status(): string {
      if StartsWith(IntToString(statusCode), "4") then "fail" else "error"
    }
  }

  /** `new AppError(message, statusCode = 500, isOperational = true)`; an
      omitted argument is `None`. The constructor has no `details` slot. */
  function NewAppError(message: string, statusCode: Option<int>, isOperational: Option<bool>): (e: AppError)
    ensures e.message == message && e.details.None?
    ensures e.statusCode == (if statusCode.Some? then statusCode.value else 500)
    ensures e.isOperational == (isOperational.None? || isOperational.value)
  {
    AppError(
      message,
      match statusCode case Some(c) => c case None => INTERNAL_SERVER_ERROR,
      match isOperational case Some(b) => b case None => true,
      None)
  }

  /** For every three-digit status code, `status` is 'fail' exactly for 4xx. */
  lemma StatusOfThreeDigitCodes(e: AppError)
    requires 100 <= e.statusCode <= 999
    ensures e.Status() == "fail" <==> 400 <= e.statusCode <= 499
  {
    ThreeDigitLead(e.statusCode);
    var t := IntToString(e.statusCode);
    assert t == NatToString(e.statusCode);
    assert StartsWith(t, "4") <==> t[0] == '4';
  }

  /** A negative code's text starts with '-', so its status is 'error'. */
  lemma StatusOfNegativeCodes(e: AppError)
    requires e.statusCode < 0
    ensures e.Status() == "error"
  {
    assert IntToString(e.statusCode)[0] == '-';
  }

  // ERROR_MESSAGES entries used as factory defaults and by the services
  const MSG_UNAUTHORIZED := "Authentication required"
  const MSG_FORBIDDEN := "Access denied"
  const MSG_INVALID_CREDENTIALS := "Invalid email or password"
  const MSG_USER_NOT_FOUND := "User not found"
  const MSG_EMAIL_ALREADY_EXISTS := "Email already exists"
  const MSG_VALIDATION_ERROR := "Validation failed"
  const MSG_DATABASE_ERROR := "Database operation failed"
  const MSG_DUPLICATE_ENTRY := "Duplicate entry"
  const MSG_INTERNAL_ERROR := "Internal server error"
  const MSG_NOT_FOUND := "Resource not found"
  const MSG_BAD_REQUEST := "Bad request"

  /** The keys of `createAppError`. */
  datatype Factory = BadRequest | Unauthorized | Forbidden | NotFound | Conflict | Validation | Internal

  function FactoryStatus(f: Factory): int {
    match f
    case BadRequest => BAD_REQUEST
    case Unauthorized => UNAUTHORIZED
    case Forbidden => FORBIDDEN
    case NotFound => NOT_FOUND
    case Conflict => CONFLICT
    case Validation => UNPROCESSABLE_ENTITY
    case Internal => INTERNAL_SERVER_ERROR
  }

  function DefaultMessage(f: Factory): string {
    match f
    case BadRequest => MSG_BAD_REQUEST
    case Unauthorized => MSG_UNAUTHORIZED
    case Forbidden => MSG_FORBIDDEN
    case NotFound => MSG_NOT_FOUND
    case Conflict => MSG_DUPLICATE_ENTRY
    case Validation => MSG_VALIDATION_ERROR
    case Internal => MSG_INTERNAL_ERROR
  }

  /** `createAppError.<f>(message)`, with the default message when omitted. */
  function Create(f: Factory, message: Option<string>): (e: AppError)
    ensures e.isOperational && e.details.None?
    ensures e.statusCode == FactoryStatus(f)
    ensures e.message == (if message.Some? then message.value else DefaultMessage(f))
  {
    NewAppError(match message case Some(m) => m case None => DefaultMessage(f), Some(FactoryStatus(f)), None)
  }

  /** Shorthand for a factory call with an explicit message. */
  function Make(f: Factory, message: string): AppError {
    Create(f, Some(message))
  }

  /** Every factory but `internal` yields a client error ('fail'), and the
      seven factories yield seven distinct status codes. */
  lemma FactoryClassification(f: Factory, g: Factory, m: Option<string>)
    ensures Create(f, m).Status() == "fail" <==> f != Internal
    ensures FactoryStatus(f) == FactoryStatus(g) ==> f == g
  {
    StatusOfThreeDigitCodes(Create(f, m));
  }

  /** Any error value that reaches the global handler, with the properties
      the handler inspects. `name` is the name the error reports;
      `nameIsOwn` says whether it is an own enumerable property set by the
      constructor (the token library's errors) rather than inherited from a
      prototype (`Error`, `AppError`, Mongoose's and Joi's validation errors,
      `CastError`). Missing JavaScript properties are `None`, `[]` or
      `false`; `isJoi` is read through the prototype. */
  datatype Thrown = Thrown(
    name: string,
    nameIsOwn: bool,
    message: string,
    code: Option<int>,
    keyValueKeys: seq<string>,
    fieldMessages: seq<string>,
    statusCode: Option<int>,
    status: Option<string>,
    isOperational: Option<bool>,
    isJoi: bool,
    details: Option<seq<FieldError>>)

  /** An `AppError` as a thrown value: its `name` is the inherited 'Error',
      and `statusCode`, `isOperational` and `status` are its own. */
  function Raise(e: AppError): (t: Thrown)
    ensures t.statusCode == Some(e.statusCode) && t.message == e.message
    ensures t.isOperational == Some(e.isOperational) && t.code.None? && !t.nameIsOwn
    ensures t.status == Some(e.Status())
  {
    Thrown("Error", false, e.message, None, [], [], Some(e.statusCode), Some(e.Status()), Some(e.isOperational), false, e.details)
  }

  /** A plain `Error` (`new Error(message)`), which is not operational. */
  function PlainError(message: string): (t: Thrown)
    ensures t.message == message && t.isOperational.None? && t.statusCode.None? && !t.nameIsOwn
  {
    Thrown("Error", false, message, None, [], [], None, None, None, false, None)
  }

  /** An error of the token library, which sets `name` in its constructor. */
  function TokenError(name: string, message: string): (t: Thrown)
    ensures t.name == name && t.nameIsOwn && t.message == message && t.isOperational.None?
  {
    Thrown(name, true, message, None, [], [], None, None, None, false, None)
  }

  /** One failed path of a document validation. */
  datatype PathError = PathError(path: string, message: string)

  function PathMessages(errs: seq<PathError>): (ms: seq<string>)
    ensures |ms| == |errs| && forall i :: 0 <= i < |errs| ==> ms[i] == errs[i].message
  {
    seq(|errs|, i requires 0 <= i < |errs| => errs[i].message)
  }

  /** Mongoose's `ValidationError`: its `name` lives on the prototype,
      `errors` holds one entry per failed path, and the message lists them
      after `summary` ("User validation failed" when a document is saved,
      "Validation failed" when an update is validated). */
  function MongooseValidationError(summary: string, errs: seq<PathError>): (t: Thrown)
    ensures t.name == "ValidationError" && !t.nameIsOwn && !t.isJoi
    ensures t.fieldMessages == PathMessages(errs) && t.code.None? && t.statusCode.None? && t.isOperational.None?
    ensures |t.message| >= |summary| && t.message[..|summary|] == summary
  {
    var listed := seq(|errs|, i requires 0 <= i < |errs| => errs[i].path + ": " + errs[i].message);
    Thrown("ValidationError", false, summary + ": " + Join(listed, ", "),
           None, [], PathMessages(errs), None, None, None, false, None)
  }
}

=== FILE: helpers.dfy ===
/** The pure string and value helpers of src/utils/helpers.js (the
    pagination pair lives in the Pagination module). Case mapping is ASCII;
    values that are not strings are `Json.Value`s. */
module Helpers {
  import opened Base
  import opened Text
  import opened Json

  // --------------------------------------------------------- sanitizeString

  predicate IsAngle(c: char) { c == '<' || c == '>' }

  /** `str.replace(/[<>]/g, '')`. */
  function RemoveAngles(s: string): (r: string)
    ensures |r| <= |s|
    ensures forall i :: 0 <= i < |r| ==> !IsAngle(r[i]) && r[i] in s
    ensures forall i :: 0 <= i < |s| && !IsAngle(s[i]) ==> s[i] in r
    ensures (forall i :: 0 <= i < |s| ==> !IsAngle(s[i])) ==> r == s
  {
    if |s| == 0 then []
    else if IsAngle(s[0]) then RemoveAngles(s[1..])
    else [s[0]] + RemoveAngles(s[1..])
  }

  /** `sanitizeString(value)`: strings lose their angle brackets, anything
      else comes back as it was. */
  function SanitizeString(v: Value): (r: Value)
    ensures !v.Str? ==> r == v
    ensures v.Str? ==> r.Str? && r.s == RemoveAngles(v.s)
  {
    match v
    case Str(s) => Str(RemoveAngles(s))
    case _ => v
  }

  lemma SanitizeIdempotent(v: Value)
    ensures SanitizeString(SanitizeString(v)) == SanitizeString(v)
  {
  }

  // ---------------------------------------------------------------- isEmpty

  /** `isEmpty(value)`: null, undefined, the empty string, and arrays or
      objects without keys. */
  function IsEmpty(v: Value): (r: bool)
    ensures r <==> v == Null || v == Undefined || v == Str("") || v == Arr([]) || (v.Obj? && |v.fields| == 0)
  {
    match v
    case Undefined => true
    case Null => true
    case Str(s) => s == ""
    case Arr(items) => |items| == 0
    case Obj(fields) => |fields| == 0
    case _ => false
  }

  /** Emptiness is not falsiness: zero and false are not empty, and an
      empty array is empty although truthy. */
  lemma EmptyIsNotFalsy()
    ensures !IsEmpty(Num(0.0)) && !Num(0.0).Truthy()
    ensures !IsEmpty(Bool(false)) && !Bool(false).Truthy()
    ensures IsEmpty(Arr([])) && Arr([]).Truthy()
  {
  }

  // ----------------------------------------------------------------- toSlug

  /** Kept by `/[^\w\s-]/g` removal. */
  predicate IsSlugSource(c: char) { IsWordChar(c) || IsSpace(c) || c == '-' }

  /** Collapsed by `/[\s_-]+/g`. */
  predicate IsSeparator(c: char) { IsSpace(c) || c == '_' || c == '-' }

  function KeepSlugSource(s: string): (r: string)
    ensures forall c :: c in r ==> IsSlugSource(c) && c in s
  {
    if |s| == 0 then []
    else if IsSlugSource(s[0]) then [s[0]] + KeepSlugSource(s[1..])
    else KeepSlugSource(s[1..])
  }

  /** Every maximal run of separators becomes one '-'; `inRun` says the
      previous character was a separator. */
  function CollapseSeparators(s: string, inRun: bool): (r: string)
    ensures forall c :: c in r ==> c == '-' || (c in s && !IsSeparator(c))
    ensures inRun && |r| > 0 ==> r[0] != '-'
    ensures forall i :: 0 <= i < |r| - 1 ==> !(r[i] == '-' && r[i + 1] == '-')
  {
    if |s| == 0 then []
    else if IsSeparator(s[0]) then
      if inRun then CollapseSeparators(s[1..], true) else ['-'] + CollapseSeparators(s[1..], true)
    else [s[0]] + CollapseSeparators(s[1..], false)
  }

  function DropLeadingDashes(s: string): (r: string)
    ensures |r| <= |s| && r == s[|s| - |r|..]
    ensures |r| > 0 ==> r[0] != '-'
  {
    if |s| > 0 && s[0] == '-' then DropLeadingDashes(s[1..]) else s
  }

  function DropTrailingDashes(s: string): (r: string)
    ensures |r| <= |s| && r == s[..|r|]
    ensures |r| > 0 ==> r[|r| - 1] != '-'
  {
    if |s| > 0 && s[|s| - 1] == '-' then DropTrailingDashes(s[..|s| - 1]) else s
  }

  predicate IsSlugChar(c: char) { IsLower(c) || IsDigit(c) || c == '-' }

  /** `toSlug(str)`: lowercase, trim, drop everything but word characters,
      white space and '-', collapse separator runs to '-', strip '-' at both
      ends. */
  function ToSlug(s: string): (r: string)
    ensures forall i :: 0 <= i < |r| ==> IsSlugChar(r[i])
    ensures |r| > 0 ==> r[0] != '-' && r[|r| - 1] != '-'
    ensures forall i :: 0 <= i < |r| - 1 ==> !(r[i] == '-' && r[i + 1] == '-')
  {
    SlugShape(s);
    DropTrailingDashes(DropLeadingDashes(CollapseSeparators(KeepSlugSource(Trim(Lower(s))), false)))
  }

  lemma SlugShape(s: string)
    ensures var r := DropTrailingDashes(DropLeadingDashes(CollapseSeparators(KeepSlugSource(Trim(Lower(s))), false)));
      (forall i :: 0 <= i < |r| ==> IsSlugChar(r[i]))
      && (|r| > 0 ==> r[0] != '-' && r[|r| - 1] != '-')
      && (forall i :: 0 <= i < |r| - 1 ==> !(r[i] == '-' && r[i + 1] == '-'))
  {
    var trimmed := Trim(Lower(s));
    LowerThenTrim(s);
    CollapsedChars(trimmed);
    DropDashesKeepsSlice(CollapseSeparators(KeepSlugSource(trimmed), false));
  }

  /** Dropping the dashes at both ends leaves a contiguous piece: its
      characters are slug characters if the original's were, and no two
      dashes meet in it that did not meet before. */
  lemma DropDashesKeepsSlice(collapsed: string)
    requires forall c :: c in collapsed ==> IsSlugChar(c)
    requires forall i :: 0 <= i < |collapsed| - 1 ==> !(collapsed[i] == '-' && collapsed[i + 1] == '-')
    ensures var r := DropTrailingDashes(DropLeadingDashes(collapsed));
      (forall i :: 0 <= i < |r| ==> IsSlugChar(r[i]))
      && (forall i :: 0 <= i < |r| - 1 ==> !(r[i] == '-' && r[i + 1] == '-'))
  {
    var d := DropLeadingDashes(collapsed);
    SliceKeepsShape(collapsed, |collapsed| - |d|, |collapsed|);
    var r := DropTrailingDashes(d);
    SliceKeepsShape(d, 0, |r|);
  }

  /** Any contiguous piece of a text made of slug characters without a
      double dash is one too. */
  lemma SliceKeepsShape(s: string, a: nat, b: nat)
    requires a <= b <= |s|
    requires forall c :: c in s ==> IsSlugChar(c)
    requires forall i :: 0 <= i < |s| - 1 ==> !(s[i] == '-' && s[i + 1] == '-')
    ensures forall c :: c in s[a..b] ==> IsSlugChar(c)
    ensures forall i :: 0 <= i < b - a - 1 ==> !(s[a..b][i] == '-' && s[a..b][i + 1] == '-')
  {
    var t := s[a..b];
    forall i | 0 <= i < b - a - 1 ensures !(t[i] == '-' && t[i + 1] == '-') {
      assert t[i] == s[a + i] && t[i + 1] == s[a + i + 1];
    }
  }

  lemma LowerThenTrim(s: string)
    ensures forall c :: c in Trim(Lower(s)) ==> !IsUpper(c)
  {
    TrimKeepsNoUpper(Lower(s));
  }

  lemma CollapsedChars(t: string)
    requires forall c :: c in t ==> !IsUpper(c)
    ensures forall c :: c in CollapseSeparators(KeepSlugSource(t), false) ==> IsSlugChar(c)
  {
  }

  /** A slug: slug characters only, no '-' at either end, no two '-' in a
      row; what `toSlug` produces. */
  predicate IsSlug(s: string) {
    (forall i :: 0 <= i < |s| ==> IsSlugChar(s[i]))
    && (|s| > 0 ==> s[0] != '-' && s[|s| - 1] != '-')
    && (forall i :: 0 <= i < |s| - 1 ==> !(s[i] == '-' && s[i + 1] == '-'))
  }

  /** A slug is its own slug. */
  lemma SlugFixpoint(s: string)
    requires IsSlug(s)
    ensures ToSlug(s) == s
  {
    TrimLowerOfSlug(s);
    KeepSlugSourceOfSlug(s);
    CollapseOfSlug(s, false);
    assert DropLeadingDashes(s) == s;
    assert DropTrailingDashes(s) == s;
  }

  lemma TrimLowerOfSlug(s: string)
    requires IsSlug(s)
    ensures Trim(Lower(s)) == s
  {
    assert Lower(s) == s by {
      forall i | 0 <= i < |s| ensures Lower(s)[i] == s[i] {
        assert !IsUpper(s[i]);
      }
    }
    assert |s| > 0 ==> !IsSpace(s[0]) && !IsSpace(s[|s| - 1]);
    TrimStartNoop(s);
    assert |s| > 0 ==> TrimEnd(s) == s;
  }

  /** Slugging twice changes nothing more. */
  lemma ToSlugIdempotent(s: string)
    ensures ToSlug(ToSlug(s)) == ToSlug(s)
  {
    SlugFixpoint(ToSlug(s));
  }

  lemma {:induction false} KeepSlugSourceOfSlug(s: string)
    requires forall i :: 0 <= i < |s| ==> IsSlugChar(s[i])
    ensures KeepSlugSource(s) == s
  {
    if |s| > 0 {
      KeepSlugSourceOfSlug(s[1..]);
    }
  }

  /** With no separator but single dashes, and no dash right after a run,
      collapsing changes nothing. */
  lemma {:induction false} CollapseOfSlug(s: string, inRun: bool)
    requires forall i :: 0 <= i < |s| ==> IsSlugChar(s[i])
    requires forall i :: 0 <= i < |s| - 1 ==> !(s[i] == '-' && s[i + 1] == '-')
    requires inRun && |s| > 0 ==> s[0] != '-'
    ensures CollapseSeparators(s, inRun) == s
  {
    if |s| > 0 {
      CollapseOfSlug(s[1..], s[0] == '-');
      assert s == [s[0]] + s[1..];
    }
  }

  // ------------------------------------------------------------- capitalize

  /** `capitalize(str)`: first character upper case, the rest lower case. */
  function Capitalize(s: string): (r: string)
    ensures |r| == |s|
    ensures |s| > 0 ==> r[0] == UpperChar(s[0]) && !IsLower(r[0])
    ensures forall i :: 1 <= i < |s| ==> r[i] == LowerChar(s[i]) && !IsUpper(r[i])
  {
    if |s| == 0 then "" else [UpperChar(s[0])] + Lower(s[1..])
  }

  lemma CapitalizeIdempotent(s: string)
    ensures Capitalize(Capitalize(s)) == Capitalize(s)
  {
    var c := Capitalize(s);
    assert forall i :: 0 <= i < |c| ==> Capitalize(c)[i] == c[i];
  }

  // --------------------------------------------------- camel and snake case

  /** `camelToSnake(str)`: every upper-case letter becomes '_' and its
      lower-case form. */
  function CamelToSnake(s: string): (r: string)
    ensures forall i :: 0 <= i < |r| ==> !IsUpper(r[i])
    ensures |r| >= |s|
    ensures (forall i :: 0 <= i < |s| ==> !IsUpper(s[i])) ==> r == s
  {
    if |s| == 0 then []
    else if IsUpper(s[0]) then ['_', LowerChar(s[0])] + CamelToSnake(s[1..])
    else [s[0]] + CamelToSnake(s[1..])
  }

  /** `snakeToCamel(str)`: each '-' or '_' followed by a lower-case letter
      becomes that letter in upper case, scanning left to right. */
  function SnakeToCamel(s: string): (r: string)
    ensures |r| <= |s|
  {
    if |s| == 0 then []
    else if |s| >= 2 && (s[0] == '-' || s[0] == '_') && IsLower(s[1]) then [UpperChar(s[1])] + SnakeToCamel(s[2..])
    else [s[0]] + SnakeToCamel(s[1..])
  }

  /** Converting to snake case and back restores any string that had no
      '_' or '-' to begin with. */
  lemma {:induction false} SnakeToCamelInvertsCamelToSnake(s: string)
    requires '_' !in s && '-' !in s
    ensures SnakeToCamel(CamelToSnake(s)) == s
  {
    if |s| > 0 {
      assert s == [s[0]] + s[1..];
      SnakeToCamelInvertsCamelToSnake(s[1..]);
      var rest := CamelToSnake(s[1..]);
      if IsUpper(s[0]) {
        assert CamelToSnake(s) == ['_', LowerChar(s[0])] + rest;
        SnakeStepUpper(s[0], rest);
      } else {
        assert CamelToSnake(s) == [s[0]] + rest;
        SnakeStepOther(s[0], rest);
      }
    }
  }

  /** '_' before a lower-cased capital turns back into the capital. */
  lemma SnakeStepUpper(c: char, rest: string)
    requires IsUpper(c)
    ensures SnakeToCamel(['_', LowerChar(c)] + rest) == [c] + SnakeToCamel(rest)
  {
    var t := ['_', LowerChar(c)] + rest;
    assert t[2..] == rest;
    assert IsLower(t[1]) && UpperChar(t[1]) == c;
  }

  /** Any character but a separator is copied. */
  lemma SnakeStepOther(c: char, rest: string)
    requires c != '_' && c != '-'
    ensures SnakeToCamel([c] + rest) == [c] + SnakeToCamel(rest)
  {
    assert ([c] + rest)[1..] == rest;
  }

  // ------------------------------------------------------------- isValidEmail

  predicate IsEmailChar(c: char) { !IsSpace(c) && c != '@' }

  predicate AllEmailChars(s: string) {
    forall i :: 0 <= i < |s| ==> IsEmailChar(s[i])
  }

  /** The shape `/^[^\s@]+@[^\s@]+\.[^\s@]+$/` accepts: one '@' after a
      non-empty local part, then a '.' with something on both sides, and no
      white space or further '@' anywhere. */
  ghost predicate EmailRegexMatches(s: string) {
    exists at, dot :: 0 < at && at + 1 < dot && dot + 1 < |s| && s[at] == '@' && s[dot] == '.'
      && AllEmailChars(s[..at]) && AllEmailChars(s[at + 1..])
  }

  function IndexOf(s: string, c: char): (r: Option<nat>)
    ensures r.Some? ==> r.value < |s| && s[r.value] == c && c !in s[..r.value]
    ensures r.None? <==> c !in s
  {
    if |s| == 0 then None
    else if s[0] == c then Some(0)
    else match IndexOf(s[1..], c)
      case None => None
      case Some(k) =>
        assert s[..k + 1] == [s[0]] + s[1..][..k];
        Some(k + 1)
  }

  /** `isValidEmail(email)`. */
  function IsValidEmail(s: string): (r: bool)
  {
    match IndexOf(s, '@')
    case None => false
    case Some(at) =>
      at > 0 && AllEmailChars(s[..at]) && AllEmailChars(s[at + 1..])
      && exists dot :: at + 1 < dot < |s| - 1 && s[dot] == '.'
  }

  /** The check accepts exactly the strings the regular expression does. */
  lemma IsValidEmailMatchesRegex(s: string)
    ensures IsValidEmail(s) <==> EmailRegexMatches(s)
  {
    if EmailRegexMatches(s) {
      var at, dot :| 0 < at && at + 1 < dot && dot + 1 < |s| && s[at] == '@' && s[dot] == '.'
        && AllEmailChars(s[..at]) && AllEmailChars(s[at + 1..]);
      assert '@' !in s[..at];
      assert IndexOf(s, '@').value == at;
    }
  }

  /** The helper's four conditions, as stated: one '@', no white space, a
      non-empty local part, and a domain with a '.' neither first nor last. */
  lemma IsValidEmailConditions(s: string, at: nat)
    requires at < |s| && s[at] == '@'
    ensures IsValidEmail(s) <==>
      (forall i :: 0 <= i < |s| && i != at ==> s[i] != '@')
      && (forall i :: 0 <= i < |s| ==> !IsSpace(s[i]))
      && at > 0
      && (exists dot :: at + 1 < dot < |s| - 1 && s[dot] == '.')
  {
    var k := IndexOf(s, '@').value;
    if IsValidEmail(s) {
      assert k == at;
      forall i | 0 <= i < |s| && i != at ensures s[i] != '@' && !IsSpace(s[i]) {
        if i < at { assert s[..at][i] == s[i]; } else { assert s[at + 1..][i - at - 1] == s[i]; }
      }
    }
  }

  // ------------------------------------------------------------- maskString

  function Stars(n: nat): (r: string)
    ensures |r| == n && forall i :: 0 <= i < n ==> r[i] == '*'
  {
    if n == 0 then [] else ['*'] + Stars(n - 1)
  }

  /** The number of characters `maskString` leaves visible when its caller
      gives none. */
  const MASK_VISIBLE_DEFAULT: nat := 4

  /** `maskString(str, visibleChars)`: all but the first `visible`
      characters become '*'; an absent, empty or short string is returned
      as it was. A caller that omits `visibleChars` gets
      `MASK_VISIBLE_DEFAULT`. */
  function MaskString(s: Option<string>, visible: nat): (r: Option<string>)
    ensures s.None? ==> r.None?
    ensures s.Some? ==> r.Some? && |r.value| == |s.value|
    ensures s.Some? && |s.value| <= visible ==> r == s
    ensures s.Some? ==> forall i :: 0 <= i < |s.value| && i < visible ==> r.value[i] == s.value[i]
    ensures s.Some? ==> forall i :: visible <= i < |s.value| ==> r.value[i] == '*'
  {
    match s
    case None => None
    case Some(t) => if |t| == 0 || |t| <= visible then s else Some(t[..visible] + Stars(|t| - visible))
  }

  /** Masking twice changes nothing more. */
  lemma MaskIdempotent(s: Option<string>, visible: nat)
    ensures MaskString(MaskString(s, visible), visible) == MaskString(s, visible)
  {
    if s.Some? {
      var once := MaskString(s, visible).value;
      var twice := MaskString(MaskString(s, visible), visible).value;
      assert |twice| == |once|;
      assert forall i :: 0 <= i < |once| ==> twice[i] == once[i];
    }
  }

  // -------------------------------------------------------- removeUndefined

  /** `removeUndefined(obj)`: the keys whose value is not undefined. */
  function RemoveUndefined(m: map<string, Value>): (r: map<string, Value>)
    ensures forall k :: k in r <==> k in m && m[k] != Undefined
    ensures forall k :: k in r ==> r[k] == m[k]
  {
    map k | k in m && m[k] != Undefined :: m[k]
  }
}

=== FILE: json.dfy ===
/** JavaScript values as they travel through request bodies, query strings
    and responses. Objects are key/value maps; key order is not modelled. */
module Json {

  datatype Value =
    | Undefined
    | Null
    | Bool(b: bool)
    | Num(n: real)
    | Str(s: string)
    | Arr(items: seq<Value>)
    | Obj(fields: map<string, Value>)
  {
    /** JavaScript truthiness. */
    predicate Truthy() {
      match this
      case Undefined => false
      case Null => false
      case Bool(b) => b
      case Num(n) => n != 0.0
      case Str(s) => |s| > 0
      case Arr(_) => true
      case Obj(_) => true
    }
  }

  /** An object with string-valued fields, the shape most records take. */
  function Field(fields: map<string, Value>, key: string): Value {
    if key in fields then fields[key] else Undefined
  }
}

=== FILE: jwt.dfy ===
/** The token helpers of src/utils/jwt.js. Signing, verification and
    decoding are parameters (the library's cryptography is not modelled);
    what is modelled is the payload normalisation, the option defaults, the
    header parsing and the expiry test. */
module Jwt {
  import opened Base
  import opened Text
  import opened Json
  import opened Errors
  import opened Password

  const DEFAULT_EXPIRES_IN := "7d"
  const DEFAULT_REFRESH_EXPIRES_IN := "30d"
  const DEFAULT_ISSUER := "sgms-backend"
  const DEFAULT_AUDIENCE := "sgms-frontend"
  const BEARER := "Bearer"

  /** The environment variables the helpers read; unset is `None`. */
  datatype JwtEnv = JwtEnv(
    expiresIn: Option<string>, refreshExpiresIn: Option<string>,
    issuer: Option<string>, audience: Option<string>)

  /** `process.env.X || fallback`: an unset or empty variable falls back. */
  function EnvOr(v: Option<string>, fallback: string): (r: string)
    ensures Present(v) ==> r == v.value
    ensures !Present(v) ==> r == fallback
  {
    if Present(v) then v.value else fallback
  }

  datatype SignOptions = SignOptions(expiresIn: string, issuer: string, audience: string)

  /** Options a caller passes; a key that is given replaces the default. */
  datatype Overrides = Overrides(expiresIn: Option<string>, issuer: Option<string>, audience: Option<string>)

  const NO_OVERRIDES := Overrides(None, None, None)

  /** `{ ...defaultOptions, ...options }` for signing. */
  function SignOptionsFor(env: JwtEnv, o: Overrides): (r: SignOptions)
    ensures r.expiresIn == OrElse(o.expiresIn, EnvOr(env.expiresIn, DEFAULT_EXPIRES_IN))
    ensures r.issuer == OrElse(o.issuer, EnvOr(env.issuer, DEFAULT_ISSUER))
    ensures r.audience == OrElse(o.audience, EnvOr(env.audience, DEFAULT_AUDIENCE))
  {
    SignOptions(OrElse(o.expiresIn, EnvOr(env.expiresIn, DEFAULT_EXPIRES_IN)),
                OrElse(o.issuer, EnvOr(env.issuer, DEFAULT_ISSUER)),
                OrElse(o.audience, EnvOr(env.audience, DEFAULT_AUDIENCE)))
  }

  /** With nothing set and nothing passed, the documented defaults. */
  lemma DefaultSignOptions()
    ensures SignOptionsFor(JwtEnv(None, None, None, None), NO_OVERRIDES)
         == SignOptions("7d", "sgms-backend", "sgms-frontend")
  {
  }

  /** What a caller hands `generateToken` as the payload. An object either
      has a `toString` (what it returns is given) or has none. Every object
      that inherits from `Object.prototype` has one, so only an object
      without a prototype has `toStringResult == None`. */
  datatype Payload =
    | StringPayload(s: string)
    | ObjectPayload(toStringResult: Option<string>, fields: map<string, Value>)
    | OtherPayload(asString: string)

  /** The payload actually signed. */
  function TokenPayload(p: Payload): (m: map<string, Value>)
    ensures p.StringPayload? ==> m == map["id" := Str(p.s)]
    ensures p.ObjectPayload? && p.toStringResult.Some? ==> m == map["id" := Str(p.toStringResult.value)]
    ensures p.ObjectPayload? && p.toStringResult.None? ==>
      forall k :: k in m <==> k in p.fields && p.fields[k] != Undefined
    ensures p.OtherPayload? ==> m == map["id" := Str(p.asString)]
    ensures !(p.ObjectPayload? && p.toStringResult.None?) ==> m.Keys == {"id"}
  {
    match p
    case StringPayload(s) => map["id" := Str(s)]
    case ObjectPayload(Some(t), _) => map["id" := Str(t)]
    case ObjectPayload(None, f) => map k | k in f && f[k] != Undefined :: f[k]
    case OtherPayload(d) => map["id" := Str(d)]
  }

  /** An ordinary object literal such as `{id: 'u1', role: 'USER'}` has the
      inherited `toString`, so its fields are not signed: the payload is
      `{id: "[object Object]"}` whatever they hold. */
  lemma PlainObjectPayload(fields: map<string, Value>)
    ensures TokenPayload(ObjectPayload(Some("[object Object]"), fields)) == map["id" := Str("[object Object]")]
  {
  }

  /** `generateToken(payload, options)`. */
  function GenerateToken(p: Payload, o: Overrides, env: JwtEnv,
                         sign: (map<string, Value>, SignOptions) -> string): (token: string)
    ensures token == sign(TokenPayload(p), SignOptionsFor(env, o))
  {
    sign(TokenPayload(p), SignOptionsFor(env, o))
  }

  /** The options of `generateRefreshToken`. */
  function RefreshOverrides(env: JwtEnv): Overrides {
    Overrides(Some(EnvOr(env.refreshExpiresIn, DEFAULT_REFRESH_EXPIRES_IN)), None, None)
  }

  datatype TokenPair = TokenPair(accessToken: string, refreshToken: string, tokenType: string, expiresIn: string)

  /** `generateTokenPair(payload)`: both tokens carry the same payload,
      issuer and audience; only the lifetime differs. */
  function GenerateTokenPair(p: Payload, env: JwtEnv,
                             sign: (map<string, Value>, SignOptions) -> string): (r: TokenPair)
    ensures r.tokenType == BEARER
    ensures r.expiresIn == EnvOr(env.expiresIn, DEFAULT_EXPIRES_IN)
    ensures r.accessToken == sign(TokenPayload(p), SignOptionsFor(env, NO_OVERRIDES))
    ensures r.refreshToken == sign(TokenPayload(p), SignOptionsFor(env, NO_OVERRIDES).(
      expiresIn := EnvOr(env.refreshExpiresIn, DEFAULT_REFRESH_EXPIRES_IN)))
    ensures SignOptionsFor(env, NO_OVERRIDES).expiresIn == r.expiresIn
  {
    TokenPair(GenerateToken(p, NO_OVERRIDES, env, sign), GenerateToken(p, RefreshOverrides(env), env, sign),
              BEARER, EnvOr(env.expiresIn, DEFAULT_EXPIRES_IN))
  }

  datatype VerifyOptions = VerifyOptions(issuer: string, audience: string)

  /** The options `verifyToken` hands the verifier: each one the caller
      gives replaces the environment's, which falls back to the default. */
  function VerifyOptionsFor(env: JwtEnv, issuer: Option<string>, audience: Option<string>): (r: VerifyOptions)
    ensures issuer.Some? ==> r.issuer == issuer.value
    ensures audience.Some? ==> r.audience == audience.value
    ensures issuer.None? ==> r.issuer == EnvOr(env.issuer, DEFAULT_ISSUER)
    ensures audience.None? ==> r.audience == EnvOr(env.audience, DEFAULT_AUDIENCE)
  {
    VerifyOptions(OrElse(issuer, EnvOr(env.issuer, DEFAULT_ISSUER)),
                  OrElse(audience, EnvOr(env.audience, DEFAULT_AUDIENCE)))
  }

  /** `verifyToken(token, options)`: a missing or empty token is refused
      before the verifier is consulted. */
  function VerifyToken(token: Option<string>, issuer: Option<string>, audience: Option<string>, env: JwtEnv,
                       verify: (string, VerifyOptions) -> Result<map<string, Value>, Thrown>): (r: Result<map<string, Value>, Thrown>)
    ensures !Present(token) ==> r == Err(Raise(Make(Unauthorized, "Token is required")))
    ensures Present(token) ==> r == verify(token.value, VerifyOptionsFor(env, issuer, audience))
  {
    if !Present(token) then Err(Raise(Make(Unauthorized, "Token is required")))
    else verify(token.value, VerifyOptionsFor(env, issuer, audience))
  }

  /** Signing and verifying agree on issuer and audience when neither
      side passes its own: the verifier is asked for exactly the issuer
      and audience the token was signed with, for every environment. So a
      token from `generateToken` (or either of `generateTokenPair`) is
      checked by `verifyToken` against the options it carries. */
  lemma SignAndVerifyAgree(env: JwtEnv, p: Payload, token: string,
                           sign: (map<string, Value>, SignOptions) -> string,
                           verify: (string, VerifyOptions) -> Result<map<string, Value>, Thrown>)
    requires token == GenerateToken(p, NO_OVERRIDES, env, sign) && token != ""
    ensures VerifyOptionsFor(env, None, None)
         == VerifyOptions(SignOptionsFor(env, NO_OVERRIDES).issuer, SignOptionsFor(env, NO_OVERRIDES).audience)
    ensures VerifyOptionsFor(env, None, None)
         == VerifyOptions(SignOptionsFor(env, RefreshOverrides(env)).issuer,
                          SignOptionsFor(env, RefreshOverrides(env)).audience)
    ensures VerifyToken(Some(token), None, None, env, verify)
         == verify(token, VerifyOptions(SignOptionsFor(env, NO_OVERRIDES).issuer,
                                        SignOptionsFor(env, NO_OVERRIDES).audience))
  {
  }

  /** `extractTokenFromHeader(authHeader)`: exactly two space-separated
      parts, the first being `Bearer`. */
  function ExtractTokenFromHeader(header: Option<string>): (r: Option<string>)
    ensures r.Some? ==> ' ' !in r.value
    ensures !Present(header) ==> r.None?
  {
    if !Present(header) then None
    else
      var parts := Split(header.value, ' ');
      if |parts| != 2 || parts[0] != BEARER then None else Some(parts[1])
  }

  /** The header `Bearer <t>` yields `t` back, for any `t` without a space
      (the empty token included); and only such headers yield a token. */
  lemma ExtractTokenFromHeaderExactly(header: string, t: string)
    ensures ExtractTokenFromHeader(Some(header)) == Some(t) <==> header == BEARER + " " + t && ' ' !in t
  {
    if header == BEARER + " " + t && ' ' !in t {
      SplitAtSeparator(BEARER, t, ' ');
      SplitNoSeparator(t, ' ');
      assert BEARER + [' '] + t == header;
    }
    if ExtractTokenFromHeader(Some(header)) == Some(t) {
      var parts := Split(header, ' ');
      JoinSplit(header, ' ');
      assert Join(parts, " ") == parts[0] + " " + Join(parts[1..], " ");
      assert parts[1..] == [t];
    }
  }

  /** The claims of a decoded token, as far as the expiry test reads them. */
  datatype Decoded = Decoded(exp: Option<int>)

  /** `isTokenExpired(token)`: no claims, no `exp` (or a zero one), or the
      current time at or past `exp` seconds. */
  function IsTokenExpired(token: string, now: int, decode: string -> Option<Decoded>): (r: bool)
    ensures decode(token).None? ==> r
    ensures decode(token).Some? && (decode(token).value.exp.None? || decode(token).value.exp == Some(0)) ==> r
    ensures decode(token).Some? && decode(token).value.exp.Some? && decode(token).value.exp.value != 0 ==>
      (r <==> now >= decode(token).value.exp.value * 1000)
  {
    match decode(token)
    case None => true
    case Some(d) =>
      match d.exp
      case None => true
      case Some(e) => e == 0 || now >= e * 1000
  }

  /** Once expired, a token stays expired. */
  lemma ExpiryIsPermanent(token: string, now: int, later: int, decode: string -> Option<Decoded>)
    requires now <= later && IsTokenExpired(token, now, decode)
    ensures IsTokenExpired(token, later, decode)
  {
  }

  /** A token is already expired at the first millisecond of its `exp`
      second, and not a millisecond before. */
  lemma ExpiryInstant(token: string, decode: string -> Option<Decoded>, e: int)
    requires decode(token) == Some(Decoded(Some(e))) && e != 0
    ensures IsTokenExpired(token, e * 1000, decode)
    ensures !IsTokenExpired(token, e * 1000 - 1, decode)
  {
  }
}

=== FILE: otp_model.dfy ===
/** One-time-password records and the store queries of
    src/models/otp.model.js. The store is a sequence in insertion order;
    `now` is the current time in milliseconds, passed explicitly. */
module OtpModel {
  import opened Base
  import opened Text

  /** Ten minutes, the lifetime of a code. */
  const OTP_TTL_MS: int := 600000
  /** Attempts after which a record can no longer be verified. */
  const MAX_OTP_ATTEMPTS: nat := 5

  /** The purpose of a code (the source's `CONSTANTS.OTP_TYPES`). */
  datatype OtpType = Registration | ResetPassword

  /** The payload a caller stages with a code: the pending registration, or
      the account whose password is being reset. */
  datatype StagedData =
    | RegistrationData(username: Option<string>, password: Option<string>, role: Option<string>,
                       fullName: Option<string>, phoneNumber: Option<string>)
    | ResetData(userId: Option<string>, email: Option<string>)

  /** The `userData` sub-document as the schema declares it: five optional
      strings, and no other paths. */
  datatype UserDataDoc = UserDataDoc(
    username: Option<string>, password: Option<string>, role: Option<string>,
    fullName: Option<string>, phoneNumber: Option<string>)

  /** What a save keeps of staged data: paths the schema does not declare
      (`userId`, `email`) are dropped, as a strict schema does. */
  function Persist(d: StagedData): (doc: UserDataDoc)
    ensures d.RegistrationData? ==>
      doc.username == d.username && doc.password == d.password && doc.role == d.role
      && doc.fullName == d.fullName && doc.phoneNumber == d.phoneNumber
    ensures d.ResetData? ==> doc == UserDataDoc(None, None, None, None, None)
  {
    match d
    case RegistrationData(u, p, r, f, ph) => UserDataDoc(u, p, r, f, ph)
    case ResetData(_, _) => UserDataDoc(None, None, None, None, None)
  }

  /** The `email` path's setters, `trim` then `lowercase`: what a save
      stores and what a filter on the path is cast to. Declared in the other
      order on the user schema; the two agree. */
  function OtpEmail(e: string): string {
    Lower(Trim(e))
  }

  /** The stored form is the user schema's; addresses differing in case, or
      already normalised, are one address. */
  lemma OtpEmailCanonical(e: string)
    ensures OtpEmail(e) == LowerTrim(e)
    ensures OtpEmail(OtpEmail(e)) == OtpEmail(e)
    ensures OtpEmail(Upper(e)) == OtpEmail(e)
  {
    TrimThenLower(e);
    TrimThenLower(LowerTrim(e));
    TrimThenLower(Upper(e));
    LowerTrimIdempotent(e);
    LowerTrimOfUpper(e);
  }

  datatype OtpRecord = OtpRecord(
    email: string,
    otpType: OtpType,
    code: string,
    attempts: nat,
    isUsed: bool,
    expiresAt: int,
    createdAt: int,
    userData: UserDataDoc)

  /** `isExpired()`: strictly past the expiry instant. */
  predicate IsExpired(r: OtpRecord, now: int) {
    now > r.expiresAt
  }

  /** `isMaxAttemptsReached()`. */
  predicate IsMaxAttemptsReached(r: OtpRecord) {
    r.attempts >= MAX_OTP_ATTEMPTS
  }

  /** `incrementAttempts()`: one more attempt, nothing else touched. */
  function IncrementAttempts(r: OtpRecord): (r': OtpRecord)
    ensures r'.attempts == r.attempts + 1
    ensures r'.(attempts := r.attempts) == r
  {
    r.(attempts := r.attempts + 1)
  }

  /** `markAsUsed()`: the used flag set, nothing else touched. */
  function MarkAsUsed(r: OtpRecord): (r': OtpRecord)
    ensures r'.isUsed
    ensures r'.(isUsed := r.isUsed) == r
  {
    r.(isUsed := true)
  }

  lemma MarkAsUsedIdempotent(r: OtpRecord)
    ensures MarkAsUsed(MarkAsUsed(r)) == MarkAsUsed(r)
    ensures MarkAsUsed(r).code == r.code && MarkAsUsed(r).attempts == r.attempts
    ensures MarkAsUsed(r).expiresAt == r.expiresAt
  {
  }

  /** The filter of `findValidOTP(email, code, type)`. */
  predicate IsValidFor(r: OtpRecord, email: string, code: string, t: OtpType, now: int) {
    r.email == OtpEmail(email) && r.code == code && r.otpType == t && !r.isUsed && r.expiresAt > now
  }

  /** `findValidOTP`: the first record with this email, code and type that
      is unused and expires strictly after `now`. */
  function FindValidOtp(store: seq<OtpRecord>, email: string, code: string, t: OtpType, now: int): (r: Option<nat>)
    ensures r.Some? ==> r.value < |store|
    ensures r.Some? ==> var x := store[r.value];
      x.email == OtpEmail(email) && x.code == code && x.otpType == t && !x.isUsed && x.expiresAt > now
    ensures r.None? <==> forall j :: 0 <= j < |store| ==> !IsValidFor(store[j], email, code, t, now)
  {
    FindFirst(store, x => IsValidFor(x, email, code, t, now))
  }

  /** Two spellings of one address find the same record. */
  lemma FindValidOtpSameAddress(store: seq<OtpRecord>, e1: string, e2: string, code: string, t: OtpType, now: int)
    requires OtpEmail(e1) == OtpEmail(e2)
    ensures FindValidOtp(store, e1, code, t, now) == FindValidOtp(store, e2, code, t, now)
  {
    assert forall j :: 0 <= j < |store| ==> (IsValidFor(store[j], e1, code, t, now) <==> IsValidFor(store[j], e2, code, t, now));
  }

  /** An address typed in capitals, or already in its stored form, finds
      what the address itself finds. */
  lemma FindValidOtpIgnoresCase(store: seq<OtpRecord>, email: string, code: string, t: OtpType, now: int)
    ensures FindValidOtp(store, Upper(email), code, t, now) == FindValidOtp(store, email, code, t, now)
    ensures FindValidOtp(store, OtpEmail(email), code, t, now) == FindValidOtp(store, email, code, t, now)
  {
    OtpEmailCanonical(email);
    FindValidOtpSameAddress(store, Upper(email), email, code, t, now);
    FindValidOtpSameAddress(store, OtpEmail(email), email, code, t, now);
  }

  /** A record found by `findValidOTP` is never expired, and at the expiry
      instant itself a record is neither expired nor found. */
  lemma ExpiryBoundary(store: seq<OtpRecord>, email: string, code: string, t: OtpType, now: int)
    ensures FindValidOtp(store, email, code, t, now).Some? ==>
      !IsExpired(store[FindValidOtp(store, email, code, t, now).value], now)
    ensures forall j :: 0 <= j < |store| && store[j].expiresAt == now ==>
      !IsExpired(store[j], now) && !IsValidFor(store[j], email, code, t, now)
  {
  }

  /** Records `cleanupExpiredOTPs` deletes. */
  predicate Purgeable(r: OtpRecord, now: int) {
    r.expiresAt < now || r.isUsed
  }

  /** `cleanupExpiredOTPs()`: delete every expired or used record. */
  function CleanupExpiredOtps(store: seq<OtpRecord>, now: int): (r: seq<OtpRecord>)
    ensures forall i :: 0 <= i < |r| ==> !r[i].isUsed && r[i].expiresAt >= now && r[i] in store
    ensures forall j :: 0 <= j < |store| && !Purgeable(store[j], now) ==> store[j] in r
    ensures multiset(r) <= multiset(store)
  {
    Filter(store, x => !Purgeable(x, now))
  }

  /** The filter of `getActiveOTPsForEmail(email, type)`. */
  predicate IsActive(r: OtpRecord, email: string, t: OtpType, now: int) {
    r.email == OtpEmail(email) && r.otpType == t && !r.isUsed && r.expiresAt > now
  }

  /** The number of active records for an email and purpose. */
  function ActiveCount(store: seq<OtpRecord>, email: string, t: OtpType, now: int): nat {
    Count(store, x => IsActive(x, email, t, now))
  }

  /** Two spellings of one address count the same active records. */
  lemma ActiveCountIgnoresCase(store: seq<OtpRecord>, e1: string, e2: string, t: OtpType, now: int)
    requires OtpEmail(e1) == OtpEmail(e2)
    ensures ActiveCount(store, e1, t, now) == ActiveCount(store, e2, t, now)
  {
    CountCongruent(store, x => IsActive(x, e1, t, now), x => IsActive(x, e2, t, now));
  }

  predicate NewestFirst(s: seq<OtpRecord>) {
    forall i, j :: 0 <= i < j < |s| ==> s[i].createdAt >= s[j].createdAt
  }

  function InsertNewestFirst(x: OtpRecord, s: seq<OtpRecord>): (r: seq<OtpRecord>)
    requires NewestFirst(s)
    ensures NewestFirst(r)
    ensures multiset(r) == multiset(s) + multiset{x}
    ensures |r| == |s| + 1
  {
    if |s| == 0 then [x]
    else if x.createdAt >= s[0].createdAt then [x] + s
    else
      var tail := InsertNewestFirst(x, s[1..]);
      assert s == [s[0]] + s[1..];
      NewestFirstCons(s, x, tail);
      [s[0]] + tail
  }

  /** Putting the head back in front of the tail with `x` inserted keeps the
      order, since `x` is older than the head. */
  lemma NewestFirstCons(s: seq<OtpRecord>, x: OtpRecord, tail: seq<OtpRecord>)
    requires |s| > 0 && NewestFirst(s) && x.createdAt < s[0].createdAt
    requires NewestFirst(tail) && multiset(tail) == multiset(s[1..]) + multiset{x}
    ensures NewestFirst([s[0]] + tail)
  {
    forall k | 0 <= k < |tail| ensures s[0].createdAt >= tail[k].createdAt {
      assert tail[k] in multiset(s[1..]) + multiset{x};
      if tail[k] != x {
        var j :| 0 <= j < |s[1..]| && s[1..][j] == tail[k];
        assert s[j + 1] == tail[k];
      }
    }
  }

  /** `.sort({ createdAt: -1 })`; records with equal `createdAt` keep
      their store order. */
  function SortNewestFirst(s: seq<OtpRecord>): (r: seq<OtpRecord>)
    ensures NewestFirst(r)
    ensures multiset(r) == multiset(s)
    ensures |r| == |s|
  {
    if |s| == 0 then []
    else
      assert s == [s[0]] + s[1..];
      InsertNewestFirst(s[0], SortNewestFirst(s[1..]))
  }

  /** `getActiveOTPsForEmail(email, type)`: the unused, unexpired records
      for this email and purpose, newest first. */
  function GetActiveOtpsForEmail(store: seq<OtpRecord>, email: string, t: OtpType, now: int): (r: seq<OtpRecord>)
    ensures NewestFirst(r)
    ensures forall i :: 0 <= i < |r| ==> IsActive(r[i], email, t, now) && r[i] in store
    ensures forall j :: 0 <= j < |store| && IsActive(store[j], email, t, now) ==> store[j] in r
    ensures |r| == ActiveCount(store, email, t, now)
  {
    var f := Filter(store, x => IsActive(x, email, t, now));
    CountIsFilterLength(store, x => IsActive(x, email, t, now));
    var r := SortNewestFirst(f);
    SameMembers(r, f);
    r
  }

  /** Sequences that are permutations of each other have the same members. */
  lemma SameMembers(a: seq<OtpRecord>, b: seq<OtpRecord>)
    requires multiset(a) == multiset(b)
    ensures forall i :: 0 <= i < |a| ==> a[i] in b
    ensures forall j :: 0 <= j < |b| ==> b[j] in a
  {
    forall i | 0 <= i < |a| ensures a[i] in b {
      assert a[i] in multiset(a);
    }
    forall j | 0 <= j < |b| ensures b[j] in a {
      assert b[j] in multiset(b);
    }
  }

  /** The head of the active list is the newest active record. */
  lemma {:induction false} HeadIsNewestActive(store: seq<OtpRecord>, email: string, t: OtpType, now: int)
    requires |GetActiveOtpsForEmail(store, email, t, now)| > 0
    ensures forall j :: 0 <= j < |store| && IsActive(store[j], email, t, now) ==>
      store[j].createdAt <= GetActiveOtpsForEmail(store, email, t, now)[0].createdAt
  {
    var r := GetActiveOtpsForEmail(store, email, t, now);
    forall j | 0 <= j < |store| && IsActive(store[j], email, t, now)
      ensures store[j].createdAt <= r[0].createdAt
    {
      assert store[j] in r;
      var k :| 0 <= k < |r| && r[k] == store[j];
      if k > 0 {
        assert r[0].createdAt >= r[k].createdAt;
      }
    }
  }

  /** The index of a record satisfying `p` with the greatest `createdAt`
      (the first such in store order): `findOne(filter).sort({createdAt: -1})`. */
  function NewestIndex(store: seq<OtpRecord>, p: OtpRecord -> bool): (r: Option<nat>)
    ensures r.Some? ==> r.value < |store| && p(store[r.value])
    ensures r.Some? ==> forall j :: 0 <= j < |store| && p(store[j]) ==> store[j].createdAt <= store[r.value].createdAt
    ensures r.None? <==> forall j :: 0 <= j < |store| ==> !p(store[j])
  {
    if |store| == 0 then None
    else
      match NewestIndex(store[1..], p)
      case None => if p(store[0]) then Some(0) else None
      case Some(k) =>
        if p(store[0]) && store[0].createdAt >= store[k + 1].createdAt then Some(0) else Some(k + 1)
  }

  /** The message of a save whose `email`, once trimmed, is empty: the
      `required` validator refuses an empty string. */
  const EMAIL_REQUIRED: string := "Path `email` is required."

  /** The message of a save missing the required `expiresAt` path. */
  const EXPIRES_AT_REQUIRED: string := "Path `expiresAt` is required."

  /** The expiry a save stores. `expiresAt` is a required path and schema
      validation runs before the pre-save hook, so a record without an
      expiry is refused with the required-path error and the hook's
      ten-minute default is never reached; a given expiry is kept. */
  function ExpiryOnSave(given: Option<int>): (e: Result<int, string>)
    ensures e.Ok? <==> given.Some?
    ensures e.Ok? ==> e.value == given.value
    ensures e.Err? ==> e.error == EXPIRES_AT_REQUIRED
  {
    match given
    case Some(x) => Ok(x)
    case None => Err(EXPIRES_AT_REQUIRED)
  }
}

=== FILE: otp_service.dfy ===
/** The one-time-password lifecycle of src/utils/otp.js: code generation,
    create (with the per-address cap), verify, resend (with the one-minute
    interval), status, and the explicit mark-as-used of the reset flow.
    Every operation takes the store and `now` and returns the new store;
    the three random bytes are a parameter, and whether the e-mail was
    delivered is a boolean the caller supplies. */
module OtpService {
  import opened Base
  import opened Text
  import opened Pagination
  import opened OtpModel

  /** One minute between two sends of the same record. */
  const RESEND_INTERVAL_MS: int := 60000
  /** At most this many active codes per address and purpose. */
  const MAX_ACTIVE_OTPS: nat := 3
  /** `crypto.randomBytes(3)` read as an unsigned big-endian integer. */
  const RANDOM_BOUND: nat := 16777216

  /** `isValidOTPFormat`: exactly six decimal digits. */
  predicate IsValidOtpFormat(s: string) {
    |s| == 6 && forall i :: 0 <= i < 6 ==> IsDigit(s[i])
  }

  /** `generateSecureOTPCode` for the random value `v`. */
  function GenerateSecureOtpCode(v: nat): (code: string)
    requires v < RANDOM_BOUND
    ensures IsValidOtpFormat(code) && code[0] != '0'
    ensures DigitsValue(code, false) == v % 900000 + 100000
  {
    var n := v % 900000 + 100000;
    SixDigitText(n);
    NoLeadingZero(n);
    DigitsValueOfText(n);
    NatToString(n)
  }

  /** `generateOTPCode` for the value `rand` of `Math.random()`, in exact
      arithmetic. */
  function GenerateOtpCode(rand: real): (code: string)
    requires 0.0 <= rand < 1.0
    ensures IsValidOtpFormat(code) && code[0] != '0'
  {
    var x := 100000.0 + rand * 900000.0;
    assert 100000.0 <= x < 1000000.0;
    var n := x.Floor;
    assert 100000 <= n <= 999999;
    SixDigitText(n);
    NoLeadingZero(n);
    NatToString(n)
  }

  /** `maskOTP`: six characters, at most the first two from the code. */
  function MaskOtp(code: Option<string>): (m: string)
    ensures |m| == 6
    ensures forall i :: 2 <= i < 6 ==> m[i] == '*'
    ensures code.Some? && |code.value| == 6 ==> m[..2] == code.value[..2]
    ensures !(code.Some? && |code.value| == 6) ==> m == "******"
  {
    if code.Some? && |code.value| == 6 then code.value[..2] + "****" else "******"
  }

  /** The ways an OTP operation fails. `TooManyRequests` stands for the
      source's `createAppError.tooManyRequests`, which the error module does
      not define; `DeliveryFailed` is the e-mail service's error passed on;
      `ValidationFailed` is the schema refusing a save. */
  datatype OtpError =
    | TooManyRequests(message: string)
    | NotFound
    | Expired
    | AlreadyUsed
    | MaxAttempts
    | InvalidOtp
    | DeliveryFailed
    | ValidationFailed(message: string)

  /** The store after an operation, and what the operation returned. */
  datatype Outcome<T> = Outcome(store: seq<OtpRecord>, result: Result<T, OtpError>)

  /** Every record's attempt counter is within the schema's maximum. */
  predicate AttemptsBounded(store: seq<OtpRecord>) {
    forall k :: 0 <= k < |store| ==> store[k].attempts <= MAX_OTP_ATTEMPTS
  }

  /** The store's records other than those for one address and purpose. */
  ghost predicate SameOtherRecords(a: seq<OtpRecord>, b: seq<OtpRecord>, email: string, t: OtpType) {
    forall r: OtpRecord :: !(r.email == OtpEmail(email) && r.otpType == t) ==> (r in a <==> r in b)
  }

  // ---------------------------------------------------------------- cleanup

  /** Records the per-address cleanup deletes. */
  predicate PurgeableFor(r: OtpRecord, email: string, t: OtpType, now: int) {
    r.email == OtpEmail(email) && r.otpType == t && Purgeable(r, now)
  }

  /** `cleanupExpiredOTPs(email, type)`: delete this address's expired or
      used records of this purpose. Active records all survive. */
  function CleanupFor(store: seq<OtpRecord>, email: string, t: OtpType, now: int): (r: seq<OtpRecord>)
    ensures forall i :: 0 <= i < |r| ==> r[i] in store && !PurgeableFor(r[i], email, t, now)
    ensures forall j :: 0 <= j < |store| && !PurgeableFor(store[j], email, t, now) ==> store[j] in r
    ensures ActiveCount(r, email, t, now) == ActiveCount(store, email, t, now)
    ensures SameOtherRecords(store, r, email, t)
    ensures AttemptsBounded(store) ==> AttemptsBounded(r)
  {
    var keep := x => !PurgeableFor(x, email, t, now);
    CountOfFilter(store, x => IsActive(x, email, t, now), keep);
    Filter(store, keep)
  }

  // ----------------------------------------------------------------- create

  function TooManyMessage(t: OtpType): string {
    match t
    case Registration => "Too many OTP requests. Please wait before requesting another OTP."
    case ResetPassword => "Too many password reset requests. Please wait before requesting another OTP."
  }

  /** `createRegistrationOTP` / `createPasswordResetOTP`: purge, refuse when
      three codes are already active, otherwise save a fresh record and
      send it. An address that is blank once trimmed fails the schema's
      `required` validator at the save, so nothing is stored or sent. The
      record stays stored when the send fails. On success the result is the
      new expiry. */
  function CreateOtp(store: seq<OtpRecord>, email: string, t: OtpType, data: StagedData,
                     now: int, random: nat, delivered: bool): (o: Outcome<int>)
    requires random < RANDOM_BOUND
    ensures o.result.Err? && o.result.error.TooManyRequests? <==> ActiveCount(store, email, t, now) >= MAX_ACTIVE_OTPS
    ensures o.result.Ok? <==> ActiveCount(store, email, t, now) < MAX_ACTIVE_OTPS && OtpEmail(email) != "" && delivered
    ensures o.result.Ok? ==> o.result.value == now + OTP_TTL_MS
    ensures o.result.Err? && o.result.error.TooManyRequests? ==>
      o.store == CleanupFor(store, email, t, now) && o.result.error.message == TooManyMessage(t)
    ensures ActiveCount(store, email, t, now) < MAX_ACTIVE_OTPS && OtpEmail(email) == "" ==>
      o == Outcome(CleanupFor(store, email, t, now), Err(ValidationFailed(EMAIL_REQUIRED)))
    ensures ActiveCount(store, email, t, now) < MAX_ACTIVE_OTPS && OtpEmail(email) != "" ==>
      |o.store| > 0 && o.store[..|o.store| - 1] == CleanupFor(store, email, t, now)
      && (var r := o.store[|o.store| - 1];
          r.email == OtpEmail(email) && r.otpType == t && r.attempts == 0 && !r.isUsed
          && r.expiresAt == now + OTP_TTL_MS && r.createdAt == now
          && IsValidOtpFormat(r.code) && r.userData == Persist(data))
      && ActiveCount(o.store, email, t, now) <= MAX_ACTIVE_OTPS
    ensures SameOtherRecords(store, o.store, email, t)
    ensures AttemptsBounded(store) ==> AttemptsBounded(o.store)
  {
    var purged := CleanupFor(store, email, t, now);
    if |GetActiveOtpsForEmail(purged, email, t, now)| >= MAX_ACTIVE_OTPS then
      Outcome(purged, Err(TooManyRequests(TooManyMessage(t))))
    else
      StoreFresh(store, purged, email, t, data, now, random, delivered)
  }

  /** The create once the purged store is under the cap: a blank address
      is refused by the save; otherwise a fresh record is appended and the
      send decides the result. */
  function StoreFresh(store: seq<OtpRecord>, purged: seq<OtpRecord>, email: string, t: OtpType, data: StagedData,
                      now: int, random: nat, delivered: bool): (o: Outcome<int>)
    requires random < RANDOM_BOUND
    requires purged == CleanupFor(store, email, t, now) && ActiveCount(store, email, t, now) < MAX_ACTIVE_OTPS
    ensures o.result.Ok? <==> OtpEmail(email) != "" && delivered
    ensures o.result.Ok? ==> o.result.value == now + OTP_TTL_MS
    ensures OtpEmail(email) == "" ==> o == Outcome(purged, Err(ValidationFailed(EMAIL_REQUIRED)))
    ensures OtpEmail(email) != "" && o.result.Err? ==> o.result.error == DeliveryFailed
    ensures OtpEmail(email) != "" ==>
      |o.store| > 0 && o.store[..|o.store| - 1] == purged
      && (var r := o.store[|o.store| - 1];
          r.email == OtpEmail(email) && r.otpType == t && r.attempts == 0 && !r.isUsed
          && r.expiresAt == now + OTP_TTL_MS && r.createdAt == now
          && IsValidOtpFormat(r.code) && r.userData == Persist(data))
      && ActiveCount(o.store, email, t, now) <= MAX_ACTIVE_OTPS
    ensures SameOtherRecords(store, o.store, email, t)
    ensures AttemptsBounded(store) ==> AttemptsBounded(o.store)
  {
    if OtpEmail(email) == "" then Outcome(purged, Err(ValidationFailed(EMAIL_REQUIRED)))
    else
      var rec := OtpRecord(OtpEmail(email), t, GenerateSecureOtpCode(random), 0, false, now + OTP_TTL_MS, now, Persist(data));
      AppendActive(store, purged, rec, email, t, now);
      Outcome(purged + [rec], if delivered then Ok(rec.expiresAt) else Err(DeliveryFailed))
  }

  /** An address that is empty or white space only never gets a record:
      whatever the send would do, the create stores nothing new. */
  lemma BlankEmailNeverStored(store: seq<OtpRecord>, email: string, t: OtpType, data: StagedData,
                              now: int, random: nat, delivered: bool)
    requires random < RANDOM_BOUND
    requires forall i :: 0 <= i < |email| ==> IsSpace(email[i])
    ensures var o := CreateOtp(store, email, t, data, now, random, delivered);
      o.result.Err? && o.store == CleanupFor(store, email, t, now) && |o.store| <= |store|
  {
    assert Trim(email) == "";
  }

  /** Appending a new active record to the purged store adds one active
      record and touches no other address or purpose. */
  lemma AppendActive(store: seq<OtpRecord>, purged: seq<OtpRecord>, rec: OtpRecord, email: string, t: OtpType, now: int)
    requires purged == CleanupFor(store, email, t, now)
    requires IsActive(rec, email, t, now) && rec.attempts == 0
    ensures (purged + [rec])[..|purged|] == purged
    ensures ActiveCount(purged + [rec], email, t, now) == ActiveCount(store, email, t, now) + 1
    ensures SameOtherRecords(store, purged + [rec], email, t)
    ensures AttemptsBounded(store) ==> AttemptsBounded(purged + [rec])
  {
    CountAppend(purged, [rec], x => IsActive(x, email, t, now));
    assert (purged + [rec])[..|purged|] == purged;
    forall r: OtpRecord | !(r.email == OtpEmail(email) && r.otpType == t)
      ensures r in purged + [rec] <==> r in purged
    {
    }
  }

  /** Whatever the store held, after any create the address has at most
      three active codes of that purpose, provided it had at most three. */
  lemma CreateKeepsActiveCap(store: seq<OtpRecord>, email: string, t: OtpType, data: StagedData,
                             now: int, random: nat, delivered: bool)
    requires random < RANDOM_BOUND
    requires ActiveCount(store, email, t, now) <= MAX_ACTIVE_OTPS
    ensures ActiveCount(CreateOtp(store, email, t, data, now, random, delivered).store, email, t, now) <= MAX_ACTIVE_OTPS
  {
  }

  /** The cap counts an address however it is spelt: a create for the
      address in capitals is refused exactly when one for the address is. */
  lemma CapIgnoresCase(store: seq<OtpRecord>, email: string, t: OtpType, data: StagedData,
                       now: int, random: nat, delivered: bool)
    requires random < RANDOM_BOUND
    ensures var a := CreateOtp(store, Upper(email), t, data, now, random, delivered).result;
      var b := CreateOtp(store, email, t, data, now, random, delivered).result;
      (a.Err? && a.error.TooManyRequests?) <==> (b.Err? && b.error.TooManyRequests?)
  {
    OtpEmailCanonical(email);
    ActiveCountIgnoresCase(store, Upper(email), email, t, now);
  }

  // ----------------------------------------------------------------- verify

  /** The filter of the fallback `findOne({ email, code, type })`. */
  predicate Matches(r: OtpRecord, email: string, code: string, t: OtpType) {
    r.email == OtpEmail(email) && r.code == code && r.otpType == t
  }

  /** `verifyRegistrationOTP` / `verifyPasswordResetOTP`. A valid record
      under the attempt cap yields its staged data; a registration code is
      consumed, a reset code is left for `markOTPAsUsed`. Without a valid
      record, the first record carrying the code is examined: used, then
      expired, then exhausted; failing all three its attempts go up by one. */
  function VerifyOtp(store: seq<OtpRecord>, email: string, code: string, t: OtpType, now: int): (o: Outcome<UserDataDoc>)
    ensures |o.store| == |store|
    ensures forall k, m :: 0 <= k < |store| && 0 <= m < |store| && k != m && o.store[k] != store[k] ==> o.store[m] == store[m]
    ensures o.result.Ok? ==>
      exists i :: 0 <= i < |store| && IsValidFor(store[i], email, code, t, now)
        && store[i].attempts < MAX_OTP_ATTEMPTS && o.result.value == store[i].userData
        && o.store == (if t == Registration then store[i := MarkAsUsed(store[i])] else store)
    ensures o.result.Err? ==> forall k :: 0 <= k < |store| ==>
      o.store[k] == store[k]
      || (o.store[k] == IncrementAttempts(store[k]) && Matches(store[k], email, code, t)
          && store[k].attempts < MAX_OTP_ATTEMPTS && !store[k].isUsed && store[k].expiresAt == now
          && o.result.error == InvalidOtp)
    ensures (forall k :: 0 <= k < |store| ==> !Matches(store[k], email, code, t)) ==>
      o == Outcome(store, Err(InvalidOtp))
    ensures AttemptsBounded(store) ==> AttemptsBounded(o.store)
  {
    match FindValidOtp(store, email, code, t, now)
    case Some(i) => VerifyValid(store, i, t, now)
    case None =>
      match FindFirst(store, x => Matches(x, email, code, t))
      case None => Outcome(store, Err(InvalidOtp))
      case Some(j) => VerifyMismatch(store, j, now)
  }

  /** The verify once a valid record `i` has been found: it is still
      checked for expiry and for the attempt cap. */
  function VerifyValid(store: seq<OtpRecord>, i: nat, t: OtpType, now: int): (o: Outcome<UserDataDoc>)
    requires i < |store|
    ensures |o.store| == |store|
    ensures forall k :: 0 <= k < |store| && k != i ==> o.store[k] == store[k]
    ensures o.result.Ok? <==> !IsExpired(store[i], now) && store[i].attempts < MAX_OTP_ATTEMPTS
    ensures o.result.Ok? ==>
      o.result.value == store[i].userData
      && o.store == (if t == Registration then store[i := MarkAsUsed(store[i])] else store)
    ensures o.result.Err? ==> o.store == store
    ensures AttemptsBounded(store) ==> AttemptsBounded(o.store)
  {
    var rec := store[i];
    if IsExpired(rec, now) then Outcome(store, Err(Expired))
    else if IsMaxAttemptsReached(rec) then Outcome(store, Err(MaxAttempts))
    else if t == Registration then Outcome(store[i := MarkAsUsed(rec)], Ok(rec.userData))
    else Outcome(store, Ok(rec.userData))
  }

  /** The verify of the first record `j` carrying the code when none is
      valid: used, expired and exhausted records are refused as such, any
      other one has its attempts raised by one. */
  function VerifyMismatch(store: seq<OtpRecord>, j: nat, now: int): (o: Outcome<UserDataDoc>)
    requires j < |store|
    ensures |o.store| == |store| && o.result.Err?
    ensures forall k :: 0 <= k < |store| && k != j ==> o.store[k] == store[k]
    ensures o.store[j] == store[j]
      || (o.store[j] == IncrementAttempts(store[j]) && store[j].attempts < MAX_OTP_ATTEMPTS
          && !store[j].isUsed && !IsExpired(store[j], now) && o.result.error == InvalidOtp)
    ensures AttemptsBounded(store) ==> AttemptsBounded(o.store)
  {
    var rec := store[j];
    if rec.isUsed then Outcome(store, Err(AlreadyUsed))
    else if IsExpired(rec, now) then Outcome(store, Err(Expired))
    else if IsMaxAttemptsReached(rec) then Outcome(store, Err(MaxAttempts))
    else Outcome(store[j := IncrementAttempts(rec)], Err(InvalidOtp))
  }

  /** At most one record carries this code for this address and purpose. */
  predicate UniqueCode(store: seq<OtpRecord>, email: string, code: string, t: OtpType) {
    forall a, b :: 0 <= a < b < |store| ==> !(Matches(store[a], email, code, t) && Matches(store[b], email, code, t))
  }

  /** The right code, unused, unexpired and under the attempt cap, is
      accepted: the caller gets its staged data, and a registration code is
      consumed while a reset code is left in place. */
  lemma CorrectCodeVerifies(store: seq<OtpRecord>, email: string, code: string, t: OtpType, now: int, i: nat)
    requires UniqueCode(store, email, code, t)
    requires i < |store| && IsValidFor(store[i], email, code, t, now) && store[i].attempts < MAX_OTP_ATTEMPTS
    ensures VerifyOtp(store, email, code, t, now)
      == Outcome(if t == Registration then store[i := MarkAsUsed(store[i])] else store, Ok(store[i].userData))
  {
    assert FindValidOtp(store, email, code, t, now) == Some(i);
  }

  /** Round trip: a code just created and delivered verifies, under any
      spelling of the address, until it expires, and yields the data staged
      with it; provided no stored record of the address already carries the
      same six digits. */
  lemma CreatedCodeVerifies(store: seq<OtpRecord>, email: string, typed: string, t: OtpType, data: StagedData,
                            now: int, random: nat, later: int)
    requires random < RANDOM_BOUND
    requires ActiveCount(store, email, t, now) < MAX_ACTIVE_OTPS && OtpEmail(email) != ""
    requires forall k :: 0 <= k < |store| ==> !Matches(store[k], email, GenerateSecureOtpCode(random), t)
    requires OtpEmail(typed) == OtpEmail(email)
    requires later < now + OTP_TTL_MS
    ensures var s := CreateOtp(store, email, t, data, now, random, true).store;
      var last := |s| - 1;
      CreateOtp(store, email, t, data, now, random, true).result == Ok(now + OTP_TTL_MS)
      && VerifyOtp(s, typed, GenerateSecureOtpCode(random), t, later)
         == Outcome(if t == Registration then s[last := MarkAsUsed(s[last])] else s, Ok(Persist(data)))
  {
    var code := GenerateSecureOtpCode(random);
    var s := CreateOtp(store, email, t, data, now, random, true).store;
    var last := |s| - 1;
    assert s[..last] == CleanupFor(store, email, t, now);
    forall k | 0 <= k < last ensures !Matches(s[k], typed, code, t) {
      assert s[k] == s[..last][k];
      assert s[k] in store;
    }
    assert UniqueCode(s, typed, code, t);
    CorrectCodeVerifies(s, typed, code, t, later, last);
  }

  /** A verified registration code cannot be verified again, at any time. */
  lemma RegistrationCodeIsSingleUse(store: seq<OtpRecord>, email: string, code: string, now: int, later: int)
    requires UniqueCode(store, email, code, Registration)
    requires VerifyOtp(store, email, code, Registration, now).result.Ok?
    ensures VerifyOtp(VerifyOtp(store, email, code, Registration, now).store, email, code, Registration, later).result
      == Err(AlreadyUsed)
  {
    var o := VerifyOtp(store, email, code, Registration, now);
    var i :| 0 <= i < |store| && IsValidFor(store[i], email, code, Registration, now)
      && o.store == store[i := MarkAsUsed(store[i])];
    UsedCodeRefused(store, email, code, Registration, i, later);
  }

  /** A record whose attempts reached the cap is never verified: if every
      record carrying the code is exhausted, verification fails. */
  lemma ExhaustedCodeNeverVerifies(store: seq<OtpRecord>, email: string, code: string, t: OtpType, now: int)
    requires forall k :: 0 <= k < |store| && Matches(store[k], email, code, t) ==> store[k].attempts >= MAX_OTP_ATTEMPTS
    ensures VerifyOtp(store, email, code, t, now).result.Err?
    ensures VerifyOtp(store, email, code, t, now).store == store
  {
  }

  /** A code is never accepted at or after its expiry instant. */
  lemma ExpiredCodeNeverVerifies(store: seq<OtpRecord>, email: string, code: string, t: OtpType, now: int)
    requires forall k :: 0 <= k < |store| && Matches(store[k], email, code, t) ==> store[k].expiresAt <= now
    ensures VerifyOtp(store, email, code, t, now).result.Err?
  {
  }

  /** The fallback checks, in order, on the first record carrying the code
      when no valid record exists. */
  lemma VerifyFailureOrder(store: seq<OtpRecord>, email: string, code: string, t: OtpType, now: int, j: nat)
    requires j < |store| && Matches(store[j], email, code, t)
    requires forall k :: 0 <= k < j ==> !Matches(store[k], email, code, t)
    requires forall k :: 0 <= k < |store| ==> !IsValidFor(store[k], email, code, t, now)
    ensures var o := VerifyOtp(store, email, code, t, now);
      if store[j].isUsed then o == Outcome(store, Err(AlreadyUsed))
      else if now > store[j].expiresAt then o == Outcome(store, Err(Expired))
      else if store[j].attempts >= MAX_OTP_ATTEMPTS then o == Outcome(store, Err(MaxAttempts))
      else o == Outcome(store[j := IncrementAttempts(store[j])], Err(InvalidOtp))
  {
    assert FindFirst(store, x => Matches(x, email, code, t)) == Some(j);
  }

  /** At the expiry instant itself the right code is refused as invalid and
      costs an attempt: the store query wants `expiresAt > now`, the record's
      own test wants `now > expiresAt`, and neither holds. */
  lemma RightCodeAtExpiryInstant(store: seq<OtpRecord>, email: string, code: string, t: OtpType, j: nat)
    requires UniqueCode(store, email, code, t)
    requires j < |store| && Matches(store[j], email, code, t)
    requires !store[j].isUsed && store[j].attempts < MAX_OTP_ATTEMPTS
    ensures VerifyOtp(store, email, code, t, store[j].expiresAt)
      == Outcome(store[j := IncrementAttempts(store[j])], Err(InvalidOtp))
  {
    var now := store[j].expiresAt;
    var right := store[j];
    assert forall k :: 0 <= k < j ==> !(Matches(store[k], email, code, t) && Matches(right, email, code, t));
    assert forall k :: 0 <= k < |store| ==> !IsValidFor(store[k], email, code, t, now);
    VerifyFailureOrder(store, email, code, t, now, j);
  }

  // --------------------------------------------------------- mark as used

  predicate UnusedMatch(r: OtpRecord, email: string, code: string, t: OtpType) {
    Matches(r, email, code, t) && !r.isUsed
  }

  /** `markOTPAsUsed(email, type, code)`: the first unused record carrying
      the code becomes used. It never fails; the store is unchanged exactly
      when there is no such record. */
  function MarkOtpAsUsed(store: seq<OtpRecord>, email: string, t: OtpType, code: string): (r: seq<OtpRecord>)
    ensures |r| == |store|
    ensures forall k :: 0 <= k < |store| ==>
      r[k] == store[k] || (UnusedMatch(store[k], email, code, t) && r[k] == MarkAsUsed(store[k]))
    ensures forall k, m :: 0 <= k < |store| && 0 <= m < |store| && k != m && r[k] != store[k] ==> r[m] == store[m]
    ensures r == store <==> forall k :: 0 <= k < |store| ==> !UnusedMatch(store[k], email, code, t)
    ensures AttemptsBounded(store) ==> AttemptsBounded(r)
  {
    match FindFirst(store, x => UnusedMatch(x, email, code, t))
    case None => store
    case Some(i) =>
      assert store[i := MarkAsUsed(store[i])][i] != store[i];
      store[i := MarkAsUsed(store[i])]
  }

  /** A verified reset code stays verifiable until `markOTPAsUsed`; after
      it, the code is refused as already used. */
  lemma ResetCodeUsableUntilMarked(store: seq<OtpRecord>, email: string, code: string, now: int, later: int)
    requires UniqueCode(store, email, code, ResetPassword)
    requires VerifyOtp(store, email, code, ResetPassword, now).result.Ok?
    ensures VerifyOtp(store, email, code, ResetPassword, now).store == store
    ensures VerifyOtp(MarkOtpAsUsed(store, email, ResetPassword, code), email, code, ResetPassword, later).result
      == Err(AlreadyUsed)
  {
    var i :| 0 <= i < |store| && IsValidFor(store[i], email, code, ResetPassword, now);
    MarkOnlyMatch(store, email, code, ResetPassword, i);
    UsedCodeRefused(store, email, code, ResetPassword, i, later);
  }

  /** With one record carrying the code, marking it used updates that
      record alone. */
  lemma MarkOnlyMatch(store: seq<OtpRecord>, email: string, code: string, t: OtpType, i: nat)
    requires UniqueCode(store, email, code, t)
    requires i < |store| && UnusedMatch(store[i], email, code, t)
    ensures MarkOtpAsUsed(store, email, t, code) == store[i := MarkAsUsed(store[i])]
  {
    assert FindFirst(store, x => UnusedMatch(x, email, code, t)) == Some(i);
  }

  /** Once the only record carrying the code is used, the code is refused
      as already used, at any time. */
  lemma UsedCodeRefused(store: seq<OtpRecord>, email: string, code: string, t: OtpType, i: nat, later: int)
    requires UniqueCode(store, email, code, t)
    requires i < |store| && Matches(store[i], email, code, t)
    ensures VerifyOtp(store[i := MarkAsUsed(store[i])], email, code, t, later).result == Err(AlreadyUsed)
  {
    var s := store[i := MarkAsUsed(store[i])];
    assert Matches(s[i], email, code, t);
    assert forall k :: 0 <= k < |s| && k != i ==> !Matches(s[k], email, code, t);
    assert FindValidOtp(s, email, code, t, later).None?;
    assert FindFirst(s, x => Matches(x, email, code, t)) == Some(i);
  }

  // ----------------------------------------------------------------- resend

  predicate UnusedFor(r: OtpRecord, email: string, t: OtpType) {
    r.email == OtpEmail(email) && r.otpType == t && !r.isUsed
  }

  /** Record `i` is an unused record for the address and purpose with the
      greatest creation time. */
  predicate NewestUnused(store: seq<OtpRecord>, email: string, t: OtpType, i: int) {
    0 <= i < |store| && UnusedFor(store[i], email, t)
    && forall j :: 0 <= j < |store| && UnusedFor(store[j], email, t) ==> store[j].createdAt <= store[i].createdAt
  }

  /** The `findOne` of a resend: the newest unused record of the address
      and purpose, or none exactly when it has no unused record. */
  function NewestUnusedIndex(store: seq<OtpRecord>, email: string, t: OtpType): (n: Option<nat>)
    ensures n.Some? ==> NewestUnused(store, email, t, n.value)
    ensures n.None? <==> forall k :: 0 <= k < |store| ==> !UnusedFor(store[k], email, t)
  {
    NewestIndex(store, x => UnusedFor(x, email, t))
  }

  /** `Math.ceil((60000 - elapsed) / 1000)`. */
  function WaitSeconds(elapsed: int): int {
    CeilDiv(RESEND_INTERVAL_MS - elapsed, 1000)
  }

  /** Within the interval the wait is between one and sixty seconds, and it
      is the least whole number of seconds that reaches the interval. */
  lemma WaitSecondsBounds(elapsed: int)
    requires 0 <= elapsed < RESEND_INTERVAL_MS
    ensures 1 <= WaitSeconds(elapsed) <= 60
    ensures elapsed + WaitSeconds(elapsed) * 1000 >= RESEND_INTERVAL_MS
    ensures elapsed + (WaitSeconds(elapsed) - 1) * 1000 < RESEND_INTERVAL_MS
  {
  }

  function WaitMessage(seconds: int): string {
    "Please wait " + IntToString(seconds) + " seconds before requesting another OTP."
  }

  /** A record after a resend: new code and expiry, counters reset, and the
      same address, purpose, staged data and creation time. */
  predicate Refreshed(before: OtpRecord, after: OtpRecord, now: int) {
    after.email == before.email && after.otpType == before.otpType
    && after.userData == before.userData && after.createdAt == before.createdAt
    && after.attempts == 0 && !after.isUsed && after.expiresAt == now + OTP_TTL_MS
    && IsValidOtpFormat(after.code)
  }

  /** `resendRegistrationOTP` / `resendPasswordResetOTP`: the newest unused
      record is refreshed in place, unless it is expired or was created less
      than a minute ago. */
  function ResendOtp(store: seq<OtpRecord>, email: string, t: OtpType, now: int, random: nat, delivered: bool): (o: Outcome<int>)
    requires random < RANDOM_BOUND
    ensures o.result == Err(NotFound) <==> forall k :: 0 <= k < |store| ==> !UnusedFor(store[k], email, t)
    ensures o.result == Err(Expired) ==> exists i :: NewestUnused(store, email, t, i) && now > store[i].expiresAt
    ensures o.result.Err? && o.result.error.TooManyRequests? ==>
      exists i :: NewestUnused(store, email, t, i)
        && now <= store[i].expiresAt && now - store[i].createdAt < RESEND_INTERVAL_MS
        && o.result.error.message == WaitMessage(WaitSeconds(now - store[i].createdAt))
    ensures o.result.Err? && o.result.error != DeliveryFailed ==> o.store == store
    ensures o.result.Ok? || o.result == Err(DeliveryFailed) ==>
      exists i :: NewestUnused(store, email, t, i)
        && now <= store[i].expiresAt && now - store[i].createdAt >= RESEND_INTERVAL_MS
        && |o.store| == |store| && Refreshed(store[i], o.store[i], now)
        && forall k :: 0 <= k < |store| && k != i ==> o.store[k] == store[k]
    ensures o.result.Ok? ==> o.result.value == now + OTP_TTL_MS && delivered
    ensures o.result.Err? ==> o.result.error in {NotFound, Expired, DeliveryFailed} || o.result.error.TooManyRequests?
    ensures |o.store| == |store|
    ensures var n := NewestUnusedIndex(store, email, t);
      n.Some? ==>
        (o.result == Err(Expired) <==> now > store[n.value].expiresAt)
        && (o.result.Err? && o.result.error.TooManyRequests? <==>
              now <= store[n.value].expiresAt && now - store[n.value].createdAt < RESEND_INTERVAL_MS)
        && (o.result.Ok? <==>
              now <= store[n.value].expiresAt && now - store[n.value].createdAt >= RESEND_INTERVAL_MS && delivered)
        && (o.result.Ok? || o.result == Err(DeliveryFailed) ==>
              Refreshed(store[n.value], o.store[n.value], now))
    ensures AttemptsBounded(store) ==> AttemptsBounded(o.store)
  {
    match NewestUnusedIndex(store, email, t)
    case None => Outcome(store, Err(NotFound))
    case Some(i) => ResendRecord(store, i, now, random, delivered)
  }

  /** The resend once record `i` has been found. */
  function ResendRecord(store: seq<OtpRecord>, i: nat, now: int, random: nat, delivered: bool): (o: Outcome<int>)
    requires random < RANDOM_BOUND && i < |store|
    ensures |o.store| == |store|
    ensures o.result.Err? && o.result.error != DeliveryFailed ==> o.store == store
    ensures o.result.Err? ==> o.result.error in {Expired, DeliveryFailed} || o.result.error.TooManyRequests?
    ensures o.result == Err(Expired) <==> now > store[i].expiresAt
    ensures o.result.Err? && o.result.error.TooManyRequests? <==>
      now <= store[i].expiresAt && now - store[i].createdAt < RESEND_INTERVAL_MS
    ensures o.result.Err? && o.result.error.TooManyRequests? ==>
      o.result.error.message == WaitMessage(WaitSeconds(now - store[i].createdAt))
    ensures o.result.Ok? || o.result == Err(DeliveryFailed) ==>
      now <= store[i].expiresAt && now - store[i].createdAt >= RESEND_INTERVAL_MS
      && |o.store| == |store| && Refreshed(store[i], o.store[i], now)
      && forall k :: 0 <= k < |store| && k != i ==> o.store[k] == store[k]
    ensures o.result.Ok? ==> o.result.value == now + OTP_TTL_MS && delivered
    ensures o.result.Ok? <==> now <= store[i].expiresAt && now - store[i].createdAt >= RESEND_INTERVAL_MS && delivered
    ensures AttemptsBounded(store) ==> AttemptsBounded(o.store)
  {
    var rec := store[i];
    if IsExpired(rec, now) then Outcome(store, Err(Expired))
    else
      var elapsed := now - rec.createdAt;
      if elapsed < RESEND_INTERVAL_MS then
        Outcome(store, Err(TooManyRequests(WaitMessage(WaitSeconds(elapsed)))))
      else
        var renewed := rec.(code := GenerateSecureOtpCode(random), expiresAt := now + OTP_TTL_MS,
                          attempts := 0, isUsed := false);
        Outcome(store[i := renewed], if delivered then Ok(renewed.expiresAt) else Err(DeliveryFailed))
  }

  /** The interval is measured from the record's creation, which a resend
      keeps: once a resend has gone through, a further resend of the same
      address and purpose is never refused as too frequent. */
  lemma ResendIntervalNotRenewed(store: seq<OtpRecord>, email: string, t: OtpType, now: int, later: int,
                                 r1: nat, r2: nat, d1: bool, d2: bool)
    requires r1 < RANDOM_BOUND && r2 < RANDOM_BOUND && now <= later
    requires ResendOtp(store, email, t, now, r1, d1).result.Ok?
    ensures var s := ResendOtp(store, email, t, now, r1, d1).store;
      !(ResendOtp(s, email, t, later, r2, d2).result.Err? && ResendOtp(s, email, t, later, r2, d2).result.error.TooManyRequests?)
  {
    var o := ResendOtp(store, email, t, now, r1, d1);
    var i :| NewestUnused(store, email, t, i) && now - store[i].createdAt >= RESEND_INTERVAL_MS
      && |o.store| == |store| && Refreshed(store[i], o.store[i], now)
      && forall k :: 0 <= k < |store| && k != i ==> o.store[k] == store[k];
    var s := o.store;
    RefreshKeepsNewest(store, s, email, t, i, now);
    IntervalElapsed(s, email, t, later, r2, d2, i);
  }

  /** Refreshing the newest unused record in place keeps it the newest
      unused one. */
  lemma RefreshKeepsNewest(store: seq<OtpRecord>, s: seq<OtpRecord>, email: string, t: OtpType, i: int, now: int)
    requires NewestUnused(store, email, t, i)
    requires |s| == |store| && Refreshed(store[i], s[i], now)
    requires forall k :: 0 <= k < |store| && k != i ==> s[k] == store[k]
    ensures NewestUnused(s, email, t, i) && s[i].createdAt == store[i].createdAt
  {
  }

  /** Once the newest unused record is older than the interval, a resend is
      not refused as too frequent. */
  lemma IntervalElapsed(store: seq<OtpRecord>, email: string, t: OtpType, now: int, random: nat, delivered: bool, i: int)
    requires random < RANDOM_BOUND
    requires NewestUnused(store, email, t, i) && now - store[i].createdAt >= RESEND_INTERVAL_MS
    ensures !(ResendOtp(store, email, t, now, random, delivered).result.Err?
              && ResendOtp(store, email, t, now, random, delivered).result.error.TooManyRequests?)
  {
  }

  // ----------------------------------------------------------------- status

  datatype OtpStatus = OtpStatus(
    hasActiveOtp: bool,
    canResend: bool,
    expiresAt: Option<int>,
    attempts: Option<nat>,
    timeUntilResend: Option<int>)

  /** Record `i` is an active record for the address and purpose with the
      greatest creation time. */
  predicate NewestActive(store: seq<OtpRecord>, email: string, t: OtpType, now: int, i: int) {
    0 <= i < |store| && IsActive(store[i], email, t, now)
    && forall j :: 0 <= j < |store| && IsActive(store[j], email, t, now) ==> store[j].createdAt <= store[i].createdAt
  }

  /** `getOTPStatus(email, type)`, read off the newest active record. */
  function GetOtpStatus(store: seq<OtpRecord>, email: string, t: OtpType, now: int): (st: OtpStatus)
    ensures !st.hasActiveOtp <==> ActiveCount(store, email, t, now) == 0
    ensures !st.hasActiveOtp ==> st == OtpStatus(false, true, None, None, None)
    ensures st.hasActiveOtp ==>
      st.expiresAt.Some? && st.attempts.Some? && st.timeUntilResend.Some?
      && 0 <= st.timeUntilResend.value
      && (st.canResend <==> st.timeUntilResend.value == 0)
      && (exists i :: NewestActive(store, email, t, now, i)
            && st.expiresAt.value == store[i].expiresAt && st.expiresAt.value > now
            && st.attempts.value == store[i].attempts
            && st.timeUntilResend.value == Max(0, RESEND_INTERVAL_MS - (now - store[i].createdAt)))
  {
    var active := GetActiveOtpsForEmail(store, email, t, now);
    if |active| == 0 then OtpStatus(false, true, None, None, None)
    else
      NewestActiveExists(store, email, t, now);
      var i :| NewestActive(store, email, t, now, i) && store[i] == active[0];
      StatusOfNewest(store, email, t, now, i);
      ActiveStatus(store[i], now)
  }

  /** The status read off a newest active record is the one promised. */
  lemma StatusOfNewest(store: seq<OtpRecord>, email: string, t: OtpType, now: int, i: int)
    requires NewestActive(store, email, t, now, i)
    ensures var st := ActiveStatus(store[i], now);
      st.hasActiveOtp && st.expiresAt.Some? && st.attempts.Some? && st.timeUntilResend.Some?
      && 0 <= st.timeUntilResend.value
      && (st.canResend <==> st.timeUntilResend.value == 0)
      && (exists j :: NewestActive(store, email, t, now, j)
            && st.expiresAt.value == store[j].expiresAt && st.expiresAt.value > now
            && st.attempts.value == store[j].attempts
            && st.timeUntilResend.value == Max(0, RESEND_INTERVAL_MS - (now - store[j].createdAt)))
  {
  }

  /** The head of the active list is a stored record and the newest active
      one. */
  lemma NewestActiveExists(store: seq<OtpRecord>, email: string, t: OtpType, now: int)
    requires |GetActiveOtpsForEmail(store, email, t, now)| > 0
    ensures exists i :: NewestActive(store, email, t, now, i) && store[i] == GetActiveOtpsForEmail(store, email, t, now)[0]
  {
    var active := GetActiveOtpsForEmail(store, email, t, now);
    HeadIsNewestActive(store, email, t, now);
    assert active[0] in store;
    var i :| 0 <= i < |store| && store[i] == active[0];
    assert NewestActive(store, email, t, now, i);
  }

  /** The status reported from the newest active record. */
  function ActiveStatus(latest: OtpRecord, now: int): (st: OtpStatus)
    ensures st.hasActiveOtp && st.expiresAt == Some(latest.expiresAt) && st.attempts == Some(latest.attempts)
    ensures st.timeUntilResend.Some? && 0 <= st.timeUntilResend.value
    ensures st.timeUntilResend.value == Max(0, RESEND_INTERVAL_MS - (now - latest.createdAt))
    ensures st.canResend <==> st.timeUntilResend.value == 0
  {
    var elapsed := now - latest.createdAt;
    OtpStatus(true, elapsed >= RESEND_INTERVAL_MS, Some(latest.expiresAt), Some(latest.attempts),
              Some(Max(0, RESEND_INTERVAL_MS - elapsed)))
  }

  /** When no unused code of the address and purpose has expired, the
      status's `canResend` says exactly whether a resend would pass the
      interval. */
  lemma StatusAgreesWithResend(store: seq<OtpRecord>, email: string, t: OtpType, now: int, random: nat, delivered: bool, i: nat)
    requires random < RANDOM_BOUND
    requires i < |store| && UnusedFor(store[i], email, t)
    requires forall k :: 0 <= k < |store| && UnusedFor(store[k], email, t) ==> store[k].expiresAt > now
    ensures GetOtpStatus(store, email, t, now).hasActiveOtp
    ensures var r := ResendOtp(store, email, t, now, random, delivered).result;
      GetOtpStatus(store, email, t, now).canResend <==> !(r.Err? && r.error.TooManyRequests?)
  {
    assert IsActive(store[i], email, t, now);
    var st := GetOtpStatus(store, email, t, now);
    var a :| NewestActive(store, email, t, now, a)
      && st.timeUntilResend.value == Max(0, RESEND_INTERVAL_MS - (now - store[a].createdAt));
    var k := NewestUnusedIndex(store, email, t).value;
    assert IsActive(store[k], email, t, now);
    assert store[k].createdAt == store[a].createdAt;
    ResendRefusedIff(store, email, t, now, random, delivered, k);
  }

  /** While no unused record of the address and purpose has expired, a
      resend is refused as too frequent exactly when the newest one is less
      than a minute old. */
  lemma ResendRefusedIff(store: seq<OtpRecord>, email: string, t: OtpType, now: int, random: nat, delivered: bool, k: nat)
    requires random < RANDOM_BOUND
    requires NewestUnused(store, email, t, k)
    requires forall j :: 0 <= j < |store| && UnusedFor(store[j], email, t) ==> now <= store[j].expiresAt
    ensures var r := ResendOtp(store, email, t, now, random, delivered).result;
      r.Err? && r.error.TooManyRequests? <==> now - store[k].createdAt < RESEND_INTERVAL_MS
  {
    var j := NewestUnusedIndex(store, email, t).value;
    assert store[j].createdAt == store[k].createdAt;
    assert !IsExpired(store[j], now);
  }
}

=== FILE: pagination.dfy ===
/** Pagination arithmetic shared by the helpers (`parsePagination`,
    `getPaginationMeta`), the paginated response envelope and both
    `getAllUsers` implementations; and JavaScript's `parseInt`, which the
    query parsing relies on. */
module Pagination {
  import opened Base
  import opened Text

  /** `Math.ceil(a / b)` for a non-zero divisor (the division is exact on
      the reals, then rounded up). */
  function CeilDiv(a: int, b: int): (q: int)
    requires b != 0
    ensures b > 0 ==> (q - 1) * b < a <= q * b
    ensures b < 0 ==> q * b <= a < (q - 1) * b
  {
    if b > 0 then -((-a) / b) else -(a / (-b))
  }

  datatype Meta = Meta(page: int, limit: int, total: int, totalPages: int, hasNext: bool, hasPrev: bool)

  /** `getPaginationMeta(page, limit, total)`; the same four lines appear in
      `paginatedResponse` and in both `getAllUsers`. A negative limit gives
      a page count of zero or less, so no next page for any page from 1. */
  function GetPaginationMeta(page: int, limit: int, total: int): (m: Meta)
    requires limit != 0
    ensures m.page == page && m.limit == limit && m.total == total
    ensures limit > 0 ==> (m.totalPages - 1) * limit < total <= m.totalPages * limit
    ensures limit < 0 ==> m.totalPages * limit <= total < (m.totalPages - 1) * limit
    ensures limit < 0 && total >= 0 ==> m.totalPages <= 0
    ensures m.hasNext <==> page < m.totalPages
    ensures m.hasPrev <==> page > 1
  {
    var totalPages := CeilDiv(total, limit);
    assert limit < 0 && total >= 0 ==> totalPages <= 0 by {
      if limit < 0 && total >= 0 && totalPages > 0 {
        MulMonotone(1, totalPages - 1, -limit);
      }
    }
    Meta(page, limit, total, totalPages, page < totalPages, page > 1)
  }

  /** There is a next page exactly when the items of pages 1..page do not
      cover the total. */
  lemma HasNextMeansMoreItems(page: int, limit: int, total: int)
    requires limit > 0
    ensures GetPaginationMeta(page, limit, total).hasNext <==> page * limit < total
  {
    var m := GetPaginationMeta(page, limit, total);
    if page < m.totalPages {
      assert page <= m.totalPages - 1;
      assert page * limit <= (m.totalPages - 1) * limit by {
        MulMonotone(page, m.totalPages - 1, limit);
      }
    } else {
      assert m.totalPages * limit <= page * limit by {
        MulMonotone(m.totalPages, page, limit);
      }
    }
  }

  lemma MulMonotone(a: int, b: int, c: int)
    requires a <= b && c > 0
    ensures a * c <= b * c
  {
    assert b * c - a * c == (b - a) * c;
  }

  /** The value of a digit character in base 10 or 16. */
  function DigitValue(c: char, hex: bool): (v: int)
    ensures -1 <= v < (if hex then 16 else 10)
  {
    if IsDigit(c) then c as int - '0' as int
    else if hex && 'a' <= c <= 'f' then c as int - 'a' as int + 10
    else if hex && 'A' <= c <= 'F' then c as int - 'A' as int + 10
    else -1
  }

  /** The length of the longest prefix of digits. */
  function DigitPrefix(s: string, hex: bool): (k: nat)
    ensures k <= |s|
    ensures forall i :: 0 <= i < k ==> DigitValue(s[i], hex) >= 0
    ensures k < |s| ==> DigitValue(s[k], hex) < 0
  {
    if |s| == 0 || DigitValue(s[0], hex) < 0 then 0 else 1 + DigitPrefix(s[1..], hex)
  }

  /** The number an all-digit string denotes. */
  function DigitsValue(s: string, hex: bool): nat
    requires forall i :: 0 <= i < |s| ==> DigitValue(s[i], hex) >= 0
  {
    if |s| == 0 then 0
    else DigitsValue(s[..|s| - 1], hex) * (if hex then 16 else 10) + DigitValue(s[|s| - 1], hex)
  }

  /** `parseInt(s)` with no radix: leading white space, an optional sign, a
      `0x` prefix selecting base 16, then the longest run of digits; `None`
      is NaN (no digits at all). */
  function ParseIntJs(s: string): Option<int> {
    var t := TrimStart(s);
    var negative := |t| > 0 && t[0] == '-';
    var u := if |t| > 0 && (t[0] == '-' || t[0] == '+') then t[1..] else t;
    match ParseUnsigned(u)
    case None => None
    case Some(v) => Some(if negative then -(v as int) else v)
  }

  /** The unsigned part of `parseInt`, after the sign. */
  function ParseUnsigned(u: string): Option<nat> {
    var hex := |u| >= 2 && u[0] == '0' && (u[1] == 'x' || u[1] == 'X');
    var body := if hex then u[2..] else u;
    var k := DigitPrefix(body, hex);
    if k == 0 then None
    else
      assert forall i :: 0 <= i < k ==> body[..k][i] == body[i];
      Some(DigitsValue(body[..k], hex))
  }

  lemma {:induction false} DigitsValueOfText(n: nat)
    ensures DigitsValue(NatToString(n), false) == n
  {
    var s := NatToString(n);
    if n >= 10 {
      DigitsValueOfText(n / 10);
      assert s[..|s| - 1] == NatToString(n / 10);
    }
  }

  /** `parseInt` reads back what `String(n)` writes. */
  lemma ParseIntOfText(n: nat)
    ensures ParseIntJs(NatToString(n)) == Some(n)
  {
    var s := NatToString(n);
    ParseIntOfDigits(s);
    assert s[..|s|] == s;
    DigitsValueOfText(n);
  }

  /** `parseInt` reads text starting with a digit as its unsigned part. */
  lemma UnsignedOfDigits(s: string)
    requires |s| > 0 && IsDigit(s[0])
    ensures ParseIntJs(s) == match ParseUnsigned(s) case None => None case Some(v) => Some(v as int)
  {
    assert !IsSpace(s[0]);
    assert TrimStart(s) == s;
  }

  /** A minus sign before text starting with a digit negates it. */
  lemma NegatedDigits(s: string)
    requires |s| > 0 && IsDigit(s[0])
    ensures ParseIntJs("-" + s) == match ParseUnsigned(s) case None => None case Some(v) => Some(-(v as int))
  {
    var t := "-" + s;
    assert !IsSpace(t[0]);
    assert TrimStart(t) == t;
    assert t[1..] == s;
  }

  /** A single decimal digit is its own unsigned value. */
  lemma UnsignedDigit(s: string)
    requires |s| == 1 && IsDigit(s[0])
    ensures ParseUnsigned(s) == Some(s[0] as int - '0' as int)
  {
    assert DigitPrefix(s, false) == 1 by {
      assert DigitPrefix(s[1..], false) == 0;
    }
    assert s[..1] == s;
    assert DigitsValue(s[..0], false) == 0;
  }

  /** A run of decimal digits parses to the number it denotes. */
  lemma ParseIntOfDigits(s: string)
    requires |s| > 0 && forall i :: 0 <= i < |s| ==> IsDigit(s[i])
    ensures ParseIntJs(s) == Some(DigitsValue(s[..|s|], false))
  {
    assert !IsSpace(s[0]);
    assert TrimStart(s) == s;
    assert !(|s| >= 2 && (s[1] == 'x' || s[1] == 'X')) by {
      if |s| >= 2 {
        assert IsDigit(s[1]);
      }
    }
    DigitPrefixAll(s);
  }

  lemma {:induction false} DigitPrefixAll(s: string)
    requires forall i :: 0 <= i < |s| ==> IsDigit(s[i])
    ensures DigitPrefix(s, false) == |s|
  {
    if |s| > 0 {
      DigitPrefixAll(s[1..]);
    }
  }

  /** The three numbers `parsePagination` derives from a query string. */
  datatype PageRequest = PageRequest(page: int, limit: int, offset: int)

  /** `parseInt(v) || d`: NaN and zero fall back to the default, so a
      non-zero default gives a non-zero result. */
  function IntOr(v: Option<string>, d: int): (r: int)
    ensures v.None? || ParseIntJs(v.value) in {None, Some(0)} ==> r == d
    ensures v.Some? && ParseIntJs(v.value).Some? && ParseIntJs(v.value).value != 0 ==> r == ParseIntJs(v.value).value
    ensures d != 0 ==> r != 0
  {
    match v
    case None => d
    case Some(text) =>
      match ParseIntJs(text)
      case None => d
      case Some(n) => if n == 0 then d else n
  }

  /** `parseInt('-1') || d` is -1 whatever the default: the fallback only
      replaces NaN and zero. */
  lemma MinusOneText(d: int)
    ensures IntOr(Some("-1"), d) == -1
  {
    NegatedDigitText('1', d);
  }

  /** Proof step of `MinusOneText`: '-' and a non-zero digit parse to the
      digit's negated value, which no default replaces. */
  lemma NegatedDigitText(c: char, d: int)
    requires '1' <= c <= '9'
    ensures IntOr(Some(['-', c]), d) == -(c as int - '0' as int)
  {
    var s := [c];
    UnsignedDigit(s);
    NegatedDigits(s);
    var t := "-" + s;
    assert ParseIntJs(t) == Some(-(c as int - '0' as int));
    assert t == ['-', c];
  }

  function Max(a: int, b: int): int { if a >= b then a else b }
  function Min(a: int, b: int): int { if a <= b then a else b }

  /** `(page - 1) * limit`, the number of items before a page. */
  function Offset(page: int, limit: int): (o: nat)
    requires page >= 1 && limit >= 1
    ensures o == (page - 1) * limit
    ensures o <= page * limit - limit
  {
    MulMonotone(0, page - 1, limit);
    (page - 1) * limit
  }

  function Abs(x: int): (a: nat)
    ensures a == x || a == -x
  {
    if x < 0 then -x else x
  }

  /** `.skip(skip).limit(limit)` on a query's result: the items from
      position `skip` on, at most `|limit|` of them (a negative limit asks
      the server for a single batch of that size). */
  function SkipLimit<T>(all: seq<T>, skip: nat, limit: int): (r: seq<T>)
    requires limit != 0
    ensures |r| == (if skip >= |all| then 0 else Min(Abs(limit), |all| - skip))
    ensures forall k :: 0 <= k < |r| ==> r[k] == all[skip + k]
  {
    if skip >= |all| then [] else all[skip..Min(skip + Abs(limit), |all|)]
  }

  /** One page of a query's result with the pagination block of the
      whole result. */
  datatype Page<T> = Page(items: seq<T>, meta: Meta)

  /** `.skip((page - 1) * limit).limit(limit)` beside a `count` of the same
      query. */
  function Paginate<T>(all: seq<T>, page: int, limit: int): (r: Page<T>)
    requires page >= 1 && limit >= 1
    ensures r.meta == GetPaginationMeta(page, limit, |all|)
    ensures |r.items| == (if Offset(page, limit) >= |all| then 0 else Min(limit, |all| - Offset(page, limit)))
    ensures forall k :: 0 <= k < |r.items| ==> r.items[k] == all[Offset(page, limit) + k]
  {
    Page(SkipLimit(all, Offset(page, limit), limit), GetPaginationMeta(page, limit, |all|))
  }

  /** The n-th item (from 0) is at position `n % limit` of page
      `n / limit + 1`, and that page is within the page count. */
  lemma ItemOnItsPage<T>(all: seq<T>, limit: int, n: nat)
    requires limit >= 1 && n < |all|
    ensures var r := Paginate(all, n / limit + 1, limit);
      n % limit < |r.items| && r.items[n % limit] == all[n] && r.meta.page <= r.meta.totalPages
  {
    var p := n / limit + 1;
    assert Offset(p, limit) + n % limit == n;
    var tp := GetPaginationMeta(p, limit, |all|).totalPages;
    if tp < p {
      MulMonotone(tp, p - 1, limit);
      assert false;
    }
  }

  /** `parsePagination(query)`; absent parameters are `None`. */
  function ParsePagination(page: Option<string>, limit: Option<string>): (r: PageRequest)
    ensures r.page >= 1
    ensures 1 <= r.limit <= 100
    ensures r.offset == Offset(r.page, r.limit)
  {
    var p := PageNumber(page);
    var l := PageLimit(limit);
    PageRequest(p, l, Offset(p, l))
  }

  /** `Math.max(1, parseInt(query.page) || 1)`. */
  function PageNumber(page: Option<string>): (p: int)
    ensures p >= 1
  {
    Max(1, IntOr(page, 1))
  }

  /** `Math.min(100, Math.max(1, parseInt(query.limit) || 10))`. */
  function PageLimit(limit: Option<string>): (l: int)
    ensures 1 <= l <= 100
  {
    Min(100, Max(1, IntOr(limit, 10)))
  }

  /** Missing, non-numeric and zero parameters give page 1 and limit 10;
      a page of n >= 1 and a limit of n in 1..100 are taken as written. */
  lemma ParsePaginationDefaults(page: Option<string>, limit: Option<string>)
    ensures (page.None? || ParseIntJs(page.value) in {None, Some(0)}) ==> ParsePagination(page, limit).page == 1
    ensures (limit.None? || ParseIntJs(limit.value) in {None, Some(0)}) ==> ParsePagination(page, limit).limit == 10
    ensures forall n: nat :: page == Some(NatToString(n)) && n >= 1 ==> ParsePagination(page, limit).page == n
    ensures forall n: nat :: limit == Some(NatToString(n)) && 1 <= n <= 100 ==> ParsePagination(page, limit).limit == n
  {
    PageNumberDefaults(page);
    PageLimitDefaults(limit);
  }

  lemma PageNumberDefaults(page: Option<string>)
    ensures (page.None? || ParseIntJs(page.value) in {None, Some(0)}) ==> PageNumber(page) == 1
    ensures forall n: nat :: page == Some(NatToString(n)) && n >= 1 ==> PageNumber(page) == n
  {
    forall n: nat | page == Some(NatToString(n)) {
      ParseIntOfText(n);
    }
  }

  lemma PageLimitDefaults(limit: Option<string>)
    ensures (limit.None? || ParseIntJs(limit.value) in {None, Some(0)}) ==> PageLimit(limit) == 10
    ensures forall n: nat :: limit == Some(NatToString(n)) && 1 <= n <= 100 ==> PageLimit(limit) == n
  {
    forall n: nat | limit == Some(NatToString(n)) {
      ParseIntOfText(n);
    }
  }
}

=== FILE: password.dfy ===
/** Password utilities of src/utils/password.js: the argument guards around
    hashing and comparison (bcrypt itself is a function parameter), the
    character set of the generator, and the strength report. Absent
    arguments are `None`; JavaScript's falsy values among strings are `None`
    and the empty string. */
module Password {
  import opened Base
  import opened Text

  /** A string argument is truthy. */
  predicate Present(s: Option<string>) {
    s.Some? && |s.value| > 0
  }

  /** `hashPassword(password)`: refuses a missing or empty password before
      hashing. */
  function HashPassword(password: Option<string>, hash: string -> string): (r: Result<string, string>)
    ensures r.Err? <==> !Present(password)
    ensures r.Err? ==> r.error == "Password is required"
    ensures r.Ok? ==> r.value == hash(password.value)
  {
    if !Present(password) then Err("Password is required") else Ok(hash(password.value))
  }

  /** `comparePassword(password, hash)`: false without calling bcrypt when
      either argument is missing or empty. */
  function ComparePassword(password: Option<string>, hashValue: Option<string>,
                           matches: (string, string) -> bool): (r: bool)
    ensures !Present(password) || !Present(hashValue) ==> !r
    ensures r <==> Present(password) && Present(hashValue) && matches(password.value, hashValue.value)
  {
    if !Present(password) || !Present(hashValue) then false
    else matches(password.value, hashValue.value)
  }

  // ------------------------------------------------------------ generator

  const SYMBOLS: string := "!@#$%^&*()_+-=[]{}|;:,.<>?"

  /** Characters easy to confuse with one another. */
  predicate IsSimilar(c: char) {
    c == 'l' || c == 'I' || c == 'O' || c == '0' || c == '1'
  }

  datatype CharsetOptions = CharsetOptions(
    includeUppercase: bool,
    includeLowercase: bool,
    includeNumbers: bool,
    includeSymbols: bool,
    excludeSimilar: bool)

  const DEFAULT_CHARSET_OPTIONS := CharsetOptions(true, true, true, true, true)

  /** The letters `a`..`z` (or `A`..`Z`, digits) in order, minus the similar
      ones when asked. */
  function Range(lo: char, hi: char, excludeSimilar: bool): (r: string)
    requires lo <= hi <= '~'
    ensures forall i :: 0 <= i < |r| ==> lo <= r[i] <= hi && !(excludeSimilar && IsSimilar(r[i]))
    ensures forall c: char :: lo <= c <= hi && !(excludeSimilar && IsSimilar(c)) ==> c in r
    decreases hi as int - lo as int
  {
    var rest := if lo == hi then [] else Range((lo as int + 1) as char, hi, excludeSimilar);
    if excludeSimilar && IsSimilar(lo) then rest else [lo] + rest
  }

  /** The character may be drawn under these options. */
  predicate Allowed(c: char, o: CharsetOptions) {
    ((IsLower(c) && o.includeLowercase) || (IsUpper(c) && o.includeUppercase)
     || (IsDigit(c) && o.includeNumbers) || (c in SYMBOLS && o.includeSymbols))
    && !(o.excludeSimilar && IsSimilar(c))
  }

  predicate AllAllowed(s: string, o: CharsetOptions) {
    forall i :: 0 <= i < |s| ==> Allowed(s[i], o)
  }

  lemma AllowedConcat(a: string, b: string, o: CharsetOptions)
    requires AllAllowed(a, o) && AllAllowed(b, o)
    ensures AllAllowed(a + b, o)
  {
    forall i | 0 <= i < |a + b| ensures Allowed((a + b)[i], o) {
      if i >= |a| { assert (a + b)[i] == b[i - |a|]; }
    }
  }

  /** The character set `generateSecurePassword` draws from, or its error
      when every class is switched off. The set holds exactly the allowed
      characters. */
  function PasswordCharset(o: CharsetOptions): (r: Result<string, string>)
    ensures r.Err? <==> !o.includeUppercase && !o.includeLowercase && !o.includeNumbers && !o.includeSymbols
    ensures r.Err? ==> r.error == "At least one character type must be included"
    ensures r.Ok? ==> |r.value| > 0
    ensures r.Ok? ==> forall i :: 0 <= i < |r.value| ==> Allowed(r.value[i], o)
    ensures r.Ok? ==> forall c: char :: Allowed(c, o) ==> c in r.value
  {
    var charset := Charset(o);
    if |charset| == 0 then Err("At least one character type must be included")
    else Ok(charset)
  }

  /** The concatenated character classes. */
  function Charset(o: CharsetOptions): (charset: string)
    ensures |charset| == 0 <==> !o.includeUppercase && !o.includeLowercase && !o.includeNumbers && !o.includeSymbols
    ensures forall i :: 0 <= i < |charset| ==> Allowed(charset[i], o)
    ensures forall c: char :: Allowed(c, o) ==> c in charset
  {
    var lower := if o.includeLowercase then Range('a', 'z', o.excludeSimilar) else "";
    var upper := if o.includeUppercase then Range('A', 'Z', o.excludeSimilar) else "";
    var digits := if o.includeNumbers then Range('0', '9', o.excludeSimilar) else "";
    var symbols := if o.includeSymbols then SYMBOLS else "";
    ClassesAllowed(o, lower, upper, digits, symbols);
    ClassesCover(o, lower, upper, digits, symbols);
    lower + upper + digits + symbols
  }

  /** Each class holds only allowed characters, and is empty exactly when
      switched off. */
  lemma ClassesAllowed(o: CharsetOptions, lower: string, upper: string, digits: string, symbols: string)
    requires lower == if o.includeLowercase then Range('a', 'z', o.excludeSimilar) else ""
    requires upper == if o.includeUppercase then Range('A', 'Z', o.excludeSimilar) else ""
    requires digits == if o.includeNumbers then Range('0', '9', o.excludeSimilar) else ""
    requires symbols == if o.includeSymbols then SYMBOLS else ""
    ensures var cs := lower + upper + digits + symbols;
      (|cs| == 0 <==> !o.includeUppercase && !o.includeLowercase && !o.includeNumbers && !o.includeSymbols)
      && AllAllowed(cs, o)
  {
    ClassNonEmpty(o.includeLowercase, 'a', 'z', o.excludeSimilar, lower);
    ClassNonEmpty(o.includeUppercase, 'A', 'Z', o.excludeSimilar, upper);
    ClassNonEmpty(o.includeNumbers, '0', '9', o.excludeSimilar, digits);
    SymbolsAllowed(o, symbols);
    LettersAllowed(o, lower, upper);
    DigitsAllowed(o, digits);
    AllowedConcat(lower, upper, o);
    AllowedConcat(lower + upper, digits, o);
    AllowedConcat(lower + upper + digits, symbols, o);
  }

  /** A class switched on is not empty: its last character is never one
      of the similar ones. */
  lemma ClassNonEmpty(on: bool, lo: char, hi: char, excludeSimilar: bool, cls: string)
    requires lo <= hi <= '~' && !IsSimilar(hi)
    requires cls == if on then Range(lo, hi, excludeSimilar) else ""
    ensures |cls| == 0 <==> !on
  {
    if on {
      assert hi in cls;
    }
  }

  lemma LettersAllowed(o: CharsetOptions, lower: string, upper: string)
    requires lower == if o.includeLowercase then Range('a', 'z', o.excludeSimilar) else ""
    requires upper == if o.includeUppercase then Range('A', 'Z', o.excludeSimilar) else ""
    ensures AllAllowed(lower, o) && AllAllowed(upper, o)
  {
  }

  lemma DigitsAllowed(o: CharsetOptions, digits: string)
    requires digits == if o.includeNumbers then Range('0', '9', o.excludeSimilar) else ""
    ensures AllAllowed(digits, o)
  {
  }

  lemma SymbolsAllowed(o: CharsetOptions, symbols: string)
    requires symbols == if o.includeSymbols then SYMBOLS else ""
    ensures AllAllowed(symbols, o) && (|symbols| == 0 <==> !o.includeSymbols)
  {
    assert forall i :: 0 <= i < |symbols| ==> symbols[i] in SYMBOLS && !IsSimilar(symbols[i]);
  }

  /** Every allowed character is in one of the classes. */
  lemma ClassesCover(o: CharsetOptions, lower: string, upper: string, digits: string, symbols: string)
    requires lower == if o.includeLowercase then Range('a', 'z', o.excludeSimilar) else ""
    requires upper == if o.includeUppercase then Range('A', 'Z', o.excludeSimilar) else ""
    requires digits == if o.includeNumbers then Range('0', '9', o.excludeSimilar) else ""
    requires symbols == if o.includeSymbols then SYMBOLS else ""
    ensures forall c: char :: Allowed(c, o) ==> c in lower + upper + digits + symbols
  {
    var charset := lower + upper + digits + symbols;
    forall c: char | Allowed(c, o) ensures c in charset {
      if IsLower(c) && o.includeLowercase { assert c in lower; }
      else if IsUpper(c) && o.includeUppercase { assert c in upper; }
      else if IsDigit(c) && o.includeNumbers { assert c in digits; }
      else { assert c in symbols; }
    }
  }

  /** `generateSecurePassword(length, options)` with the successive values
      of `Math.random()` as a parameter. */
  function GenerateSecurePassword(length: nat, o: CharsetOptions, rand: seq<real>): (r: Result<string, string>)
    requires |rand| == length && forall i :: 0 <= i < |rand| ==> 0.0 <= rand[i] < 1.0
    ensures r.Err? <==> PasswordCharset(o).Err?
    ensures r.Ok? ==> |r.value| == length
    ensures r.Ok? ==> forall i :: 0 <= i < |r.value| ==> r.value[i] in PasswordCharset(o).value
  {
    match PasswordCharset(o)
    case Err(e) => Err(e)
    case Ok(charset) => Ok(Draw(charset, rand))
  }

  /** `charset.charAt(Math.floor(x * charset.length))` for each value `x`. */
  function Draw(charset: string, rand: seq<real>): (r: string)
    requires |charset| > 0 && forall i :: 0 <= i < |rand| ==> 0.0 <= rand[i] < 1.0
    ensures |r| == |rand| && forall i :: 0 <= i < |r| ==> r[i] in charset
  {
    if |rand| == 0 then ""
    else
      var k := ScaledIndex(rand[0], |charset|);
      [charset[k]] + Draw(charset, rand[1..])
  }

  /** `Math.floor(x * n)` for `0 <= x < 1` is an index below `n`. */
  function ScaledIndex(x: real, n: nat): (k: nat)
    requires 0.0 <= x < 1.0 && n > 0
    ensures k < n
  {
    ScaleBelow(x, n as real);
    FloorBelow(x * n as real, n);
    (x * n as real).Floor
  }

  lemma ScaleBelow(x: real, n: real)
    requires 0.0 <= x < 1.0 && n > 0.0
    ensures 0.0 <= x * n < n
  {
    assert n - x * n == (1.0 - x) * n;
  }

  lemma FloorBelow(y: real, n: nat)
    requires 0.0 <= y < n as real
    ensures 0 <= y.Floor < n
  {
  }

  // ------------------------------------------------------------- strength

  datatype Requirements = Requirements(
    minLength: int,
    maxLength: int,
    requireUppercase: bool,
    requireLowercase: bool,
    requireNumbers: bool,
    requireSymbols: bool,
    forbidCommon: bool)

  const DEFAULT_REQUIREMENTS := Requirements(8, 128, true, true, true, true, true)

  const COMMON_PASSWORDS: seq<string> := [
    "password", "123456", "12345678", "qwerty", "abc123",
    "password123", "admin", "letmein", "welcome", "monkey"]

  /** The lowercase form is on the common list. */
  predicate IsCommon(password: string) {
    Lower(password) in COMMON_PASSWORDS
  }

  predicate HasUpper(s: string) { exists i :: 0 <= i < |s| && IsUpper(s[i]) }
  predicate HasLower(s: string) { exists i :: 0 <= i < |s| && IsLower(s[i]) }
  predicate HasDigit(s: string) { exists i :: 0 <= i < |s| && IsDigit(s[i]) }
  predicate HasSymbol(s: string) { exists i :: 0 <= i < |s| && s[i] in SYMBOLS }

  /** The number of character classes present. */
  function ClassCount(s: string): nat {
    (if HasUpper(s) then 1 else 0) + (if HasLower(s) then 1 else 0)
    + (if HasDigit(s) then 1 else 0) + (if HasSymbol(s) then 1 else 0)
  }

  function StrengthLabel(score: int): string {
    if score >= 4 then "very strong"
    else if score >= 3 then "strong"
    else if score >= 2 then "moderate"
    else if score >= 1 then "weak"
    else "very weak"
  }

  datatype StrengthReport = StrengthReport(isValid: bool, score: nat, feedback: seq<string>, strength: string)

  /** The report under construction, one check at a time. */
  function Fail(r: StrengthReport, message: string): (r': StrengthReport)
    ensures !r'.isValid && r'.score == r.score && |r'.feedback| == |r.feedback| + 1
    ensures r'.feedback[|r.feedback|] == message
  {
    r.(isValid := false, feedback := r.feedback + [message])
  }

  /** One class check: a missing required class fails, a present class
      scores, whatever the flag. */
  function ClassCheck(r: StrengthReport, required: bool, present: bool, message: string): (r': StrengthReport)
    ensures r'.score == r.score + (if present then 1 else 0)
    ensures r'.isValid == (r.isValid && !(required && !present))
    ensures |r'.feedback| == |r.feedback| + (if required && !present then 1 else 0)
  {
    if required && !present then Fail(r, message)
    else if present then r.(score := r.score + 1)
    else r
  }

  /** The password is acceptable under the requirements. */
  predicate Acceptable(password: string, q: Requirements) {
    q.minLength <= |password| <= q.maxLength
    && (q.requireUppercase ==> HasUpper(password))
    && (q.requireLowercase ==> HasLower(password))
    && (q.requireNumbers ==> HasDigit(password))
    && (q.requireSymbols ==> HasSymbol(password))
    && !(q.forbidCommon && IsCommon(password))
  }

  /** The two length checks. */
  function LengthChecks(length: int, q: Requirements): (r: StrengthReport)
    ensures r.score == 0
    ensures r.isValid <==> |r.feedback| == 0
    ensures r.isValid <==> q.minLength <= length <= q.maxLength
  {
    var r0 := StrengthReport(true, 0, [], "");
    var r1 := if length < q.minLength
      then Fail(r0, "Password must be at least " + IntToString(q.minLength) + " characters long") else r0;
    if length > q.maxLength
    then Fail(r1, "Password must be no more than " + IntToString(q.maxLength) + " characters long") else r1
  }

  /** The four class checks, given which classes are present. */
  function ClassChecks(r: StrengthReport, q: Requirements, upper: bool, lower: bool, digit: bool, symbol: bool): (r': StrengthReport)
    requires r.isValid <==> |r.feedback| == 0
    ensures r'.isValid <==> |r'.feedback| == 0
    ensures r'.isValid <==>
      (r.isValid && (q.requireUppercase ==> upper) && (q.requireLowercase ==> lower)
       && (q.requireNumbers ==> digit) && (q.requireSymbols ==> symbol))
    ensures r'.score == r.score + (if upper then 1 else 0) + (if lower then 1 else 0)
      + (if digit then 1 else 0) + (if symbol then 1 else 0)
  {
    var r3 := ClassCheck(r, q.requireUppercase, upper, "Password must contain at least one uppercase letter");
    var r4 := ClassCheck(r3, q.requireLowercase, lower, "Password must contain at least one lowercase letter");
    var r5 := ClassCheck(r4, q.requireNumbers, digit, "Password must contain at least one number");
    ClassCheck(r5, q.requireSymbols, symbol, "Password must contain at least one special character")
  }

  /** `validatePasswordStrength(password, requirements)`. */
  function ValidatePasswordStrength(password: string, q: Requirements): (r: StrengthReport)
    ensures r.isValid <==> |r.feedback| == 0
    ensures r.isValid <==> Acceptable(password, q)
    ensures r.score == ClassCount(password) && r.score <= 4
    ensures r.strength == StrengthLabel(r.score)
  {
    var common := q.forbidCommon && IsCommon(password);
    var r2 := LengthChecks(|password|, q);
    var r6 := ClassChecks(r2, q, HasUpper(password), HasLower(password), HasDigit(password), HasSymbol(password));
    var r7 := if common then Fail(r6, "Password is too common") else r6;
    r7.(strength := StrengthLabel(r7.score))
  }

  /** Every entry of the common list is refused under the default
      requirements, in any ASCII capitalisation. */
  lemma CommonPasswordsRefused(password: string)
    requires IsCommon(password)
    ensures !ValidatePasswordStrength(password, DEFAULT_REQUIREMENTS).isValid
    ensures "Password is too common" in ValidatePasswordStrength(password, DEFAULT_REQUIREMENTS).feedback
  {
  }

  /** A password holding all four classes has the top label, and one with
      none has the bottom label, whatever the requirements. */
  lemma StrengthLabelsAtExtremes(password: string, q: Requirements)
    ensures HasUpper(password) && HasLower(password) && HasDigit(password) && HasSymbol(password)
      ==> ValidatePasswordStrength(password, q).strength == "very strong"
    ensures !HasUpper(password) && !HasLower(password) && !HasDigit(password) && !HasSymbol(password)
      ==> ValidatePasswordStrength(password, q).strength == "very weak"
  {
  }
}

=== FILE: patterns.dfy ===
/** The shared constants and regular expressions of src/utils/constants.js.
    Each `REGEX` entry is an executable predicate next to a statement of the
    pattern in the regular expression's own terms (anchors, lookaheads,
    repetition counts), with a lemma that the two agree. */
module Patterns {
  import opened Base
  import opened Text
  import opened Password
  import opened UserModel
  import Helpers

  // ------------------------------------------------------------ VALIDATION

  const PASSWORD_MIN_LENGTH: nat := 8
  const PASSWORD_MAX_LENGTH: nat := 128
  const EMAIL_MAX_LENGTH: nat := 254
  const USERNAME_MIN_LENGTH: nat := 3
  const USERNAME_MAX_LENGTH: nat := 30

  // ------------------------------------------------------------ USER_ROLES

  /** `Object.values(CONSTANTS.USER_ROLES)`, in declaration order. */
  const USER_ROLES: seq<string> := ["USER", "ADMIN", "MODERATOR"]

  /** The constants name exactly the roles of the user schema's enum. */
  lemma UserRolesAreTheSchemaEnum(s: string)
    ensures s in USER_ROLES <==> ParseRole(s).Some?
    ensures |USER_ROLES| == 3
  {
  }

  // ------------------------------------------------------- STRONG_PASSWORD

  /** The class `[@$!%*?&]`. */
  predicate IsStrongSpecial(c: char) {
    c == '@' || c == '$' || c == '!' || c == '%' || c == '*' || c == '?' || c == '&'
  }

  /** The class `[A-Za-z\d@$!%*?&]` the first character must belong to. */
  predicate IsStrongLead(c: char) { IsAlnum(c) || IsStrongSpecial(c) }

  predicate HasStrongSpecial(s: string) { exists i :: 0 <= i < |s| && IsStrongSpecial(s[i]) }

  /** The text a lookahead `.*` can reach: everything before the first
      line terminator. */
  function FirstLine(s: string): (r: string)
    ensures |r| <= |s| && r == s[..|r|]
    ensures forall i :: 0 <= i < |r| ==> !IsLineTerminator(r[i])
    ensures |r| < |s| ==> IsLineTerminator(s[|r|])
  {
    if |s| == 0 || IsLineTerminator(s[0]) then [] else [s[0]] + FirstLine(s[1..])
  }

  /** `REGEX.STRONG_PASSWORD.test(s)`. */
  predicate StrongPasswordMatches(s: string) {
    var line := FirstLine(s);
    |s| > 0 && IsStrongLead(s[0])
    && HasLower(line) && HasUpper(line) && HasDigit(line) && HasStrongSpecial(line)
  }

  /** Lookahead `(?=.*[c])` at position 0: a character of the class with no
      line terminator before it. */
  ghost predicate Reaches(s: string, p: char -> bool) {
    exists i :: 0 <= i < |s| && p(s[i]) && forall j :: 0 <= j < i ==> !IsLineTerminator(s[j])
  }

  /** The pattern as written: four lookaheads, then one character of the
      lead class, and no end anchor. */
  ghost predicate StrongPasswordRegex(s: string) {
    Reaches(s, IsLower) && Reaches(s, IsUpper) && Reaches(s, IsDigit) && Reaches(s, IsStrongSpecial)
    && |s| > 0 && IsStrongLead(s[0])
  }

  predicate Occurs(t: string, p: char -> bool) { exists i :: 0 <= i < |t| && p(t[i]) }

  lemma ReachesIffInFirstLine(s: string, p: char -> bool)
    requires forall c :: p(c) ==> !IsLineTerminator(c)
    ensures Reaches(s, p) <==> Occurs(FirstLine(s), p)
  {
    var line := FirstLine(s);
    if Reaches(s, p) {
      var i :| 0 <= i < |s| && p(s[i]) && forall j :: 0 <= j < i ==> !IsLineTerminator(s[j]);
      if i >= |line| {
        assert false;
      }
      assert line[i] == s[i];
      assert Occurs(line, p);
    }
    if Occurs(line, p) {
      var i :| 0 <= i < |line| && p(line[i]);
      assert s[i] == line[i];
      assert forall j :: 0 <= j < i ==> s[j] == line[j];
      assert Reaches(s, p);
    }
  }

  /** The first line ends at the first line terminator. */
  lemma {:induction false} FirstLineOf(a: string, b: string)
    requires forall i :: 0 <= i < |a| ==> !IsLineTerminator(a[i])
    requires |b| > 0 && IsLineTerminator(b[0])
    ensures FirstLine(a + b) == a
  {
    if |a| > 0 {
      assert (a + b)[1..] == a[1..] + b;
      FirstLineOf(a[1..], b);
    } else {
      assert a + b == b;
    }
  }

  /** The predicate accepts exactly what the regular expression does. */
  lemma StrongPasswordMatchesRegex(s: string)
    ensures StrongPasswordMatches(s) <==> StrongPasswordRegex(s)
  {
    ReachesIffInFirstLine(s, IsLower);
    ReachesIffInFirstLine(s, IsUpper);
    ReachesIffInFirstLine(s, IsDigit);
    ReachesIffInFirstLine(s, IsStrongSpecial);
  }

  /** Without an end anchor, anything may follow a matching password. */
  lemma StrongPasswordIgnoresTail(s: string, t: string)
    requires StrongPasswordMatches(s)
    ensures StrongPasswordMatches(s + t)
  {
    var a := FirstLine(s);
    var b := FirstLine(s + t);
    FirstLineExtends(s, t);
    assert forall i :: 0 <= i < |a| ==> b[i] == a[i];
    assert (s + t)[0] == s[0];
    var i1 :| 0 <= i1 < |a| && IsLower(a[i1]);
    var i2 :| 0 <= i2 < |a| && IsUpper(a[i2]);
    var i3 :| 0 <= i3 < |a| && IsDigit(a[i3]);
    var i4 :| 0 <= i4 < |a| && IsStrongSpecial(a[i4]);
    assert IsLower(b[i1]) && IsUpper(b[i2]) && IsDigit(b[i3]) && IsStrongSpecial(b[i4]);
  }

  /** Appending text can only lengthen the first line. */
  lemma {:induction false} FirstLineExtends(s: string, t: string)
    ensures |FirstLine(s)| <= |FirstLine(s + t)| && FirstLine(s + t)[..|FirstLine(s)|] == FirstLine(s)
  {
    if |s| > 0 {
      assert (s + t)[0] == s[0];
      if !IsLineTerminator(s[0]) {
        assert (s + t)[1..] == s[1..] + t;
        FirstLineExtends(s[1..], t);
      }
    }
  }

  /** The classes must all appear before the first line break: a digit on a
      second line does not count. */
  lemma StrongPasswordStopsAtLineBreak()
    ensures !StrongPasswordMatches("Abcdef@x\n1")
  {
    var a := "Abcdef@x";
    FirstLineBeforeOne(a);
    assert forall i :: 0 <= i < |a| ==> !IsDigit(a[i]);
    assert !HasDigit(a);
  }

  /** Proof step of `StrongPasswordStopsAtLineBreak`: the first line of its
      example. */
  lemma FirstLineBeforeOne(a: string)
    requires a == "Abcdef@x"
    ensures FirstLine(a + "\n1") == a && "Abcdef@x\n1" == a + "\n1"
  {
    FirstLineOf(a, "\n1");
  }

  lemma StrongPasswordFirstLineSuffices()
    ensures StrongPasswordMatches("Abcdef@1\nx")
  {
    var a := "Abcdef@1";
    FirstLineBeforeX(a);
    assert IsLower(a[1]) && IsUpper(a[0]) && IsDigit(a[7]) && IsStrongSpecial(a[6]);
    assert HasLower(a) && HasUpper(a) && HasDigit(a) && HasStrongSpecial(a);
    assert IsStrongLead((a + "\nx")[0]);
  }

  /** Proof step of `StrongPasswordFirstLineSuffices`: the first line of its
      example. */
  lemma FirstLineBeforeX(a: string)
    requires a == "Abcdef@1"
    ensures FirstLine(a + "\nx") == a && "Abcdef@1\nx" == a + "\nx"
  {
    FirstLineOf(a, "\nx");
  }

  /** A matching password scores every class of the strength report, whose
      symbol set contains all of `@$!%*?&`. */
  lemma StrongPasswordHasEveryClass(s: string)
    requires StrongPasswordMatches(s)
    ensures HasLower(s) && HasUpper(s) && HasDigit(s) && HasSymbol(s)
    ensures ClassCount(s) == 4
  {
    var line := FirstLine(s);
    var i :| 0 <= i < |line| && IsStrongSpecial(line[i]);
    assert s[i] == line[i];
    assert s[i] in SYMBOLS;
    var a :| 0 <= a < |line| && IsLower(line[a]);
    assert s[a] == line[a];
    var b :| 0 <= b < |line| && IsUpper(line[b]);
    assert s[b] == line[b];
    var c :| 0 <= c < |line| && IsDigit(line[c]);
    assert s[c] == line[c];
  }

  // ------------------------------------------------------------------ EMAIL

  /** `REGEX.EMAIL.test(s)`: the same literal as `isValidEmail`. */
  predicate EmailMatches(s: string) { Helpers.IsValidEmail(s) }

  // --------------------------------------------------------------- USERNAME

  /** `REGEX.USERNAME.test(s)`: `^[a-zA-Z0-9_]{3,30}$`. */
  predicate UsernameMatches(s: string) {
    USERNAME_MIN_LENGTH <= |s| <= USERNAME_MAX_LENGTH && forall i :: 0 <= i < |s| ==> IsWordChar(s[i])
  }

  // ------------------------------------------------------------------ PHONE

  /** The digits after an optional leading '+'. */
  function PhoneDigits(s: string): (d: string)
    ensures s == d || s == "+" + d
    ensures |s| > 0 && s[0] == '+' ==> s == "+" + d
  {
    if |s| > 0 && s[0] == '+' then s[1..] else s
  }

  /** `REGEX.PHONE.test(s)`: `^\+?[1-9]\d{1,14}$`. */
  predicate PhoneMatches(s: string) {
    var d := PhoneDigits(s);
    2 <= |d| <= 15 && '1' <= d[0] <= '9' && forall i :: 0 <= i < |d| ==> IsDigit(d[i])
  }

  /** The pattern as written: an optional '+', then a non-zero digit and
      one to fourteen further digits. */
  ghost predicate PhoneRegex(s: string) {
    exists plus: string, d: string ::
      (plus == "" || plus == "+") && s == plus + d
      && 2 <= |d| <= 15 && '1' <= d[0] <= '9' && forall i :: 0 <= i < |d| ==> IsDigit(d[i])
  }

  /** The predicate accepts exactly what the regular expression does (the
      '+' cannot be skipped, since it is not a digit). */
  lemma PhoneMatchesRegex(s: string)
    ensures PhoneMatches(s) <==> PhoneRegex(s)
  {
    if PhoneRegex(s) {
      var plus: string, d: string :| (plus == "" || plus == "+") && s == plus + d
        && 2 <= |d| <= 15 && '1' <= d[0] <= '9' && forall i :: 0 <= i < |d| ==> IsDigit(d[i]);
      if plus == "" {
        assert s[0] == d[0];
      } else {
        assert s[1..] == d;
      }
    }
    if PhoneMatches(s) {
      var d := PhoneDigits(s);
      if |s| > 0 && s[0] == '+' {
        assert s == "+" + d;
      } else {
        assert s == "" + d;
      }
    }
  }

  // ------------------------------------------------------------------- UUID

  /** What `[0-9a-f]` matches under the `i` flag. */
  predicate IsHexI(c: char) { IsHexDigit(c) }

  /** The class expected at each of the 36 positions of a UUID. */
  predicate UuidCharAt(i: int, c: char) {
    if i == 8 || i == 13 || i == 18 || i == 23 then c == '-'
    else if i == 14 then '1' <= c <= '5'
    else if i == 19 then c == '8' || c == '9' || c == 'a' || c == 'b' || c == 'A' || c == 'B'
    else IsHexI(c)
  }

  /** `REGEX.UUID.test(s)`: groups of 8-4-4-4-12 hex digits, version
      nibble 1 to 5, variant 8, 9, a or b, any letter case. */
  predicate UuidMatches(s: string) {
    |s| == 36 && forall i :: 0 <= i < 36 ==> UuidCharAt(i, s[i])
  }

  /** The `i` flag: letter case never changes the verdict. */
  lemma UuidIgnoresCase(s: string)
    ensures UuidMatches(Lower(s)) <==> UuidMatches(s)
    ensures UuidMatches(Upper(s)) <==> UuidMatches(s)
  {
    if |s| == 36 {
      forall i | 0 <= i < 36
        ensures UuidCharAt(i, Lower(s)[i]) <==> UuidCharAt(i, s[i])
        ensures UuidCharAt(i, Upper(s)[i]) <==> UuidCharAt(i, s[i])
      {
        UuidCharIgnoresCase(i, s[i]);
      }
    }
  }

  lemma UuidCharIgnoresCase(i: int, c: char)
    ensures UuidCharAt(i, LowerChar(c)) <==> UuidCharAt(i, c)
    ensures UuidCharAt(i, UpperChar(c)) <==> UuidCharAt(i, c)
  {
    if IsUpper(c) {
      assert LowerChar(c) as int == c as int + 32;
    }
    if IsLower(c) {
      assert UpperChar(c) as int == c as int - 32;
    }
  }

  lemma UuidExample()
    ensures UuidMatches("123e4567-e89b-12d3-a456-426614174000")
  {
  }

  /** Version 6 is outside the accepted range. */
  lemma UuidVersionOutOfRange()
    ensures !UuidMatches("123e4567-e89b-62d3-a456-426614174000")
  {
    var bad := "123e4567-e89b-62d3-a456-426614174000";
    assert !UuidCharAt(14, bad[14]);
  }
}

=== FILE: profile_validation.dfy ===
/** The schemas of src/validations/user.validation.js: the profile update,
    whose every field is optional and may be sent as null or '', and the
    `userId` route parameter. */
module ProfileValidation {
  import opened Base
  import opened Text
  import opened Json
  import opened Schema
  import opened Patterns

  /** The two values every profile field accepts besides its own rules. */
  const CLEARED: seq<Value> := [Null, Str("")]

  /** `updateProfileSchema.fullName`: trimmed, at most 100. */
  const FULL_NAME_KEY := Key("fullName", StringKind(false, true, [MaxLength(100)]), false, CLEARED, false, None,
    map[StringMax := "Full name must be at most 100 characters long"])

  /** `updateProfileSchema.phoneNumber`: PHONE, not trimmed. */
  const PHONE_NUMBER_KEY := Key("phoneNumber", StringKind(false, false, [Pattern(PhoneMatches)]), false, CLEARED, false, None,
    map[StringPatternBase := "Vui lòng cung cấp số điện thoại hợp lệ (phải là số điện thoại Việt Nam)"])

  /** `updateProfileSchema.address`: trimmed, at most 255. */
  const ADDRESS_KEY := Key("address", StringKind(false, true, [MaxLength(255)]), false, CLEARED, false, None,
    map[StringMax := "Address must be at most 255 characters long"])

  /** `updateProfileSchema.bio`: trimmed, at most 500. */
  const BIO_KEY := Key("bio", StringKind(false, true, [MaxLength(500)]), false, CLEARED, false, None,
    map[StringMax := "Bio must be at most 500 characters long"])

  /** The values of the gender enumeration, which the constants leave
      undefined, as strings. */
  function GenderValues(genders: seq<string>): (vs: seq<Value>)
    ensures forall v :: v in vs <==> v.Str? && v.s in genders
  {
    if |genders| == 0 then []
    else
      var rest := GenderValues(genders[1..]);
      assert forall g :: g in genders <==> g == genders[0] || g in genders[1..];
      [Str(genders[0])] + rest
  }

  /** `updateProfileSchema.gender`: one of the genders, or null, or ''. */
  function GenderKey(genders: seq<string>): (k: Key)
    ensures k.name == "gender" && k.only && !k.required && k.default == None
    ensures forall v :: v in k.allowed <==> v == Null || v == Str("") || (v.Str? && v.s in genders)
  {
    Key("gender", StringKind(false, false, []), false, GenderValues(genders) + CLEARED, true, None,
      map[AnyOnly := "Gender must be one of: " + Join(genders, ", ")])
  }

  /** The profile keys in declaration order. `dateOfBirth` is not part of
      this model. */
  function ProfileKeys(genders: seq<string>): seq<Key> {
    [FULL_NAME_KEY, PHONE_NUMBER_KEY, ADDRESS_KEY, GenderKey(genders), BIO_KEY]
  }

  /** `/^[0-9a-fA-F]{24}$/`: a MongoDB ObjectId in hexadecimal. */
  predicate IsObjectId(s: string) {
    |s| == 24 && forall i :: 0 <= i < |s| ==> IsHexDigit(s[i])
  }

  const MSG_USER_ID_FORMAT := "Invalid user ID format"
  const MSG_USER_ID_REQUIRED := "User ID is required"

  /** `userIdSchema.userId`. */
  const USER_ID_KEY := Key("userId", StringKind(false, false, [Pattern(IsObjectId)]), true, [], false, None,
    map[StringPatternBase := MSG_USER_ID_FORMAT, AnyRequired := MSG_USER_ID_REQUIRED])

  const USER_ID_KEYS := [USER_ID_KEY]

  // ------------------------------------------------------------ properties

  /** A field with `allow(null, '')` and a single length bound: absent,
      null, or a string whose trimmed form is within the bound. Whitespace
      alone trims to '' and is accepted. */
  predicate BoundedOk(v: Value, bound: nat) {
    v == Undefined || v == Null || (v.Str? && |Trim(v.s)| <= bound)
  }

  /** The shared rule of `fullName`, `address` and `bio`. */
  lemma TrimmedMaxRule(k: Key, bound: nat, v: Value, env: Env)
    requires k.kind == StringKind(false, true, [MaxLength(bound)]) && k.allowed == CLEARED && !k.only && !k.required
    ensures CheckKey(k, v, env).codes == [] <==> BoundedOk(v, bound)
    ensures v.Str? && |Trim(v.s)| > bound ==> CheckKey(k, v, env).codes == [StringMax]
    ensures v != Undefined && v != Null && !v.Str? ==> CheckKey(k, v, env).codes == [StringBase]
  {
    if v.Str? {
      TrimmedMaxString(k, bound, v.s, env);
    }
  }

  /** A string is checked trimmed: empty after trimming it is one of the
      cleared values, otherwise only its length counts. */
  lemma TrimmedMaxString(k: Key, bound: nat, s: string, env: Env)
    requires k.kind == StringKind(false, true, [MaxLength(bound)]) && k.allowed == CLEARED && !k.only && !k.required
    ensures CheckKey(k, Str(s), env).codes == if |Trim(s)| <= bound then [] else [StringMax]
  {
    var t := Trim(s);
    assert Coerce(k.kind, Str(s), env) == Str(t);
    if t != "" {
      assert Str(t) !in k.allowed;
      assert !AllowsEmpty(k.kind.rules) by {
        assert k.kind.rules[0] != MinLength(0);
      }
      assert TypeErrors(k.kind, Str(t)) == [];
      assert StringRuleErrors(k.kind.rules, t, env) == if |t| <= bound then [] else [StringMax] by {
        assert k.kind.rules[1..] == [];
      }
    }
  }

  lemma FullNameRule(v: Value, env: Env)
    ensures CheckKey(FULL_NAME_KEY, v, env).codes == [] <==> BoundedOk(v, 100)
  {
    TrimmedMaxRule(FULL_NAME_KEY, 100, v, env);
  }

  lemma AddressRule(v: Value, env: Env)
    ensures CheckKey(ADDRESS_KEY, v, env).codes == [] <==> BoundedOk(v, 255)
  {
    TrimmedMaxRule(ADDRESS_KEY, 255, v, env);
  }

  lemma BioRule(v: Value, env: Env)
    ensures CheckKey(BIO_KEY, v, env).codes == [] <==> BoundedOk(v, 500)
  {
    TrimmedMaxRule(BIO_KEY, 500, v, env);
  }

  predicate PhoneNumberOk(v: Value) {
    v == Undefined || v == Null || (v.Str? && (v.s == "" || PhoneMatches(v.s)))
  }

  /** `phoneNumber` is absent, null, '' or matches PHONE exactly as given:
      it is not trimmed, so surrounding spaces are refused. */
  lemma PhoneNumberRule(v: Value, env: Env)
    ensures CheckKey(PHONE_NUMBER_KEY, v, env).codes == [] <==> PhoneNumberOk(v)
    ensures !PhoneMatches(" 0912345678")
  {
    assert !AllowsEmpty(PHONE_NUMBER_KEY.kind.rules) by {
      assert PHONE_NUMBER_KEY.kind.rules[0] != MinLength(0);
    }
    if v.Str? {
      StringKeyPasses(PHONE_NUMBER_KEY, v.s, env);
    }
    assert !IsDigit(" 0912345678"[0]);
  }

  predicate GenderOk(genders: seq<string>, v: Value) {
    v == Undefined || v == Null || (v.Str? && (v.s == "" || v.s in genders))
  }

  /** `gender` is absent, null, '' or one of the genders. Any other string
      is refused with the enumeration's message alone; a value that is not
      a string also fails the type check, with `string.base`. */
  lemma GenderRule(genders: seq<string>, v: Value, env: Env)
    ensures CheckKey(GenderKey(genders), v, env).codes == [] <==> GenderOk(genders, v)
    ensures !GenderOk(genders, v) && v.Str? ==> CheckKey(GenderKey(genders), v, env).codes == [AnyOnly]
    ensures !GenderOk(genders, v) && !v.Str? ==> CheckKey(GenderKey(genders), v, env).codes == [AnyOnly, StringBase]
  {
    if !GenderOk(genders, v) {
      EnumKeyCodes(GenderKey(genders), v, env);
    }
  }

  /** An update passes exactly when every field does. */
  lemma ProfileRule(genders: seq<string>, body: map<string, Value>, env: Env)
    ensures ValidateKeys(ProfileKeys(genders), body, env).Passed() <==>
      BoundedOk(Field(body, "fullName"), 100) && PhoneNumberOk(Field(body, "phoneNumber"))
      && BoundedOk(Field(body, "address"), 255) && GenderOk(genders, Field(body, "gender"))
      && BoundedOk(Field(body, "bio"), 500)
  {
    var g := GenderKey(genders);
    FullNameRule(Field(body, "fullName"), env);
    PhoneNumberRule(Field(body, "phoneNumber"), env);
    AddressRule(Field(body, "address"), env);
    GenderRule(genders, Field(body, "gender"), env);
    BioRule(Field(body, "bio"), env);
    PassedCons(BIO_KEY, [], body, env);
    PassedCons(g, [BIO_KEY], body, env);
    PassedCons(ADDRESS_KEY, [g, BIO_KEY], body, env);
    PassedCons(PHONE_NUMBER_KEY, [ADDRESS_KEY, g, BIO_KEY], body, env);
    PassedCons(FULL_NAME_KEY, [PHONE_NUMBER_KEY, ADDRESS_KEY, g, BIO_KEY], body, env);
  }

  /** An empty update passes and sets nothing: no profile field has a
      default. */
  lemma EmptyProfile(genders: seq<string>, env: Env)
    ensures ValidateKeys(ProfileKeys(genders), map[], env) == Validated(map[], [])
  {
    var keys := ProfileKeys(genders);
    assert forall i :: 0 <= i < |keys| ==> !keys[i].required && keys[i].default == None;
    EmptyInputNoDefaults(keys, env);
  }

  /** The route parameter passes exactly when it is 24 hexadecimal
      characters; a missing one is reported as required, and any other
      string as a bad format (or, if empty, with Joi's own message). */
  lemma UserIdRule(v: Value, env: Env)
    ensures CheckKey(USER_ID_KEY, v, env).codes == [] <==> v.Str? && IsObjectId(v.s)
    ensures DetailsFor(USER_ID_KEY, CheckKey(USER_ID_KEY, Undefined, env).codes, env)
      == [Detail(["userId"], AnyRequired, MSG_USER_ID_REQUIRED)]
    ensures v.Str? && v.s != "" && !IsObjectId(v.s) ==>
      DetailsFor(USER_ID_KEY, CheckKey(USER_ID_KEY, v, env).codes, env)
        == [Detail(["userId"], StringPatternBase, MSG_USER_ID_FORMAT)]
  {
    assert !AllowsEmpty(USER_ID_KEY.kind.rules) by {
      assert USER_ID_KEY.kind.rules[0] != MinLength(0);
    }
    if v.Str? {
      StringKeyPasses(USER_ID_KEY, v.s, env);
      if v.s != "" {
        assert CheckKey(USER_ID_KEY, v, env).codes == StringRuleErrors(USER_ID_KEY.kind.rules, v.s, env);
      }
    }
  }

  /** Route parameters without a `userId` fail with exactly one detail. */
  lemma MissingUserIdDetails(params: map<string, Value>, env: Env)
    requires "userId" !in params
    ensures ValidateKeys(USER_ID_KEYS, params, env)
      == Validated(map[], [Detail(["userId"], AnyRequired, MSG_USER_ID_REQUIRED)])
  {
    UserIdRule(Undefined, env);
    ValidateCons(USER_ID_KEY, [], params, env);
    assert USER_ID_KEYS == [USER_ID_KEY] + [];
  }
}

=== FILE: repo_user_service.dfy ===
/** The repository-based user service of src/modules/user/user.service.js.
    The relational store is a sequence of rows in insertion order, unique by
    email; the repository's lookups, its bcrypt calls and token signing are
    parameters or filters. There is no lockout and no status check here. */
module RepoUserService {
  import opened Base
  import opened Text
  import opened Json
  import opened Errors
  import opened Pagination
  import opened Password

  /** A row of the user table. */
  datatype Row = Row(id: string, email: string, password: string, role: string, createdAt: int, updatedAt: int)

  datatype Outcome<T> = Outcome(rows: seq<Row>, result: Result<T, Thrown>)

  datatype Session = Session(user: map<string, Value>, token: string)

  /** The columns every repository query selects besides the password. */
  function PublicView(r: Row): (m: map<string, Value>)
    ensures m.Keys == {"id", "email", "role", "createdAt", "updatedAt"}
  {
    map["id" := Str(r.id), "email" := Str(r.email), "role" := Str(r.role),
        "createdAt" := Num(r.createdAt as real), "updatedAt" := Num(r.updatedAt as real)]
  }

  /** `findByEmail`, which also selects the password hash. */
  function WithPassword(r: Row): map<string, Value> {
    PublicView(r)["password" := Str(r.password)]
  }

  function FindByEmail(rows: seq<Row>, email: string): (r: Option<nat>)
    ensures r.Some? ==> r.value < |rows| && rows[r.value].email == email
    ensures r.None? <==> forall j :: 0 <= j < |rows| ==> rows[j].email != email
  {
    FindFirst(rows, (u: Row) => u.email == email)
  }

  function FindById(rows: seq<Row>, id: string): (r: Option<nat>)
    ensures r.Some? ==> r.value < |rows| && rows[r.value].id == id
    ensures r.Some? ==> forall j :: 0 <= j < r.value ==> rows[j].id != id
    ensures r.None? <==> forall j :: 0 <= j < |rows| ==> rows[j].id != id
  {
    FindFirst(rows, (u: Row) => u.id == id)
  }

  function Fail(f: Factory, message: string): Thrown {
    Raise(Make(f, message))
  }

  /** `register(userData)`: a taken email is a conflict and nothing is
      created; otherwise one row with the hashed password and role USER
      unless given. */
  function Register(rows: seq<Row>, email: string, password: string, role: Option<string>,
                    id: string, now: int, hash: string -> string, sign: string -> string): (o: Outcome<Session>)
    ensures FindByEmail(rows, email).Some? ==> o == Outcome(rows, Err(Fail(Conflict, MSG_EMAIL_ALREADY_EXISTS)))
    ensures FindByEmail(rows, email).None? ==>
      var row := Row(id, email, hash(password), if role.Some? then role.value else "USER", now, now);
      o.rows == rows + [row] && o.result == Ok(Session(PublicView(row), sign(id)))
    ensures o.result.Ok? ==> "password" !in o.result.value.user
  {
    if FindByEmail(rows, email).Some? then Outcome(rows, Err(Fail(Conflict, MSG_EMAIL_ALREADY_EXISTS)))
    else
      var row := Row(id, email, hash(password), match role case Some(r) => r case None => "USER", now, now);
      Outcome(rows + [row], Ok(Session(PublicView(row), sign(id))))
  }

  /** `login(credentials)`: one message for an unknown email and a wrong
      password; the store is never written. */
  function Login(rows: seq<Row>, email: string, password: string,
                 matches: (string, string) -> bool, sign: string -> string): (o: Outcome<Session>)
    ensures o.rows == rows
    ensures o.result.Err? ==> o.result.error == Fail(Unauthorized, MSG_INVALID_CREDENTIALS)
    ensures o.result.Ok? <==> FindByEmail(rows, email).Some? && matches(password, rows[FindByEmail(rows, email).value].password)
    ensures o.result.Ok? ==>
      var u := rows[FindByEmail(rows, email).value];
      o.result.value.token == sign(u.id)
      && o.result.value.user == WithPassword(u) - {"password"}
  {
    match FindByEmail(rows, email)
    case None => Outcome(rows, Err(Fail(Unauthorized, MSG_INVALID_CREDENTIALS)))
    case Some(i) =>
      if !matches(password, rows[i].password) then Outcome(rows, Err(Fail(Unauthorized, MSG_INVALID_CREDENTIALS)))
      else
        assert WithPassword(rows[i]) - {"password"} == PublicView(rows[i]);
        Outcome(rows, Ok(Session(WithPassword(rows[i]) - {"password"}, sign(rows[i].id))))
  }

  /** However many logins fail, the next one with the right password
      succeeds: this flow has no lockout. */
  lemma {:induction false} NoLockout(rows: seq<Row>, email: string, wrong: seq<string>, right: string,
                                     matches: (string, string) -> bool, sign: string -> string)
    requires FindByEmail(rows, email).Some? && matches(right, rows[FindByEmail(rows, email).value].password)
    ensures Login(LoginAll(rows, email, wrong, matches, sign), email, right, matches, sign).result.Ok?
    decreases |wrong|
  {
    if |wrong| > 0 {
      NoLockout(rows, email, wrong[1..], right, matches, sign);
    }
  }

  /** The store after a series of login attempts. */
  function LoginAll(rows: seq<Row>, email: string, passwords: seq<string>,
                    matches: (string, string) -> bool, sign: string -> string): seq<Row>
    decreases |passwords|
  {
    if |passwords| == 0 then rows
    else LoginAll(Login(rows, email, passwords[0], matches, sign).rows, email, passwords[1..], matches, sign)
  }

  /** `getProfile(userId)` and `getUserById(userId)`. */
  function GetUserById(rows: seq<Row>, id: string): (r: Result<map<string, Value>, Thrown>)
    ensures r.Err? <==> forall j :: 0 <= j < |rows| ==> rows[j].id != id
    ensures r.Err? ==> r.error == Fail(NotFound, MSG_USER_NOT_FOUND)
    ensures r.Ok? ==> exists j :: 0 <= j < |rows| && rows[j].id == id && r.value == PublicView(rows[j])
  {
    match FindById(rows, id)
    case None => Err(Fail(NotFound, MSG_USER_NOT_FOUND))
    case Some(i) => Ok(PublicView(rows[i]))
  }

  /** The fields `updateProfile` passes on; absent ones are left alone. */
  datatype RowUpdate = RowUpdate(email: Option<string>, password: Option<string>, role: Option<string>)

  /** `update(id, data)`: a non-empty password is hashed first; an empty
      one is written as given. */
  function ApplyUpdate(r: Row, d: RowUpdate, hash: string -> string): (r': Row)
    ensures r'.id == r.id && r'.createdAt == r.createdAt
    ensures r'.email == (if d.email.Some? then d.email.value else r.email)
    ensures Present(d.password) ==> r'.password == hash(d.password.value)
    ensures d.password == Some("") ==> r'.password == ""
    ensures d.password.None? ==> r'.password == r.password
  {
    r.(email := if d.email.Some? then d.email.value else r.email,
       password := match d.password case Some(p) => (if |p| > 0 then hash(p) else p) case None => r.password,
       role := if d.role.Some? then d.role.value else r.role)
  }

  /** The store's unique-email constraint rejecting a write. */
  const UNIQUE_EMAIL_VIOLATION := PlainError("Unique constraint failed on the fields: (`email`)")

  /** `updateProfile(userId, updateData)`: 404 for a missing row; 409 only
      when a non-empty email differs from the current one and is taken; an
      empty email skips that check, and when another row has the empty
      address the store's unique constraint refuses the write. Otherwise the
      update is written and the public view returned. */
  function UpdateProfile(rows: seq<Row>, id: string, d: RowUpdate, hash: string -> string): (o: Outcome<map<string, Value>>)
    ensures FindById(rows, id).None? ==> o == Outcome(rows, Err(Fail(NotFound, MSG_USER_NOT_FOUND)))
    ensures FindById(rows, id).Some? ==>
      var i := FindById(rows, id).value;
      (o.result == Err(Fail(Conflict, MSG_EMAIL_ALREADY_EXISTS)) <==>
         Present(d.email) && d.email.value != rows[i].email && FindByEmail(rows, d.email.value).Some?)
      && (o.result == Err(UNIQUE_EMAIL_VIOLATION) <==>
         d.email == Some("") && rows[i].email != "" && FindByEmail(rows, "").Some?)
      && (o.result.Ok? <==> !(d.email.Some? && d.email.value != rows[i].email && FindByEmail(rows, d.email.value).Some?))
      && (o.result.Ok? ==>
            o == Outcome(rows[i := ApplyUpdate(rows[i], d, hash)], Ok(PublicView(ApplyUpdate(rows[i], d, hash)))))
    ensures o.result.Err? ==> o.rows == rows
  {
    match FindById(rows, id)
    case None => Outcome(rows, Err(Fail(NotFound, MSG_USER_NOT_FOUND)))
    case Some(i) =>
      if Present(d.email) && d.email.value != rows[i].email && FindByEmail(rows, d.email.value).Some? then
        Outcome(rows, Err(Fail(Conflict, MSG_EMAIL_ALREADY_EXISTS)))
      else if d.email.Some? && d.email.value != rows[i].email && FindByEmail(rows, d.email.value).Some? then
        Outcome(rows, Err(UNIQUE_EMAIL_VIOLATION))
      else
        var v := ApplyUpdate(rows[i], d, hash);
        Outcome(rows[i := v], Ok(PublicView(v)))
  }

  /** `updateUserRole(userId, newRole)`: 404 before any write; otherwise
      only the role changes. */
  function UpdateUserRole(rows: seq<Row>, id: string, newRole: string): (o: Outcome<map<string, Value>>)
    ensures FindById(rows, id).None? ==> o == Outcome(rows, Err(Fail(NotFound, MSG_USER_NOT_FOUND)))
    ensures FindById(rows, id).Some? ==>
      var i := FindById(rows, id).value;
      o.rows == rows[i := rows[i].(role := newRole)] && o.result == Ok(PublicView(rows[i].(role := newRole)))
  {
    match FindById(rows, id)
    case None => Outcome(rows, Err(Fail(NotFound, MSG_USER_NOT_FOUND)))
    case Some(i) => Outcome(rows[i := rows[i].(role := newRole)], Ok(PublicView(rows[i].(role := newRole))))
  }

  /** `deleteAccount(userId)` and `deleteUser(userId)`: 404 before deleting;
      otherwise exactly that row goes. */
  function DeleteUser(rows: seq<Row>, id: string): (o: Outcome<map<string, Value>>)
    ensures FindById(rows, id).None? ==> o == Outcome(rows, Err(Fail(NotFound, MSG_USER_NOT_FOUND)))
    ensures FindById(rows, id).Some? ==>
      var i := FindById(rows, id).value;
      o.rows == rows[..i] + rows[i + 1..] && o.result == Ok(PublicView(rows[i]))
      && multiset(o.rows) + multiset{rows[i]} == multiset(rows)
  {
    match FindById(rows, id)
    case None => Outcome(rows, Err(Fail(NotFound, MSG_USER_NOT_FOUND)))
    case Some(i) =>
      assert rows == rows[..i] + [rows[i]] + rows[i + 1..];
      Outcome(rows[..i] + rows[i + 1..], Ok(PublicView(rows[i])))
  }

  /** The repository's `findMany` filter: email containing the search
      (any case) when a search is given, the role when one is given. No
      activity flag exists here. */
  predicate Selected(r: Row, search: string, role: string) {
    (|search| == 0 || ContainsIgnoringCase(r.email, search)) && (|role| == 0 || r.role == role)
  }

  function SelectedBy(search: string, role: string): Row -> bool {
    (r: Row) => Selected(r, search, role)
  }

  /** The rows `findMany` selects, in store order; `count` counts them. */
  function SelectedRows(rows: seq<Row>, search: string, role: string): (m: seq<Row>)
    ensures |m| == Count(rows, SelectedBy(search, role))
    ensures forall k :: 0 <= k < |m| ==> m[k] in rows && Selected(m[k], search, role)
    ensures forall j :: 0 <= j < |rows| && Selected(rows[j], search, role) ==> rows[j] in m
  {
    CountIsFilterLength(rows, SelectedBy(search, role));
    Filter(rows, SelectedBy(search, role))
  }

  function Views(w: seq<Row>): (v: seq<map<string, Value>>)
    ensures |v| == |w| && forall k :: 0 <= k < |w| ==> v[k] == PublicView(w[k])
  {
    seq(|w|, k requires 0 <= k < |w| => PublicView(w[k]))
  }

  /** `getAllUsers(options)`: the repository's page and count, and the
      service's pagination block with page 1 and limit 10 by default. */
  function GetAllUsers(rows: seq<Row>, page: Option<int>, limit: Option<int>, search: string, role: string): (r: Page<map<string, Value>>)
    requires page.None? || page.value >= 1
    requires limit.None? || limit.value >= 1
    ensures var pg := Paginate(SelectedRows(rows, search, role), OrElse(page, 1), OrElse(limit, 10));
      r.meta == pg.meta && |r.items| == |pg.items| && forall k :: 0 <= k < |r.items| ==> r.items[k] == PublicView(pg.items[k])
    ensures forall k :: 0 <= k < |r.items| ==> "password" !in r.items[k]
  {
    var pg := Paginate(SelectedRows(rows, search, role), OrElse(page, 1), OrElse(limit, 10));
    Page(Views(pg.items), pg.meta)
  }

  /** Omitted page and limit read as page 1 of 10. */
  lemma GetAllUsersDefaults(rows: seq<Row>, search: string, role: string)
    ensures GetAllUsers(rows, None, None, search, role) == GetAllUsers(rows, Some(1), Some(10), search, role)
    ensures GetAllUsers(rows, None, None, search, role).meta.page == 1
    ensures !GetAllUsers(rows, None, None, search, role).meta.hasPrev
  {
  }
}

=== FILE: response.dfy ===
/** The standard JSON envelopes of src/common/response.js. The ISO timestamp
    (`new Date().toISOString()`) is a parameter. Omitted arguments are `None`
    and take the source's defaults. */
module Response {
  import opened Base
  import opened Json
  import opened Pagination

  datatype Envelope =
    | SuccessBody(message: string, data: Value, statusCode: int, timestamp: string)
    | ErrorBody(message: string, errors: Value, statusCode: int, timestamp: string)
    | PageBody(message: string, data: Value, pagination: Meta, statusCode: int, timestamp: string)
  {
    /** The envelope's `success` flag. */
    predicate Success() { !ErrorBody? }
  }

  /** `successResponse(data = null, message = 'Success', statusCode = 200)`. */
  function SuccessResponse(data: Option<Value>, message: Option<string>, statusCode: Option<int>, timestamp: string): (r: Envelope)
    ensures r.Success() && r.SuccessBody? && r.timestamp == timestamp
    ensures r.data == (if data.Some? then data.value else Null)
    ensures r.message == (if message.Some? then message.value else "Success")
    ensures r.statusCode == (if statusCode.Some? then statusCode.value else 200)
  {
    SuccessBody(
      match message case Some(m) => m case None => "Success",
      match data case Some(d) => d case None => Null,
      match statusCode case Some(c) => c case None => 200,
      timestamp)
  }

  /** `errorResponse(message = 'Internal Server Error', statusCode = 500, errors = null)`. */
  function ErrorResponse(message: Option<string>, statusCode: Option<int>, errors: Option<Value>, timestamp: string): (r: Envelope)
    ensures !r.Success() && r.timestamp == timestamp
    ensures r.errors == (if errors.Some? then errors.value else Null)
    ensures r.message == (if message.Some? then message.value else "Internal Server Error")
    ensures r.statusCode == (if statusCode.Some? then statusCode.value else 500)
  {
    ErrorBody(
      match message case Some(m) => m case None => "Internal Server Error",
      match errors case Some(e) => e case None => Null,
      match statusCode case Some(c) => c case None => 500,
      timestamp)
  }

  /** `paginatedResponse(data, page, limit, total, message = 'Success')`. */
  function PaginatedResponse(data: Value, page: int, limit: int, total: int, message: Option<string>, timestamp: string): (r: Envelope)
    requires limit != 0
    ensures r.Success() && r.PageBody? && r.statusCode == 200 && r.data == data
    ensures r.pagination.page == page && r.pagination.limit == limit && r.pagination.total == total
    ensures limit > 0 ==> (r.pagination.hasNext <==> page * limit < total)
    ensures limit < 0 && total >= 0 && page >= 1 ==> !r.pagination.hasNext
    ensures r.pagination.hasPrev <==> page > 1
    ensures r.pagination == GetPaginationMeta(page, limit, total)
    ensures limit > 0 ==> (r.pagination.totalPages - 1) * limit < total <= r.pagination.totalPages * limit
    ensures r.pagination.hasNext <==> page < r.pagination.totalPages
    ensures r.message == (if message.Some? then message.value else "Success")
  {
    assert limit > 0 ==> (GetPaginationMeta(page, limit, total).hasNext <==> page * limit < total) by {
      if limit > 0 {
        HasNextMeansMoreItems(page, limit, total);
      }
    }
    PageBody(
      match message case Some(m) => m case None => "Success",
      data, GetPaginationMeta(page, limit, total), 200, timestamp)
  }
}

=== FILE: schema.dfy ===
/** The part of Joi the validation schemas use: flat objects of string and
    number keys with `required`/`optional`, `allow`/`valid`, `default`,
    `trim`/`lowercase` conversion, `min`/`max`/`pattern`/`email` rules and
    per-code `messages`, validated with `abortEarly: false` and
    `stripUnknown: true`. What Joi decides by itself (its e-mail grammar, its
    numeric conversion of strings, its built-in English messages) is a
    parameter. */
module Schema {
  import opened Base
  import opened Text
  import opened Json

  /** The error codes a detail can carry. */
  datatype Code =
    | AnyRequired | AnyOnly
    | StringBase | StringEmpty | StringMin | StringMax | StringPatternBase | StringEmail
    | NumberBase | NumberInteger | NumberMin | NumberMax

  function CodeName(c: Code): string {
    match c
    case AnyRequired => "any.required"
    case AnyOnly => "any.only"
    case StringBase => "string.base"
    case StringEmpty => "string.empty"
    case StringMin => "string.min"
    case StringMax => "string.max"
    case StringPatternBase => "string.pattern.base"
    case StringEmail => "string.email"
    case NumberBase => "number.base"
    case NumberInteger => "number.integer"
    case NumberMin => "number.min"
    case NumberMax => "number.max"
  }

  lemma CodeNamesDistinct(a: Code, b: Code)
    ensures CodeName(a) == CodeName(b) ==> a == b
  {
  }

  datatype StringRule = MinLength(n: nat) | MaxLength(n: nat) | Pattern(test: string -> bool) | EmailFormat
  datatype NumberRule = Integer | AtLeast(n: int) | AtMost(n: int)

  /** `Joi.string()` with its conversions, or `Joi.number()`; rules in the
      order they were chained. */
  datatype Kind =
    | StringKind(lowercase: bool, trim: bool, rules: seq<StringRule>)
    | NumberKind(numberRules: seq<NumberRule>)

  /** One key of `Joi.object({...})`. `allowed` holds the `allow(...)` or,
      when `only` is set, the `valid(...)` values. */
  datatype Key = Key(
    name: string,
    kind: Kind,
    required: bool,
    allowed: seq<Value>,
    only: bool,
    default: Option<Value>,
    messages: map<Code, string>)

  /** What Joi decides outside the schema: its e-mail grammar, its
      conversion of numeric strings, and its built-in message for a code
      and key. */
  datatype Env = Env(
    isEmail: string -> bool,
    toNumber: string -> Option<real>,
    builtin: (Code, string) -> string)

  predicate IsInteger(n: real) { n.Floor as real == n }

  // ------------------------------------------------------------ conversion

  /** The string conversions: `lowercase()` before `trim()`. */
  function ConvertString(lowercase: bool, trim: bool, s: string): (r: string)
    ensures lowercase && !trim ==> r == Lower(s)
    ensures !lowercase && trim ==> r == Trim(s)
    ensures !lowercase && !trim ==> r == s
    ensures lowercase && trim ==> r == Trim(Lower(s))
  {
    var l := if lowercase then Lower(s) else s;
    if trim then Trim(l) else l
  }

  /** A lower-cased string has no upper-case letter left, and a trimmed one
      neither starts nor ends with white space. */
  lemma ConvertedShape(lowercase: bool, trim: bool, s: string)
    ensures var r := ConvertString(lowercase, trim, s);
      (lowercase ==> forall i :: 0 <= i < |r| ==> !IsUpper(r[i]))
      && (trim ==> |r| == 0 || (!IsSpace(r[0]) && !IsSpace(r[|r| - 1])))
  {
    if lowercase && trim {
      TrimKeepsNoUpper(Lower(s));
    }
  }

  /** Conversion before validation: strings of a string key are converted;
      a string the number parser accepts becomes that number. */
  function Coerce(kind: Kind, v: Value, env: Env): (r: Value)
    ensures !v.Str? ==> r == v
    ensures v.Str? && kind.StringKind? ==> r == Str(ConvertString(kind.lowercase, kind.trim, v.s))
    ensures v.Str? && kind.NumberKind? ==> r == (if env.toNumber(v.s).Some? then Num(env.toNumber(v.s).value) else v)
  {
    match v
    case Str(s) =>
      (match kind
       case StringKind(lower, trim, _) => Str(ConvertString(lower, trim, s))
       case NumberKind(_) => if env.toNumber(s).Some? then Num(env.toNumber(s).value) else v)
    case _ => v
  }

  // ----------------------------------------------------------------- rules

  function StringRuleCode(r: StringRule): Code {
    match r
    case MinLength(_) => StringMin
    case MaxLength(_) => StringMax
    case Pattern(_) => StringPatternBase
    case EmailFormat => StringEmail
  }

  predicate StringRuleHolds(r: StringRule, s: string, env: Env) {
    match r
    case MinLength(n) => |s| >= n
    case MaxLength(n) => |s| <= n
    case Pattern(test) => test(s)
    case EmailFormat => env.isEmail(s)
  }

  /** Every rule runs; each one that fails adds its code. */
  function StringRuleErrors(rules: seq<StringRule>, s: string, env: Env): (codes: seq<Code>)
    ensures |codes| <= |rules|
    ensures codes == [] <==> forall i :: 0 <= i < |rules| ==> StringRuleHolds(rules[i], s, env)
    ensures forall c :: c in codes <==> exists i :: 0 <= i < |rules| && !StringRuleHolds(rules[i], s, env) && c == StringRuleCode(rules[i])
  {
    if |rules| == 0 then []
    else
      var rest := StringRuleErrors(rules[1..], s, env);
      assert forall i :: 1 <= i < |rules| ==> rules[i] == rules[1..][i - 1];
      if StringRuleHolds(rules[0], s, env) then rest else [StringRuleCode(rules[0])] + rest
  }

  function NumberRuleCode(r: NumberRule): Code {
    match r
    case Integer => NumberInteger
    case AtLeast(_) => NumberMin
    case AtMost(_) => NumberMax
  }

  predicate NumberRuleHolds(r: NumberRule, n: real) {
    match r
    case Integer => IsInteger(n)
    case AtLeast(m) => n >= m as real
    case AtMost(m) => n <= m as real
  }

  function NumberRuleErrors(rules: seq<NumberRule>, n: real): (codes: seq<Code>)
    ensures |codes| <= |rules|
    ensures codes == [] <==> forall i :: 0 <= i < |rules| ==> NumberRuleHolds(rules[i], n)
    ensures forall c :: c in codes <==> exists i :: 0 <= i < |rules| && !NumberRuleHolds(rules[i], n) && c == NumberRuleCode(rules[i])
  {
    if |rules| == 0 then []
    else
      var rest := NumberRuleErrors(rules[1..], n);
      assert forall i :: 1 <= i < |rules| ==> rules[i] == rules[1..][i - 1];
      if NumberRuleHolds(rules[0], n) then rest else [NumberRuleCode(rules[0])] + rest
  }

  /** A `min(0)` rule lets the empty string through the type check. */
  predicate AllowsEmpty(rules: seq<StringRule>) {
    exists i :: 0 <= i < |rules| && rules[i] == MinLength(0)
  }

  /** The type check, whose failure stops the rules from running. */
  function TypeErrors(kind: Kind, v: Value): (codes: seq<Code>)
    ensures |codes| <= 1
  {
    match kind
    case StringKind(_, _, rules) =>
      if !v.Str? then [StringBase]
      else if v.s == "" && !AllowsEmpty(rules) then [StringEmpty]
      else []
    case NumberKind(_) => if v.Num? then [] else [NumberBase]
  }

  function RuleErrors(kind: Kind, v: Value, env: Env): seq<Code> {
    match kind
    case StringKind(_, _, rules) => if v.Str? then StringRuleErrors(rules, v.s, env) else []
    case NumberKind(rules) => if v.Num? then NumberRuleErrors(rules, v.n) else []
  }

  // ------------------------------------------------------------------- key

  /** The outcome for one key: the codes reported and the value kept. */
  datatype Checked = Checked(codes: seq<Code>, value: Value)

  /** The codes of the type check and, when it passes, of every rule. */
  function TypeOrRuleErrors(kind: Kind, v: Value, env: Env): (codes: seq<Code>)
    ensures TypeErrors(kind, v) != [] ==> codes == TypeErrors(kind, v)
    ensures TypeErrors(kind, v) == [] ==> codes == RuleErrors(kind, v, env)
  {
    var typeErrors := TypeErrors(kind, v);
    if typeErrors != [] then typeErrors else RuleErrors(kind, v, env)
  }

  /** One key: convert; then presence (a missing optional key takes its
      default); then the `allow`/`valid` list, where a value outside a
      `valid` list reports `any.only` and, as `abortEarly` is off, the
      check goes on; then the type check, whose failure ends it; then every
      rule. */
  function CheckKey(k: Key, input: Value, env: Env): (r: Checked)
    ensures input == Undefined && k.required ==> r.codes == [AnyRequired]
    ensures input == Undefined && !k.required ==> r.codes == [] && r.value == OrElse(k.default, Undefined)
    ensures input != Undefined ==> r.value == Coerce(k.kind, input, env)
    ensures input != Undefined && Coerce(k.kind, input, env) in k.allowed ==> r.codes == []
    ensures input != Undefined && Coerce(k.kind, input, env) !in k.allowed && k.only ==>
      r.codes == [AnyOnly] + TypeOrRuleErrors(k.kind, r.value, env)
    ensures input != Undefined && Coerce(k.kind, input, env) !in k.allowed && !k.only ==>
      r.codes == TypeOrRuleErrors(k.kind, r.value, env)
    ensures input != Undefined && Coerce(k.kind, input, env) !in k.allowed && k.only ==> AnyOnly in r.codes
  {
    var v := Coerce(k.kind, input, env);
    if v == Undefined then
      if k.required then Checked([AnyRequired], v) else Checked([], OrElse(k.default, Undefined))
    else if v in k.allowed then Checked([], v)
    else if k.only then Checked([AnyOnly] + TypeOrRuleErrors(k.kind, v, env), v)
    else Checked(TypeOrRuleErrors(k.kind, v, env), v)
  }

  /** What the type check of a plain `Joi.string()` adds after `any.only`:
      `string.base` for a value that is not a string, `string.empty` for the
      empty string, nothing otherwise. */
  function StringTypeCodes(v: Value): seq<Code> {
    if !v.Str? then [StringBase] else if v.s == "" then [StringEmpty] else []
  }

  /** A `Joi.string().valid(...)` key without conversions or rules refuses
      a present value outside its list with `any.only` followed by the
      type check's code: two details for a non-string or the empty string,
      the enumeration's alone for any other string. */
  lemma EnumKeyCodes(k: Key, v: Value, env: Env)
    requires k.only && k.kind == StringKind(false, false, [])
    requires v != Undefined && v !in k.allowed
    ensures CheckKey(k, v, env).codes == [AnyOnly] + StringTypeCodes(v)
    ensures |CheckKey(k, v, env).codes| == 1 <==> v.Str? && v.s != ""
  {
    assert !AllowsEmpty([]);
  }

  /** A key passes a present string exactly when conversion leaves an
      allowed value, or the string is non-empty (or `min(0)` is set) and
      every rule holds. */
  lemma StringKeyPasses(k: Key, s: string, env: Env)
    requires k.kind.StringKind? && !k.only
    ensures var v := ConvertString(k.kind.lowercase, k.kind.trim, s);
      CheckKey(k, Str(s), env).codes == [] <==>
        Str(v) in k.allowed
        || ((v != "" || AllowsEmpty(k.kind.rules)) && forall i :: 0 <= i < |k.kind.rules| ==> StringRuleHolds(k.kind.rules[i], v, env))
  {
  }

  /** A key with no allowed values and no `min(0)`: a present string passes
      exactly when it is non-empty after conversion and every rule holds. */
  lemma RulesOnlyKeyPasses(k: Key, s: string, env: Env)
    requires k.kind.StringKind? && !k.only && k.allowed == []
    requires forall i :: 0 <= i < |k.kind.rules| ==> k.kind.rules[i] != MinLength(0)
    ensures var v := ConvertString(k.kind.lowercase, k.kind.trim, s);
      CheckKey(k, Str(s), env).codes == [] <==>
        v != "" && forall i :: 0 <= i < |k.kind.rules| ==> StringRuleHolds(k.kind.rules[i], v, env)
  {
    StringKeyPasses(k, s, env);
  }

  /** A key with one rule, no allowed values and no `min(0)`: a present
      string is kept converted, and passes exactly when it is non-empty after
      conversion and the rule holds. */
  lemma OneRuleKeyPasses(k: Key, s: string, env: Env)
    requires k.kind.StringKind? && !k.only && k.allowed == []
    requires |k.kind.rules| == 1 && k.kind.rules[0] != MinLength(0)
    ensures var v := ConvertString(k.kind.lowercase, k.kind.trim, s);
      CheckKey(k, Str(s), env).value == Str(v)
      && (CheckKey(k, Str(s), env).codes == [] <==> v != "" && StringRuleHolds(k.kind.rules[0], v, env))
  {
    RulesOnlyKeyPasses(k, s, env);
  }

  // ---------------------------------------------------------------- object

  /** One entry of the error's `details`: the path to the key, the code and
      the message before the middleware formats it. */
  datatype Detail = Detail(path: seq<string>, code: Code, message: string)

  /** A code's message: the key's own from `messages(...)`, else Joi's. */
  function MessageFor(k: Key, c: Code, env: Env): (m: string)
    ensures c in k.messages ==> m == k.messages[c]
    ensures c !in k.messages ==> m == env.builtin(c, k.name)
  {
    if c in k.messages then k.messages[c] else env.builtin(c, k.name)
  }

  function DetailsFor(k: Key, codes: seq<Code>, env: Env): (ds: seq<Detail>)
    ensures |ds| == |codes|
    ensures forall i :: 0 <= i < |ds| ==> ds[i] == Detail([k.name], codes[i], MessageFor(k, codes[i], env))
  {
    if |codes| == 0 then [] else [Detail([k.name], codes[0], MessageFor(k, codes[0], env))] + DetailsFor(k, codes[1..], env)
  }

  function Names(keys: seq<Key>): (ns: seq<string>)
    ensures |ns| == |keys| && forall i :: 0 <= i < |keys| ==> ns[i] == keys[i].name
  {
    if |keys| == 0 then [] else [keys[0].name] + Names(keys[1..])
  }

  predicate DistinctNames(keys: seq<Key>) {
    forall i, j :: 0 <= i < j < |keys| ==> keys[i].name != keys[j].name
  }

  /** The validated object and every detail reported. */
  datatype Validated = Validated(value: map<string, Value>, details: seq<Detail>)
  {
    predicate Passed() { |details| == 0 }
  }

  /** `schema.validate(input, { abortEarly: false, stripUnknown: true })`:
      the keys in schema order, each reporting all its codes; keys the
      schema does not name are dropped without a detail. */
  function ValidateKeys(keys: seq<Key>, input: map<string, Value>, env: Env): (r: Validated)
    ensures forall n :: n in r.value ==> n in Names(keys)
    ensures forall i :: 0 <= i < |r.details| ==> |r.details[i].path| == 1 && r.details[i].path[0] in Names(keys)
  {
    if |keys| == 0 then Validated(map[], [])
    else
      var k := keys[0];
      var c := CheckKey(k, Field(input, k.name), env);
      var rest := ValidateKeys(keys[1..], input, env);
      assert forall i :: 1 <= i < |keys| ==> keys[i] == keys[1..][i - 1];
      var ds := DetailsFor(k, c.codes, env);
      Validated(if c.value == Undefined then rest.value else rest.value[k.name := c.value], ds + rest.details)
  }

  /** The key reports nothing for this input. */
  predicate KeyPasses(k: Key, input: map<string, Value>, env: Env) {
    CheckKey(k, Field(input, k.name), env).codes == []
  }

  /** Validation passes exactly when every key passes. */
  lemma {:induction false} PassedIffEveryKey(keys: seq<Key>, input: map<string, Value>, env: Env)
    ensures ValidateKeys(keys, input, env).Passed() <==> forall i :: 0 <= i < |keys| ==> KeyPasses(keys[i], input, env)
  {
    if |keys| > 0 {
      PassedIffEveryKey(keys[1..], input, env);
      assert forall i :: 1 <= i < |keys| ==> keys[i] == keys[1..][i - 1];
    }
  }

  /** Validation passes for a key and the keys after it exactly when the
      key passes and so do the rest. */
  lemma PassedCons(k: Key, rest: seq<Key>, input: map<string, Value>, env: Env)
    ensures ValidateKeys([k] + rest, input, env).Passed() <==> KeyPasses(k, input, env) && ValidateKeys(rest, input, env).Passed()
  {
    assert ([k] + rest)[1..] == rest;
  }

  /** The two-key case of `PassedCons`. */
  lemma PassedTwo(a: Key, b: Key, input: map<string, Value>, env: Env)
    ensures ValidateKeys([a, b], input, env).Passed() <==> KeyPasses(a, input, env) && KeyPasses(b, input, env)
  {
    PassedCons(b, [], input, env);
    PassedCons(a, [b], input, env);
  }

  /** The six-key case of `PassedCons`, for schemas checked key by key. */
  lemma PassedSix(a: Key, b: Key, c: Key, d: Key, e: Key, f: Key, input: map<string, Value>, env: Env)
    ensures ValidateKeys([a, b, c, d, e, f], input, env).Passed() <==>
      KeyPasses(a, input, env) && KeyPasses(b, input, env) && KeyPasses(c, input, env)
      && KeyPasses(d, input, env) && KeyPasses(e, input, env) && KeyPasses(f, input, env)
  {
    PassedCons(f, [], input, env);
    PassedCons(e, [f], input, env);
    PassedCons(d, [e, f], input, env);
    PassedCons(c, [d, e, f], input, env);
    PassedCons(b, [c, d, e, f], input, env);
    PassedCons(a, [b, c, d, e, f], input, env);
  }

  /** One step of `ValidateKeys`, for proofs that follow a schema key by
      key. */
  lemma ValidateCons(k: Key, rest: seq<Key>, input: map<string, Value>, env: Env)
    ensures var c := CheckKey(k, Field(input, k.name), env);
      var r := ValidateKeys(rest, input, env);
      ValidateKeys([k] + rest, input, env)
        == Validated(if c.value == Undefined then r.value else r.value[k.name := c.value], DetailsFor(k, c.codes, env) + r.details)
  {
    assert ([k] + rest)[1..] == rest;
  }

  /** The values the optional keys' defaults supply to an empty input. */
  function Defaults(keys: seq<Key>): (m: map<string, Value>)
    ensures forall n :: n in m ==> n in Names(keys)
  {
    if |keys| == 0 then map[]
    else
      var rest := Defaults(keys[1..]);
      assert forall n :: n in Names(keys[1..]) ==> n in Names(keys);
      if keys[0].default.Some? && keys[0].default.value != Undefined then rest[keys[0].name := keys[0].default.value]
      else rest
  }

  /** One step of `Defaults`. */
  lemma DefaultsCons(k: Key, rest: seq<Key>)
    ensures Defaults([k] + rest)
      == if k.default.Some? && k.default.value != Undefined then Defaults(rest)[k.name := k.default.value] else Defaults(rest)
  {
    assert ([k] + rest)[1..] == rest;
  }

  /** With nothing given and no key required, validation passes and yields
      exactly the defaults. */
  lemma {:induction false} EmptyInputTakesDefaults(keys: seq<Key>, env: Env)
    requires forall i :: 0 <= i < |keys| ==> !keys[i].required
    ensures ValidateKeys(keys, map[], env) == Validated(Defaults(keys), [])
  {
    if |keys| > 0 {
      EmptyInputTakesDefaults(keys[1..], env);
    }
  }

  /** Keys neither required nor defaulted let an empty input through as
      it is. */
  lemma {:induction false} EmptyInputNoDefaults(keys: seq<Key>, env: Env)
    requires forall i :: 0 <= i < |keys| ==> !keys[i].required && keys[i].default == None
    ensures ValidateKeys(keys, map[], env) == Validated(map[], [])
  {
    if |keys| > 0 {
      EmptyInputNoDefaults(keys[1..], env);
    }
  }

  /** With distinct key names, each key's outcome lands under its own name:
      present exactly when the key kept a value, and with that value. */
  lemma {:induction false} ValidatedValues(keys: seq<Key>, input: map<string, Value>, env: Env, i: nat)
    requires DistinctNames(keys) && i < |keys|
    ensures var c := CheckKey(keys[i], Field(input, keys[i].name), env);
      var r := ValidateKeys(keys, input, env);
      (keys[i].name in r.value <==> c.value != Undefined)
      && (c.value != Undefined ==> r.value[keys[i].name] == c.value)
  {
    if i > 0 {
      DistinctTail(keys);
      ValidatedValues(keys[1..], input, env, i - 1);
      assert keys[1..][i - 1] == keys[i];
      assert keys[0].name != keys[i].name;
    }
  }

  lemma DistinctTail(keys: seq<Key>)
    requires DistinctNames(keys) && |keys| > 0
    ensures DistinctNames(keys[1..])
  {
    forall a, b | 0 <= a < b < |keys[1..]| ensures keys[1..][a].name != keys[1..][b].name {
      assert keys[1..][a] == keys[a + 1] && keys[1..][b] == keys[b + 1];
    }
  }

  /** The details are the keys' codes, key by key in schema order. */
  lemma {:induction false} DetailCount(keys: seq<Key>, input: map<string, Value>, env: Env)
    ensures |ValidateKeys(keys, input, env).details| == CodeCount(keys, input, env)
  {
    if |keys| > 0 {
      DetailCount(keys[1..], input, env);
    }
  }

  function CodeCount(keys: seq<Key>, input: map<string, Value>, env: Env): nat {
    if |keys| == 0 then 0 else |CheckKey(keys[0], Field(input, keys[0].name), env).codes| + CodeCount(keys[1..], input, env)
  }
}

=== FILE: text.dfy ===
/** Character classes and string operations with the meaning JavaScript gives
    them: `\s` and `trim()` use the ECMAScript white-space and line-terminator
    set, `\d` and `\w` are ASCII, and case mapping is the ASCII part of
    `toLowerCase`/`toUpperCase`. */
module Text {

  /** ECMAScript WhiteSpace and LineTerminator code points (the `\s` class,
      and what `String.prototype.trim` removes). */
  predicate IsSpace(c: char) {
    c == ' ' || c == '\t' || c == '\n' || c == '\r' || c == '\U{000B}' || c == '\U{000C}'
    || c == '\U{00A0}' || c == '\U{1680}' || ('\U{2000}' <= c <= '\U{200A}')
    || c == '\U{2028}' || c == '\U{2029}' || c == '\U{202F}' || c == '\U{205F}'
    || c == '\U{3000}' || c == '\U{FEFF}'
  }

  /** The characters a regular-expression `.` does not match. */
  predicate IsLineTerminator(c: char) {
    c == '\n' || c == '\r' || c == '\U{2028}' || c == '\U{2029}'
  }

  predicate IsUpper(c: char) { 'A' <= c <= 'Z' }
  predicate IsLower(c: char) { 'a' <= c <= 'z' }
  predicate IsDigit(c: char) { '0' <= c <= '9' }
  predicate IsAlnum(c: char) { IsUpper(c) || IsLower(c) || IsDigit(c) }
  /** The `\w` class. */
  predicate IsWordChar(c: char) { IsAlnum(c) || c == '_' }
  predicate IsHexDigit(c: char) { IsDigit(c) || 'a' <= c <= 'f' || 'A' <= c <= 'F' }

  function LowerChar(c: char): (d: char)
    ensures IsUpper(c) ==> IsLower(d)
    ensures !IsUpper(c) ==> d == c
  {
    if IsUpper(c) then (c as int + 32) as char else c
  }

  function UpperChar(c: char): (d: char)
    ensures IsLower(c) ==> IsUpper(d)
    ensures !IsLower(c) ==> d == c
  {
    if IsLower(c) then (c as int - 32) as char else c
  }

  function Lower(s: string): (r: string)
    ensures |r| == |s|
    ensures forall i :: 0 <= i < |s| ==> r[i] == LowerChar(s[i])
  {
    if |s| == 0 then [] else [LowerChar(s[0])] + Lower(s[1..])
  }

  function Upper(s: string): (r: string)
    ensures |r| == |s|
    ensures forall i :: 0 <= i < |s| ==> r[i] == UpperChar(s[i])
  {
    if |s| == 0 then [] else [UpperChar(s[0])] + Upper(s[1..])
  }

  predicate StartsWith(s: string, p: string) {
    |p| <= |s| && s[..|p|] == p
  }

  predicate EndsWith(s: string, p: string) {
    |p| <= |s| && s[|s| - |p|..] == p
  }

  /** `p` occurs in `s` starting at offset `i`. */
  predicate OccursAt(s: string, p: string, i: int) {
    0 <= i && i + |p| <= |s| && s[i..i + |p|] == p
  }

  /** `s.includes(p)`. */
  predicate Contains(s: string, p: string) {
    exists i :: 0 <= i <= |s| - |p| && OccursAt(s, p, i)
  }

  /** Case-insensitive containment (ASCII case only): a store's
      case-insensitive substring match. */
  predicate ContainsIgnoringCase(s: string, p: string) {
    Contains(Lower(s), Lower(p))
  }

  function TrimStart(s: string): (r: string)
    ensures |r| <= |s| && r == s[|s| - |r|..]
    ensures |r| > 0 ==> !IsSpace(r[0])
    ensures forall i :: 0 <= i < |s| - |r| ==> IsSpace(s[i])
  {
    if |s| > 0 && IsSpace(s[0]) then TrimStart(s[1..]) else s
  }

  function TrimEnd(s: string): (r: string)
    ensures |r| <= |s| && r == s[..|r|]
    ensures |r| > 0 ==> !IsSpace(r[|r| - 1])
    ensures forall i :: |r| <= i < |s| ==> IsSpace(s[i])
  {
    if |s| > 0 && IsSpace(s[|s| - 1]) then TrimEnd(s[..|s| - 1]) else s
  }

  /** `s.trim()`. */
  function Trim(s: string): (r: string)
    ensures |r| <= |s|
    ensures |r| > 0 ==> !IsSpace(r[0]) && !IsSpace(r[|r| - 1])
    ensures forall i :: 0 <= i < |r| ==> r[i] in s
  {
    TrimEnd(TrimStart(s))
  }

  /** The trimmed text is a contiguous piece of the original. */
  lemma TrimIsSlice(s: string)
    ensures |s| - |TrimStart(s)| + |Trim(s)| <= |s|
    ensures forall i :: 0 <= i < |Trim(s)| ==> Trim(s)[i] == s[|s| - |TrimStart(s)| + i]
  {
    var a := TrimStart(s);
    var r := Trim(s);
    assert r == a[..|r|];
    assert a == s[|s| - |a|..];
  }

  /** Trimming keeps text free of upper-case letters. */
  lemma TrimKeepsNoUpper(s: string)
    requires forall i :: 0 <= i < |s| ==> !IsUpper(s[i])
    ensures forall i :: 0 <= i < |Trim(s)| ==> !IsUpper(Trim(s)[i])
    ensures forall c :: c in Trim(s) ==> !IsUpper(c)
  {
    var t := Trim(s);
    TrimIsSlice(s);
    forall c | c in t ensures !IsUpper(c) {
      var i :| 0 <= i < |t| && t[i] == c;
    }
  }

  /** What a schema path declared `lowercase` and `trim` stores, and what a
      query filter on that path is cast to before it is compared. */
  function LowerTrim(s: string): (r: string)
    ensures forall i :: 0 <= i < |r| ==> !IsUpper(r[i])
    ensures |r| > 0 ==> !IsSpace(r[0]) && !IsSpace(r[|r| - 1])
  {
    TrimKeepsNoUpper(Lower(s));
    Trim(Lower(s))
  }

  /** Case mapping neither makes nor removes white space. */
  lemma SpaceIgnoresCase(c: char)
    ensures IsSpace(LowerChar(c)) <==> IsSpace(c)
  {
  }

  lemma {:induction false} TrimStartLower(s: string)
    ensures TrimStart(Lower(s)) == Lower(TrimStart(s))
  {
    if |s| > 0 {
      SpaceIgnoresCase(s[0]);
      assert Lower(s)[1..] == Lower(s[1..]);
      if IsSpace(s[0]) {
        TrimStartLower(s[1..]);
      }
    }
  }

  lemma {:induction false} TrimEndLower(s: string)
    ensures TrimEnd(Lower(s)) == Lower(TrimEnd(s))
  {
    if |s| > 0 {
      SpaceIgnoresCase(s[|s| - 1]);
      assert Lower(s)[..|s| - 1] == Lower(s[..|s| - 1]);
      if IsSpace(s[|s| - 1]) {
        TrimEndLower(s[..|s| - 1]);
      }
    }
  }

  /** Trimming and lower-casing commute, so a path declaring `trim` before
      `lowercase` stores what one declaring them the other way round does. */
  lemma TrimThenLower(s: string)
    ensures Lower(Trim(s)) == LowerTrim(s)
  {
    TrimStartLower(s);
    TrimEndLower(TrimStart(s));
  }

  lemma {:induction false} TrimStartNoop(s: string)
    requires |s| > 0 ==> !IsSpace(s[0])
    ensures TrimStart(s) == s
  {
  }

  /** Normalising a normalised address changes nothing: a stored address
      used as a query finds itself. */
  lemma LowerTrimIdempotent(s: string)
    ensures LowerTrim(LowerTrim(s)) == LowerTrim(s)
  {
    var r := LowerTrim(s);
    assert Lower(r) == r;
    TrimStartNoop(r);
    assert |r| > 0 ==> TrimEnd(r) == r;
  }

  /** An address typed in capitals is the same address. */
  lemma LowerTrimOfUpper(s: string)
    ensures LowerTrim(Upper(s)) == LowerTrim(s)
  {
    var a, b := Lower(Upper(s)), Lower(s);
    forall i | 0 <= i < |s| ensures a[i] == b[i] {
      var c := s[i];
      if IsLower(c) {
        assert LowerChar(UpperChar(c)) == c;
      }
    }
    assert a == b;
  }

  /** `s.split(sep)` for a one-character separator: n separators give n + 1
      fields, empty ones included. */
  function Split(s: string, sep: char): (parts: seq<string>)
    ensures |parts| >= 1
    ensures forall k :: 0 <= k < |parts| ==> sep !in parts[k]
  {
    if |s| == 0 then [""]
    else
      var rest := Split(s[1..], sep);
      if s[0] == sep then [""] + rest
      else [[s[0]] + rest[0]] + rest[1..]
  }

  /** `parts.join(sep)`. */
  function Join(parts: seq<string>, sep: string): string {
    if |parts| == 0 then ""
    else if |parts| == 1 then parts[0]
    else parts[0] + sep + Join(parts[1..], sep)
  }

  lemma {:induction false} JoinSplit(s: string, sep: char)
    ensures Join(Split(s, sep), [sep]) == s
  {
    if |s| > 0 {
      JoinSplit(s[1..], sep);
      var rest := Split(s[1..], sep);
      if s[0] == sep {
        assert Split(s, sep) == [""] + rest;
        assert ([""] + rest)[1..] == rest;
      } else {
        var parts := Split(s, sep);
        assert parts == [[s[0]] + rest[0]] + rest[1..];
        if |rest| == 1 {
          assert Join(rest, [sep]) == rest[0];
        } else {
          assert parts[1..] == rest[1..];
          assert Join(rest, [sep]) == rest[0] + [sep] + Join(rest[1..], [sep]);
        }
      }
    }
  }

  lemma {:induction false} SplitNoSeparator(a: string, sep: char)
    requires sep !in a
    ensures Split(a, sep) == [a]
  {
    if |a| > 0 {
      SplitNoSeparator(a[1..], sep);
      assert [a[0]] + a[1..] == a;
    }
  }

  lemma {:induction false} SplitAtSeparator(a: string, b: string, sep: char)
    requires sep !in a
    ensures Split(a + [sep] + b, sep) == [a] + Split(b, sep)
  {
    if |a| == 0 {
      assert (a + [sep] + b)[1..] == b;
    } else {
      assert (a + [sep] + b)[1..] == a[1..] + [sep] + b;
      SplitAtSeparator(a[1..], b, sep);
      assert [a[0]] + a[1..] == a;
    }
  }

  /** Joining fields free of the separator and splitting again gives the
      fields back. */
  lemma {:induction false} SplitJoin(parts: seq<string>, sep: char)
    requires |parts| >= 1
    requires forall k :: 0 <= k < |parts| ==> sep !in parts[k]
    ensures Split(Join(parts, [sep]), sep) == parts
  {
    if |parts| == 1 {
      SplitNoSeparator(parts[0], sep);
    } else {
      SplitJoin(parts[1..], sep);
      SplitAtSeparator(parts[0], Join(parts[1..], [sep]), sep);
      assert [parts[0]] + parts[1..] == parts;
    }
  }

  function DigitChar(d: nat): (c: char)
    requires d < 10
    ensures IsDigit(c)
  {
    ('0' as int + d) as char
  }

  /** The decimal text of a natural number, as `String(n)` writes it. */
  function NatToString(n: nat): (s: string)
    ensures |s| >= 1
    ensures forall i :: 0 <= i < |s| ==> IsDigit(s[i])
  {
    if n < 10 then [DigitChar(n)] else NatToString(n / 10) + [DigitChar(n % 10)]
  }

  /** The decimal text of an integer (`${n}` in a template literal). */
  function IntToString(n: int): (s: string)
    ensures |s| >= 1
  {
    if n < 0 then "-" + NatToString(-n) else NatToString(n)
  }

  /** Six-digit numbers print as exactly six digits. */
  lemma SixDigitText(n: nat)
    requires 100000 <= n <= 999999
    ensures |NatToString(n)| == 6
  {
    var n5 := n / 10;
    var n4 := n5 / 10;
    var n3 := n4 / 10;
    var n2 := n3 / 10;
    var n1 := n2 / 10;
    assert 1 <= n1 <= 9 && 10 <= n2 && 10 <= n3 && 10 <= n4 && 10 <= n5 && 10 <= n;
    LengthStep(n2);
    LengthStep(n3);
    LengthStep(n4);
    LengthStep(n5);
    LengthStep(n);
  }

  /** One more digit for every factor of ten. */
  lemma LengthStep(n: nat)
    requires n >= 10
    ensures |NatToString(n)| == |NatToString(n / 10)| + 1
  {
  }

  /** The first character of a three-digit number's text is its hundreds digit. */
  lemma {:induction false} ThreeDigitLead(n: nat)
    requires 100 <= n <= 999
    ensures NatToString(n)[0] == DigitChar(n / 100)
  {
    assert NatToString(n / 100) == [DigitChar(n / 100)];
    assert NatToString(n / 10) == NatToString(n / 100) + [DigitChar((n / 10) % 10)];
    assert NatToString(n) == NatToString(n / 10) + [DigitChar(n % 10)];
  }

  /** A positive number's text does not start with '0'. */
  lemma {:induction false} NoLeadingZero(n: nat)
    requires n >= 1
    ensures NatToString(n)[0] != '0'
  {
    if n >= 10 {
      NoLeadingZero(n / 10);
      assert NatToString(n)[0] == NatToString(n / 10)[0];
    }
  }
}

=== FILE: user_model.dfy ===
/** The user document of src/models/user.model.js: roles, defaults, the
    `fullName` and `isLocked` virtuals, the JSON transform, the login-attempt
    counter with its two-hour lock, and the two pre-save hooks. Dates are
    milliseconds; `now` is a parameter. A field the document does not hold
    is `None`. */
module UserModel {
  import opened Base
  import opened Text
  import opened Json
  import opened Errors
  import opened Password

  const MAX_LOGIN_ATTEMPTS: nat := 5
  /** Two hours. */
  const LOCK_TIME_MS: int := 7200000

  datatype Role = USER | ADMIN | MODERATOR

  function RoleName(r: Role): string {
    match r
    case USER => "USER"
    case ADMIN => "ADMIN"
    case MODERATOR => "MODERATOR"
  }

  /** The schema's enum check on `role`. */
  function ParseRole(s: string): (r: Option<Role>)
    ensures r.Some? ==> RoleName(r.value) == s
    ensures r.None? <==> forall x: Role :: RoleName(x) != s
  {
    if s == "USER" then Some(USER)
    else if s == "ADMIN" then Some(ADMIN)
    else if s == "MODERATOR" then Some(MODERATOR)
    else None
  }

  lemma RoleNamesRoundTrip(r: Role, q: Role)
    ensures ParseRole(RoleName(r)) == Some(r)
    ensures RoleName(r) == RoleName(q) ==> r == q
  {
  }

  datatype Profile = Profile(
    firstName: Option<string>,
    lastName: Option<string>,
    phone: Option<string>,
    avatar: Option<string>)

  datatype User = User(
    id: string,
    email: string,
    password: Option<string>,
    role: Role,
    profile: Profile,
    isActive: bool,
    isEmailVerified: bool,
    lastLoginAt: Option<int>,
    emailVerificationToken: Option<string>,
    emailVerificationExpires: Option<int>,
    passwordResetToken: Option<string>,
    passwordResetExpires: Option<int>,
    loginAttempts: nat,
    lockUntil: Option<int>,
    createdAt: int,
    updatedAt: int,
    version: nat)

  /** `Some(f(x))` for `Some(x)`. */
  function MapOpt(o: Option<string>, f: string -> string): (r: Option<string>)
    ensures r.Some? <==> o.Some?
    ensures r.Some? ==> r.value == f(o.value)
  {
    match o case Some(x) => Some(f(x)) case None => None
  }

  /** The setters of the profile paths: first name, last name and phone are
      trimmed. */
  function TrimProfile(p: Profile): (q: Profile)
    ensures q.firstName == MapOpt(p.firstName, Trim) && q.lastName == MapOpt(p.lastName, Trim)
    ensures q.phone == MapOpt(p.phone, Trim) && q.avatar == p.avatar
  {
    Profile(MapOpt(p.firstName, Trim), MapOpt(p.lastName, Trim), MapOpt(p.phone, Trim), p.avatar)
  }

  /** A new document with the schema's defaults for everything the caller
      did not give, and the setters applied: the email lowercased and
      trimmed, the names and phone trimmed. */
  function NewUser(id: string, email: string, password: string, role: Option<Role>, profile: Option<Profile>, now: int): (u: User)
    ensures u.role == (if role.Some? then role.value else USER)
    ensures u.isActive && !u.isEmailVerified && u.loginAttempts == 0 && u.lockUntil.None?
    ensures !IsLocked(u, now)
    ensures profile.None? ==> u.profile == Profile(None, None, None, None)
    ensures profile.Some? ==> u.profile == TrimProfile(profile.value)
    ensures u.email == LowerTrim(email) && u.password == Some(password) && u.createdAt == now
  {
    User(id, LowerTrim(email), Some(password), match role case Some(r) => r case None => USER,
         match profile case Some(p) => TrimProfile(p) case None => Profile(None, None, None, None),
         true, false, None, None, None, None, None, 0, None, now, now, 0)
  }

  // ------------------------------------------------------------ validators

  const MSG_EMAIL_REQUIRED := "Email is required"
  const MSG_EMAIL_INVALID := "Please provide a valid email address"
  const MSG_PASSWORD_REQUIRED := "Password is required"
  const MSG_PASSWORD_TOO_SHORT := "Password must be at least 8 characters long"
  const MSG_ROLE_ENUM := "Role must be one of: USER, ADMIN, MODERATOR"
  const MSG_FIRST_NAME_TOO_LONG := "First name cannot exceed 50 characters"
  const MSG_LAST_NAME_TOO_LONG := "Last name cannot exceed 50 characters"
  const MSG_PHONE_INVALID := "Please provide a valid phone number"
  const PASSWORD_MIN_LENGTH: nat := 8
  const NAME_MAX_LENGTH: nat := 50

  predicate IsLetter(c: char) { IsUpper(c) || IsLower(c) }
  predicate IsEmailLocalChar(c: char) { IsAlnum(c) || c == '.' || c == '_' || c == '%' || c == '+' || c == '-' }
  predicate IsEmailDomainChar(c: char) { IsAlnum(c) || c == '.' || c == '-' }

  /** One way of reading `s` against the email pattern
      `^[a-zA-Z0-9._%+-]+@[a-zA-Z0-9.-]+\.[a-zA-Z]{2,}$`: the '@' at `at`,
      the '.' before the final letters at `dot`. */
  predicate EmailSplit(s: string, at: int, dot: int) {
    0 < at && at + 1 < dot && dot + 2 < |s|
    && s[at] == '@' && s[dot] == '.'
    && (forall k :: 0 <= k < at ==> IsEmailLocalChar(s[k]))
    && (forall k :: at < k < dot ==> IsEmailDomainChar(s[k]))
    && (forall k :: dot < k < |s| ==> IsLetter(s[k]))
  }

  /** The email path's `match` validator. */
  predicate EmailPatternMatches(s: string) {
    exists at, dot | 0 <= at < |s| && 0 <= dot < |s| :: EmailSplit(s, at, dot)
  }

  /** The phone path's pattern `^\+?[\d\s\-\(\)]+$`. */
  predicate IsPhoneChar(c: char) { IsDigit(c) || IsSpace(c) || c == '-' || c == '(' || c == ')' }

  predicate PhonePatternMatches(s: string) {
    var body := if |s| > 0 && s[0] == '+' then s[1..] else s;
    |body| > 0 && forall k :: 0 <= k < |body| ==> IsPhoneChar(body[k])
  }

  /** A path's failure when `bad` holds. */
  function Check(bad: bool, path: string, message: string): (errs: seq<PathError>)
    ensures |errs| == 0 <==> !bad
  {
    if bad then [PathError(path, message)] else []
  }

  /** The email path (after its setters): `required` first, then `match`. */
  function EmailErrors(email: string): (errs: seq<PathError>)
    ensures |errs| == 0 <==> |email| > 0 && EmailPatternMatches(email)
    ensures |errs| <= 1
  {
    if |email| == 0 then [PathError("email", MSG_EMAIL_REQUIRED)]
    else Check(!EmailPatternMatches(email), "email", MSG_EMAIL_INVALID)
  }

  /** The password path: `required` (an empty string fails it), then
      `minlength`. An absent value in an update is not checked. */
  function PasswordErrors(password: Option<string>, isUpdate: bool): (errs: seq<PathError>)
    ensures |errs| == 0 <==> (password.None? && isUpdate) || (password.Some? && |password.value| >= PASSWORD_MIN_LENGTH)
    ensures |errs| <= 1
  {
    match password
    case None => Check(!isUpdate, "password", MSG_PASSWORD_REQUIRED)
    case Some(p) =>
      if |p| == 0 then [PathError("password", MSG_PASSWORD_REQUIRED)]
      else Check(|p| < PASSWORD_MIN_LENGTH, "password", MSG_PASSWORD_TOO_SHORT)
  }

  /** The role path's `enum`: an absent value passes. */
  function RoleErrors(role: Option<string>): (errs: seq<PathError>)
    ensures |errs| == 0 <==> role.None? || ParseRole(role.value).Some?
  {
    Check(role.Some? && ParseRole(role.value).None?, "role", MSG_ROLE_ENUM)
  }

  /** The profile paths (after their setters): the names' `maxlength`, and
      the phone's `match`, which lets an absent or empty value pass. */
  function ProfileErrors(p: Profile): (errs: seq<PathError>)
    ensures |errs| == 0 <==> ProfileMeetsSchema(p)
  {
    Check(p.firstName.Some? && |p.firstName.value| > NAME_MAX_LENGTH, "profile.firstName", MSG_FIRST_NAME_TOO_LONG)
    + Check(p.lastName.Some? && |p.lastName.value| > NAME_MAX_LENGTH, "profile.lastName", MSG_LAST_NAME_TOO_LONG)
    + Check(p.phone.Some? && |p.phone.value| > 0 && !PhonePatternMatches(p.phone.value), "profile.phone", MSG_PHONE_INVALID)
  }

  predicate ProfileMeetsSchema(p: Profile) {
    (p.firstName.None? || |p.firstName.value| <= NAME_MAX_LENGTH)
    && (p.lastName.None? || |p.lastName.value| <= NAME_MAX_LENGTH)
    && (p.phone.None? || |p.phone.value| == 0 || PhonePatternMatches(p.phone.value))
  }

  /** The save validators of a new document, in schema order, one failure
      per path at most. The values are the ones the setters produced. */
  function NewUserErrors(email: string, password: string, role: Option<string>, p: Profile): (errs: seq<PathError>)
    ensures |errs| == 0 <==>
      |email| > 0 && EmailPatternMatches(email) && |password| >= PASSWORD_MIN_LENGTH
      && (role.None? || ParseRole(role.value).Some?) && ProfileMeetsSchema(p)
  {
    EmailErrors(email) + PasswordErrors(Some(password), false) + RoleErrors(role) + ProfileErrors(p)
  }

  /** A stored address that passes the validators is its own normal form:
      looking it up finds it whatever case or padding the caller used. */
  lemma StoredEmailIsNormal(email: string)
    ensures LowerTrim(LowerTrim(email)) == LowerTrim(email)
    ensures LowerTrim(Upper(email)) == LowerTrim(email)
  {
    LowerTrimIdempotent(email);
    LowerTrimOfUpper(email);
  }

  /** The email pattern accepts a plain address and refuses one without a
      dot-separated top-level part or with an empty local part. */
  lemma EmailPatternExamples()
    ensures EmailPatternMatches("test@example.com")
    ensures !EmailPatternMatches("foo")
    ensures !EmailPatternMatches("@example.com")
    ensures !EmailPatternMatches("a@b.c")
  {
    assert EmailSplit("test@example.com", 4, 12);
  }

  /** The `fullName` virtual. */
  function FullName(p: Profile): (r: Option<string>)
    ensures Present(p.firstName) && Present(p.lastName) ==> r == Some(p.firstName.value + " " + p.lastName.value)
    ensures Present(p.firstName) && !Present(p.lastName) ==> r == p.firstName
    ensures !Present(p.firstName) && Present(p.lastName) ==> r == p.lastName
    ensures !Present(p.firstName) && !Present(p.lastName) ==> r.None?
    ensures r.Some? ==> |r.value| > 0
  {
    if Present(p.firstName) && Present(p.lastName) then Some(p.firstName.value + " " + p.lastName.value)
    else if Present(p.firstName) then p.firstName
    else if Present(p.lastName) then p.lastName
    else None
  }

  /** The `isLocked` virtual. */
  predicate IsLocked(u: User, now: int) {
    u.lockUntil.Some? && u.lockUntil.value > now
  }

  /** A lock that is set but already in the past. */
  predicate LockExpired(u: User, now: int) {
    u.lockUntil.Some? && u.lockUntil.value < now
  }

  /** `incLoginAttempts()`: an expired lock restarts the count at one;
      otherwise the count goes up and the fifth failure of an unlocked
      account locks it for two hours. An existing lock is never extended. */
  function IncLoginAttempts(u: User, now: int): (u': User)
    ensures u'.(loginAttempts := u.loginAttempts, lockUntil := u.lockUntil) == u
    ensures LockExpired(u, now) ==> u'.loginAttempts == 1 && u'.lockUntil.None?
    ensures !LockExpired(u, now) ==> u'.loginAttempts == u.loginAttempts + 1
    ensures !LockExpired(u, now) && IsLocked(u, now) ==> u'.lockUntil == u.lockUntil
    ensures !LockExpired(u, now) && !IsLocked(u, now) && u.loginAttempts + 1 >= MAX_LOGIN_ATTEMPTS ==>
      u'.lockUntil == Some(now + LOCK_TIME_MS) && IsLocked(u', now)
    ensures !LockExpired(u, now) && u.loginAttempts + 1 < MAX_LOGIN_ATTEMPTS ==> u'.lockUntil == u.lockUntil
  {
    if LockExpired(u, now) then u.(loginAttempts := 1, lockUntil := None)
    else if u.loginAttempts + 1 >= MAX_LOGIN_ATTEMPTS && !IsLocked(u, now) then
      u.(loginAttempts := u.loginAttempts + 1, lockUntil := Some(now + LOCK_TIME_MS))
    else u.(loginAttempts := u.loginAttempts + 1)
  }

  /** `resetLoginAttempts()`: both fields unset (an unset counter reads as
      its default, zero). */
  function ResetLoginAttempts(u: User): (u': User)
    ensures u'.loginAttempts == 0 && u'.lockUntil.None?
    ensures forall now :: !IsLocked(u', now)
    ensures u'.(loginAttempts := u.loginAttempts, lockUntil := u.lockUntil) == u
  {
    u.(loginAttempts := 0, lockUntil := None)
  }

  /** Successive failed logins at the given instants. */
  function FailAt(u: User, times: seq<int>): User
    decreases |times|
  {
    if |times| == 0 then u else FailAt(IncLoginAttempts(u, times[0]), times[1..])
  }

  /** Below the cap an unlocked account only counts. */
  lemma {:induction false} FailuresBelowCap(u: User, times: seq<int>)
    requires u.lockUntil.None? && u.loginAttempts + |times| < MAX_LOGIN_ATTEMPTS
    ensures FailAt(u, times).lockUntil.None?
    ensures FailAt(u, times).loginAttempts == u.loginAttempts + |times|
    decreases |times|
  {
    if |times| > 0 {
      FailuresBelowCap(IncLoginAttempts(u, times[0]), times[1..]);
    }
  }

  /** Five failures in a row lock a fresh account for two hours from the
      fifth. */
  lemma {:induction false} FiveFailuresLock(u: User, times: seq<int>)
    requires u.lockUntil.None? && u.loginAttempts == 0 && |times| == 5
    ensures FailAt(u, times).loginAttempts == 5
    ensures FailAt(u, times).lockUntil == Some(times[4] + LOCK_TIME_MS)
    ensures IsLocked(FailAt(u, times), times[4])
  {
    FailuresBelowCap(u, times[..4]);
    FailSplit(u, times[..4], [times[4]]);
    assert times[..4] + [times[4]] == times;
  }

  lemma {:induction false} FailSplit(u: User, a: seq<int>, b: seq<int>)
    ensures FailAt(u, a + b) == FailAt(FailAt(u, a), b)
    decreases |a|
  {
    if |a| > 0 {
      assert (a + b)[0] == a[0];
      assert (a + b)[1..] == a[1..] + b;
      FailSplit(IncLoginAttempts(u, a[0]), a[1..], b);
    } else {
      assert a + b == b;
    }
  }

  /** While the lock lasts, further failures never move it. (At the
      instant the lock ends the account is no longer locked, so a fifth
      failure there sets a new one.) */
  lemma {:induction false} LockNeverExtended(u: User, times: seq<int>)
    requires u.lockUntil.Some?
    requires forall i :: 0 <= i < |times| ==> times[i] < u.lockUntil.value
    ensures FailAt(u, times).lockUntil == u.lockUntil
    decreases |times|
  {
    if |times| > 0 {
      var v := IncLoginAttempts(u, times[0]);
      assert IsLocked(u, times[0]);
      LockNeverExtended(v, times[1..]);
    }
  }

  // ----------------------------------------------------------- pre-save

  /** The first pre-save hook: the password is hashed only when modified;
      hashing refuses an empty password. */
  function HashOnSave(u: User, passwordModified: bool, hash: string -> string): (r: Result<User, string>)
    ensures !passwordModified ==> r == Ok(u)
    ensures passwordModified && Present(u.password) ==> r == Ok(u.(password := Some(hash(u.password.value))))
    ensures passwordModified && !Present(u.password) ==> r.Err?
  {
    if !passwordModified then Ok(u)
    else
      match HashPassword(u.password, hash)
      case Ok(h) => Ok(u.(password := Some(h)))
      case Err(e) => Err(e)
  }

  /** What the second pre-save hook leaves in the store once the save has
      finished. The hook does not touch the document being saved: when the
      document is new or its counter changed and its lock has expired, it
      sends an update that unsets the lock and sets the counter to one. For
      a new document that update matches nothing and the insert writes the
      document as it is. For a stored one the save's own update runs after
      it and writes every modified path, so the counter is the document's
      and the lock stays unset only when the document did not change it. */
  function LockResetOnSave(doc: User, isNew: bool, attemptsModified: bool, lockModified: bool, now: int): (stored: User)
    ensures stored.(lockUntil := doc.lockUntil) == doc
    ensures stored.loginAttempts == doc.loginAttempts
    ensures stored.lockUntil != doc.lockUntil <==>
      !isNew && attemptsModified && !lockModified && LockExpired(doc, now)
    ensures stored.lockUntil != doc.lockUntil ==> stored.lockUntil.None?
    ensures IsLocked(stored, now) <==> IsLocked(doc, now)
  {
    if !isNew && attemptsModified && !lockModified && LockExpired(doc, now) then doc.(lockUntil := None)
    else doc
  }

  // -------------------------------------------------------------- JSON

  /** The paths the `toJSON` transform deletes. */
  const SENSITIVE: set<string> := {
    "password", "emailVerificationToken", "emailVerificationExpires",
    "passwordResetToken", "passwordResetExpires", "__v"}

  function Date(t: int): Value { Num(t as real) }

  function OptStr(s: Option<string>): Value {
    match s case Some(v) => Str(v) case None => Undefined
  }

  /** The `profile` sub-document; `avatar` defaults to null. */
  function ProfileValue(p: Profile): Value {
    Obj(map["firstName" := OptStr(p.firstName), "lastName" := OptStr(p.lastName), "phone" := OptStr(p.phone),
            "avatar" := match p.avatar case Some(a) => Str(a) case None => Null])
  }

  /** The stored fields of a document, omitting absent ones. */
  function ToDocument(u: User): map<string, Value> {
    var base := map[
      "_id" := Str(u.id), "email" := Str(u.email), "role" := Str(RoleName(u.role)),
      "profile" := ProfileValue(u.profile), "isActive" := Bool(u.isActive), "isEmailVerified" := Bool(u.isEmailVerified),
      "loginAttempts" := Num(u.loginAttempts as real), "createdAt" := Date(u.createdAt),
      "updatedAt" := Date(u.updatedAt), "__v" := Num(u.version as real)];
    var m1 := if u.password.Some? then base["password" := Str(u.password.value)] else base;
    var m2 := if u.lastLoginAt.Some? then m1["lastLoginAt" := Date(u.lastLoginAt.value)] else m1;
    var m3 := if u.lockUntil.Some? then m2["lockUntil" := Date(u.lockUntil.value)] else m2;
    var m4 := if u.emailVerificationToken.Some? then m3["emailVerificationToken" := Str(u.emailVerificationToken.value)] else m3;
    var m5 := if u.emailVerificationExpires.Some? then m4["emailVerificationExpires" := Date(u.emailVerificationExpires.value)] else m4;
    var m6 := if u.passwordResetToken.Some? then m5["passwordResetToken" := Str(u.passwordResetToken.value)] else m5;
    if u.passwordResetExpires.Some? then m6["passwordResetExpires" := Date(u.passwordResetExpires.value)] else m6
  }

  /** `doc` without the given keys. */
  function Without(doc: map<string, Value>, keys: set<string>): (m: map<string, Value>)
    ensures forall k :: k in keys ==> k !in m
    ensures forall k :: k in doc && k !in keys ==> k in m && m[k] == doc[k]
    ensures forall k :: k in m ==> k in doc
  {
    map k | k in doc && k !in keys :: doc[k]
  }

  /** The paths declared `select: false`: a plain query leaves them out. */
  const UNSELECTED: set<string> := {
    "password", "emailVerificationToken", "emailVerificationExpires",
    "passwordResetToken", "passwordResetExpires"}

  /** A document as a lean query returns it: no unselected path, no
      transform, no virtuals. */
  function Lean(u: User): (m: map<string, Value>)
    ensures "password" !in m && "passwordResetToken" !in m && "emailVerificationToken" !in m
    ensures forall k :: k in ToDocument(u) && k !in UNSELECTED ==> k in m && m[k] == ToDocument(u)[k]
    ensures forall k :: k in m ==> k in ToDocument(u)
  {
    Without(ToDocument(u), UNSELECTED)
  }

  /** `user.toJSON()` with virtuals: every stored field except the secrets
      and the version key, plus `id`, `fullName` and `isLocked`. */
  function ToJson(u: User, now: int): (m: map<string, Value>)
    ensures forall k :: k in SENSITIVE ==> k !in m
    ensures forall k :: k in ToDocument(u) && k !in SENSITIVE ==> k in m && m[k] == ToDocument(u)[k]
    ensures forall k :: k in m ==> k in ToDocument(u) || k == "id" || k == "fullName" || k == "isLocked"
    ensures "id" in m && m["id"] == Str(u.id)
    ensures "isLocked" in m && m["isLocked"] == Bool(IsLocked(u, now))
    ensures "fullName" in m && m["fullName"] == (match FullName(u.profile) case Some(n) => Str(n) case None => Null)
  {
    var doc := ToDocument(u);
    var fullName := match FullName(u.profile) case Some(n) => Str(n) case None => Null;
    var kept := Without(doc, SENSITIVE);
    DocumentKeys(u);
    VirtualsNotSensitive();
    WithVirtuals(kept, Str(u.id), fullName, Bool(IsLocked(u, now)))
  }

  /** The three virtuals added to a document. */
  function WithVirtuals(kept: map<string, Value>, id: Value, fullName: Value, locked: Value): (m: map<string, Value>)
    ensures "id" in m && m["id"] == id
    ensures "fullName" in m && m["fullName"] == fullName
    ensures "isLocked" in m && m["isLocked"] == locked
    ensures forall k :: k in kept && k != "id" && k != "fullName" && k != "isLocked" ==> k in m && m[k] == kept[k]
    ensures forall k :: k in m ==> k in kept || k == "id" || k == "fullName" || k == "isLocked"
  {
    kept["id" := id]["fullName" := fullName]["isLocked" := locked]
  }

  lemma VirtualsNotSensitive()
    ensures "id" !in SENSITIVE && "fullName" !in SENSITIVE && "isLocked" !in SENSITIVE
  {
  }

  /** Every path the schema can store. */
  const STORED_PATHS: set<string> := {
    "_id", "email", "role", "profile", "isActive", "isEmailVerified", "loginAttempts", "createdAt",
    "updatedAt", "__v", "password", "lastLoginAt", "lockUntil", "emailVerificationToken",
    "emailVerificationExpires", "passwordResetToken", "passwordResetExpires"}

  lemma DocumentPaths(u: User)
    ensures forall k :: k in ToDocument(u) ==> k in STORED_PATHS
  {
    assert ToDocument(u).Keys <= STORED_PATHS;
  }

  /** The stored document has no key named like a virtual. */
  lemma DocumentKeys(u: User)
    ensures "id" !in ToDocument(u) && "fullName" !in ToDocument(u) && "isLocked" !in ToDocument(u)
  {
    VirtualsNotStored();
    NotStored(u, "id");
    NotStored(u, "fullName");
    NotStored(u, "isLocked");
  }

  lemma VirtualsNotStored()
    ensures "id" !in STORED_PATHS && "fullName" !in STORED_PATHS && "isLocked" !in STORED_PATHS
  {
  }

  /** A name that is no path of the schema is never in a document. */
  lemma NotStored(u: User, k: string)
    requires k !in STORED_PATHS
    ensures k !in ToDocument(u)
  {
  }
}

=== FILE: user_service.dfy ===
/** The document-store user service of src/services/user.service.js:
    registration, login with the lockout counter, profile update, listing,
    and the admin operations. The user collection is a sequence in insertion
    order; `findOne`/`findById` return the first match. Each operation is
    atomic. Token signing and bcrypt are parameters. */
module UserService {
  import opened Base
  import opened Text
  import opened Json
  import opened Errors
  import opened Pagination
  import opened Password
  import opened UserModel

  const MSG_ACCOUNT_LOCKED := "Account is temporarily locked due to too many failed login attempts"
  const MSG_ACCOUNT_DEACTIVATED := "Account is deactivated"

  /** The service's result: the collection afterwards and what was returned
      or thrown. */
  datatype Outcome<T> = Outcome(users: seq<User>, result: Result<T, Thrown>)

  /** A user document and a signed token. */
  datatype Session = Session(user: map<string, Value>, token: string)

  /** `User.findOne({ email })`: the filter value goes through the email
      path's setters (lowercase, then trim) before it is compared, so the
      lookup ignores case and surrounding white space. */
  function FindByEmail(users: seq<User>, email: string): (r: Option<nat>)
    ensures r.Some? ==> r.value < |users| && users[r.value].email == LowerTrim(email)
    ensures r.Some? ==> forall j :: 0 <= j < r.value ==> users[j].email != LowerTrim(email)
    ensures r.None? <==> forall j :: 0 <= j < |users| ==> users[j].email != LowerTrim(email)
  {
    FindFirst(users, (u: User) => u.email == LowerTrim(email))
  }

  /** Two spellings of one address find the same user. */
  lemma FindByEmailSameAddress(users: seq<User>, e1: string, e2: string)
    requires LowerTrim(e1) == LowerTrim(e2)
    ensures FindByEmail(users, e1) == FindByEmail(users, e2)
  {
    FindFirstPointwise(users, users, (u: User) => u.email == LowerTrim(e1), (u: User) => u.email == LowerTrim(e2));
  }

  /** In particular an address typed in capitals finds the same user. */
  lemma FindByEmailIgnoresCase(users: seq<User>, email: string)
    ensures FindByEmail(users, Upper(email)) == FindByEmail(users, email)
  {
    LowerTrimOfUpper(email);
    FindByEmailSameAddress(users, Upper(email), email);
  }

  /** `User.findById(id)`. */
  function FindById(users: seq<User>, id: string): (r: Option<nat>)
    ensures r.Some? ==> r.value < |users| && users[r.value].id == id
    ensures r.Some? ==> forall j :: 0 <= j < r.value ==> users[j].id != id
    ensures r.None? <==> forall j :: 0 <= j < |users| ==> users[j].id != id
  {
    FindFirst(users, (u: User) => u.id == id)
  }

  function Fail(f: Factory, message: string): Thrown {
    Raise(Make(f, message))
  }

  /** What the unique index and the email setters keep true of a collection
      written only through this service: every address is stored in its
      normal form, and no two users share one. */
  predicate NormalEmails(users: seq<User>) {
    forall j :: 0 <= j < |users| ==> users[j].email == LowerTrim(users[j].email)
  }

  predicate UniqueEmails(users: seq<User>) {
    forall i, j :: 0 <= i < j < |users| ==> users[i].email != users[j].email
  }

  // -------------------------------------------------------------- register

  /** The role a registration asks for: the text given, 'USER' by default. */
  function RoleText(role: Option<string>): string {
    OrElse(role, "USER")
  }

  /** The document `register` builds: the setters applied, the defaults
      filled in. A role name outside the enum leaves the default in the
      model's document; the validators refuse it before it is stored. */
  function Candidate(id: string, email: string, password: string, role: Option<string>, profile: Option<Profile>, now: int): User {
    NewUser(id, email, password, ParseRole(RoleText(role)), profile, now)
  }

  /** The save validators on that document. */
  function RegisterErrors(id: string, email: string, password: string, role: Option<string>, profile: Option<Profile>, now: int): seq<PathError> {
    var u := Candidate(id, email, password, role, profile, now);
    NewUserErrors(u.email, password, Some(RoleText(role)), u.profile)
  }

  /** `register(userData)`: an address some user already has (in any case
      or padding) is a conflict; a document failing the save validators is
      refused with their `ValidationError`; either way nothing is stored.
      Otherwise the password is hashed, the document appended, and its JSON
      form returned with a token for its id. */
  function Register(users: seq<User>, email: string, password: string, role: Option<string>, profile: Option<Profile>,
                    id: string, now: int, hash: string -> string, sign: string -> string): (o: Outcome<Session>)
    ensures FindByEmail(users, email).Some? ==>
      o == Outcome(users, Err(Fail(Conflict, MSG_EMAIL_ALREADY_EXISTS)))
    ensures FindByEmail(users, email).None? && |RegisterErrors(id, email, password, role, profile, now)| > 0 ==>
      o == Outcome(users, Err(MongooseValidationError("User validation failed", RegisterErrors(id, email, password, role, profile, now))))
    ensures o.result.Ok? <==>
      FindByEmail(users, email).None?
      && |LowerTrim(email)| > 0 && EmailPatternMatches(LowerTrim(email)) && |password| >= PASSWORD_MIN_LENGTH
      && ParseRole(RoleText(role)).Some?
      && (profile.None? || ProfileMeetsSchema(TrimProfile(profile.value)))
    ensures o.result.Err? ==> o.users == users
    ensures o.result.Ok? ==>
      var u := Candidate(id, email, password, role, profile, now).(password := Some(hash(password)));
      o.users == users + [u] && o.result.value == Session(ToJson(u, now), sign(id))
      && u.email == LowerTrim(email) && RoleName(u.role) == RoleText(role)
  {
    if FindByEmail(users, email).Some? then Outcome(users, Err(Fail(Conflict, MSG_EMAIL_ALREADY_EXISTS)))
    else
      var u := Candidate(id, email, password, role, profile, now);
      var errs := RegisterErrors(id, email, password, role, profile, now);
      if |errs| > 0 then Outcome(users, Err(MongooseValidationError("User validation failed", errs)))
      else
        match HashOnSave(u, true, hash)
        case Err(m) => Outcome(users, Err(PlainError(m)))
        case Ok(saved) =>
          RoleNamesRoundTrip(saved.role, saved.role);
          Outcome(users + [saved], Ok(Session(ToJson(saved, now), sign(id))))
  }

  /** Registration never reveals the password or its hash. */
  lemma RegisterHidesPassword(users: seq<User>, email: string, password: string, role: Option<string>, profile: Option<Profile>,
                              id: string, now: int, hash: string -> string, sign: string -> string)
    requires Register(users, email, password, role, profile, id, now, hash, sign).result.Ok?
    ensures "password" !in Register(users, email, password, role, profile, id, now, hash, sign).result.value.user
  {
  }

  /** What a successful registration stores: the old users, then one new,
      active, unlocked user under the normal form of the address, which no
      old user had. */
  lemma RegisterAppends(users: seq<User>, email: string, password: string, role: Option<string>, profile: Option<Profile>,
                        id: string, now: int, hash: string -> string, sign: string -> string)
    requires Register(users, email, password, role, profile, id, now, hash, sign).result.Ok?
    ensures var o := Register(users, email, password, role, profile, id, now, hash, sign);
      |o.users| == |users| + 1 && o.users[..|users|] == users
      && o.users[|users|].email == LowerTrim(email) && o.users[|users|].isActive
      && o.users[|users|].lockUntil.None? && o.users[|users|].password == Some(hash(password))
      && forall j :: 0 <= j < |users| ==> users[j].email != LowerTrim(email)
  {
    var u := Candidate(id, email, password, role, profile, now).(password := Some(hash(password)));
    assert (users + [u])[..|users|] == users;
  }

  /** Registration keeps every address normal and unique. */
  lemma RegisterKeepsEmailsUnique(users: seq<User>, email: string, password: string, role: Option<string>, profile: Option<Profile>,
                                  id: string, now: int, hash: string -> string, sign: string -> string)
    requires NormalEmails(users) && UniqueEmails(users)
    ensures var o := Register(users, email, password, role, profile, id, now, hash, sign);
      NormalEmails(o.users) && UniqueEmails(o.users)
  {
    var o := Register(users, email, password, role, profile, id, now, hash, sign);
    if o.result.Ok? {
      RegisterAppends(users, email, password, role, profile, id, now, hash, sign);
      LowerTrimIdempotent(email);
      var u := o.users[|users|];
      assert o.users == users + [u];
      AppendKeepsEmailsUnique(users, u);
    }
  }

  lemma AppendKeepsEmailsUnique(users: seq<User>, u: User)
    requires NormalEmails(users) && UniqueEmails(users)
    requires u.email == LowerTrim(u.email)
    requires forall j :: 0 <= j < |users| ==> users[j].email != u.email
    ensures NormalEmails(users + [u]) && UniqueEmails(users + [u])
  {
    var w := users + [u];
    assert forall k :: 0 <= k < |users| ==> w[k] == users[k];
    assert w[|users|] == u;
  }

  // ----------------------------------------------------------------- login

  /** The user object returned by a successful login. */
  function LoginView(u: User): (m: map<string, Value>)
    ensures m.Keys == {"id", "email", "role", "profile", "isActive", "isEmailVerified", "lastLoginAt", "createdAt", "updatedAt"}
    ensures "password" !in m && m["id"] == Str(u.id) && m["email"] == Str(u.email)
  {
    map["id" := Str(u.id), "email" := Str(u.email), "role" := Str(RoleName(u.role)),
        "profile" := ProfileValue(u.profile), "isActive" := Bool(u.isActive),
        "isEmailVerified" := Bool(u.isEmailVerified),
        "lastLoginAt" := match u.lastLoginAt case Some(t) => Date(t) case None => Undefined,
        "createdAt" := Date(u.createdAt), "updatedAt" := Date(u.updatedAt)]
  }

  /** A direct update also refreshes `updatedAt`. */
  function Touch(u: User, now: int): User {
    u.(updatedAt := now)
  }

  /** `login(credentials)`: unknown email, then the lock, then the active
      flag, then the password. A wrong password counts a failed attempt;
      a right one clears the counter and the lock and records the login. */
  function Login(users: seq<User>, email: string, password: Option<string>, now: int,
                 matches: (string, string) -> bool, sign: string -> string): (o: Outcome<Session>)
    ensures FindByEmail(users, email).None? ==>
      o == Outcome(users, Err(Fail(Unauthorized, MSG_INVALID_CREDENTIALS)))
    ensures FindByEmail(users, email).Some? ==>
      var i := FindByEmail(users, email).value;
      var u := users[i];
      (IsLocked(u, now) ==> o == Outcome(users, Err(Fail(Forbidden, MSG_ACCOUNT_LOCKED))))
      && (!IsLocked(u, now) && !u.isActive ==> o == Outcome(users, Err(Fail(Forbidden, MSG_ACCOUNT_DEACTIVATED))))
      && (!IsLocked(u, now) && u.isActive && !ComparePassword(password, u.password, matches) ==>
            o == Outcome(users[i := Touch(IncLoginAttempts(u, now), now)], Err(Fail(Unauthorized, MSG_INVALID_CREDENTIALS))))
      && (o.result.Ok? <==> !IsLocked(u, now) && u.isActive && ComparePassword(password, u.password, matches))
      && (o.result.Ok? ==>
            var v := Touch(ResetLoginAttempts(u).(lastLoginAt := Some(now)), now);
            o.users == users[i := v] && o.result.value == Session(LoginView(v), sign(u.id)))
  {
    match FindByEmail(users, email)
    case None => Outcome(users, Err(Fail(Unauthorized, MSG_INVALID_CREDENTIALS)))
    case Some(i) =>
      var u := users[i];
      if IsLocked(u, now) then Outcome(users, Err(Fail(Forbidden, MSG_ACCOUNT_LOCKED)))
      else if !u.isActive then Outcome(users, Err(Fail(Forbidden, MSG_ACCOUNT_DEACTIVATED)))
      else if !ComparePassword(password, u.password, matches) then
        Outcome(users[i := Touch(IncLoginAttempts(u, now), now)], Err(Fail(Unauthorized, MSG_INVALID_CREDENTIALS)))
      else
        var v := Touch(ResetLoginAttempts(u).(lastLoginAt := Some(now)), now);
        Outcome(users[i := v], Ok(Session(LoginView(v), sign(u.id))))
  }

  /** A caller cannot tell an unknown email from a wrong password: both
      throw the same error. */
  lemma {:induction false} UnknownEmailLooksLikeWrongPassword(users: seq<User>, email: string, other: string,
                                                             password: Option<string>, now: int,
                                                             matches: (string, string) -> bool, sign: string -> string)
    requires FindByEmail(users, email).None?
    requires FindByEmail(users, other).Some? && !IsLocked(users[FindByEmail(users, other).value], now)
    requires users[FindByEmail(users, other).value].isActive
    requires !ComparePassword(password, users[FindByEmail(users, other).value].password, matches)
    ensures Login(users, email, password, now, matches, sign).result == Login(users, other, password, now, matches, sign).result
    ensures Login(users, email, password, now, matches, sign).result.Err?
  {
  }

  /** A locked account is refused whatever the password, and the refusal
      changes nothing. */
  lemma LockedRefusesEveryPassword(users: seq<User>, email: string, p: Option<string>, q: Option<string>, now: int,
                                   matches: (string, string) -> bool, sign: string -> string)
    requires FindByEmail(users, email).Some? && IsLocked(users[FindByEmail(users, email).value], now)
    ensures Login(users, email, p, now, matches, sign) == Login(users, email, q, now, matches, sign)
    ensures Login(users, email, p, now, matches, sign).users == users
  {
  }

  /** The fifth wrong password locks the account: for two hours after it,
      even the right password is refused with 403. */
  lemma {:induction false} FifthFailureLocksLogin(users: seq<User>, email: string, wrong: Option<string>, right: Option<string>,
                                                  t: int, later: int,
                                                  matches: (string, string) -> bool, sign: string -> string)
    requires FindByEmail(users, email).Some?
    requires var u := users[FindByEmail(users, email).value];
      u.lockUntil.None? && u.loginAttempts == MAX_LOGIN_ATTEMPTS - 1 && u.isActive
      && !ComparePassword(wrong, u.password, matches)
    requires t <= later < t + LOCK_TIME_MS
    ensures var after := Login(users, email, wrong, t, matches, sign).users;
      Login(after, email, right, later, matches, sign) == Outcome(after, Err(Fail(Forbidden, MSG_ACCOUNT_LOCKED)))
  {
    var i := FindByEmail(users, email).value;
    var after := Login(users, email, wrong, t, matches, sign).users;
    var v := Touch(IncLoginAttempts(users[i], t), t);
    assert after == users[i := v];
    assert v.lockUntil == Some(t + LOCK_TIME_MS);
    SameEmailsAfterUpdate(users, i, v);
    assert FindByEmail(after, email) == Some(i);
  }

  /** Replacing a user by one with the same email leaves `findOne` where it
      was. */
  lemma SameEmailsAfterUpdate(users: seq<User>, i: nat, v: User)
    requires i < |users| && v.email == users[i].email
    ensures forall e :: FindByEmail(users[i := v], e) == FindByEmail(users, e)
  {
    forall e ensures FindByEmail(users[i := v], e) == FindByEmail(users, e) {
      var p := (u: User) => u.email == LowerTrim(e);
      FindFirstPointwise(users, users[i := v], p, p);
    }
  }

  lemma {:induction false} FindFirstPointwise(a: seq<User>, b: seq<User>, p: User -> bool, q: User -> bool)
    requires |a| == |b| && forall j :: 0 <= j < |a| ==> p(a[j]) == q(b[j])
    ensures FindFirst(a, p) == FindFirst(b, q)
  {
    if |a| > 0 {
      FindFirstPointwise(a[1..], b[1..], p, q);
    }
  }

  /** Login looks the address up the way the store does: two spellings of
      one address log in (or fail) alike, so an address typed in capitals
      works. */
  lemma LoginSameAddress(users: seq<User>, e1: string, e2: string, password: Option<string>, now: int,
                         matches: (string, string) -> bool, sign: string -> string)
    requires LowerTrim(e1) == LowerTrim(e2)
    ensures Login(users, e1, password, now, matches, sign) == Login(users, e2, password, now, matches, sign)
  {
    FindByEmailSameAddress(users, e1, e2);
  }

  lemma LoginIgnoresCase(users: seq<User>, email: string, password: Option<string>, now: int,
                         matches: (string, string) -> bool, sign: string -> string)
    ensures Login(users, Upper(email), password, now, matches, sign) == Login(users, email, password, now, matches, sign)
  {
    FindByEmailIgnoresCase(users, email);
  }

  /** A user appended under an address no other user has is the one that
      address finds. */
  lemma NewcomerFound(users: seq<User>, u: User, email: string)
    requires u.email == LowerTrim(email)
    requires forall j :: 0 <= j < |users| ==> users[j].email != LowerTrim(email)
    ensures FindByEmail(users + [u], email) == Some(|users|)
  {
    assert (users + [u])[|users|] == u;
  }

  /** An active, unlocked user found by the address, with a matching
      password, logs in. */
  lemma LoginSucceeds(users: seq<User>, email: string, password: string, now: int,
                      matches: (string, string) -> bool, sign: string -> string)
    requires FindByEmail(users, email).Some?
    requires var u := users[FindByEmail(users, email).value];
      u.isActive && !IsLocked(u, now) && ComparePassword(Some(password), u.password, matches)
    ensures Login(users, email, Some(password), now, matches, sign).result.Ok?
  {
  }

  /** Whoever has just registered can log in with the password they chose,
      whatever case they type the address in, provided the hash function
      and the comparison agree. */
  lemma RegisteredUserCanLogIn(users: seq<User>, email: string, password: string, role: Option<string>, profile: Option<Profile>,
                               id: string, now: int, later: int, hash: string -> string, sign: string -> string,
                               matches: (string, string) -> bool)
    requires Register(users, email, password, role, profile, id, now, hash, sign).result.Ok?
    requires |hash(password)| > 0 && matches(password, hash(password))
    ensures var after := Register(users, email, password, role, profile, id, now, hash, sign).users;
      Login(after, Upper(email), Some(password), later, matches, sign).result.Ok?
  {
    var after := Register(users, email, password, role, profile, id, now, hash, sign).users;
    RegisterAppends(users, email, password, role, profile, id, now, hash, sign);
    var u := after[|users|];
    assert after == users + [u];
    NewcomerFound(users, u, email);
    FindByEmailIgnoresCase(after, email);
    LoginSucceeds(after, Upper(email), password, later, matches, sign);
  }

  // ------------------------------------------------------- profile, admin

  /** `getProfile(userId)` and `getUserById(userId)`: 404 or the JSON form. */
  function GetUserById(users: seq<User>, id: string, now: int): (r: Result<map<string, Value>, Thrown>)
    ensures r.Err? <==> forall j :: 0 <= j < |users| ==> users[j].id != id
    ensures r.Err? ==> r.error == Fail(NotFound, MSG_USER_NOT_FOUND)
    ensures r.Ok? ==> exists j :: 0 <= j < |users| && users[j].id == id && r.value == ToJson(users[j], now)
    ensures r.Ok? ==> "password" !in r.value
  {
    match FindById(users, id)
    case None => Err(Fail(NotFound, MSG_USER_NOT_FOUND))
    case Some(i) => Ok(ToJson(users[i], now))
  }

  /** The body of a profile update, as the service receives it: the paths
      of the schema this model follows, each optional. Whatever is present
      is written; `profile` replaces the whole sub-document. */
  datatype UserUpdate = UserUpdate(
    email: Option<string>,
    password: Option<string>,
    role: Option<string>,
    profile: Option<Profile>,
    isActive: Option<bool>,
    isEmailVerified: Option<bool>,
    loginAttempts: Option<nat>)

  /** The update validators: only the paths present are checked, each on
      the value its setters produce. */
  function UpdateErrors(d: UserUpdate): (errs: seq<PathError>)
    ensures |errs| == 0 <==> UpdateMeetsSchema(d)
  {
    (if d.email.Some? then EmailErrors(LowerTrim(d.email.value)) else [])
    + PasswordErrors(d.password, true)
    + RoleErrors(d.role)
    + (if d.profile.Some? then ProfileErrors(TrimProfile(d.profile.value)) else [])
  }

  predicate UpdateMeetsSchema(d: UserUpdate) {
    (d.email.None? || (|LowerTrim(d.email.value)| > 0 && EmailPatternMatches(LowerTrim(d.email.value))))
    && (d.password.None? || |d.password.value| >= PASSWORD_MIN_LENGTH)
    && (d.role.None? || ParseRole(d.role.value).Some?)
    && (d.profile.None? || ProfileMeetsSchema(TrimProfile(d.profile.value)))
  }

  /** The document after a validated update. A direct update runs no save
      hook, so a new password is stored as given, not hashed. */
  function ApplyUpdate(u: User, d: UserUpdate, now: int): (v: User)
    ensures v.email == (if d.email.Some? then LowerTrim(d.email.value) else u.email)
    ensures v.password == (if d.password.Some? then d.password else u.password)
    ensures v.profile == (if d.profile.Some? then TrimProfile(d.profile.value) else u.profile)
    ensures d.role.Some? && ParseRole(d.role.value).Some? ==> RoleName(v.role) == d.role.value
    ensures d.role.None? ==> v.role == u.role
    ensures v.isActive == OrElse(d.isActive, u.isActive) && v.isEmailVerified == OrElse(d.isEmailVerified, u.isEmailVerified)
    ensures v.loginAttempts == OrElse(d.loginAttempts, u.loginAttempts)
    ensures v.updatedAt == now
    ensures v.(email := u.email, password := u.password, role := u.role, profile := u.profile, isActive := u.isActive,
               isEmailVerified := u.isEmailVerified, loginAttempts := u.loginAttempts, updatedAt := u.updatedAt) == u
  {
    u.(email := if d.email.Some? then LowerTrim(d.email.value) else u.email,
       password := if d.password.Some? then d.password else u.password,
       role := match d.role case None => u.role case Some(r) => OrElse(ParseRole(r), u.role),
       profile := if d.profile.Some? then TrimProfile(d.profile.value) else u.profile,
       isActive := OrElse(d.isActive, u.isActive),
       isEmailVerified := OrElse(d.isEmailVerified, u.isEmailVerified),
       loginAttempts := OrElse(d.loginAttempts, u.loginAttempts),
       updatedAt := now)
  }

  /** The service's own conflict test: a non-empty email that differs, as
      typed, from the stored one and that the store finds on some user. */
  predicate EmailClash(users: seq<User>, i: nat, d: UserUpdate)
    requires i < |users|
  {
    Present(d.email) && d.email.value != users[i].email && FindByEmail(users, d.email.value).Some?
  }

  /** `updateProfile(userId, updateData)`: 404 for a missing user; 409 on
      an email clash; then the update validators on the paths present, which
      refuse with a `ValidationError`; otherwise every present path is
      written. Errors change nothing. */
  function UpdateProfile(users: seq<User>, id: string, d: UserUpdate, now: int): (o: Outcome<map<string, Value>>)
    ensures FindById(users, id).None? ==> o == Outcome(users, Err(Fail(NotFound, MSG_USER_NOT_FOUND)))
    ensures FindById(users, id).Some? ==>
      var i := FindById(users, id).value;
      (o.result == Err(Fail(Conflict, MSG_EMAIL_ALREADY_EXISTS)) <==> EmailClash(users, i, d))
      && (!EmailClash(users, i, d) && !UpdateMeetsSchema(d) ==>
            o.result == Err(MongooseValidationError("Validation failed", UpdateErrors(d))))
      && (o.result.Ok? <==> !EmailClash(users, i, d) && UpdateMeetsSchema(d))
      && (o.result.Ok? ==>
            o.users == users[i := ApplyUpdate(users[i], d, now)] && o.result.value == ToJson(ApplyUpdate(users[i], d, now), now))
    ensures o.result.Err? ==> o.users == users
  {
    match FindById(users, id)
    case None => Outcome(users, Err(Fail(NotFound, MSG_USER_NOT_FOUND)))
    case Some(i) =>
      if EmailClash(users, i, d) then Outcome(users, Err(Fail(Conflict, MSG_EMAIL_ALREADY_EXISTS)))
      else
        var errs := UpdateErrors(d);
        if |errs| > 0 then Outcome(users, Err(MongooseValidationError("Validation failed", errs)))
        else
          var v := ApplyUpdate(users[i], d, now);
          Outcome(users[i := v], Ok(ToJson(v, now)))
  }

  /** A password changed through a profile update is stored in clear. */
  lemma UpdateStoresPasswordUnhashed(users: seq<User>, id: string, d: UserUpdate, now: int, p: string)
    requires UpdateProfile(users, id, d, now).result.Ok? && d.password == Some(p)
    ensures var o := UpdateProfile(users, id, d, now);
      o.users[FindById(users, id).value].password == Some(p)
  {
  }

  /** Re-typing one's own stored address in capitals is refused as taken:
      the service compares the raw text with the stored one, and the store
      then finds the user's own document. */
  lemma OwnAddressInCapitalsConflicts(users: seq<User>, id: string, d: UserUpdate, now: int)
    requires FindById(users, id).Some?
    requires var u := users[FindById(users, id).value];
      d.email.Some? && |d.email.value| > 0 && d.email.value != u.email && LowerTrim(d.email.value) == u.email
    ensures UpdateProfile(users, id, d, now) == Outcome(users, Err(Fail(Conflict, MSG_EMAIL_ALREADY_EXISTS)))
  {
    var i := FindById(users, id).value;
    assert FindByEmail(users, d.email.value).Some? by {
      assert users[i].email == LowerTrim(d.email.value);
    }
  }

  /** An update keeps every address normal and unique, so the updated user
      is the one its new address finds. */
  lemma UpdateKeepsEmailsUnique(users: seq<User>, id: string, d: UserUpdate, now: int)
    requires NormalEmails(users) && UniqueEmails(users)
    ensures var o := UpdateProfile(users, id, d, now);
      NormalEmails(o.users) && UniqueEmails(o.users)
    ensures var o := UpdateProfile(users, id, d, now);
      o.result.Ok? && d.email.Some? ==> FindByEmail(o.users, d.email.value) == FindById(users, id)
  {
    var o := UpdateProfile(users, id, d, now);
    if o.result.Ok? {
      var i := FindById(users, id).value;
      var v := ApplyUpdate(users[i], d, now);
      assert o.users == users[i := v];
      UpdatedEmailFree(users, i, d, now);
      ReplaceKeepsEmailsUnique(users, i, v);
      if d.email.Some? {
        ReplacedFound(users, i, v, d.email.value);
      }
    }
  }

  /** An update that passes the conflict test and the validators leaves
      the user a normal address no other user has. */
  lemma UpdatedEmailFree(users: seq<User>, i: nat, d: UserUpdate, now: int)
    requires NormalEmails(users) && UniqueEmails(users) && i < |users|
    requires !EmailClash(users, i, d) && UpdateMeetsSchema(d)
    ensures var v := ApplyUpdate(users[i], d, now);
      v.email == LowerTrim(v.email) && forall j :: 0 <= j < |users| && j != i ==> users[j].email != v.email
    ensures d.email.Some? ==> ApplyUpdate(users[i], d, now).email == LowerTrim(d.email.value)
  {
    UpdatedAddressFree(users, i, d);
  }

  /** Proof step of `UpdatedEmailFree`, about the address alone: the new
      address if the update has one, else the old. */
  lemma UpdatedAddressFree(users: seq<User>, i: nat, d: UserUpdate)
    requires NormalEmails(users) && UniqueEmails(users) && i < |users|
    requires !EmailClash(users, i, d) && UpdateMeetsSchema(d)
    ensures var a := if d.email.Some? then LowerTrim(d.email.value) else users[i].email;
      a == LowerTrim(a) && forall j :: 0 <= j < |users| && j != i ==> users[j].email != a
  {
    if d.email.Some? {
      var e := d.email.value;
      LowerTrimIdempotent(e);
      assert |LowerTrim(e)| > 0;
      assert e == users[i].email || FindByEmail(users, e).None?;
      NewEmailFree(users, i, e);
    } else {
      OthersHaveOtherEmails(users, i);
    }
  }

  /** Proof step of `UpdatedEmailFree`: an address that is user `i`'s own,
      or that the store does not find, is no other user's once normalised. */
  lemma NewEmailFree(users: seq<User>, i: nat, e: string)
    requires NormalEmails(users) && UniqueEmails(users) && i < |users|
    requires e == users[i].email || FindByEmail(users, e).None?
    ensures forall j :: 0 <= j < |users| && j != i ==> users[j].email != LowerTrim(e)
  {
    if e == users[i].email {
      assert LowerTrim(e) == users[i].email;
      OthersHaveOtherEmails(users, i);
    }
  }

  /** Proof step of `UpdatedEmailFree`: with unique addresses, every other
      user's address differs from user `i`'s. */
  lemma OthersHaveOtherEmails(users: seq<User>, i: nat)
    requires UniqueEmails(users) && i < |users|
    ensures forall j :: 0 <= j < |users| && j != i ==> users[j].email != users[i].email
  {
    forall j | 0 <= j < |users| && j != i ensures users[j].email != users[i].email {
      if j < i {
        assert users[j].email != users[i].email;
      } else {
        assert users[i].email != users[j].email;
      }
    }
  }

  lemma ReplaceKeepsEmailsUnique(users: seq<User>, i: nat, v: User)
    requires NormalEmails(users) && UniqueEmails(users) && i < |users|
    requires v.email == LowerTrim(v.email)
    requires forall j :: 0 <= j < |users| && j != i ==> users[j].email != v.email
    ensures NormalEmails(users[i := v]) && UniqueEmails(users[i := v])
  {
  }

  lemma ReplacedFound(users: seq<User>, i: nat, v: User, e: string)
    requires i < |users| && v.email == LowerTrim(e)
    requires forall j :: 0 <= j < |users| && j != i ==> users[j].email != v.email
    ensures FindByEmail(users[i := v], e) == Some(i)
  {
    assert users[i := v][i] == v;
  }

  /** `updateUserRole(userId, newRole)`: 404 before anything else; a name
      outside the enum fails the update validators; otherwise only the role
      (and the update time) changes. */
  function UpdateUserRole(users: seq<User>, id: string, newRole: string, now: int): (o: Outcome<map<string, Value>>)
    ensures FindById(users, id).None? ==> o == Outcome(users, Err(Fail(NotFound, MSG_USER_NOT_FOUND)))
    ensures o.result.Err? ==> o.users == users
    ensures o.result.Ok? <==> FindById(users, id).Some? && ParseRole(newRole).Some?
    ensures o.result.Ok? ==>
      var i := FindById(users, id).value;
      var v := users[i].(role := ParseRole(newRole).value, updatedAt := now);
      o.users == users[i := v] && RoleName(v.role) == newRole && o.result.value == ToJson(v, now)
  {
    match FindById(users, id)
    case None => Outcome(users, Err(Fail(NotFound, MSG_USER_NOT_FOUND)))
    case Some(i) =>
      match ParseRole(newRole)
      case None => Outcome(users, Err(MongooseValidationError("Validation failed", RoleErrors(Some(newRole)))))
      case Some(r) =>
        var v := users[i].(role := r, updatedAt := now);
        Outcome(users[i := v], Ok(ToJson(v, now)))
  }

  /** `deleteAccount(userId)` and `deleteUser(userId)`: 404 and nothing
      deleted for a missing user; otherwise exactly that document goes, and
      its JSON form is returned. */
  function DeleteUser(users: seq<User>, id: string, now: int): (o: Outcome<map<string, Value>>)
    ensures FindById(users, id).None? ==> o == Outcome(users, Err(Fail(NotFound, MSG_USER_NOT_FOUND)))
    ensures FindById(users, id).Some? ==>
      var i := FindById(users, id).value;
      o.users == users[..i] + users[i + 1..] && o.result == Ok(ToJson(users[i], now))
      && multiset(o.users) + multiset{users[i]} == multiset(users)
  {
    match FindById(users, id)
    case None => Outcome(users, Err(Fail(NotFound, MSG_USER_NOT_FOUND)))
    case Some(i) =>
      RemoveAtMultiset(users, i);
      Outcome(users[..i] + users[i + 1..], Ok(ToJson(users[i], now)))
  }

  lemma RemoveAtMultiset<T>(s: seq<T>, i: nat)
    requires i < |s|
    ensures multiset(s[..i] + s[i + 1..]) + multiset{s[i]} == multiset(s)
  {
    assert s == s[..i] + [s[i]] + s[i + 1..];
  }

  predicate UniqueIds(users: seq<User>) {
    forall i, j :: 0 <= i < j < |users| ==> users[i].id != users[j].id
  }

  /** With unique ids, a deleted user can no longer be found. */
  lemma {:induction false} DeletedUserIsGone(users: seq<User>, id: string, now: int)
    requires UniqueIds(users)
    ensures FindById(DeleteUser(users, id, now).users, id).None?
    ensures GetUserById(DeleteUser(users, id, now).users, id, now).Err?
  {
    match FindById(users, id)
    case None =>
    case Some(i) =>
      var rest := DeleteUser(users, id, now).users;
      assert rest == users[..i] + users[i + 1..];
      forall j | 0 <= j < |rest| ensures rest[j].id != id {
        if j < i {
          assert rest[j] == users[j];
        } else {
          assert rest[j] == users[j + 1];
        }
      }
  }

  // --------------------------------------------------------------- listing

  /** The `getAllUsers` query: active, matching the search on email or
      either name when a search is given, with the given role when one is
      given. The search is matched as literal text. */
  predicate Listed(u: User, search: string, role: string) {
    u.isActive
    && (|search| == 0 || ContainsIgnoringCase(u.email, search)
        || (u.profile.firstName.Some? && ContainsIgnoringCase(u.profile.firstName.value, search))
        || (u.profile.lastName.Some? && ContainsIgnoringCase(u.profile.lastName.value, search)))
    && (|role| == 0 || RoleName(u.role) == role)
  }

  function ListedBy(search: string, role: string): User -> bool {
    (u: User) => Listed(u, search, role)
  }

  /** The users the query selects, in store order. */
  function Matching(users: seq<User>, search: string, role: string): (m: seq<User>)
    ensures |m| == Count(users, ListedBy(search, role))
    ensures forall k :: 0 <= k < |m| ==> m[k] in users && Listed(m[k], search, role)
    ensures forall j :: 0 <= j < |users| && Listed(users[j], search, role) ==> users[j] in m
  {
    CountIsFilterLength(users, ListedBy(search, role));
    Filter(users, ListedBy(search, role))
  }

  function LeanAll(w: seq<User>): (v: seq<map<string, Value>>)
    ensures |v| == |w| && forall k :: 0 <= k < |w| ==> v[k] == Lean(w[k])
  {
    seq(|w|, k requires 0 <= k < |w| => Lean(w[k]))
  }

  /** `v` lists, in order, the lean documents of `all` from position
      `skip` on. */
  predicate IsLeanBatch(v: seq<map<string, Value>>, all: seq<User>, skip: int) {
    forall k :: 0 <= k < |v| ==> 0 <= skip + k < |all| && v[k] == Lean(all[skip + k])
  }

  /** `v` is the batch `skip(skip).limit(limit)` takes from `all`: at most
      `|limit|` documents, as many as remain after `skip`, in order. */
  predicate IsBatchOf(v: seq<map<string, Value>>, all: seq<User>, skip: int, limit: int) {
    |v| == (if skip >= |all| then 0 else Min(Abs(limit), |all| - skip))
    && IsLeanBatch(v, all, skip)
  }

  /** The lean documents of one `skip`/`limit` batch. */
  function LeanBatch(all: seq<User>, skip: nat, limit: int): (v: seq<map<string, Value>>)
    requires limit != 0
    ensures IsBatchOf(v, all, skip, limit)
    ensures forall k :: 0 <= k < |v| ==> "password" !in v[k]
  {
    LeanAll(SkipLimit(all, skip, limit))
  }

  /** The server's refusal of a negative `skip`: an error whose name is
      inherited from its class and whose code is 2 (BadValue). */
  function NegativeSkipError(skip: int): (t: Thrown)
    requires skip < 0
    ensures t.code == Some(2) && !t.nameIsOwn && t.isOperational.None? && t.statusCode.None?
  {
    Thrown("MongoServerError", false, "skip value must be non-negative, but received: -" + NatToString(-skip),
           Some(2), [], [], None, None, None, false, None)
  }

  /** `getAllUsers(options)`: `skip = (page - 1) * limit`; a negative skip
      is refused by the server. Otherwise the matching users from position
      `skip`, at most `|limit|` of them, as lean documents, with the
      pagination of the full count. The only caller never passes a zero
      limit (`parseInt(...) || 10`). */
  function GetAllUsers(users: seq<User>, page: Option<int>, limit: Option<int>, search: string, role: string): (r: Result<Page<map<string, Value>>, Thrown>)
    requires limit.None? || limit.value != 0
    ensures var p, l := OrElse(page, 1), OrElse(limit, 10);
      r.Err? <==> (p - 1) * l < 0
    ensures r.Err? ==> r.error.code == Some(2)
    ensures r.Ok? ==>
      var p, l := OrElse(page, 1), OrElse(limit, 10);
      var all := Matching(users, search, role);
      var skip := (p - 1) * l;
      r.value.meta == GetPaginationMeta(p, l, |all|) && IsBatchOf(r.value.items, all, skip, l)
    ensures r.Ok? ==> forall k :: 0 <= k < |r.value.items| ==> "password" !in r.value.items[k]
  {
    var p, l := OrElse(page, 1), OrElse(limit, 10);
    var skip := (p - 1) * l;
    if skip < 0 then Err(NegativeSkipError(skip))
    else
      var all := Matching(users, search, role);
      Ok(Page(LeanBatch(all, skip, l), GetPaginationMeta(p, l, |all|)))
  }

  /** For page and limit from 1 on, the listing is the shared pagination
      of the matching users. */
  lemma PositivePagesPaginate(users: seq<User>, page: int, limit: int, search: string, role: string)
    requires page >= 1 && limit >= 1
    ensures var pg := Paginate(Matching(users, search, role), page, limit);
      GetAllUsers(users, Some(page), Some(limit), search, role) == Ok(Page(LeanAll(pg.items), pg.meta))
  {
    MulMonotone(0, page - 1, limit);
    var all := Matching(users, search, role);
    var skip := (page - 1) * limit;
    assert OrElse(Some(page), 1) == page && OrElse(Some(limit), 10) == limit;
    assert skip == Offset(page, limit) && skip >= 0;
    assert GetAllUsers(users, Some(page), Some(limit), search, role)
      == Ok(Page(LeanBatch(all, skip, limit), GetPaginationMeta(page, limit, |all|)));
  }

  /** A negative limit returns the same first page as the positive one,
      but reports no further page. */
  lemma NegativeLimitFirstPage(users: seq<User>, limit: int, search: string, role: string)
    requires limit < 0
    ensures var r := GetAllUsers(users, Some(1), Some(limit), search, role);
      var q := GetAllUsers(users, Some(1), Some(-limit), search, role);
      r.Ok? && q.Ok? && r.value.items == q.value.items && !r.value.meta.hasNext
  {
    var all := Matching(users, search, role);
    var r := GetAllUsers(users, Some(1), Some(limit), search, role);
    var q := GetAllUsers(users, Some(1), Some(-limit), search, role);
    assert OrElse(Some(limit), 10) == limit && OrElse(Some(-limit), 10) == -limit && OrElse(Some(1), 1) == 1;
    assert (1 - 1) * limit == 0 && (1 - 1) * -limit == 0;
    assert r.Ok? && q.Ok?;
    assert |r.value.items| == |q.value.items|;
    assert forall k :: 0 <= k < |r.value.items| ==> r.value.items[k] == Lean(all[k]) == q.value.items[k];
    assert r.value.meta == GetPaginationMeta(1, limit, |all|);
  }

  /** Every listed user appears on the page its position gives, and that
      page is within the reported page count. */
  lemma EveryListedUserHasAPage(users: seq<User>, limit: int, search: string, role: string, n: nat)
    requires limit >= 1
    requires n < |Matching(users, search, role)|
    ensures var r := GetAllUsers(users, Some(n / limit + 1), Some(limit), search, role);
      r.Ok? && n % limit < |r.value.items| && r.value.items[n % limit] == Lean(Matching(users, search, role)[n])
      && r.value.meta.page <= r.value.meta.totalPages
  {
    ItemOnItsPage(Matching(users, search, role), limit, n);
    ListedItemOnPage(users, n / limit + 1, limit, search, role, n % limit, n);
  }

  /** Proof step of `EveryListedUserHasAPage`, for any page and position:
      the matching user the paginated list holds there is listed there. */
  lemma ListedItemOnPage(users: seq<User>, page: int, limit: int, search: string, role: string, j: nat, n: nat)
    requires page >= 1 && limit >= 1 && n < |Matching(users, search, role)|
    requires var pg := Paginate(Matching(users, search, role), page, limit);
      j < |pg.items| && pg.items[j] == Matching(users, search, role)[n] && pg.meta.page <= pg.meta.totalPages
    ensures var r := GetAllUsers(users, Some(page), Some(limit), search, role);
      r.Ok? && j < |r.value.items| && r.value.items[j] == Lean(Matching(users, search, role)[n])
      && r.value.meta.page <= r.value.meta.totalPages
  {
    ListedAt(users, page, limit, search, role, j);
  }

  /** Position `j` of a listed page is the lean document of the page's
      `j`-th matching user. */
  lemma ListedAt(users: seq<User>, page: int, limit: int, search: string, role: string, j: nat)
    requires page >= 1 && limit >= 1
    requires j < |Paginate(Matching(users, search, role), page, limit).items|
    ensures var pg := Paginate(Matching(users, search, role), page, limit);
      var r := GetAllUsers(users, Some(page), Some(limit), search, role);
      r.Ok? && r.value.meta == pg.meta && j < |r.value.items| && r.value.items[j] == Lean(pg.items[j])
  {
    PositivePagesPaginate(users, page, limit, search, role);
  }

  /** The controller's call: `page` and `limit` read with
      `parseInt(...) || default`, an empty search for none, no role filter
      for none. A page below one with a positive limit, or above one with a
      negative limit, reaches the server as a negative skip. */
  function ListUsers(users: seq<User>, page: Option<string>, limit: Option<string>, search: Option<string>, role: Option<string>): (r: Result<Page<map<string, Value>>, Thrown>)
    ensures r.Err? <==> (IntOr(page, 1) - 1) * IntOr(limit, 10) < 0
    ensures r.Ok? ==> r.value.meta.page == IntOr(page, 1) && r.value.meta.limit == IntOr(limit, 10)
  {
    var p, l := IntOr(page, 1), IntOr(limit, 10);
    assert OrElse(Some(p), 1) == p && OrElse(Some(l), 10) == l;
    GetAllUsers(users, Some(p), Some(l), OrElse(search, ""), OrElse(role, ""))
  }

  /** `?page=-1` is refused, and an absent page with `?limit=-1` lists. */
  lemma NegativeQueryExamples(users: seq<User>)
    ensures ListUsers(users, Some("-1"), None, None, None).Err?
    ensures ListUsers(users, None, Some("-1"), None, None).Ok?
  {
    MinusOneText(1);
    MinusOneText(10);
  }
}

=== FILE: user_validation.dfy ===
/** The request schemas of src/modules/user/user.validation.js. */
module UserValidation {
  import opened Base
  import opened Text
  import opened Json
  import opened Schema
  import opened Patterns

  const MSG_EMAIL := "Please provide a valid email address"
  const MSG_PASSWORD_PATTERN :=
    "Password must contain at least one uppercase letter, one lowercase letter, one number, and one special character"
  const MSG_ROLE_ONLY := "Role must be one of USER, ADMIN, or MODERATOR"

  const ROLE_VALUES: seq<Value> := [Str("USER"), Str("ADMIN"), Str("MODERATOR")]

  /** The roles the schemas list are the roles of the constants. */
  lemma RoleValuesAreUserRoles(v: Value)
    ensures v in ROLE_VALUES <==> v.Str? && v.s in USER_ROLES
  {
  }

  /** `email`: lower-cased and trimmed, then checked by Joi's e-mail rule. */
  function EmailKey(required: bool): Key {
    Key("email", StringKind(true, true, [EmailFormat]), required, [], false, None,
      if required then map[StringEmail := MSG_EMAIL, AnyRequired := "Email is required"]
      else map[StringEmail := MSG_EMAIL])
  }

  /** `password` with the length bounds and the strong-password pattern. */
  function StrongPasswordKey(required: bool): Key {
    Key("password",
      StringKind(false, false, [MinLength(PASSWORD_MIN_LENGTH), MaxLength(PASSWORD_MAX_LENGTH), Pattern(StrongPasswordMatches)]),
      required, [], false, None,
      map[StringMin := "Password must be at least 8 characters long",
          StringMax := "Password cannot exceed 128 characters",
          StringPatternBase := MSG_PASSWORD_PATTERN]
      + (if required then map[AnyRequired := "Password is required"] else map[]))
  }

  /** `register.role`: one of the roles, `USER` when left out. */
  const REGISTER_ROLE_KEY := Key("role", StringKind(false, false, []), false, ROLE_VALUES, true, Some(Str("USER")),
    map[AnyOnly := MSG_ROLE_ONLY])

  const REGISTER_KEYS := [EmailKey(true), StrongPasswordKey(true), REGISTER_ROLE_KEY]

  /** `login.password`: any non-empty string. */
  const LOGIN_PASSWORD_KEY := Key("password", StringKind(false, false, []), true, [], false, None,
    map[AnyRequired := "Password is required"])

  const LOGIN_KEYS := [EmailKey(true), LOGIN_PASSWORD_KEY]

  const UPDATE_PROFILE_KEYS := [EmailKey(false), StrongPasswordKey(false)]

  /** `updateRole.role`. */
  const UPDATE_ROLE_KEY := Key("role", StringKind(false, false, []), true, ROLE_VALUES, true, None,
    map[AnyOnly := MSG_ROLE_ONLY, AnyRequired := "Role is required"])

  const SORT_FIELDS := ["createdAt", "updatedAt", "email", "role"]
  const SORT_ORDERS := ["asc", "desc"]
  const SORT_FIELD_VALUES: seq<Value> := [Str("createdAt"), Str("updatedAt"), Str("email"), Str("role")]
  const SORT_ORDER_VALUES: seq<Value> := [Str("asc"), Str("desc")]

  const PAGE_KEY := Key("page", NumberKind([Integer, AtLeast(1)]), false, [], false, Some(Num(1.0)),
    map[NumberBase := "Page must be a number", NumberInteger := "Page must be an integer",
        NumberMin := "Page must be at least 1"])
  const LIMIT_KEY := Key("limit", NumberKind([Integer, AtLeast(1), AtMost(100)]), false, [], false, Some(Num(10.0)),
    map[NumberBase := "Limit must be a number", NumberInteger := "Limit must be an integer",
        NumberMin := "Limit must be at least 1", NumberMax := "Limit cannot exceed 100"])
  const SORT_BY_KEY := Key("sortBy", StringKind(false, false, []), false, SORT_FIELD_VALUES, true, Some(Str("createdAt")),
    map[AnyOnly := "Sort by must be one of createdAt, updatedAt, email, or role"])
  const SORT_ORDER_KEY := Key("sortOrder", StringKind(false, false, []), false, SORT_ORDER_VALUES, true, Some(Str("desc")),
    map[AnyOnly := "Sort order must be either asc or desc"])
  const SEARCH_KEY := Key("search", StringKind(false, true, []), false, [Str("")], false, None,
    map[StringBase := "Search must be a string"])
  const ROLE_FILTER_KEY := Key("role", StringKind(false, false, []), false, ROLE_VALUES, true, None,
    map[AnyOnly := "Role filter must be one of USER, ADMIN, or MODERATOR"])

  const QUERY_KEYS := [PAGE_KEY, LIMIT_KEY, SORT_BY_KEY, SORT_ORDER_KEY, SEARCH_KEY, ROLE_FILTER_KEY]

  const PARAMS_KEYS := [Key("id", StringKind(false, false, []), true, [], false, None,
    map[AnyRequired := "User ID is required", StringBase := "User ID must be a string"])]

  // ------------------------------------------------------------ properties

  /** An e-mail is judged after lower-casing and trimming; it passes when
      what is left is non-empty and Joi accepts it, and that is the value
      kept. */
  lemma EmailNormalised(required: bool, s: string, env: Env)
    ensures var c := CheckKey(EmailKey(required), Str(s), env);
      c.value == Str(Trim(Lower(s)))
      && (c.codes == [] <==> Trim(Lower(s)) != "" && env.isEmail(Trim(Lower(s))))
  {
    var k := EmailKey(required);
    assert k.kind == StringKind(true, true, [EmailFormat]) && k.allowed == [] && !k.only;
    OneRuleKeyPasses(k, s, env);
    assert ConvertString(true, true, s) == Trim(Lower(s));
    assert forall v :: StringRuleHolds(EmailFormat, v, env) <==> env.isEmail(v);
  }

  /** A password passes exactly when it has 8 to 128 characters and matches
      the strong-password pattern. */
  lemma PasswordRule(required: bool, s: string, env: Env)
    ensures CheckKey(StrongPasswordKey(required), Str(s), env).codes == [] <==>
      PASSWORD_MIN_LENGTH <= |s| <= PASSWORD_MAX_LENGTH && StrongPasswordMatches(s)
  {
    var k := StrongPasswordKey(required);
    var rules := k.kind.rules;
    assert rules[0] != MinLength(0) && rules[1] != MinLength(0) && rules[2] != MinLength(0);
    RulesOnlyKeyPasses(k, s, env);
    assert StringRuleHolds(rules[0], s, env) <==> |s| >= PASSWORD_MIN_LENGTH;
    assert StringRuleHolds(rules[1], s, env) <==> |s| <= PASSWORD_MAX_LENGTH;
    assert StringRuleHolds(rules[2], s, env) <==> StrongPasswordMatches(s);
  }

  /** A registration without a role is given `USER`; a given role must be
      one of the three. */
  lemma RegisterRoleDefault(v: Value, env: Env)
    ensures CheckKey(REGISTER_ROLE_KEY, Undefined, env) == Checked([], Str("USER"))
    ensures v != Undefined ==> (CheckKey(REGISTER_ROLE_KEY, v, env).codes == [] <==> v.Str? && v.s in USER_ROLES)
  {
  }

  /** The role update passes exactly for one of the three role names. */
  lemma UpdateRoleRule(v: Value, env: Env)
    ensures CheckKey(UPDATE_ROLE_KEY, v, env).codes == [] <==> v.Str? && v.s in USER_ROLES
    ensures v == Undefined ==> CheckKey(UPDATE_ROLE_KEY, v, env).codes == [AnyRequired]
    ensures v != Undefined && !(v.Str? && v.s in USER_ROLES) ==>
      CheckKey(UPDATE_ROLE_KEY, v, env).codes == [AnyOnly] + StringTypeCodes(v)
  {
    if v != Undefined && !(v.Str? && v.s in USER_ROLES) {
      EnumKeyCodes(UPDATE_ROLE_KEY, v, env);
    }
  }

  /** A login needs an e-mail Joi accepts and a non-empty password string. */
  lemma LoginRule(body: map<string, Value>, env: Env)
    ensures ValidateKeys(LOGIN_KEYS, body, env).Passed() <==>
      (var e := Field(body, "email"); e.Str? && Trim(Lower(e.s)) != "" && env.isEmail(Trim(Lower(e.s))))
      && (var p := Field(body, "password"); p.Str? && p.s != "")
  {
    var e := Field(body, "email");
    var p := Field(body, "password");
    assert KeyPasses(EmailKey(true), body, env) <==> e.Str? && Trim(Lower(e.s)) != "" && env.isEmail(Trim(Lower(e.s))) by {
      if e.Str? { EmailNormalised(true, e.s, env); }
    }
    assert KeyPasses(LOGIN_PASSWORD_KEY, body, env) <==> p.Str? && p.s != "" by {
      assert !AllowsEmpty(LOGIN_PASSWORD_KEY.kind.rules);
    }
    PassedTwo(EmailKey(true), LOGIN_PASSWORD_KEY, body, env);
  }

  /** The page number a query keeps: the default 1 when left out. */
  lemma PageRule(v: Value, env: Env)
    ensures CheckKey(PAGE_KEY, Undefined, env) == Checked([], Num(1.0))
    ensures v != Undefined ==> var c := CheckKey(PAGE_KEY, v, env);
      c.codes == [] <==> c.value.Num? && IsInteger(c.value.n) && c.value.n >= 1.0
  {
    if v != Undefined {
      var c := CheckKey(PAGE_KEY, v, env);
      if c.value.Num? {
        var rules := PAGE_KEY.kind.numberRules;
        assert c.codes == NumberRuleErrors(rules, c.value.n);
        assert NumberRuleHolds(rules[0], c.value.n) <==> IsInteger(c.value.n);
        assert NumberRuleHolds(rules[1], c.value.n) <==> c.value.n >= 1.0;
      }
    }
  }

  /** The page size a query keeps: the default 10 when left out. */
  lemma LimitRule(v: Value, env: Env)
    ensures CheckKey(LIMIT_KEY, Undefined, env) == Checked([], Num(10.0))
    ensures v != Undefined ==> var c := CheckKey(LIMIT_KEY, v, env);
      c.codes == [] <==> c.value.Num? && IsInteger(c.value.n) && 1.0 <= c.value.n <= 100.0
  {
    if v != Undefined {
      var c := CheckKey(LIMIT_KEY, v, env);
      if c.value.Num? {
        var rules := LIMIT_KEY.kind.numberRules;
        assert c.codes == NumberRuleErrors(rules, c.value.n);
        assert NumberRuleHolds(rules[0], c.value.n) <==> IsInteger(c.value.n);
        assert NumberRuleHolds(rules[1], c.value.n) <==> c.value.n >= 1.0;
        assert NumberRuleHolds(rules[2], c.value.n) <==> c.value.n <= 100.0;
      }
    }
  }

  /** The sort keys keep one of their listed values, their default when
      left out. */
  lemma SortRule(field: Value, order: Value, env: Env)
    ensures CheckKey(SORT_BY_KEY, Undefined, env) == Checked([], Str("createdAt"))
    ensures CheckKey(SORT_ORDER_KEY, Undefined, env) == Checked([], Str("desc"))
    ensures field != Undefined ==> (CheckKey(SORT_BY_KEY, field, env).codes == [] <==> field.Str? && field.s in SORT_FIELDS)
    ensures order != Undefined ==> (CheckKey(SORT_ORDER_KEY, order, env).codes == [] <==> order.Str? && order.s in SORT_ORDERS)
    ensures field != Undefined && !(field.Str? && field.s in SORT_FIELDS) ==>
      CheckKey(SORT_BY_KEY, field, env).codes == [AnyOnly] + StringTypeCodes(field)
    ensures order != Undefined && !(order.Str? && order.s in SORT_ORDERS) ==>
      CheckKey(SORT_ORDER_KEY, order, env).codes == [AnyOnly] + StringTypeCodes(order)
  {
    if field != Undefined && !(field.Str? && field.s in SORT_FIELDS) {
      EnumKeyCodes(SORT_BY_KEY, field, env);
    }
    if order != Undefined && !(order.Str? && order.s in SORT_ORDERS) {
      EnumKeyCodes(SORT_ORDER_KEY, order, env);
    }
  }

  /** A search term of white space alone trims to the allowed empty string;
      any other string passes trimmed. */
  lemma SearchRule(s: string, env: Env)
    ensures CheckKey(SEARCH_KEY, Str(s), env) == Checked([], Str(Trim(s)))
  {
    var v := Coerce(SEARCH_KEY.kind, Str(s), env);
    assert v == Str(Trim(s));
    if Trim(s) == "" {
      assert v in SEARCH_KEY.allowed;
    } else {
      assert TypeErrors(SEARCH_KEY.kind, v) == [];
      assert RuleErrors(SEARCH_KEY.kind, v, env) == [];
    }
  }

  function QueryValue(page: real, limit: real, sortBy: string, sortOrder: string): map<string, Value> {
    map["sortOrder" := Str(sortOrder), "sortBy" := Str(sortBy), "limit" := Num(limit), "page" := Num(page)]
  }

  /** The query defaults, key by key. */
  lemma QueryDefaults()
    ensures Defaults(QUERY_KEYS) == QueryValue(1.0, 10.0, "createdAt", "desc")
  {
    var t2 := [SORT_BY_KEY, SORT_ORDER_KEY, SEARCH_KEY, ROLE_FILTER_KEY];
    var d2 := map["sortOrder" := Str("desc"), "sortBy" := Str("createdAt")];
    SortDefaults();
    var t1 := [LIMIT_KEY] + t2;
    var d1 := d2["limit" := Num(10.0)];
    assert Defaults(t1) == d1 by { DefaultsCons(LIMIT_KEY, t2); }
    var t0 := [PAGE_KEY] + t1;
    assert Defaults(t0) == d1["page" := Num(1.0)] by { DefaultsCons(PAGE_KEY, t1); }
    assert d1["page" := Num(1.0)] == QueryValue(1.0, 10.0, "createdAt", "desc");
    assert QUERY_KEYS == t0;
  }

  lemma SortDefaults()
    ensures Defaults([SORT_BY_KEY, SORT_ORDER_KEY, SEARCH_KEY, ROLE_FILTER_KEY])
      == map["sortOrder" := Str("desc"), "sortBy" := Str("createdAt")]
  {
    var t4 := [SEARCH_KEY, ROLE_FILTER_KEY];
    assert Defaults(t4) == map[] by {
      DefaultsCons(ROLE_FILTER_KEY, []);
      assert [ROLE_FILTER_KEY] + [] == [ROLE_FILTER_KEY];
      DefaultsCons(SEARCH_KEY, [ROLE_FILTER_KEY]);
    }
    var t3 := [SORT_ORDER_KEY] + t4;
    assert Defaults(t3) == map["sortOrder" := Str("desc")] by { DefaultsCons(SORT_ORDER_KEY, t4); }
    DefaultsCons(SORT_BY_KEY, t3);
    assert [SORT_BY_KEY] + t3 == [SORT_BY_KEY, SORT_ORDER_KEY, SEARCH_KEY, ROLE_FILTER_KEY];
  }

  lemma QueryKeysOptional()
    ensures forall i :: 0 <= i < |QUERY_KEYS| ==> !QUERY_KEYS[i].required
  {
  }

  /** An empty query passes and is replaced by the four defaults. */
  lemma EmptyQueryDefaults(env: Env)
    ensures ValidateKeys(QUERY_KEYS, map[], env) == Validated(QueryValue(1.0, 10.0, "createdAt", "desc"), [])
  {
    QueryKeysOptional();
    EmptyInputTakesDefaults(QUERY_KEYS, env);
    QueryDefaults();
  }
}

=== FILE: validation_middleware.dfy ===
/** src/middlewares/validation.middleware.js: run a schema over one part of
    the request with `abortEarly: false` and `stripUnknown: true`; on
    failure pass on a 422 error whose details name each field and carry
    the message without quotes; on success continue, writing the validated
    value back for the query and the route parameters but not for the
    body. */
module ValidationMiddleware {
  import opened Base
  import opened Text
  import opened Json
  import opened Schema
  import opened Errors
  import UserValidation
  import ProfileValidation

  /** Which middleware: `validate`, `validateQuery` or `validateParams`. */
  datatype Source = Body | Query | Params

  datatype Request = Request(body: map<string, Value>, query: map<string, Value>, params: map<string, Value>)
  {
    function Part(src: Source): map<string, Value> {
      match src
      case Body => body
      case Query => query
      case Params => params
    }
  }

  /** `next()` with the request as it then stands, or `next(appError)`. */
  datatype Outcome = Next(request: Request) | Fail(error: AppError)

  function FailureMessage(src: Source): string {
    match src
    case Body => "Validation failed"
    case Query => "Query validation failed"
    case Params => "Parameter validation failed"
  }

  lemma FailureMessagesDistinct(a: Source, b: Source)
    ensures FailureMessage(a) == FailureMessage(b) ==> a == b
  {
  }

  predicate IsQuote(c: char) { c == '\'' || c == '"' }

  /** `message.replace(/['"]/g, '')`. */
  function StripQuotes(s: string): (r: string)
    ensures |r| <= |s|
  {
    if |s| == 0 then []
    else if IsQuote(s[0]) then StripQuotes(s[1..])
    else [s[0]] + StripQuotes(s[1..])
  }

  /** What is left has no quote, every other character stays, and text
      without quotes is left as it is. */
  lemma StripQuotesFacts(s: string)
    ensures var r := StripQuotes(s);
      (forall i :: 0 <= i < |r| ==> !IsQuote(r[i]) && r[i] in s)
      && (forall i :: 0 <= i < |s| && !IsQuote(s[i]) ==> s[i] in r)
      && ((forall i :: 0 <= i < |s| ==> !IsQuote(s[i])) ==> r == s)
  {
    StripQuotesDropsQuotes(s);
    StripQuotesKeepsOthers(s);
    StripQuotesUnquoted(s);
  }

  lemma {:induction false} StripQuotesDropsQuotes(s: string)
    ensures forall c :: c in StripQuotes(s) ==> !IsQuote(c) && c in s
  {
    if |s| > 0 {
      StripQuotesDropsQuotes(s[1..]);
      assert forall c :: c in s[1..] ==> c in s;
    }
  }

  lemma {:induction false} StripQuotesKeepsOthers(s: string)
    ensures forall c :: c in s && !IsQuote(c) ==> c in StripQuotes(s)
  {
    if |s| > 0 {
      StripQuotesKeepsOthers(s[1..]);
      assert forall c :: c in s ==> c == s[0] || c in s[1..];
    }
  }

  lemma {:induction false} StripQuotesUnquoted(s: string)
    ensures (forall i :: 0 <= i < |s| ==> !IsQuote(s[i])) ==> StripQuotes(s) == s
  {
    if |s| > 0 && forall i :: 0 <= i < |s| ==> !IsQuote(s[i]) {
      assert !IsQuote(s[0]);
      assert forall i :: 0 <= i < |s[1..]| ==> s[1..][i] == s[i + 1];
      StripQuotesUnquoted(s[1..]);
      assert s == [s[0]] + s[1..];
    }
  }

  /** Only the quotes go: what is left is the message read with its quotes
      skipped, and stripping twice changes nothing more. */
  lemma {:induction false} StripQuotesKeepsOrder(a: string, b: string)
    ensures StripQuotes(a + b) == StripQuotes(a) + StripQuotes(b)
    ensures StripQuotes(StripQuotes(a)) == StripQuotes(a)
  {
    if |a| > 0 {
      assert (a + b)[1..] == a[1..] + b;
      StripQuotesKeepsOrder(a[1..], b);
    } else {
      assert a + b == b;
    }
  }

  lemma Regroup(a: string, b: string, c: string, d: string)
    ensures a + b + c + d == a + (b + (c + d))
  {
  }

  /** Joi's own messages quote the key's label, as in `"email" is
      required`; the details carry the label bare. */
  lemma QuotedLabel(name: string, rest: string)
    requires forall i :: 0 <= i < |name| ==> !IsQuote(name[i])
    requires forall i :: 0 <= i < |rest| ==> !IsQuote(rest[i])
    ensures StripQuotes("\"" + name + "\"" + rest) == name + rest
  {
    var q := "\"";
    var y := q + rest;
    var x := name + y;
    Regroup(q, name, q, rest);
    DropLeadingQuote(x);
    StripUnquoted(name, y);
    DropLeadingQuote(rest);
    StripQuotesFacts(rest);
  }

  lemma DropLeadingQuote(x: string)
    ensures StripQuotes("\"" + x) == StripQuotes(x)
  {
    assert ("\"" + x)[1..] == x;
  }

  /** Text without quotes passes through unchanged. */
  lemma StripUnquoted(a: string, b: string)
    requires forall i :: 0 <= i < |a| ==> !IsQuote(a[i])
    ensures StripQuotes(a + b) == a + StripQuotes(b)
  {
    StripQuotesKeepsOrder(a, b);
    StripQuotesFacts(a);
  }

  /** `{ field: detail.path.join('.'), message: ... }`. */
  function FormatDetail(d: Detail): (e: FieldError)
    ensures forall i :: 0 <= i < |e.message| ==> !IsQuote(e.message[i])
    ensures |d.path| == 1 ==> e.field == d.path[0]
  {
    StripQuotesFacts(d.message);
    FieldError(Join(d.path, "."), StripQuotes(d.message))
  }

  function FormatDetails(ds: seq<Detail>): (es: seq<FieldError>)
    ensures |es| == |ds|
    ensures forall i :: 0 <= i < |ds| ==> es[i] == FormatDetail(ds[i])
  {
    if |ds| == 0 then [] else [FormatDetail(ds[0])] + FormatDetails(ds[1..])
  }

  /** One of the three middlewares, built from the schema's keys, applied
      to a request. */
  function Validate(src: Source, keys: seq<Key>, req: Request, env: Env): (o: Outcome)
    ensures var v := ValidateKeys(keys, req.Part(src), env);
      o.Fail? <==> !v.Passed()
    ensures o.Fail? ==>
      (o.error.statusCode == UNPROCESSABLE_ENTITY && o.error.isOperational
       && o.error.message == FailureMessage(src)
       && o.error.details == Some(FormatDetails(ValidateKeys(keys, req.Part(src), env).details)))
    ensures o.Next? && src == Body ==> o.request == req
    ensures o.Next? && src == Query ==> o.request == req.(query := ValidateKeys(keys, req.query, env).value)
    ensures o.Next? && src == Params ==> o.request == req.(params := ValidateKeys(keys, req.params, env).value)
  {
    var v := ValidateKeys(keys, req.Part(src), env);
    if !v.Passed() then
      var e := NewAppError(FailureMessage(src), Some(UNPROCESSABLE_ENTITY), None);
      Fail(e.(details := Some(FormatDetails(v.details))))
    else
      match src
      case Body => Next(req)
      case Query => Next(req.(query := v.value))
      case Params => Next(req.(params := v.value))
  }

  // ------------------------------------------------------------ properties

  /** Every violation of every key is reported, each under the key's own
      name with its message unquoted, in schema order. */
  lemma {:induction false} DetailsNameTheirKeys(src: Source, keys: seq<Key>, req: Request, env: Env)
    requires Validate(src, keys, req, env).Fail?
    ensures var es := Validate(src, keys, req, env).error.details.value;
      |es| == CodeCount(keys, req.Part(src), env)
      && forall i :: 0 <= i < |es| ==> es[i].field in Names(keys) && forall j :: 0 <= j < |es[i].message| ==> !IsQuote(es[i].message[j])
  {
    var v := ValidateKeys(keys, req.Part(src), env);
    DetailCount(keys, req.Part(src), env);
    var es := FormatDetails(v.details);
    forall i | 0 <= i < |es|
      ensures es[i].field in Names(keys)
    {
      assert es[i] == FormatDetail(v.details[i]);
    }
  }

  /** `validate` leaves the body as it came, conversions and defaults
      included: a body that passes reaches the handler unconverted. */
  lemma BodyNeverWrittenBack(keys: seq<Key>, req: Request, env: Env)
    ensures Validate(Body, keys, req, env).Next? ==> Validate(Body, keys, req, env).request.body == req.body
    ensures Validate(Body, keys, req, env).Next? <==> Validate(Query, keys, req.(query := req.body), env).Next?
  {
  }

  /** Only the validated part of the request can change; the other two are
      passed on as they came. */
  lemma OtherPartsUnchanged(src: Source, keys: seq<Key>, req: Request, env: Env)
    requires Validate(src, keys, req, env).Next?
    ensures forall s :: s != src ==> Validate(src, keys, req, env).request.Part(s) == req.Part(s)
  {
  }

  /** After `validateQuery` or `validateParams`, the part holds only names
      the schema declares: unknown keys are dropped, not reported. */
  lemma WrittenBackPartIsStripped(src: Source, keys: seq<Key>, req: Request, env: Env)
    requires src != Body && Validate(src, keys, req, env).Next?
    ensures forall n :: n in Validate(src, keys, req, env).request.Part(src) ==> n in Names(keys)
  {
  }

  // ------------------------------------------------------- on the schemas

  /** `validateQuery(queryParams)` on an empty query string hands the
      handler the defaults: page 1, limit 10, newest first. */
  lemma EmptyQueryGetsDefaults(req: Request, env: Env)
    requires req.query == map[]
    ensures Validate(Query, UserValidation.QUERY_KEYS, req, env)
      == Next(req.(query := UserValidation.QueryValue(1.0, 10.0, "createdAt", "desc")))
  {
    UserValidation.EmptyQueryDefaults(env);
  }

  /** A schema that reports a single violation, on a top-level key and
      with a message free of quotes, fails with exactly that field and
      message. */
  lemma SingleDetail(src: Source, keys: seq<Key>, req: Request, env: Env, d: Detail)
    requires ValidateKeys(keys, req.Part(src), env).details == [d]
    requires |d.path| == 1 && forall i :: 0 <= i < |d.message| ==> !IsQuote(d.message[i])
    ensures Validate(src, keys, req, env)
      == Fail(AppError(FailureMessage(src), UNPROCESSABLE_ENTITY, true, Some([FieldError(d.path[0], d.message)])))
  {
    StripQuotesFacts(d.message);
    assert FormatDetails([d]) == [FormatDetail(d)];
  }

  /** `validateParams(userIdSchema)` without a `userId` fails with the one
      detail the schema's message names. */
  lemma MissingUserId(req: Request, env: Env)
    requires "userId" !in req.params
    ensures Validate(Params, ProfileValidation.USER_ID_KEYS, req, env)
      == Fail(AppError(FailureMessage(Params), UNPROCESSABLE_ENTITY, true,
           Some([FieldError("userId", ProfileValidation.MSG_USER_ID_REQUIRED)])))
  {
    ProfileValidation.MissingUserIdDetails(req.params, env);
    RequiredMessageUnquoted();
    SingleDetail(Params, ProfileValidation.USER_ID_KEYS, req, env,
      Detail(["userId"], AnyRequired, ProfileValidation.MSG_USER_ID_REQUIRED));
  }

  lemma RequiredMessageUnquoted()
    ensures forall i :: 0 <= i < |ProfileValidation.MSG_USER_ID_REQUIRED| ==> !IsQuote(ProfileValidation.MSG_USER_ID_REQUIRED[i])
  {
    var m := ProfileValidation.MSG_USER_ID_REQUIRED;
    assert '\'' !in m && '"' !in m;
  }
}
